=== FILE: README.md ===
# SalesPulse AI automation core, in Dafny

This project models the automation logic behind SalesPulse AI, a sales-outreach backend.
SalesPulse AI sends scheduled WhatsApp, SMS and e-mail messages ("triggers"), answers the replies
of leads with a language model, and lets that model create, confirm and cancel bookings by writing
tags into its reply. The model covers:

- **The booking-action mini-language** (`booking_actions.dfy`). The tags `[CREATE_BOOKING]`,
  `[TITLE: ..]`, `[TYPE: ..]`, `[DATE: ..]`, `[TIME: ..]`, `[AMOUNT: ..]` and `[ACTION: CONFIRM|CANCEL|STATUS]`
  are read out of a generated reply. At most one command runs. The tags are removed and a summary
  is appended. The regular expressions are hand-written scanners with Python's `re` semantics.
- **The trigger lifecycle** (`triggers.dfy`, `drip.dfy`). This covers creation and drip campaigns,
  the selection of due triggers, stop-on-reply pre-emption, the one-minute retry with a `failed`
  cut-off, completion when a lead replies, and cancellation by id or by campaign.
- **The booking store** (`bookings.dfy`) and its HTTP guards (`booking_endpoints.dfy`).
  Confirmation codes come from six draws over `A`–`Z0`–`9`. Updates only fire on `pending` rows,
  and the bulk updates return a count.
- **The conversation log** (`conversations.dfy`). Writes are swallowed on failure, and reads give
  the last N messages of a number, oldest first.
- **The lead-reply handler** (`reply_handler.dfy`). It ties the pieces together: store the
  message, complete triggers, build the prompt, ask the model, run the booking commands, and
  store and log the answer.
- **Smaller pure pieces:**
  - request validation (`schemas.dfy`);
  - integer message scoring (`scoring.dfy`);
  - template rendering (`templates.dfy`);
  - the language-model call policy and rewrite parser (`groq.dfy`);
  - webhook payload extraction (`webhooks.dfy`);
  - a sliding-window rate limiter (`rate_limiter.dfy`);
  - a category sampler (`recommendations.dfy`).

Shared string scanning lives in `text.dfy`: Python's whitespace, strip/split/replace, and SQLite's
`LIKE`. `outcomes.dfy` holds `Option` and `Result`.

The marks of the booking texts (the emoji, the rupee sign, the em dash) live in `glyphs.dfy`.
src/services/trigger_service.py spells each of them as its UTF-8 bytes read back through the
Windows-1252 code page (`âœ…` for ✅, `â‚¹` for ₹), and sends them so. Every booking text takes
its marks as a parameter `marks: Glyphs.Marks`: `Glyphs.Garbled` is the spelling of
trigger_service.py and `Glyphs.Emoji` the characters themselves, which the booking endpoints send.
The contracts hold for either; the difference is a row under Findings.

Stores are immutable sequences of records in insertion order, and a row's id is its position
plus one. Time is an integer parameter: minutes for triggers, bookings and conversations, seconds
for the rate limiter. The trigger clock counts minutes since 0001-01-01 00:00 UTC, so Python's
`datetime` range ends at `Triggers.LastMinute`. Collaborators the code cannot see are parameters:
- the message senders (`Sender`);
- the language-model provider (`Groq.Responder`);
- the random draws (`draws: nat -> nat`);
- the rendering of floats (`amountRepr`) and of JSON containers (`repr`).

A `dbOk`/`ok` flag says whether the database answers.

## Model

| member | source | states |
|---|---|---|
| Text.Strip | src/services/trigger_service.py:489 | a stripped text is no longer than the original and neither starts nor ends with whitespace |
| Text.StripKeepsContained | src/services/trigger_service.py:489 | stripping never removes a piece of the text that starts and ends with a visible character |
| Text.WordsAreWords | src/services/scoring_engine.py:8 | every piece `split()` yields is a non-empty run of non-whitespace characters |
| Text.SplitJoin | src/api/v1/endpoints/webhooks.py:94 | splitting at a separator and joining the parts with it gives the text back |
| Text.NatToStringRoundTrip | src/services/trigger_service.py:423 | reading back the decimal digits of a number gives the number |
| Text.CleanNumber | src/services/booking_service.py:53 | a cleaned phone number holds no `+` |
| Text.LikeContainsIsSubstring | src/services/booking_service.py:53-62 | for a query without `%` or `_`, the number lookup `LIKE '%query%'` holds exactly when the query occurs in the stored number, ignoring ASCII case |
| Text.LikePrefix | src/services/booking_service.py:59-62 | `LIKE 'x%'` holds exactly when the text starts with x, ignoring ASCII case |
| Text.LikeAnyHead | src/services/booking_service.py:59-62 | `LIKE '%q'` holds exactly when some suffix of the text matches q |
| Text.PhoneMatchesIsSubstring | src/services/booking_service.py:53-62 | for a query whose cleaned form has no `%` or `_`, a stored number matches exactly when it contains the cleaned query, ignoring ASCII case |
| Glyphs.GarbledIsGarble | src/services/trigger_service.py:416-487 | each mark as trigger_service.py spells it is the intended character's UTF-8 bytes read as Windows-1252, with the bytes that code page leaves undefined dropped |
| Glyphs.MarksDiffer | src/services/trigger_service.py:416-487 | every mark as spelled differs from the character it stands for |
| Glyphs.GarbleAscii | src/services/trigger_service.py:444-487 | ASCII text reads back unchanged, so only the marks of a booking note are affected |
| Glyphs.GarbleAppend | src/services/trigger_service.py:416-424 | the misreading of a concatenation is the concatenation of the misreadings |
| Glyphs.GarbleBetween | src/services/trigger_service.py:444-487 | misreading a text between two ASCII texts changes only the middle part |
| Scoring.LengthPoints | src/services/scoring_engine.py:8-14 | the message-length adjustment lies between -15 and +10, and is +10 exactly when the message has 40 to 120 words |
| Scoring.SubjectPoints | src/services/scoring_engine.py:16-20 | the subject-length adjustment lies between -5 and +8, and is +8 exactly when the subject has 4 to 12 words |
| Scoring.PersonalCount | src/services/scoring_engine.py:22-25 | each word counts at most once towards the second-person count |
| Scoring.CappedDouble | src/services/scoring_engine.py:26 | the personalisation bonus is even, between 0 and 10, and reaches 10 exactly from five second-person words on |
| Scoring.PersonalPoints | src/services/scoring_engine.py:22-26 | the personalisation bonus of a message is even and between 0 and 10 |
| Scoring.CountIn | src/services/scoring_engine.py:48-50 | at most one count per spam phrase, and zero exactly when no phrase occurs in the text |
| Scoring.StagePoints | src/services/scoring_engine.py:35-41 | the stage bonus lies between 0 and 5 |
| Scoring.ScoreMessage | src/services/scoring_engine.py:5-54 | the score is always one the message schema accepts (0 to 100) |
| Scoring.RawScoreRange | src/services/scoring_engine.py:6-52 | before clamping the sum already lies in 0..101, so only the upper clamp can ever change it |
| Scoring.ClampNeedsUrgency | src/services/scoring_engine.py:43-44 | the clamp bites only for an urgent message; under every other tone the score is the unclamped sum |
| Scoring.CtaCaseInsensitive | src/services/scoring_engine.py:28-30 | upper-casing the call to action leaves the score unchanged |
| Scoring.PlainTonesScoreAlike | src/services/scoring_engine.py:43-46 | formal, friendly and casual tones score a message identically |
| Scoring.ClosingScoresHighest | src/services/scoring_engine.py:35-41 | no stage scores a message higher than the closing stage |
| Templates.ToneModifier | src/services/template_engine.py:80-86 | every tone has a non-empty instruction |
| Templates.ToneInstruction | src/services/template_engine.py:106 | the instruction is empty exactly when the tone value names no known tone |
| Templates.RenderTemplate | src/services/template_engine.py:89-107 | the body opens with the `Hi <name>,` greeting and a blank line and names the company and the pain point; the subject names the lead or the company; the call to action is the stage template's own; the tone instruction is empty exactly for an unknown tone |
| Templates.FillAppend | src/services/template_engine.py:99-100 | formatting a template made of two parts formats each part on its own |
| Templates.FillMentions | src/services/template_engine.py:99-100 | a placeholder in a template puts the lead's value for it into the formatted text |
| Templates.FillLiteral | src/services/template_engine.py:99-100 | a template without placeholders formats the same for every lead |
| Templates.GreetingFill | src/services/template_engine.py:7-8 | the shared body opening formats to `Hi <name>,` and a blank line |
| Templates.TemplateShaped | src/services/template_engine.py:4-78 | every stage's template opens with the greeting, uses the company and the pain point in its body and the name or the company in its subject |
| Templates.ShapedRenders | src/services/template_engine.py:99-100 | any template of that shape renders a body with the greeting, company and pain point and a subject naming the lead or company |
| Templates.CtaVerbatim | src/services/template_engine.py:101 | the call to action is not formatted: two leads at the same stage get the same one |
| Templates.UnknownStageIsFollowUp | src/services/template_engine.py:91 | a stage value without a template renders exactly as the follow-up stage |
| Templates.ProspectingCtaIsStrong | src/services/template_engine.py:13 | the prospecting call to action holds one of the scorer's strong call-to-action words |
| Templates.QualificationCtaIsStrong | src/services/template_engine.py:24 | the qualification call to action holds a strong call-to-action word |
| Templates.ProposalCtaIsStrong | src/services/template_engine.py:34 | the proposal call to action holds a strong call-to-action word |
| Templates.ClosingCtaIsStrong | src/services/template_engine.py:55 | the closing call to action holds a strong call-to-action word |
| Templates.FollowUpCtaIsStrong | src/services/template_engine.py:65 | the follow-up call to action holds a strong call-to-action word |
| Templates.RenderedCtaIsStrong | src/services/template_engine.py:89-107 | a rendered template earns the scorer's strong call-to-action points at every stage except negotiation and re-engagement |
| Schemas.ParseTriggerType | src/schemas/trigger.py:7-12 | a string parses to a trigger type exactly when it is that type's value |
| Schemas.ParseChannel | src/schemas/trigger.py:15-18 | a string parses to a channel exactly when it is that channel's value |
| Schemas.ParseDeclaredStatus | src/schemas/trigger.py:21-25 | a string parses to a declared status exactly when it is that status's value |
| Schemas.CancelledIsUndeclared | src/schemas/trigger.py:21-25 | of the statuses the trigger service writes, only `cancelled` is missing from the declared enumeration |
| Schemas.ParseStage | src/schemas/message.py:6-13 | a string parses to a sales stage exactly when it is that stage's value |
| Schemas.ParseTone | src/schemas/message.py:16-21 | a string parses to a tone exactly when it is that tone's value |
| Schemas.MatchPhone | src/schemas/message.py:46 | the scan accepts a recipient exactly when it is a plus sign followed by 10 to 15 digits |
| Schemas.PatternIsDigitCount | src/schemas/message.py:46 | a plus sign and a run of digits match the recipient pattern exactly when there are 10 to 15 digits |
| Schemas.ValidateTrigger | src/schemas/trigger.py:28-38 | a trigger request is accepted exactly when every field bound holds, a rejection names at least one field, and an accepted one keeps the given fields with delay 60, retries 3 and stop-on-reply true as defaults, within their bounds |
| Schemas.ValidateDrip | src/schemas/trigger.py:60-68 | a drip request is accepted exactly when its bounds hold (1 to 10 messages, non-negative step delay), a rejection names a field, and defaults are a day's delay and stop-on-reply true |
| Schemas.ValidateGenerate | src/schemas/message.py:24-32 | a generate request is accepted exactly when its lengths hold and stage and tone parse, a rejection names a field, and the tone defaults to friendly and the rewrite to on |
| Schemas.ValidateEmail | src/schemas/message.py:55-60 | an e-mail send is accepted exactly when its lengths hold, a rejection names a field, and `html` defaults to false |
| Schemas.SendBounds | src/schemas/message.py:45-52 | a WhatsApp send is valid exactly for `+` and 10 to 15 digits with 1 to 4096 characters, an SMS exactly with 1 to 1600, so every valid SMS is a valid WhatsApp message |
| Groq.FinalResult | src/services/openai_service.py:41-62 | an attempt that is not retried ends the call with the stripped reply exactly when the provider replied, and a rate limit on the last attempt gives the rate-limit message |
| Groq.Plan | src/services/openai_service.py:27-40 | one provider answer per attempt, each asked of that attempt's model |
| Groq.CallFrom | src/services/openai_service.py:27-62 | from a given attempt on: one to the remaining number of attempts, each on its model, with a 2·(k+1)-second wait between them, every attempt but the last rate-limited, and the result that of the last attempt |
| Groq.Retried | src/services/openai_service.py:43-48 | a rate-limited attempt adds one model and its wait in front of the later attempts and keeps their result |
| Groq.CallGroq | src/services/openai_service.py:25-62 | at most three attempts, the primary model twice then the fallback, waits of 2 then 4 seconds, only rate limits are retried, and the call succeeds exactly when its last attempt got a reply |
| Groq.PersistentRateLimitGivesUp | src/services/openai_service.py:43-50 | a provider that always rate-limits is tried three times (primary, primary, fallback, after 2 and 4 seconds) and the call fails with the rate-limit message |
| Groq.FirstHardErrorIsFinal | src/services/openai_service.py:52-62 | any error other than a rate limit on the first attempt ends the call at once with that error's text |
| Groq.ChatCompletion | src/services/openai_service.py:89-100 | the provider receives the system prompt as one leading system message and then the caller's messages unchanged, and the reply is that call's result |
| Groq.Step | src/services/openai_service.py:111-125 | a line without a header changes nothing outside the body section, and never touches the subject, the call to action or the section |
| Groq.ParseRewrite | src/services/openai_service.py:103-128 | the subject and call to action are the final loop state's; the body is the collected lines joined and stripped when any were collected, and the fallback body otherwise |
| Groq.RunAppend | src/services/openai_service.py:111-125 | the line loop over two stretches of lines is the loop over the first, continued over the second |
| Groq.PlainLinesOutsideBodyIgnored | src/services/openai_service.py:124-125 | plain lines leave the parser state unchanged unless the body section is open |
| Groq.NoHeadersGivesFallbacks | src/services/openai_service.py:103-128 | a reply with no SUBJECT:, BODY: or CTA: line gives back the three fallbacks unchanged |
| Groq.SubjectIsLastHeader | src/services/openai_service.py:113-115 | the parsed subject is the text of the last SUBJECT: line, or the fallback when there is none |
| Groq.LinesAfterCtaIgnored | src/services/openai_service.py:121-125 | after a CTA: line, plain lines change nothing, so none of them reaches the body |
| Groq.FallbackOnLastAttempt | src/services/openai_service.py:28 | of the three attempts, exactly the last one uses the fallback model |
| Groq.ErrorTextKeepsMessage | src/services/openai_service.py:52-62 | the API and the unexpected error texts carry their messages, so different messages give different texts; the two kinds, and the connection and rate-limit texts, never coincide |
| Conversations.StoreMessage | src/services/conversation_service.py:5-18 | with a working store and an accepted role exactly one row is appended, carrying the given fields and the next id, and earlier rows are untouched; otherwise the failure is swallowed and the log is unchanged |
| Conversations.StoreSentMessage | src/services/conversation_service.py:43-56 | with a working store exactly one record is appended with the given fields and status "sent" unless another status is given; a failing store changes nothing |
| Conversations.ForNumber | src/services/conversation_service.py:23-30 | the number's filter never yields more rows than the log holds |
| Conversations.ForNumberMembers | src/services/conversation_service.py:23-30 | the filter keeps exactly the rows whose stored number contains the cleaned query number, and keeps them in id order |
| Conversations.ForNumberAppend | src/services/conversation_service.py:26-30 | filtering a log extended by more rows is filtering each part |
| Conversations.Window | src/services/conversation_service.py:29-34 | newest-first with a limit, read back reversed: the last `limit` entries (all of them for a negative limit), oldest first |
| Conversations.RecentWindow | src/services/conversation_service.py:26-34 | the backwards scan that stops after `limit` matches yields exactly the window of the number's messages |
| Conversations.GetRecentMessages | src/services/conversation_service.py:21-40 | the turns are the role and text of the number's `limit` most recent messages, oldest first; a failing store gives `[]` |
| Conversations.GetConversationHistory | src/services/conversation_service.py:121-146 | the same window as the recent messages, each entry carrying role, text, channel and timestamp; a failing store gives `[]` |
| Conversations.WindowIsNewestOldestFirst | src/services/conversation_service.py:26-34 | the window is the tail of the number's messages, every entry belongs to the number, and ids grow along it |
| Conversations.ForNumberOfOne | src/services/conversation_service.py:28-30 | a single row of a matching number passes the filter |
| Conversations.WindowAppend | src/services/conversation_service.py:29-34 | with a non-zero limit an appended entry becomes the newest one in the window, after the older window shortened by one |
| Conversations.StoreKeepsIdsIncreasing | src/services/conversation_service.py:5-13 | storing keeps row ids equal to insertion positions, hence increasing |
| Conversations.StoredMessageEndsWindow | src/services/conversation_service.py:5-34 | a message just stored for a number the query matches is the newest entry of the query's window, after the older window shortened by one |
| Bookings.GenerateCode | src/services/booking_service.py:8-10 | a generated code has the requested length, and every character is the drawn one of `A`–`Z`, `0`–`9` |
| Bookings.AlphabetIsUpperAlnum | src/services/booking_service.py:10 | the code alphabet holds exactly the upper-case letters and the digits |
| Bookings.EveryCodeGeneratable | src/services/booking_service.py:8-10 | every six-character upper-case alphanumeric code is produced by some draws |
| Bookings.SelectNewestFirst | src/services/booking_service.py:56-61 | the selection holds exactly the rows that pass the filter, with ids strictly decreasing (newest first) |
| Bookings.SelectNoneIsEmpty | src/services/booking_service.py:56-61 | when no row passes the filter the selection is empty |
| Bookings.GetPendingBookings | src/services/booking_service.py:51-70 | exactly the pending rows whose number contains the cleaned query number; `[]` when the store fails |
| Bookings.GetBookingByCode | src/services/booking_service.py:73-89 | a found booking carries the upper-cased code; with a working store, none found means no row has it |
| Bookings.GetBookingById | src/services/booking_service.py:92-108 | a found booking has the id, and none found means no row has it |
| Bookings.GetAllBookings | src/services/booking_service.py:165-190 | only rows passing the optional phone and status filters, newest first, at most `limit` of them, a prefix of all matches and all of them when the limit allows; `[]` when the store fails |
| Bookings.CreateBooking | src/services/booking_service.py:13-48 | exactly one row is appended with the next id, status pending, no stamps, a six-character code and the requested fields |
| Bookings.UpdateWhere | src/services/booking_service.py:199-205 | every selected row is rewritten, every other row kept, and the count is the number of selected rows |
| Bookings.ConfirmBooking | src/services/booking_service.py:111-135 | only pending rows change, each to confirmed; by code exactly the pending rows with the upper-cased code, else by id exactly the pending row with that id, else nothing; the answer is true whenever the store works |
| Bookings.CancelBooking | src/services/booking_service.py:138-162 | the same as confirmation, with cancelled in place of confirmed |
| Bookings.ConfirmAllPending | src/services/booking_service.py:193-212 | exactly the number's pending rows become confirmed, the count returned is how many were pending, none is pending afterwards, and a failing store gives 0 and no change |
| Bookings.CancelAllPending | src/services/booking_service.py:215-234 | exactly the number's pending rows become cancelled, the count is how many were pending, none is pending afterwards, and a failing store gives 0 and no change |
| Bookings.TransitionsKeepWellFormed | src/services/booking_service.py:111-232 | every transition keeps each row's stamps consistent with its status: a confirmation stamp only on confirmed rows, a cancellation stamp only on cancelled ones, none on pending ones |
| Bookings.NeverBothStamps | src/services/booking_service.py:118-121 | no consistent booking carries both a confirmation and a cancellation stamp |
| Bookings.BulkIdempotent | src/services/booking_service.py:193-232 | a second bulk confirmation or cancellation changes nothing and counts 0 |
| Bookings.NoPendingUnchanged | src/services/booking_service.py:199-207 | with nothing pending for the number, the bulk updates change nothing and count 0 |
| BookingEndpoints.ValidateCreateBooking | src/api/v1/endpoints/bookings.py:15-25 | a create request is accepted exactly when the phone is non-empty, the title has 1 to 200 characters, the type at most 50 and the currency at most 5; type and currency default to "general" and "INR" |
| BookingEndpoints.CreateBookingEndpoint | src/api/v1/endpoints/bookings.py:45-68 | an invalid request is rejected and a failing store errors, both without change; otherwise exactly one pending row is appended and the response carries its id, its six-character code and "Booking created. Code: <code>" |
| BookingEndpoints.ListBookings | src/api/v1/endpoints/bookings.py:71-79 | a limit outside 1..200 is rejected; otherwise at most the limit (default 50) of filtered rows, newest first, with the total equal to their number |
| BookingEndpoints.GetBookingEndpoint | src/api/v1/endpoints/bookings.py:82-88 | a found booking has the id; otherwise "Booking not found", and with a working store no row has that id |
| BookingEndpoints.GetBookingByCodeEndpoint | src/api/v1/endpoints/bookings.py:91-97 | a found booking carries the upper-cased code; otherwise "Booking not found" |
| BookingEndpoints.ConfirmBookingEndpoint | src/api/v1/endpoints/bookings.py:100-110 | success exactly when the lookup finds the booking pending, whatever the UPDATE does; a missing one gives "Booking not found", a settled one "Booking is already <status>", both without any change; on success the detail names its code, the booking becomes confirmed when the UPDATE works, and nothing changes when it fails |
| BookingEndpoints.CancelBookingEndpoint | src/api/v1/endpoints/bookings.py:113-123 | the same guards as confirmation; on success the detail names the code, the booking becomes cancelled when the UPDATE works, and nothing changes when it fails |
| BookingEndpoints.IdIsPosition | src/api/v1/endpoints/bookings.py:103 | in a table whose ids follow insertion order, a booking's id locates it |
| BookingEndpoints.FramedShowsCode | src/api/v1/endpoints/bookings.py:145 | the confirmation text holds the code between asterisks |
| BookingEndpoints.FramedEndsWithPrompt | src/api/v1/endpoints/bookings.py:146 | the confirmation text ends with the CONFIRM/CANCEL prompt |
| BookingEndpoints.FramedKeepsDetails | src/api/v1/endpoints/bookings.py:137-146 | every piece of the detail lines appears in the confirmation text |
| BookingEndpoints.ConfirmationRequest | src/api/v1/endpoints/bookings.py:137-146 | the text opens with the header, holds the code between asterisks and every piece of the title, date, time and amount lines, and ends with the prompt |
| BookingEndpoints.BareConfirmationRequest | src/api/v1/endpoints/bookings.py:139-144 | without date, time or amount the text holds the title line alone between header and code line |
| BookingEndpoints.CreatedNoteMatchesRequest | src/api/v1/endpoints/bookings.py:137-145 | with the intended marks, the chat note after a creation shows the booking in the very lines of the confirmation request; with the marks as trigger_service.py spells them, the two differ |
| BookingEndpoints.DateLineShown | src/api/v1/endpoints/bookings.py:139-140 | a booking with a date shows the date line |
| BookingEndpoints.SendBookingConfirmation | src/api/v1/endpoints/bookings.py:126-171 | a missing booking gives "Booking not found" and stores nothing; a failed send stores nothing; a delivered one returns the booking's code and stores the text as an assistant turn and one sent record with status "booking_confirmation" and the provider's id, each only when its own store works, and is reported sent either way |
| BookingEndpoints.ConfirmThenCancelRefused | src/api/v1/endpoints/bookings.py:106-107 | once a booking is confirmed through the endpoint, cancelling it is refused with "Booking is already confirmed" and changes nothing |
| Drip.SingleTriggerRequest | src/api/v1/endpoints/triggers.py:25-36 | a trigger created on its own has no campaign and step number 0, and keeps the request's delay and retry budget |
| Drip.SingleTriggerKeepsRetriesBounded | src/api/v1/endpoints/triggers.py:21-48 | creating a single validated trigger keeps every row's retry count within its budget of 1 to 10 |
| Drip.StepRequest | src/api/v1/endpoints/triggers.py:70-87 | step `i` sends message `i` to the campaign's recipient, under the campaign's name, as step `i + 1` |
| Drip.StepRows | src/api/v1/endpoints/triggers.py:70-88 | the rows the first `n` steps create, one per step, in step order with consecutive ids |
| Drip.CreateStep | src/api/v1/endpoints/triggers.py:74-88 | a step due within `datetime`'s range appends exactly one trigger row, leaves the sent log alone, and returns the new row's id; a step due beyond it appends nothing and fails with "date value out of range" |
| Drip.CreateDripCampaign | src/api/v1/endpoints/triggers.py:64-96 | one row per message in step order, their ids returned in order, total steps equal to the number of messages, the campaign named after the request, and then every step was due within range; a failing step stops the loop after its own row, or before it when the step's due time is out of range |
| Drip.DistantCampaignFails | src/api/v1/endpoints/triggers.py:70-71 | ten messages 420,000,000 minutes apart, created any time from 2026 on, run past `datetime`'s range at a later step although the first step is due within it |
| Drip.DelaysIncrease | src/api/v1/endpoints/triggers.py:70-71 | with a positive step delay each step is due strictly later than the one before |
| Drip.StepNamesDistinct | src/api/v1/endpoints/triggers.py:75 | no two steps of one campaign share a name |
| Drip.SuffixesDiffer | src/api/v1/endpoints/triggers.py:75 | different step numbers give different ` - Step <n>` suffixes |
| Drip.StepSubject | src/api/v1/endpoints/triggers.py:72 | a step has a subject exactly when a non-empty prefix is given, and it is `<prefix> - Step <n>` |
| Drip.StepsKeepRetriesBounded | src/api/v1/endpoints/triggers.py:76-83 | every step is a "drip" trigger with a retry budget of 3, so the rows keep their retry counts within budget |
| Triggers.EmailSubject | src/services/trigger_service.py:540 | an e-mail goes out under the trigger's subject, or under its name when the subject is absent or empty |
| Triggers.DeliveryFor | src/services/trigger_service.py:530-542 | the message goes to the trigger's recipient on its channel, with a subject exactly for e-mail |
| Triggers.UpdateById | src/services/trigger_service.py:146-149 | only the rows with the id are rewritten |
| Triggers.UpdateWhere | src/services/trigger_service.py:168-171 | only the selected rows are rewritten |
| Triggers.UpdateTriggerStatus | src/services/trigger_service.py:142-155 | the row with the id gets the status whatever its current one, and only its status and update time change; a failing store changes nothing |
| Triggers.CancelTrigger | src/services/trigger_service.py:158-161 | the row becomes cancelled from any status, no other row changes, and the answer is success "Trigger <id> cancelled" even when nothing matched or the store failed |
| Triggers.CancelCampaign | src/services/trigger_service.py:164-179 | exactly the campaign's active rows become cancelled and every other row is kept; a failing store raises "Failed to cancel campaign: …" and changes nothing |
| Triggers.OpeningReply | src/services/trigger_service.py:57-70 | the opening message is the model's reply to the trigger text under the fixed opening instruction, or the fixed fallback when the model fails |
| Triggers.CreateTrigger | src/services/trigger_service.py:37-98 | a due time past `datetime`'s range (after 9999-12-31 23:59) raises "date value out of range" before anything is stored or sent; otherwise one active row is appended with the next id, no retries, the request's budget, due `delay` minutes from now and the campaign fields; the opening message goes to the recipient on WhatsApp; success exactly when it is delivered, then it is stored as an assistant turn; a failed send raises "Failed to create trigger: …" |
| Triggers.CreatedTriggerBounded | src/services/trigger_service.py:41-51 | a new trigger is within its retry budget exactly when the budget allows at least one attempt; a due time out of range adds no row |
| Triggers.DueTriggers | src/services/trigger_service.py:601-606 | exactly the active rows whose scheduled time has come, in id order |
| Triggers.AfterFailure | src/services/trigger_service.py:579-594 | a failed send adds one retry; the row becomes failed with no schedule exactly when the retries reach the budget, and otherwise stays active one minute later |
| Triggers.ExecuteTrigger | src/services/trigger_service.py:512-594 | a recent reply of the recipient completes a stop-on-reply trigger without sending; an unknown channel fails it without a retry; otherwise the message is sent, and on success it is stored, recorded as "triggered" and the row completed with its execution time, while on failure the retry rule applies; no other row changes |
| Triggers.ProcessDue | src/services/trigger_service.py:611-619 | running the due triggers one after the other keeps the table's size |
| Triggers.ProcessPendingTriggers | src/services/trigger_service.py:597-624 | one poll keeps the table's size |
| Triggers.ExecuteLeavesNotDue | src/services/trigger_service.py:512-594 | executing a due trigger takes it out of the due set and leaves every other row alone |
| Triggers.ExecuteKeepsRetriesBounded | src/services/trigger_service.py:579-594 | execution keeps every row within its retry budget, and an active row below it |
| Triggers.SnapshotsAfterExecute | src/services/trigger_service.py:611-619 | after executing the first due snapshot, the remaining snapshots still describe their current rows |
| Triggers.ProcessDueEffect | src/services/trigger_service.py:611-619 | running the snapshots leaves none of their rows due, keeps every other row and keeps retries within budget |
| Triggers.DueSnapshotsCurrent | src/services/trigger_service.py:602-606 | the selected due rows are current snapshots in id order |
| Triggers.PollDrainsDue | src/services/trigger_service.py:597-624 | after one poll no row is due any more, rows that were not due are untouched, and retries stay within budget |
| Triggers.CoversIffDue | src/services/trigger_service.py:602-606 | a row is among the selected ones exactly when it is due |
| Triggers.CompleteOnReply | src/services/trigger_service.py:237-259 | exactly the number's active stop-on-reply rows become completed, every other row is kept, and afterwards none qualifies |
| Triggers.CompleteOnReplyIdempotent | src/services/trigger_service.py:241-253 | completing on a second reply changes nothing more |
| Triggers.CancelCampaignIdempotent | src/services/trigger_service.py:168-171 | cancelling a campaign twice is cancelling it once |
| Triggers.TerminalRowsStay | src/services/trigger_service.py:169 | completed, failed and cancelled rows are untouched by reply completion and campaign cancellation |
| Triggers.ReplyPreemptsDelivery | src/services/trigger_service.py:524-528 | a stop-on-reply trigger whose recipient replied in the last day is completed and nothing is sent |
| Triggers.FailureCutoff | src/services/trigger_service.py:583-590 | after a failed send the row is failed, with no schedule, exactly when the retries reach the budget, and otherwise active one minute later |
| Triggers.TriggerContext | src/services/trigger_service.py:344-370 | the context trigger is an active or completed trigger of the number that no other such trigger sorts before (latest execution, then latest creation); there is none exactly when the number has no such trigger |
| Triggers.StoredReplyCounts | src/services/trigger_service.py:182-192 | a user message stored now under a number matching the recipient counts as a reply; an assistant turn never does; with every message older than a day, the recipient has not replied |
| Triggers.RetryDueAgain | src/services/trigger_service.py:583-590 | after a failed send with retries left, the row is due again exactly from one minute after the failure |
| Triggers.ExecuteTriggerWith | src/services/trigger_service.py:512-594 | when the completion update raises after a delivered send, the message and its record stay stored and the row is handled as a failed send; with a working update it is ExecuteTrigger |
| Triggers.LostCompletionResends | src/services/trigger_service.py:555-594 | a delivered message whose completion update raises leaves the row active with one more retry, due a minute later, and the next execution sends the same message again |
| Triggers.CreateTriggerWith | src/services/trigger_service.py:41-98 | a due time out of range raises before the INSERT; an INSERT that raises changes nothing, sends nothing and gives "Failed to create trigger: " with the error; a working insert is CreateTrigger |
| ReplyHandler.Clip | src/services/trigger_service.py:295 | the quoted message is the first 200 characters of the trigger's message, or all of it when shorter |
| ReplyHandler.SummaryLine | src/services/trigger_service.py:273-275 | a booking's summary line names it as `#<code>: <title>`, whichever spelling of the rupee sign precedes its amount |
| ReplyHandler.SummaryLines | src/services/trigger_service.py:272-277 | one summary line per pending booking, in order |
| ReplyHandler.BookingNote | src/services/trigger_service.py:271-287 | a system message that gives the number of pending bookings and names each by code and title |
| ReplyHandler.LinesNameAll | src/services/trigger_service.py:272-282 | text holding the joined summary lines names every booking by code and title |
| ReplyHandler.TriggerNote | src/services/trigger_service.py:289-302 | a system message quoting the first 200 characters of the trigger's message and the lead's name |
| ReplyHandler.AsChat | src/services/conversation_service.py:34 | the history as role/content turns, one per stored message, in order |
| ReplyHandler.ContextNotes | src/services/trigger_service.py:268-302 | one note for pending bookings, if any, naming all of them, then one quoting the context trigger, if any |
| ReplyHandler.GeneratedReply | src/services/trigger_service.py:306-315 | the model's reply, or the fixed fallback when the model fails |
| ReplyHandler.Gather | src/services/trigger_service.py:268-304 | the notes come first and the recent history after them, its newest turn last |
| ReplyHandler.Remember | src/services/trigger_service.py:229-235 | the lead's message is appended to the log first, and the history read back ends with it; a failing store adds nothing and reads nothing |
| ReplyHandler.Prepare | src/services/trigger_service.py:229-304 | the lead's message is stored, the number's stop-on-reply triggers completed, and the prompt lists pending bookings, then the quoted trigger, then at most ten turns ending with the lead's message |
| ReplyHandler.PlainReplyPassesThrough | src/services/trigger_service.py:384-489 | a reply with no command tag comes back merely stripped, with no booking change |
| ReplyHandler.ApplyCommands | src/services/trigger_service.py:318 | a reply with no command tag comes back merely stripped, with no booking change, and with the store down no command changes a booking |
| ReplyHandler.Finish | src/services/trigger_service.py:306-341 | the model sees the system prompt and the notes and history; its reply, or the fallback, passes through the booking commands and is stored as one assistant turn and one "auto_reply" record addressed to the number without its `whatsapp:` prefix; a failing command, or a store that is down, changes no booking |
| ReplyHandler.HandleLeadReply | src/services/trigger_service.py:218-341 | the lead's message and the reply are stored in that order with one "auto_reply" record; every active stop-on-reply trigger of the number is completed; the prompt opens with the system prompt, names every pending booking, then quotes the context trigger, and ends with the lead's message; with no model answer the fallback is delivered and no booking changes; with the store down nothing is stored, no trigger or booking changes, and the model sees the system prompt alone |
| ReplyHandler.NoOpenNoTag | src/services/trigger_service.py:387 | text without `[` holds no tag that opens with one |
| ReplyHandler.NoBracketNoCommand | src/services/trigger_service.py:387-469 | a reply without `[` carries no booking command |
| ReplyHandler.FallbackIsPlain | src/services/trigger_service.py:312-315 | the fallback reply holds no `[` and no edge whitespace, so it is delivered unchanged |
| ReplyHandler.LeadNameQuoted | src/services/trigger_service.py:296 | a recipient name is quoted as given, and a missing one is quoted as `None`, never as the `Unknown` default |
| ReplyHandler.UserMessageIsStored | src/services/trigger_service.py:229-234 | storing the lead's message appends exactly one user message, whose id is new |
| ReplyHandler.PromptOrder | src/services/trigger_service.py:268-308 | behind the leading system prompt, the booking note comes first and names every pending booking of the number, the trigger quote follows it, and the lead's message closes the prompt |
| BookingActions.ScanClose | src/services/trigger_service.py:494 | the lazy value group stops at the first `]` on the line; it finds none when a newline or the end of the text comes first |
| BookingActions.LazyGroup | src/services/trigger_service.py:494 | `.+?` takes at least one character and ends just before the first reachable `]`, never crossing a newline |
| BookingActions.Backtrack | src/services/trigger_service.py:494 | when the blank run after the colon gives back characters, the group starts within that run and still ends at a `]` with no newline inside |
| BookingActions.TagMatch | src/services/trigger_service.py:494-495 | a match at the start of the text is an opening `[`, the tag name in any case, a colon, and a one-line group closed by `]` |
| BookingActions.ExtractTag | src/services/trigger_service.py:492-496 | a tag value is found only in text that holds a `[` |
| BookingActions.ScanCloseFinds | src/services/trigger_service.py:494 | the first `]` with no newline before it is exactly where the group closes |
| BookingActions.TagMatchOfTagText | src/services/trigger_service.py:494 | a tag written as `[NAME: value]` with a one-line value matches with the group spanning exactly the value |
| BookingActions.ExtractTagRoundTrip | src/services/trigger_service.py:492-496 | writing `[NAME: value]` after text without brackets and extracting NAME gives back the value, stripped |
| BookingActions.ExtractTagAbsent | src/services/trigger_service.py:492-496 | text without a `[` has no tag value |
| BookingActions.SubTagAt | src/services/trigger_service.py:502 | a removable sub-tag always starts with `[` and has a positive length inside the text |
| BookingActions.DropSubTags | src/services/trigger_service.py:502 | removing the TITLE, TYPE, DATE, TIME and AMOUNT tags never lengthens the text |
| BookingActions.DropSubTagsKeepsPlainText | src/services/trigger_service.py:502 | text without a bracket passes through the sub-tag removal unchanged, whatever follows it |
| BookingActions.SubTagDropped | src/services/trigger_service.py:499-503 | a written `[NAME: value]` sub-tag disappears entirely and the rest is handled as if it was never there |
| BookingActions.NameClash | src/services/trigger_service.py:502 | any two of the five sub-tag names differ, ignoring case, at a position both have |
| BookingActions.NamesExclusive | src/services/trigger_service.py:502 | at most one of the five sub-tag names can open a tag, so the alternation picks an unambiguous name |
| BookingActions.ActionTagAt | src/services/trigger_service.py:508 | an action tag is longer than `[ACTION:` plus one word character, opens with `[` and closes with `]` |
| BookingActions.DropActionTags | src/services/trigger_service.py:506-509 | removing action tags never lengthens the text |
| BookingActions.DropActionTagsKeepsPlainText | src/services/trigger_service.py:508 | text without a bracket passes through the action-tag removal unchanged |
| BookingActions.ActionTagDropped | src/services/trigger_service.py:508 | `[ACTION: word]` disappears for every word, whatever follows it |
| BookingActions.CodeIndexFrom | src/services/trigger_service.py:437 | the search yields the leftmost position from which six upper-case letters or digits stand as a whole word, and none when there is no such position |
| BookingActions.FirstCodeToken | src/services/trigger_service.py:437 | the first code-shaped word is a valid code; no result means no six-character upper-case word occurs anywhere |
| BookingActions.CodeWordAlone | src/services/trigger_service.py:437 | a reply that is just a confirmation code yields that code |
| BookingActions.ActionWordFirst | src/services/trigger_service.py:437 | in any text opening with `[ACTION:`, the word ACTION is the first code-shaped word |
| BookingActions.TagCodeWord | src/services/trigger_service.py:437 | for a reply opening with the confirm or cancel tag, the code search always finds ACTION, whatever code follows |
| BookingActions.NumberRun | src/services/trigger_service.py:396 | the first run is non-empty and made only of digits, commas and dots; no run means the text holds none of them |
| BookingActions.FloatOf | src/services/trigger_service.py:398 | a parsed amount is never negative, and a refused text raises Python's float conversion error naming that text |
| BookingActions.FloatOfOneDot | src/services/trigger_service.py:398 | `digits.digits` parses to the decimal number it spells |
| BookingActions.FloatOfAccepts | src/services/trigger_service.py:398 | text of digits and dots converts exactly when it has a digit and at most one dot |
| BookingActions.ParseAmount | src/services/trigger_service.py:392-398 | a missing or empty AMOUNT tag gives no amount, and any amount found is not negative |
| BookingActions.DigitlessRunRaises | src/services/trigger_service.py:396-398 | a first run without digits, such as a lone dot, makes the conversion raise |
| BookingActions.RupeePrefixRaises | src/services/trigger_service.py:396-398 | the amount `Rs. 500` raises, because its first run is the dot after `Rs` |
| BookingActions.RoundCents | src/services/trigger_service.py:423 | the cents shown by the two-decimal format are the amount in cents rounded to the nearest whole |
| BookingActions.Group | src/services/trigger_service.py:423 | thousands grouping only inserts commas among the digits |
| BookingActions.GroupUngroups | src/services/trigger_service.py:423 | deleting the commas from a grouped number gives back the digits |
| BookingActions.TwoDigits | src/services/trigger_service.py:423 | the fractional part is always written with exactly two digits |
| BookingActions.FloatOfCents | src/services/trigger_service.py:398 | `digits.dd` parses to the whole part plus hundredths |
| BookingActions.ParseFormattedMoney | src/services/trigger_service.py:396-423 | an amount shown with `:,.2f` and read back as an AMOUNT tag is the amount rounded to cents |
| BookingActions.FormattedMoneyRun | src/services/trigger_service.py:396-423 | a formatted amount is one whole run of number characters, and deleting its commas leaves whole part, dot and two cents digits |
| BookingActions.OrDefault | src/services/trigger_service.py:388-389 | a missing or empty tag falls back to the default, and a non-empty one is kept |
| BookingActions.CreatedNoteShowsCode | src/services/trigger_service.py:416-489 | the reply after a creation shows the new booking's code between asterisks |
| BookingActions.CreateCommand | src/services/trigger_service.py:387-430 | for either spelling of the marks: the command fails exactly when the AMOUNT conversion raises; a failed store leaves the table alone and only strips the reply; a creation appends one pending booking for the number, keeps the older rows, and shows its code |
| BookingActions.CreateCommandNoAmount | src/services/trigger_service.py:387-427 | without an AMOUNT tag the new booking gets a freshly generated code and the reply is the tag-free text followed by the creation note |
| BookingActions.CreateWithTitleOnly | src/services/trigger_service.py:387-427 | `[CREATE_BOOKING][TITLE: v]` creates one pending booking titled v, of type general, in INR, with no date, time or amount, and the reply is just the creation note |
| BookingActions.CreateReplyTags | src/services/trigger_service.py:388-392 | in such a reply only TITLE has a value |
| BookingActions.CreateReplyCleaned | src/services/trigger_service.py:499-503 | such a reply is a create command and its tags leave nothing behind |
| BookingActions.ConfirmCommand | src/services/trigger_service.py:433-449 | for either spelling of the marks: the confirm command changes no row count, and a row either stays as it was or was pending and is now confirmed; with the store down nothing changes and the reply ends with the no-pending note |
| BookingActions.CancelCommand | src/services/trigger_service.py:452-466 | for either spelling of the marks: the cancel command changes no row count, and a row either stays as it was or was pending and is now cancelled; with the store down nothing changes and the reply ends with the no-pending note |
| BookingActions.StatusCommand | src/services/trigger_service.py:469-487 | for either spelling of the marks: the status command never changes a booking; with the store down the reply ends with the no-bookings note |
| BookingActions.UnknownCodeConfirmsAll | src/services/trigger_service.py:440-446 | when no code is found, or it names no booking, and the number has pending bookings, every one of them is confirmed |
| BookingActions.UnknownCodeCancelsAll | src/services/trigger_service.py:458-463 | when no code is found, or it names no booking, and the number has pending bookings, every one of them is cancelled |
| BookingActions.NamedCommandResults | src/services/trigger_service.py:440-461 | a code that names a booking is confirmed or cancelled alone, and the reply announces that code |
| BookingActions.CodeUpdateEffect | src/services/trigger_service.py:442-460 | confirming or cancelling by a code touches only the pending bookings holding that code, and a pending named booking changes status |
| BookingActions.RunCommands | src/services/trigger_service.py:384-489 | a reply without command tags comes back stripped with the table unchanged; only a create can fail; a create adds at most one row; confirm or cancel only move pending rows to their status; status changes nothing; with the store down no command changes a booking |
| BookingActions.ProcessBookingActionsAsWritten | src/services/trigger_service.py:373-489 | with the code search over the raw reply: a reply without command tags comes back stripped and changes nothing, only a create can fail, and with the store down no booking changes |
| BookingActions.ProcessBookingActions | src/services/trigger_service.py:373-489 | with the code search over the tag-free reply: a reply without command tags comes back stripped and changes nothing, only a create can fail, no other command adds or drops a row, and with the store down no booking changes |
| BookingActions.CreateDispatch | src/services/trigger_service.py:387 | a reply containing `[CREATE_BOOKING]` is handled as a create, whatever other tags it holds |
| BookingActions.ConfirmDispatch | src/services/trigger_service.py:433-437 | a confirm tag without a create tag runs the confirm command, with the code sought in the tag-free reply |
| BookingActions.CancelDispatch | src/services/trigger_service.py:452-455 | a cancel tag without a create or confirm tag runs the cancel command, with the code sought in the tag-free reply |
| BookingActions.AsWrittenConfirmDispatch | src/services/trigger_service.py:433-437 | as written, a confirm reply seeks its code in the raw reply, tags included |
| BookingActions.AsWrittenConfirmsAllPending | src/services/trigger_service.py:437-446 | as written, `[ACTION: CONFIRM] CODE` confirms every pending booking of the number, whatever CODE names, when no booking has the code ACTION |
| BookingActions.ConfirmsNamedCodeOnly | src/services/trigger_service.py:433-444 | `[ACTION: CONFIRM] CODE` for an existing code replies `CODE` plus the confirmation line and confirms only the pending bookings with that code |
| BookingActions.CancelsNamedCodeOnly | src/services/trigger_service.py:452-461 | `[ACTION: CANCEL] CODE` for an existing code replies `CODE` plus the cancellation line and cancels only the pending bookings with that code |
| BookingActions.AsWrittenConfirmsBoth | src/services/trigger_service.py:437-446 | as written, naming the first of two pending bookings confirms the second as well |
| BookingActions.CodeAfterTagConfirmsOther | src/services/trigger_service.py:437-446 | for any two distinct codes, the raw-reply search confirms the unnamed booking and the tag-free search leaves it pending |
| BookingActions.CodeAfterTagCounterexample | src/services/trigger_service.py:437-446 | with AB12CD and ZZ99ZZ pending, `[ACTION: CONFIRM] AB12CD` confirms ZZ99ZZ as written and only AB12CD once corrected |
| BookingActions.RemoveTagsKeepPlainText | src/services/trigger_service.py:499-509 | a reply without a `[` loses nothing but its edge whitespace to either tag removal |
| BookingActions.RemoveActionTagsDropsTag | src/services/trigger_service.py:506-509 | removing action tags from text with `[ACTION: word]` after bracket-free text leaves that text followed by the rest with its action tags removed, stripped |
| BookingActions.RemoveBookingTagsDropsSubTag | src/services/trigger_service.py:499-503 | in a reply without `[CREATE_BOOKING]`, a sub-tag after bracket-free text is removed entirely, and the rest loses its sub-tags, stripped |
| BookingActions.FormatMoneyReadsBack | src/services/trigger_service.py:423 | a non-negative amount shown with `:,.2f` reads back as an AMOUNT tag as the amount rounded to cents; a negative one is shown with a leading minus that the read-back drops |
| BookingActions.StatusLineNamesBooking | src/services/trigger_service.py:476-484 | a status line shows the booking's code between asterisks and its status in brackets, and ends the line |
| BookingActions.StatusLinesNameAll | src/services/trigger_service.py:475-485 | the status listing shows the code of every booking given to it |
| BookingActions.CreatedLinesNameTitle | src/services/trigger_service.py:416-418 | the creation note always shows the title line |
| BookingActions.CreatedLinesNameAmount | src/services/trigger_service.py:423-424 | a non-zero amount is shown in the creation note as the marks' rupee sign (`â‚¹` as spelled, `₹` as meant) followed by the amount in `:,.2f` form |
| BookingActions.CreatedNoteNamesBooking | src/services/trigger_service.py:416-425 | for either spelling of the marks, the note after a creation shows the title, the code between asterisks, and the amount whenever one was given |
| BookingActions.AsWrittenNotesGarbled | src/services/trigger_service.py:444-461 | for an ASCII code, the confirm and cancel notes as spelled are exactly the intended notes misread, and differ from them |
| BookingActions.StatusNamesListedBookings | src/services/trigger_service.py:469-485 | with a working store, the status reply shows the code of every booking the number's listing returns |
| Webhooks.ReadForm | src/api/v1/endpoints/webhooks.py:42-54 | a form reaches the lead-reply handler exactly when both its body and its sender are non-blank after stripping, and it passes them stripped; otherwise one of the fixed TwiML answers is returned |
| Webhooks.LeadReply | src/api/v1/endpoints/webhooks.py:56-60 | the handler is always prompted, and with a working store the prompt ends with the lead's text and a successful answer logs two messages |
| Webhooks.FormWebhook | src/api/v1/endpoints/webhooks.py:39-68 | an empty body or sender is answered at once and changes nothing; otherwise the handler sees the stripped text and its reply, or the fixed error text when it raised, is the TwiML answer; the SMS handler (lines 145-175) is the same with channel "sms" |
| Webhooks.Get | src/api/v1/endpoints/webhooks.py:80-95 | a missing key yields the default |
| Webhooks.Entries | src/api/v1/endpoints/webhooks.py:80-82 | a payload that is an object has entries: none without "messages", and a lone non-list value wrapped as one entry; any other payload raises |
| Webhooks.ChatSender | src/api/v1/endpoints/webhooks.py:93-94 | the sender taken from the chat id never contains an `@` |
| Webhooks.Reply | src/api/v1/endpoints/webhooks.py:103-116 | an entry is answered exactly when it has a body and a truthy text sender, and it is answered at a `+`-prefixed number with a non-empty text |
| Webhooks.ReadMessage | src/api/v1/endpoints/webhooks.py:92-107 | a message taken from an entry always carries a non-empty text and a `+`-prefixed number |
| Webhooks.ReadEntry | src/api/v1/endpoints/webhooks.py:84-107 | a falsy entry is skipped, a truthy non-object entry raises, and a taken one carries a non-empty text and a `+`-prefixed number |
| Webhooks.SenderAddressCleaned | src/api/v1/endpoints/webhooks.py:94-116 | a text message from `<number>@s.whatsapp.net` is answered at `+<number>` with its stripped text |
| Webhooks.SenderFromChatId | src/api/v1/endpoints/webhooks.py:93-116 | without a "from" field, the sender is the part of the chat id before the first `@` |
| Webhooks.NullChatIdRaises | src/api/v1/endpoints/webhooks.py:93-94 | a null "chat_id" raises even when "from" is given, since the default is computed first |
| Webhooks.OtherKindPlaceholder | src/api/v1/endpoints/webhooks.py:99-100 | a non-text message is answered as `[<type> message received]` |
| Webhooks.Collect | src/api/v1/endpoints/webhooks.py:84-123 | the messages to answer come from the entries in order, stopping at the first that raises; with no stop flag, no entry raised |
| Webhooks.Steps | src/api/v1/endpoints/webhooks.py:84 | every entry is read once, in order |
| Webhooks.Extract | src/api/v1/endpoints/webhooks.py:84-107 | at most one message per entry, each with a text and a `+`-prefixed number; with no stop flag, no entry raised |
| Webhooks.CollectAppend | src/api/v1/endpoints/webhooks.py:84-123 | reading a list in two parts gives the first part's messages and then the second's, unless the first part already stopped |
| Webhooks.ExtractAppend | src/api/v1/endpoints/webhooks.py:84-107 | reading the entries in two parts gives the first part's messages and then the second's, unless the first part already stopped |
| Webhooks.IgnoredEntry | src/api/v1/endpoints/webhooks.py:85-90 | an empty entry, or one the business number sent itself, changes nothing for the rest |
| Webhooks.NoAtUntouched | src/api/v1/endpoints/webhooks.py:107 | a number without `@` is left as it is |
| Webhooks.SuffixRemoved | src/api/v1/endpoints/webhooks.py:107 | removing `@s.whatsapp.net` from `<number>@s.whatsapp.net` gives the number back |
| Webhooks.ReplyTo | src/api/v1/endpoints/webhooks.py:123 | the answer goes to the sender's number with the handler's reply and no subject |
| Webhooks.AnswerJobs | src/api/v1/endpoints/webhooks.py:110-129 | each message is marked read and then answered at its sender, in order, and the text sent is the reply the handler produced for that message; with a working store each handler prompt ends with the message's text; "ok" means every message was answered and delivered and, with a working store, two messages logged per lead; "error" means the message read last raised or was not delivered |
| Webhooks.MetaWebhook | src/api/v1/endpoints/webhooks.py:73-129 | a missing or non-object payload answers "error" and changes nothing; otherwise the answers go to the senders in order, each sent text is the handler's reply to that message, whose prompt ends with the message's text when the store works, and the status is "ok" exactly when no entry raised and every answer was sent and delivered |
| Webhooks.ShowScalars | src/api/v1/endpoints/webhooks.py:100 | `None`, `True` and `False` are spelled as Python spells them, and a number as its decimal digits, a negative one with a leading minus |
| Webhooks.BodyOfCases | src/api/v1/endpoints/webhooks.py:92-100 | a text message's body is its text stripped, a message without type or text has an empty body, a text that is not an object raises, and another type gives the placeholder |
| RateLimiter.NewLimiter | salespulse-ai-backend/src/middleware/rate_limiter.py:6-10 | a new middleware keeps its limit and window and has seen no client |
| RateLimiter.History | salespulse-ai-backend/src/middleware/rate_limiter.py:16-17 | a client not seen before has no recorded times |
| RateLimiter.Prune | salespulse-ai-backend/src/middleware/rate_limiter.py:19-23 | a time survives pruning exactly when it was recorded and lies strictly inside the window at the current time |
| RateLimiter.Dispatch | salespulse-ai-backend/src/middleware/rate_limiter.py:12-32 | the request is forwarded exactly when fewer than the limit of the client's times remain in the window; the client keeps the pruned times, plus the current one when forwarded; a refusal is 429 "Rate limit exceeded"; other clients are untouched |
| RateLimiter.DispatchKeepsLimit | salespulse-ai-backend/src/middleware/rate_limiter.py:25-29 | no client ever holds more recorded times than the limit, so a forwarded request leaves at most the limit recorded |
| RateLimiter.RefusedNotRecorded | salespulse-ai-backend/src/middleware/rate_limiter.py:20-26 | a refused request records nothing new: only earlier times still in the window remain |
| RateLimiter.PruneSnoc | salespulse-ai-backend/src/middleware/rate_limiter.py:20-23 | pruning works time by time and keeps the order |
| RateLimiter.PruneRecent | salespulse-ai-backend/src/middleware/rate_limiter.py:20-23 | pruning again at a later time gives the admitted times still recent at that later time |
| RateLimiter.SlidingStep | salespulse-ai-backend/src/middleware/rate_limiter.py:12-29 | one more request, no earlier than the last, keeps the middleware's admissions and records in step with the sliding-window rule |
| RateLimiter.SlidingWindow | salespulse-ai-backend/src/middleware/rate_limiter.py:12-29 | for a new client and non-decreasing times, the middleware admits a request exactly when fewer than the limit admitted requests lie in the window before it, and it records exactly the admitted times still in the window |
| Recommendations.CatalogueShape | salespulse-ai-backend/src/services/ai/recommendation_service.py:6-10 | the catalogue has exactly the three categories, each with three distinct items |
| Recommendations.Draw | salespulse-ai-backend/src/services/ai/recommendation_service.py:16 | the picks and the pool left over are exactly the population, nothing gained or lost |
| Recommendations.Sample | salespulse-ai-backend/src/services/ai/recommendation_service.py:16 | a negative or too-large size raises; otherwise the sample has the requested size, takes items from the population without reuse, has no duplicates when the population has none, and is a permutation of it when it takes all |
| Recommendations.SwapOut | salespulse-ai-backend/src/services/ai/recommendation_service.py:16 | taking one item out of the pool and filling its place with the last item loses that item only |
| Recommendations.DistinctSub | salespulse-ai-backend/src/services/ai/recommendation_service.py:16 | items drawn without reuse from a duplicate-free population are duplicate-free |
| Recommendations.GetRecommendations | salespulse-ai-backend/src/services/ai/recommendation_service.py:12-16 | an unknown category raises the invalid-category error; a negative count raises the sampling error; otherwise the result has min(count, 3) distinct items of the category, and all three when count is at least 3 |
| Recommendations.FollowUpMessage | salespulse-ai-backend/src/services/ai/recommendation_service.py:18-20 | the message fails exactly for an unknown interest; otherwise it opens with the interest (or "products"), names every item of the category and ends with a full stop |

## Left out

- The network clients (Twilio, Whapi, SMTP) and the Groq SDK are not modelled. They are pure I/O, and they appear as the `Sender` and `Groq.Responder` parameters.
- WhatsApp provider selection (`settings.WHATSAPP_PROVIDER`) and the GET verification and health endpoints are not modelled. `Webhooks.FormWebhook` serves both the Twilio WhatsApp and the SMS handler, with the channel as a parameter.
- The TwiML XML wrapping is not modelled (`build_twiml_response` is not part of this model); the TwiML answer is its text. `mark_message_read` is modelled only as the list of message ids read. The phone formatting inside `send_whatsapp` is not modelled.
- The asyncio scheduler loop and task lifecycle (src/services/trigger_service.py:627-651) are not modelled, nor is any interleaving of a poll with a reply; each store update is an atomic step.
- The aiosqlite connection layer and DDL are not modelled. On the lead-reply path and in the booking commands one `dbOk` flag stands for every database call of a request, so a store cannot fail part-way through one request. The booking endpoints have one flag for the lookup and one per write (`writeOk`, `convOk`, `sentOk`). Two single failures are modelled on their own: the completion UPDATE of an execution (`Triggers.ExecuteTriggerWith`) and the INSERT of a new trigger (`Triggers.CreateTriggerWith`). `check_recipient_replied` returning False after an exception is not modelled; its query is taken to succeed.
- BookingEndpoints.ConfirmBookingEndpoint: a row is promised to be confirmed only when the UPDATE's store works (`writeOk`). `confirm_booking` swallows a failing UPDATE (src/services/booking_service.py:131-133), and the endpoint still answers success (src/api/v1/endpoints/bookings.py:109-110) with the row left pending; the contract states that case.
- BookingEndpoints.CancelBookingEndpoint: the same for cancellation: a failing UPDATE (src/services/booking_service.py:158-160) still answers success (src/api/v1/endpoints/bookings.py:122-123) with the row left as it was.
- BookingEndpoints.SendBookingConfirmation: the two logs grow only when their own stores work (`convOk`, `sentOk`). `store_message` and `store_sent_message` swallow their failures, so a delivered request is reported sent even when nothing is logged; the contract states that case.
- Triggers.ExecuteTrigger: takes every UPDATE to succeed. A raising completion UPDATE is `Triggers.ExecuteTriggerWith`; a raising UPDATE in the failure branch (src/services/trigger_service.py:578-594), and a store that goes down between the poll's SELECT and the execution, are not modelled.
- Triggers.CreateTrigger: takes the INSERT to succeed; its failure is `Triggers.CreateTriggerWith`. `Drip.CreateDripCampaign` builds on `Triggers.CreateTrigger`, so a drip step whose INSERT raises is not modelled.
- Triggers.CreateTrigger: a due time past 9999-12-31 23:59 fails with `OverflowError`'s "date value out of range". A delay so large that `timedelta(minutes=…)` itself overflows (more than 999,999,999 days) raises with `timedelta`'s own message, which the model does not distinguish. The clock reading `now` is not checked for range: `datetime.utcnow()` always lies within it.
- ReplyHandler.ApplyCommands: runs the corrected code search (`BookingActions.ProcessBookingActions`), not the raw-reply search that src/services/trigger_service.py:318 reaches; the difference is the row under Findings.
- ReplyHandler.Finish: reaches the booking commands through `ReplyHandler.ApplyCommands`, so it too uses the corrected code search, not the as-written one.
- ReplyHandler.HandleLeadReply: uses the corrected code search through `ReplyHandler.Finish`; with the as-written search a confirm or cancel reply naming a code after its tag acts on every pending booking of the number.
- Conversations.Window: `ORDER BY created_at DESC` (src/services/conversation_service.py:29) is modelled as newest-inserted first; `created_at` has one-second resolution, and SQLite leaves the order of rows with equal keys unspecified, so ties are broken by insertion order here.
- Conversations.GetRecentMessages: reads through `Conversations.Window`, so two messages of a number stored in the same second come back in insertion order, which SQLite does not promise.
- Bookings.SelectNewestFirst: the same tie-breaking by insertion order for bookings created in the same second (src/services/booking_service.py:61,180).
- Triggers.TriggerContext: `ORDER BY executed_at DESC, created_at DESC` (src/services/trigger_service.py:353) is modelled with ties broken by insertion order; the steps of one drip campaign are inserted within the same second, so among them the choice is the model's.
- Triggers.DueTriggers: the poll's SELECT has no ORDER BY (src/services/trigger_service.py:602-604); the due rows are taken in id order.
- ReplyHandler.HandleLeadReply: that the lead's message closes the prompt's history rests on the insertion-order tie-break above, since the message just stored may share its second with earlier ones.
- `datetime.utcnow()` and SQLite's `datetime('now', '-24 hours')` are not modelled; time is one integer clock of minutes since 0001-01-01 00:00 UTC, whose only modelled limit is the end of year 9999. All steps of a drip campaign use the same `now`, and ISO-string timestamp comparison becomes integer comparison.
- Floating-point amounts are not modelled: amounts are exact `real`s. `RoundCents` rounds the exact value half to even, where Python rounds the nearest binary double. `str()` of a float is the `amountRepr` parameter, and `:,.2f` is `FormatMoney`.
- `str.lower`, `str.upper`, `\w`, `\d` and `re.IGNORECASE` are modelled on ASCII letters and digits only. `str.isspace` uses Python's whitespace set. Python's Unicode `str.upper` maps more: `"ab1ß2".upper()` is `AB1SS2` and `"ſubject:".upper()` is `SUBJECT:`. Such a code passed to `confirmation_code.upper()` (src/services/booking_service.py:81,120,147), or such a rewrite header (src/services/openai_service.py:113-121), is treated differently here: `Bookings.GetBookingByCode` looks for the code as spelled, and `Groq.HasHeader` does not see the header.
- Python's `random` is not modelled as a generator. Each of the `k=6` picks of `random.choices` becomes `draws(i) % 36`. `random.sample` uses the pool method with `draws(i) % (n - i)` as its `_randbelow`; its set-based method for large samples is not modelled, since the samples here have at most 3 items.
- `str.format` is not modelled as a parser: the templates are held already split at their placeholders.
- `repr()` of JSON containers is the `repr` parameter. JSON floats are not modelled; JSON numbers are integers.
- FastAPI and pydantic plumbing are not modelled: `HTTPException` handling, error-message texts and response wrapping. A rejected request gives the list of failing field names.
- `get_all_triggers` and its listing endpoint, `get_active_triggers_for_recipient`, `store_generated_message`, `get_all_contacts` and the analytics aggregates are not modelled. They are plain reads without logic beyond what `Bookings.SelectNewestFirst` and `Conversations.Window` state.
- The frontend and the remaining `salespulse-ai-backend` services, models and endpoints are not modelled. They are UI or thin framework wrappers.
- Text.Strip: states the length bound and that no edge whitespace is left. That only the edge runs are removed is stated by `Text.StripKeepsContained`.
- Text.CleanNumber: states only that no `+` is left. How it combines with `LIKE` is stated by `Text.LikeContainsIsSubstring`.
- Conversations.ForNumber: states only the size bound. Which rows it keeps, in order, is `Conversations.ForNumberMembers`.
- BookingActions.ExtractTag: states only that a value needs a `[`. What it returns is stated by `BookingActions.ExtractTagRoundTrip` and `BookingActions.ExtractTagAbsent`.
- BookingActions.DropSubTags: states only that the text never grows. What is removed and kept is stated by `BookingActions.SubTagDropped` and `BookingActions.DropSubTagsKeepsPlainText`.
- BookingActions.DropActionTags: states only that the text never grows. What is removed and kept is stated by `BookingActions.ActionTagDropped` and `BookingActions.DropActionTagsKeepsPlainText`.
- BookingActions.ProcessBookingActionsAsWritten: states the no-command and failure cases. The command paths are `BookingActions.AsWrittenConfirmDispatch` and `BookingActions.AsWrittenConfirmsAllPending`.
- Webhooks.Get: states only the missing-key case.
- Webhooks.ChatSender: states only that no `@` is left. The sender it yields is stated by `Webhooks.SenderFromChatId`.
- Scoring.PersonalCount: states only that each word counts at most once. The exact count is its definition, which the bonus lemmas use.
- Triggers.ProcessDue: states only that the table keeps its size. What a poll does to each row is stated by `Triggers.ProcessDueEffect` and `Triggers.PollDrainsDue`.
- Triggers.ProcessPendingTriggers: states only that the table keeps its size. The full effect is `Triggers.PollDrainsDue`.
- Drip.StepRequest: states which message, recipient, name and step number a step gets. The delay and subject are stated by `Drip.DelaysIncrease` and `Drip.StepSubject`.
- BookingActions.ConfirmCommand: states only that a row stays as it was or moves from pending to confirmed. Which rows move is stated by `BookingActions.UnknownCodeConfirmsAll`, `BookingActions.NamedCommandResults` and `BookingActions.CodeUpdateEffect`.
- BookingActions.CancelCommand: states only that a row stays as it was or moves from pending to cancelled. Which rows move is stated by `BookingActions.UnknownCodeCancelsAll`, `BookingActions.NamedCommandResults` and `BookingActions.CodeUpdateEffect`.
- BookingActions.StatusCommand: states that the bookings are unchanged and the note for a store that is down. The listing's text is stated by `BookingActions.StatusNamesListedBookings`.

## Findings

| source | as written | input that shows it | evidently intended | confidence | as-written member | corrected member |
|---|---|---|---|---|---|---|
| src/services/trigger_service.py:437,455 | the code search `\b([A-Z0-9]{6})\b` runs over the original reply, whose `[ACTION: CONFIRM]` / `[ACTION: CANCEL]` tag already holds the six-letter word `ACTION`, so a code written after the tag is never found and the command falls back to every pending booking of the number | pending bookings AB12CD and ZZ99ZZ of one number, reply `[ACTION: CONFIRM] AB12CD`: both are confirmed | only the named booking AB12CD is confirmed (the search runs over the reply without its action tag) | not executed | BookingActions.CodeAfterTagCounterexample | BookingActions.ConfirmsNamedCodeOnly |
| src/services/trigger_service.py:416-487 | every emoji, rupee sign and em dash of the booking texts is spelled as its UTF-8 bytes read through Windows-1252 (`ðŸ“‹`, `âœ…`, `â‚¹`, `â€”`), and these characters are what the lead receives | a reply `AB12CD [ACTION: CONFIRM]` with booking AB12CD stored: the note appended is `âœ… Booking *AB12CD* confirmed!` | the note reads `✅ Booking *AB12CD* confirmed!`, with the characters bookings.py:137-145 writes | not executed | BookingActions.AsWrittenNotesGarbled | BookingEndpoints.CreatedNoteMatchesRequest |

The as-written behaviour is `BookingActions.ProcessBookingActionsAsWritten`, and
`BookingActions.AsWrittenConfirmsAllPending` states it for every code. The corrected
`BookingActions.ProcessBookingActions` searches the reply after its action tags are removed.
`ReplyHandler` uses the corrected version. `BookingActions.CancelsNamedCodeOnly` states the same for
cancellation, and `BookingActions.CodeAfterTagConfirmsOther` compares the two for every pair of
distinct codes.

`Glyphs.GarbledIsGarble` shows that every spelling of trigger_service.py is the misreading of the
intended character, and `Glyphs.MarksDiffer` that none of them equals it. The booking texts take
the marks as a parameter, and the booking endpoints use `Glyphs.Emoji`;
`BookingEndpoints.CreatedNoteMatchesRequest` shows that with those marks the chat note after a
creation repeats the lines of the confirmation request.

=== FILE: booking_actions.dfy ===
/**
 * The booking-action mini-language read out of a generated reply.  A reply may carry one command:
 * `[CREATE_BOOKING]` with `[TITLE: ..]`, `[TYPE: ..]`, `[DATE: ..]`, `[TIME: ..]`, `[AMOUNT: ..]`
 * sub-tags, or `[ACTION: CONFIRM]`, `[ACTION: CANCEL]`, `[ACTION: STATUS]`.  The first command in
 * that order is executed against the booking store, its tags are removed from the reply, and a
 * summary is appended.
 *
 * The regular expressions of `_extract_tag`, `_remove_booking_tags` and `_remove_action_tags` are
 * written out as scanners with Python's `re` semantics: leftmost match, greedy `\s*` that gives
 * characters back, lazy `.+?` that never crosses a newline.
 */
module BookingActions {
  import opened Outcomes
  import opened Text
  import opened Bookings
  import opened Glyphs

  // ---------------------------------------------------------------- tag scanning

  /** `s` starts with `word`, ignoring ASCII case (`re.IGNORECASE`). */
  predicate CiStartsWith(s: string, word: string) {
    |word| <= |s| && forall k :: 0 <= k < |word| ==> CiEq(s[k], word[k])
  }

  /**
   * The first `]` at or after `e` that the lazy `.+?` can reach: it stops at the first `]` and
   * fails at a newline or at the end of the text.
   */
  function ScanClose(s: string, e: nat): (r: Option<nat>)
    ensures r.Some? ==> e <= r.value < |s| && s[r.value] == ']'
    ensures r.Some? ==> forall k :: e <= k < r.value ==> s[k] != ']' && s[k] != '\n'
    decreases |s| - e
  {
    if e >= |s| then None
    else if s[e] == ']' then Some(e)
    else if s[e] == '\n' then None
    else ScanClose(s, e + 1)
  }

  /** `(.+?)\]` starting at `j`: at least one non-newline character, then the first `]`. */
  function LazyGroup(s: string, j: nat): (r: Option<nat>)
    ensures r.Some? ==> j < r.value < |s| && s[r.value] == ']'
    ensures r.Some? ==> forall k :: j <= k < r.value ==> s[k] != '\n'
    ensures r.Some? ==> forall k :: j < k < r.value ==> s[k] != ']'
  {
    if j < |s| && s[j] != '\n' then ScanClose(s, j + 1) else None
  }

  /**
   * The backtracking of `\s*` after the colon at `p`: `\s*` first takes all `k` blank characters
   * and gives one back after each failure of the group.  The result is the group's bounds.
   */
  function Backtrack(s: string, p: nat, k: nat): (r: Option<(nat, nat)>)
    ensures r.Some? ==> p <= r.value.0 <= p + k && r.value.0 < r.value.1 < |s| && s[r.value.1] == ']'
    ensures r.Some? ==> forall n :: r.value.0 <= n < r.value.1 ==> s[n] != '\n'
    ensures r.Some? ==> forall n :: r.value.0 < n < r.value.1 ==> s[n] != ']'
    decreases k
  {
    match LazyGroup(s, p + k)
    case Some(e) => Some((p + k, e))
    case None => if k == 0 then None else Backtrack(s, p, k - 1)
  }

  /** `\[<tag>:\s*(.+?)\]` anchored at the start of `s`; the result is the group's bounds. */
  function TagMatch(s: string, tag: string): (r: Option<(nat, nat)>)
    ensures r.Some? ==> |tag| + 2 <= r.value.0 < r.value.1 < |s| && s[r.value.1] == ']'
    ensures r.Some? ==> s[0] == '[' && CiStartsWith(s[1..], tag) && s[|tag| + 1] == ':'
    ensures r.Some? ==> forall n :: r.value.0 <= n < r.value.1 ==> s[n] != '\n'
  {
    var p := |tag| + 2;
    if p <= |s| && s[0] == '[' && CiStartsWith(s[1..], tag) && s[p - 1] == ':' then
      Backtrack(s, p, LeadingRun(s[p..], IsSpace))
    else None
  }

  /**
   * `_extract_tag`: the stripped group of the leftmost `[TAG: value]` (tag letters in any case),
   * or `None` when there is none.
   */
  function ExtractTag(s: string, tag: string): (r: Option<string>)
    ensures r.Some? ==> '[' in s
    decreases |s|
  {
    if |s| == 0 then None
    else match TagMatch(s, tag)
      case Some(g) => Some(Strip(s[g.0..g.1]))
      case None =>
        var r := ExtractTag(s[1..], tag);
        assert r.Some? ==> '[' in s[1..];
        r
  }

  /** The text of a well-formed sub-tag, as a reply would spell it. */
  function TagText(tag: string, value: string): string {
    "[" + tag + ": " + value + "]"
  }

  /** A value that `TagText` spells unambiguously: it starts with a visible character and stays on one line inside the brackets. */
  predicate PlainValue(v: string) {
    |v| > 0 && !IsSpace(v[0]) && ']' !in v && '\n' !in v
  }

  lemma {:induction false} ScanCloseFinds(s: string, e: nat, c: nat)
    requires e <= c < |s| && s[c] == ']'
    requires forall k :: e <= k < c ==> s[k] != ']' && s[k] != '\n'
    ensures ScanClose(s, e) == Some(c)
    decreases c - e
  {
    if e < c {
      ScanCloseFinds(s, e + 1, c);
    }
  }

  /** A well-formed tag at the start of the text matches, and its group is exactly the value. */
  lemma TagMatchOfTagText(tag: string, v: string, post: string)
    requires PlainValue(v)
    ensures TagMatch(TagText(tag, v) + post, tag) == Some((|tag| + 3, |tag| + 3 + |v|))
  {
    var s := TagText(tag, v) + post;
    var p := |tag| + 2;
    assert s == "[" + tag + ":" + " " + v + "]" + post;
    assert s[1..][..|tag|] == tag;
    assert s[p - 1] == ':';
    assert s[p] == ' ';
    assert s[p + 1] == v[0];
    assert LeadingRun(s[p..], IsSpace) == 1 by {
      assert s[p..][0] == ' ';
      assert s[p..][1] == v[0];
    }
    forall k | p + 2 <= k < p + 1 + |v| ensures s[k] != ']' && s[k] != '\n' {
      assert s[k] == v[k - p - 1];
    }
    assert s[p + 1 + |v|] == ']';
    ScanCloseFinds(s, p + 2, p + 1 + |v|);
  }

  /**
   * Round trip of `_extract_tag`: behind text without `[`, the tag written as `[TAG: value]` is
   * read back as the stripped value, whatever follows it.
   */
  lemma {:induction false} ExtractTagRoundTrip(pre: string, tag: string, v: string, post: string)
    requires '[' !in pre && PlainValue(v)
    ensures ExtractTag(pre + TagText(tag, v) + post, tag) == Some(Strip(v))
    decreases |pre|
  {
    var s := pre + TagText(tag, v) + post;
    if |pre| == 0 {
      assert s == TagText(tag, v) + post;
      TagMatchOfTagText(tag, v, post);
      assert s[|tag| + 3..|tag| + 3 + |v|] == v;
    } else {
      assert s[0] == pre[0];
      assert s[1..] == pre[1..] + TagText(tag, v) + post;
      ExtractTagRoundTrip(pre[1..], tag, v, post);
    }
  }

  /** Text without `[` carries no tag. */
  lemma {:induction false} ExtractTagAbsent(s: string, tag: string)
    requires '[' !in s
    ensures ExtractTag(s, tag) == None
  {
  }

  // ---------------------------------------------------------------- tag removal

  const SubTagNames: seq<string> := ["TITLE", "TYPE", "DATE", "TIME", "AMOUNT"]

  /** `\[(TITLE|TYPE|DATE|TIME|AMOUNT):\s*.+?\]` anchored at the start: the length of the match. */
  function SubTagAt(s: string, names: seq<string>): (r: Option<nat>)
    ensures r.Some? ==> 0 < r.value <= |s|
    ensures r.Some? ==> s[0] == '['
  {
    if |names| == 0 then None
    else match TagMatch(s, names[0])
      case Some(g) => Some(g.1 + 1)
      case None => SubTagAt(s, names[1..])
  }

  /** The `re.sub` of the sub-tag pattern with `""`: a left-to-right scan deleting each match.  A match opens with `[`, so any other character is kept at once. */
  function DropSubTags(s: string): (r: string)
    ensures |r| <= |s|
    decreases |s|
  {
    if |s| == 0 then ""
    else if s[0] != '[' then [s[0]] + DropSubTags(s[1..])
    else match SubTagAt(s, SubTagNames)
      case Some(n) => DropSubTags(s[n..])
      case None => [s[0]] + DropSubTags(s[1..])
  }

  /** `_remove_booking_tags`: the exact `[CREATE_BOOKING]` marker, then every sub-tag, then strip. */
  function RemoveBookingTags(s: string): string {
    Strip(DropSubTags(ReplaceAll(s, CreateTag, "")))
  }

  /** `\[ACTION:\s*\w+\]` anchored at the start: the length of the match.  The blank run and the word run cannot share characters, so no backtracking is needed. */
  function ActionTagAt(s: string): (r: Option<nat>)
    ensures r.Some? ==> 9 < r.value <= |s| && s[0] == '[' && s[r.value - 1] == ']'
  {
    if 8 <= |s| && s[0] == '[' && CiStartsWith(s[1..], "ACTION") && s[7] == ':' then
      var m := LeadingRun(s[8..], IsSpace);
      var w := LeadingRun(s[8 + m..], IsWordChar);
      if w > 0 && 8 + m + w < |s| && s[8 + m + w] == ']' then Some(8 + m + w + 1) else None
    else None
  }

  function DropActionTags(s: string): (r: string)
    ensures |r| <= |s|
    decreases |s|
  {
    if |s| == 0 then ""
    else if s[0] != '[' then [s[0]] + DropActionTags(s[1..])
    else match ActionTagAt(s)
      case Some(n) => DropActionTags(s[n..])
      case None => [s[0]] + DropActionTags(s[1..])
  }

  /** `_remove_action_tags`: every action tag (any word, any case) deleted, then strip. */
  function RemoveActionTags(s: string): string {
    Strip(DropActionTags(s))
  }

  lemma HeadThenTail(a: string, x: string)
    requires |a| > 0
    ensures [a[0]] + (a[1..] + x) == a + x
  {
    assert a == [a[0]] + a[1..];
  }

  /** Text before the first `[` passes through the sub-tag removal unchanged. */
  lemma {:induction false} DropSubTagsKeepsPlainText(a: string, b: string)
    requires '[' !in a
    ensures DropSubTags(a + b) == a + DropSubTags(b)
    decreases |a|
  {
    if |a| == 0 {
      assert a + b == b;
    } else {
      calc {
        DropSubTags(a + b);
        == { assert (a + b)[0] == a[0]; }
        [a[0]] + DropSubTags((a + b)[1..]);
        == { assert (a + b)[1..] == a[1..] + b; }
        [a[0]] + DropSubTags(a[1..] + b);
        == { DropSubTagsKeepsPlainText(a[1..], b); }
        [a[0]] + (a[1..] + DropSubTags(b));
        == { HeadThenTail(a, DropSubTags(b)); }
        a + DropSubTags(b);
      }
    }
  }

  /** Text before the first `[` passes through the action-tag removal unchanged. */
  lemma {:induction false} DropActionTagsKeepsPlainText(a: string, b: string)
    requires '[' !in a
    ensures DropActionTags(a + b) == a + DropActionTags(b)
    decreases |a|
  {
    if |a| == 0 {
      assert a + b == b;
    } else {
      calc {
        DropActionTags(a + b);
        == { assert (a + b)[0] == a[0]; }
        [a[0]] + DropActionTags((a + b)[1..]);
        == { assert (a + b)[1..] == a[1..] + b; }
        [a[0]] + DropActionTags(a[1..] + b);
        == { DropActionTagsKeepsPlainText(a[1..], b); }
        [a[0]] + (a[1..] + DropActionTags(b));
        == { HeadThenTail(a, DropActionTags(b)); }
        a + DropActionTags(b);
      }
    }
  }

  /** A position where two different sub-tag names disagree in every letter case. */
  function NameClash(i: nat, j: nat): (k: nat)
    requires i < |SubTagNames| && j < |SubTagNames| && i != j
    ensures k < |SubTagNames[i]| && k < |SubTagNames[j]|
    ensures Lower(SubTagNames[i][k]) != Lower(SubTagNames[j][k])
  {
    var a := SubTagNames[i];
    var b := SubTagNames[j];
    if a[0] != b[0] then 0 else if a[1] != b[1] then 1 else 2
  }

  /** Text that starts with one sub-tag name does not start with another. */
  lemma NamesExclusive(s: string, i: nat, j: nat)
    requires i < |SubTagNames| && j < |SubTagNames| && i != j
    requires CiStartsWith(s, SubTagNames[i])
    ensures !CiStartsWith(s, SubTagNames[j])
  {
    var k := NameClash(i, j);
    assert CiEq(s[k], SubTagNames[i][k]);
  }

  /** A well-formed sub-tag is deleted whole, together with nothing else. */
  lemma SubTagDropped(i: nat, v: string, b: string)
    requires i < |SubTagNames| && PlainValue(v)
    ensures DropSubTags(TagText(SubTagNames[i], v) + b) == DropSubTags(b)
  {
    var tag := SubTagNames[i];
    var s := TagText(tag, v) + b;
    TagMatchOfTagText(tag, v, b);
    assert CiStartsWith(s[1..], tag);
    assert SubTagAt(s, SubTagNames[i..]) == Some(|TagText(tag, v)|);
    var j := i;
    while j > 0
      invariant 0 <= j <= i
      invariant SubTagAt(s, SubTagNames[j..]) == Some(|TagText(tag, v)|)
    {
      j := j - 1;
      NamesExclusive(s[1..], i, j);
      assert SubTagNames[j..][0] == SubTagNames[j];
      assert SubTagNames[j..][1..] == SubTagNames[j + 1..];
    }
    assert SubTagNames[0..] == SubTagNames;
    assert s[|TagText(tag, v)|..] == b;
  }

  /** An action tag is deleted whole. */
  lemma ActionTagDropped(word: string, b: string)
    requires |word| > 0 && forall k :: 0 <= k < |word| ==> IsWordChar(word[k])
    ensures DropActionTags("[ACTION: " + word + "]" + b) == DropActionTags(b)
  {
    var s := "[ACTION: " + word + "]" + b;
    assert s[..9] == "[ACTION: ";
    assert s[1..7] == s[..9][1..7] == "ACTION";
    assert s[1..][..6] == s[1..7];
    assert CiStartsWith(s[1..], "ACTION");
    assert s[8..][0] == ' ';
    assert s[8..][1..] == word + "]" + b;
    assert LeadingRun(s[8..], IsSpace) == 1 by {
      assert !IsSpace(s[8..][1]);
    }
    assert s[9..][..|word|] == word;
    assert s[9..][|word|] == ']';
    assert LeadingRun(s[9..], IsWordChar) == |word| by {
      LeadingRunCovers(s[9..], |word|, IsWordChar);
    }
    assert s[10 + |word|..] == b;
  }

  /** A text without `[` holds no create marker, and both tag removals leave it as it is, stripped. */
  lemma RemoveTagsKeepPlainText(a: string)
    requires '[' !in a
    ensures RemoveBookingTags(a) == Strip(a) && RemoveActionTags(a) == Strip(a)
  {
    forall i | 0 <= i <= |a| - |CreateTag| ensures !OccursAt(a, CreateTag, i) {
      assert a[i] in a;
    }
    ReplaceAbsent(a, CreateTag, "");
    DropSubTagsKeepsPlainText(a, "");
    DropActionTagsKeepsPlainText(a, "");
    assert a + "" == a;
  }

  /** `_remove_action_tags` deletes an action tag and keeps the plain text before it. */
  lemma RemoveActionTagsDropsTag(a: string, word: string, b: string)
    requires '[' !in a
    requires |word| > 0 && forall k :: 0 <= k < |word| ==> IsWordChar(word[k])
    ensures RemoveActionTags(a + ("[ACTION: " + word + "]") + b) == Strip(a + DropActionTags(b))
  {
    var tag := "[ACTION: " + word + "]";
    assert a + tag + b == a + (tag + b);
    DropActionTagsKeepsPlainText(a, tag + b);
    ActionTagDropped(word, b);
  }

  /** `_remove_booking_tags` deletes a sub-tag and keeps the plain text before it. */
  lemma RemoveBookingTagsDropsSubTag(a: string, i: nat, v: string, b: string)
    requires '[' !in a && i < |SubTagNames| && PlainValue(v)
    requires !Contains(a + TagText(SubTagNames[i], v) + b, CreateTag)
    ensures RemoveBookingTags(a + TagText(SubTagNames[i], v) + b) == Strip(a + DropSubTags(b))
  {
    var tag := TagText(SubTagNames[i], v);
    ReplaceAbsent(a + tag + b, CreateTag, "");
    assert a + tag + b == a + (tag + b);
    DropSubTagsKeepsPlainText(a, tag + b);
    SubTagDropped(i, v, b);
  }

  lemma {:induction false} LeadingRunCovers(s: string, n: nat, p: char -> bool)
    requires n <= |s| && (forall k :: 0 <= k < n ==> p(s[k])) && (n < |s| ==> !p(s[n]))
    ensures LeadingRun(s, p) == n
    decreases n
  {
    if n > 0 {
      assert s[1..][..n - 1] == s[1..n];
      LeadingRunCovers(s[1..], n - 1, p);
    }
  }

  // ---------------------------------------------------------------- commands

  const CreateTag: string := "[CREATE_BOOKING]"
  const ConfirmTag: string := "[ACTION: CONFIRM]"
  const CancelTag: string := "[ACTION: CANCEL]"
  const StatusTag: string := "[ACTION: STATUS]"

  // ---------------------------------------------------------------- confirmation-code search

  /** `\b[A-Z0-9]{6}\b` at `i`: six code characters with a word boundary on each side (case-sensitive). */
  predicate CodeAt(s: string, i: nat) {
    && i + CodeLength <= |s|
    && (i == 0 || !IsWordChar(s[i - 1]))
    && (forall k :: i <= k < i + CodeLength ==> IsUpperAlnum(s[k]))
    && (i + CodeLength == |s| || !IsWordChar(s[i + CodeLength]))
  }

  function CodeIndexFrom(s: string, i: nat): (r: Option<nat>)
    ensures r.Some? ==> i <= r.value && CodeAt(s, r.value)
    ensures r.Some? ==> forall k :: i <= k < r.value ==> !CodeAt(s, k)
    ensures r.None? ==> forall k :: i <= k ==> !CodeAt(s, k)
    decreases |s| - i
  {
    if i + CodeLength > |s| then None
    else if CodeAt(s, i) then Some(i)
    else CodeIndexFrom(s, i + 1)
  }

  /** `re.search(r'\b([A-Z0-9]{6})\b', s)`: the leftmost six-character code word of `s`. */
  function FirstCodeToken(s: string): (r: Option<string>)
    ensures r.Some? ==> IsCode(r.value)
    ensures r.None? ==> forall k :: !CodeAt(s, k)
  {
    match CodeIndexFrom(s, 0)
    case None => None
    case Some(i) => Some(s[i..i + CodeLength])
  }

  // ---------------------------------------------------------------- amounts

  /** The class `[\d,.]`. */
  predicate IsNumChar(c: char) { IsDigit(c) || c == ',' || c == '.' }

  predicate NotNumChar(c: char) { !IsNumChar(c) }

  /** `re.findall(r'[\d,.]+', s)[0]`: the first maximal run of digits, commas and dots. */
  function NumberRun(s: string): (r: Option<string>)
    ensures r.Some? ==> |r.value| > 0 && forall k :: 0 <= k < |r.value| ==> IsNumChar(r.value[k])
    ensures r.None? ==> forall k :: 0 <= k < |s| ==> !IsNumChar(s[k])
  {
    var i := LeadingRun(s, NotNumChar);
    if i == |s| then None
    else
      var rest := s[i..];
      Some(rest[..LeadingRun(rest, IsNumChar)])
  }

  function Pow10(n: nat): (r: nat)
    ensures r > 0
  {
    if n == 0 then 1 else 10 * Pow10(n - 1)
  }

  /** The message of the `ValueError` that `float(t)` raises. */
  function FloatError(t: string): string {
    "could not convert string to float: '" + t + "'"
  }

  predicate HasDigit(t: string) {
    exists k :: 0 <= k < |t| && IsDigit(t[k])
  }

  predicate AtMostOneDot(t: string) {
    forall i, j :: 0 <= i < j < |t| && t[i] == '.' ==> t[j] != '.'
  }

  /**
   * Python's `float(t)` for text made of digits and dots, read as an exact decimal; which texts
   * it accepts is `FloatOfAccepts`.
   */
  function FloatOf(t: string): (r: Result<real, string>)
    requires forall k :: 0 <= k < |t| ==> IsDigit(t[k]) || t[k] == '.'
    ensures r.Ok? ==> r.value >= 0.0
    ensures r.Err? ==> r.error == FloatError(t)
  {
    match FirstIndexOf(t, '.')
    case None =>
      if |t| > 0 then Ok(DigitsValue(t) as real) else Err(FloatError(t))
    case Some(d) =>
      var ip := t[..d];
      var fp := t[d + 1..];
      assert forall k :: 0 <= k < |fp| ==> fp[k] == t[d + 1 + k];
      if '.' in fp || (|ip| == 0 && |fp| == 0) then Err(FloatError(t))
      else Ok(DecimalValue(ip, fp))
  }

  /** The exact value of `<ip>.<fp>`. */
  function DecimalValue(ip: string, fp: string): (v: real)
    requires forall k :: 0 <= k < |ip| ==> IsDigit(ip[k])
    requires forall k :: 0 <= k < |fp| ==> IsDigit(fp[k])
    ensures v >= 0.0
  {
    DigitsValue(ip) as real + DigitsValue(fp) as real / Pow10(|fp|) as real
  }

  /** Text with one dot, not at the front, reads as its integer part plus its fraction. */
  lemma FloatOfOneDot(ip: string, fp: string)
    requires |ip| > 0 && forall k :: 0 <= k < |ip| ==> IsDigit(ip[k])
    requires forall k :: 0 <= k < |fp| ==> IsDigit(fp[k])
    ensures FloatOf(ip + "." + fp) == Ok(DecimalValue(ip, fp))
  {
    var t := ip + "." + fp;
    assert '.' !in fp;
    FirstDotAfter(ip, fp);
    assert t[..|ip|] == ip;
    assert t[|ip| + 1..] == fp;
  }

  /** `float` accepts a text of digits and dots iff it has a digit and at most one dot (`"1."` and `".5"` are numbers). */
  lemma FloatOfAccepts(t: string)
    requires forall k :: 0 <= k < |t| ==> IsDigit(t[k]) || t[k] == '.'
    ensures FloatOf(t).Ok? <==> HasDigit(t) && AtMostOneDot(t)
  {
    match FirstIndexOf(t, '.')
    case None =>
      if |t| > 0 {
        assert IsDigit(t[0]);
      }
    case Some(d) =>
      var ip := t[..d];
      var fp := t[d + 1..];
      assert forall k :: 0 <= k < |ip| ==> ip[k] != '.' && ip[k] == t[k];
      assert forall k :: 0 <= k < |fp| ==> fp[k] == t[d + 1 + k];
      if '.' in fp {
        var j :| 0 <= j < |fp| && fp[j] == '.';
        assert t[d] == '.' && t[d + 1 + j] == '.';
      } else if |ip| == 0 && |fp| == 0 {
        assert |t| == 1;
      } else {
        assert (|ip| > 0 ==> IsDigit(t[0])) && (|ip| == 0 ==> IsDigit(t[d + 1]));
      }
  }

  /**
   * The amount of a create command: `None` when the tag is absent or empty or has no number run;
   * otherwise `float` of the first run with its commas removed, which raises on a run such as `"."`.
   */
  function ParseAmount(tagValue: Option<string>): (r: Result<Option<real>, string>)
    ensures tagValue.None? || tagValue.value == "" ==> r == Ok(None)
    ensures r.Ok? && r.value.Some? ==> r.value.value >= 0.0
  {
    if tagValue.None? || tagValue.value == "" then Ok(None)
    else match NumberRun(tagValue.value)
      case None => Ok(None)
      case Some(run) =>
        var t := ReplaceAll(run, ",", "");
        assert forall k :: 0 <= k < |t| ==> t[k] in run && t[k] != ',';
        match FloatOf(t)
        case Ok(x) => Ok(Some(x))
        case Err(e) => Err(e)
  }

  /** A number run without a digit makes the parse raise: the error escapes the command. */
  lemma DigitlessRunRaises(v: string)
    requires NumberRun(v).Some? && forall k :: 0 <= k < |NumberRun(v).value| ==> !IsDigit(NumberRun(v).value[k])
    ensures ParseAmount(Some(v)).Err?
  {
    var run := NumberRun(v).value;
    var t := ReplaceAll(run, ",", "");
    assert forall k :: 0 <= k < |t| ==> t[k] in run && t[k] != ',';
    assert !HasDigit(t);
    FloatOfAccepts(t);
  }

  /** `"Rs. 500"`: the first run is the lone dot, so the amount cannot be read. */
  lemma RupeePrefixRaises()
    ensures ParseAmount(Some("Rs. 500")).Err?
  {
    var v := "Rs. 500";
    assert LeadingRun(v, NotNumChar) == 2 by {
      LeadingRunCovers(v, 2, NotNumChar);
    }
    assert v[2..][..LeadingRun(v[2..], IsNumChar)] == "." by {
      LeadingRunCovers(v[2..], 1, IsNumChar);
    }
    DigitlessRunRaises(v);
  }

  // ---------------------------------------------------------------- money

  /** `x * 100` rounded to the nearest integer, ties to even. */
  function RoundCents(x: real): (c: nat)
    requires x >= 0.0
    ensures c as real - 0.5 <= x * 100.0 <= c as real + 0.5
  {
    var f := (x * 100.0).Floor;
    var d := x * 100.0 - f as real;
    if d > 0.5 || (d == 0.5 && f % 2 == 1) then f + 1 else f
  }

  /** Digits with a comma between each group of three, counted from the right (the `,` option of a format string). */
  function Group(d: string): (r: string)
    ensures forall k :: 0 <= k < |r| ==> r[k] == ',' || r[k] in d
    decreases |d|
  {
    if |d| <= 3 then d
    else
      var head := d[..|d| - 3];
      var g := Group(head);
      assert forall c :: c in head ==> c in d;
      g + "," + d[|d| - 3..]
  }

  /** Removing the separators gives the digits back. */
  lemma {:induction false} GroupUngroups(d: string)
    requires ',' !in d
    ensures ReplaceAll(Group(d), ",", "") == d
    decreases |d|
  {
    if |d| <= 3 {
      RemoveAbsentChar(d, ',');
    } else {
      var head := d[..|d| - 3];
      var tail := d[|d| - 3..];
      assert ',' !in head && ',' !in tail;
      var g := Group(head);
      GroupUngroups(head);
      RemoveCharAppend(g, ",", ',');
      RemoveSeparator(',');
      assert ReplaceAll(g + ",", ",", "") == head;
      RemoveCharAppend(g + ",", tail, ',');
      RemoveAbsentChar(tail, ',');
      assert Group(d) == g + "," + tail;
      assert head + tail == d;
    }
  }

  lemma RemoveSeparator(c: char)
    ensures ReplaceAll([c], [c], "") == ""
  {
    assert [c][..1] == [c];
    assert [c][1..] == [];
  }

  function TwoDigits(n: nat): (r: string)
    requires n < 100
    ensures |r| == 2 && IsDigit(r[0]) && IsDigit(r[1])
  {
    [DigitChar(n / 10), DigitChar(n % 10)]
  }

  /** `f"{x:,.2f}"` for a non-negative amount. */
  function UnsignedMoney(x: real): string
    requires x >= 0.0
  {
    var c := RoundCents(x);
    Group(NatToString(c / 100)) + "." + TwoDigits(c % 100)
  }

  /** `f"{x:,.2f}"`: grouped thousands and two decimals, with a leading minus for negative amounts. */
  function FormatMoney(x: real): string {
    if x < 0.0 then "-" + UnsignedMoney(-x) else UnsignedMoney(x)
  }

  /**
   * An amount shown with `:,.2f` and read back as an AMOUNT tag gives its magnitude rounded to
   * cents: the minus sign of a negative amount is not part of the number run.
   */
  lemma FormatMoneyReadsBack(x: real)
    ensures x >= 0.0 ==> ParseAmount(Some(FormatMoney(x))) == Ok(Some(RoundCents(x) as real / 100.0))
    ensures x < 0.0 ==> && FormatMoney(x)[0] == '-'
                        && ParseAmount(Some(FormatMoney(x))) == Ok(Some(RoundCents(-x) as real / 100.0))
  {
    if x >= 0.0 {
      assert FormatMoney(x) == UnsignedMoney(x);
      ParseFormattedMoney(x);
    } else {
      var y := -x;
      assert FormatMoney(x) == "-" + UnsignedMoney(y);
      SignedReadsBack(y);
    }
  }

  lemma SignedReadsBack(y: real)
    requires y > 0.0
    ensures ParseAmount(Some("-" + UnsignedMoney(y))) == Ok(Some(RoundCents(y) as real / 100.0))
  {
    var m := UnsignedMoney(y);
    MinusSkipped(m, y);
    SameRunSameAmount("-" + m, m);
    ParseFormattedMoney(y);
  }

  /** The minus sign in front of a formatted amount is not a number character, so the run is the amount's. */
  lemma MinusSkipped(m: string, y: real)
    requires y >= 0.0 && m == UnsignedMoney(y)
    ensures NumberRun("-" + m) == NumberRun(m)
  {
    var s := "-" + m;
    MoneyIsNumberRun(y);
    assert s[1..] == m;
    LeadingRunCovers(s, 1, NotNumChar);
    LeadingRunCovers(m, 0, NotNumChar);
  }

  /** Two tag values with the same first number run read back as the same amount. */
  lemma SameRunSameAmount(a: string, b: string)
    requires a != "" && b != "" && NumberRun(a) == NumberRun(b)
    ensures ParseAmount(Some(a)) == ParseAmount(Some(b))
  {
  }

  lemma TwoDigitsValue(n: nat)
    requires n < 100
    ensures DigitsValue(TwoDigits(n)) == n
  {
    var r := TwoDigits(n);
    assert r[..1][..0] == [];
    assert DigitsValue(r[..1]) == n / 10;
  }

  /** A text made only of number characters is its own first number run. */
  lemma WholeRun(m: string)
    requires |m| > 0 && forall k :: 0 <= k < |m| ==> IsNumChar(m[k])
    ensures NumberRun(m) == Some(m)
  {
    assert LeadingRun(m, NotNumChar) == 0;
    LeadingRunCovers(m, |m|, IsNumChar);
    assert m[0..] == m && m[..|m|] == m;
  }

  lemma {:induction false} FirstDotAfter(a: string, b: string)
    requires '.' !in a
    ensures FirstIndexOf(a + "." + b, '.') == Some(|a|)
    decreases |a|
  {
    if |a| > 0 {
      assert (a + "." + b)[1..] == a[1..] + "." + b;
      FirstDotAfter(a[1..], b);
    }
  }

  /** `float` of `"<digits>.<two digits>"`. */
  lemma FloatOfCents(ds: string, ff: string)
    requires |ds| > 0 && forall k :: 0 <= k < |ds| ==> IsDigit(ds[k])
    requires |ff| == 2 && IsDigit(ff[0]) && IsDigit(ff[1])
    ensures FloatOf(ds + "." + ff) == Ok(DigitsValue(ds) as real + DigitsValue(ff) as real / 100.0)
  {
    CentsTextChars(ds, ff);
    FloatOfOneDot(ds, ff);
    CentsValue(ds, ff);
  }

  lemma CentsTextChars(ds: string, ff: string)
    requires forall k :: 0 <= k < |ds| ==> IsDigit(ds[k])
    requires |ff| == 2 && IsDigit(ff[0]) && IsDigit(ff[1])
    ensures forall k :: 0 <= k < |ff| ==> IsDigit(ff[k])
    ensures var t := ds + "." + ff; forall k :: 0 <= k < |t| ==> IsDigit(t[k]) || t[k] == '.'
  {
    var t := ds + "." + ff;
    forall k | 0 <= k < |t| ensures IsDigit(t[k]) || t[k] == '.' {
      if k > |ds| {
        assert t[k] == ff[k - |ds| - 1];
      } else if k < |ds| {
        assert t[k] == ds[k];
      }
    }
  }

  lemma CentsValue(ds: string, ff: string)
    requires forall k :: 0 <= k < |ds| ==> IsDigit(ds[k])
    requires |ff| == 2 && forall k :: 0 <= k < |ff| ==> IsDigit(ff[k])
    ensures DecimalValue(ds, ff) == DigitsValue(ds) as real + DigitsValue(ff) as real / 100.0
  {
    HundredthsValue(DigitsValue(ds), DigitsValue(ff), Pow10(|ff|));
  }

  lemma HundredthsValue(a: nat, b: nat, p: nat)
    requires p == Pow10(2)
    ensures a as real + b as real / p as real == a as real + b as real / 100.0
  {
    assert Pow10(1) == 10;
  }

  /**
   * Formatting and parsing agree: the amount parser reads a formatted non-negative amount back as
   * the amount rounded to cents, the thousands separators notwithstanding.
   */
  lemma ParseFormattedMoney(x: real)
    requires x >= 0.0
    ensures ParseAmount(Some(UnsignedMoney(x))) == Ok(Some(RoundCents(x) as real / 100.0))
  {
    var c := RoundCents(x);
    var ds := NatToString(c / 100);
    var ff := TwoDigits(c % 100);
    FormattedMoneyRun(x);
    FloatOfCents(ds, ff);
    NatToStringRoundTrip(c / 100);
    TwoDigitsValue(c % 100);
    CentsSplit(c);
  }

  /** A formatted amount is one number run, and dropping its separators leaves `<digits>.<two digits>`. */
  lemma FormattedMoneyRun(x: real)
    requires x >= 0.0
    ensures var c := RoundCents(x);
            && NumberRun(UnsignedMoney(x)) == Some(UnsignedMoney(x))
            && ReplaceAll(UnsignedMoney(x), ",", "") == NatToString(c / 100) + "." + TwoDigits(c % 100)
  {
    MoneyIsNumberRun(x);
    MoneyUngroups(x);
  }

  lemma MoneyIsNumberRun(x: real)
    requires x >= 0.0
    ensures NumberRun(UnsignedMoney(x)) == Some(UnsignedMoney(x))
  {
    var c := RoundCents(x);
    var ds := NatToString(c / 100);
    var g := Group(ds);
    var ff := TwoDigits(c % 100);
    var m := UnsignedMoney(x);
    assert m == g + ("." + ff);
    forall k | 0 <= k < |m| ensures IsNumChar(m[k]) {
      if k < |g| {
        assert m[k] == g[k];
        assert g[k] == ',' || g[k] in ds;
      }
    }
    WholeRun(m);
  }

  lemma MoneyUngroups(x: real)
    requires x >= 0.0
    ensures var c := RoundCents(x);
            ReplaceAll(UnsignedMoney(x), ",", "") == NatToString(c / 100) + "." + TwoDigits(c % 100)
  {
    var c := RoundCents(x);
    var ds := NatToString(c / 100);
    var g := Group(ds);
    var ff := TwoDigits(c % 100);
    assert UnsignedMoney(x) == g + ("." + ff);
    GroupUngroups(ds);
    RemoveCharAppend(g, "." + ff, ',');
    RemoveAbsentChar("." + ff, ',');
  }

  lemma CentsSplit(c: nat)
    ensures (c / 100) as real + (c % 100) as real / 100.0 == c as real / 100.0
  {
    assert c == 100 * (c / 100) + c % 100;
  }

  // ---------------------------------------------------------------- summaries

  // Every summary takes its marks as a parameter: `Garbled` is what trigger_service.py sends,
  // `Emoji` what it evidently meant (and what the booking endpoints send).

  /** Python truthiness of an optional text. */
  predicate Given(o: Option<string>) { o.Some? && o.value != "" }

  /** Python truthiness of an optional amount: `0.0` is falsy. */
  predicate AmountGiven(o: Option<real>) { o.Some? && o.value != 0.0 }

  /** `value or default`. */
  function OrDefault(o: Option<string>, default: string): (r: string)
    ensures Given(o) ==> r == o.value
    ensures !Given(o) ==> r == default
  {
    if Given(o) then o.value else default
  }

  const ConfirmPrompt: string := "Reply *CONFIRM* to confirm or *CANCEL* to cancel."

  /** The lines of the creation summary above the code line; each optional line only when its value is truthy. */
  function CreatedLines(marks: Marks, title: string, date: Option<string>, time: Option<string>, amount: Option<real>): string
  {
    CreatedHead(marks) + TitleLine(marks, title) + DateLine(marks, date) + TimeLine(marks, time) + AmountLine(marks, amount)
  }

  function CreatedHead(marks: Marks): string { "\n\n" + marks.clipboard + " *Booking Created*\n" }

  function TitleLine(marks: Marks, title: string): string { marks.pin + " " + title + "\n" }

  function DateLine(marks: Marks, date: Option<string>): string {
    if Given(date) then marks.calendar + " Date: " + date.value + "\n" else ""
  }

  function TimeLine(marks: Marks, time: Option<string>): string {
    if Given(time) then marks.clock + " Time: " + time.value + "\n" else ""
  }

  function AmountLine(marks: Marks, amount: Option<real>): string {
    if AmountGiven(amount) then marks.moneyBag + " Amount: " + marks.rupee + FormatMoney(amount.value) + "\n" else ""
  }

  /** The block appended after a booking is created. */
  function CreatedNote(marks: Marks, title: string, date: Option<string>, time: Option<string>, amount: Option<real>,
                       code: string): string
  {
    CreatedLines(marks, title, date, time, amount) + marks.bookmark + " Code: " + ("*" + code + "*") + ("\n\n" + ConfirmPrompt)
  }

  function StatusMark(marks: Marks, s: BookingStatus): string {
    match s
    case Pending => marks.hourglass
    case Confirmed => marks.check
    case Cancelled => marks.cross
  }

  /** One line of the status listing. */
  function StatusLine(marks: Marks, b: Booking): string {
    StatusMark(marks, b.status) + " " + ("*" + b.confirmationCode + "*") + " " + marks.emDash + " " + b.title + " "
    + ("(" + StatusName(b.status) + ")") + AmountNote(marks, b.amount) + "\n"
  }

  /** The amount shown after a booking's status, when it has one. */
  function AmountNote(marks: Marks, amount: Option<real>): string {
    if AmountGiven(amount) then " " + marks.rupee + FormatMoney(amount.value) else ""
  }

  function StatusLines(marks: Marks, bs: seq<Booking>): string {
    if |bs| == 0 then "" else StatusLine(marks, bs[0]) + StatusLines(marks, bs[1..])
  }

  const StatusLimit: int := 5

  /** A status line names the booking's code between asterisks and its status, and ends the line. */
  lemma StatusLineNamesBooking(marks: Marks, b: Booking)
    ensures Contains(StatusLine(marks, b), "*" + b.confirmationCode + "*")
    ensures Contains(StatusLine(marks, b), "(" + StatusName(b.status) + ")")
    ensures StatusLine(marks, b)[|StatusLine(marks, b)| - 1] == '\n'
  {
    var code := "*" + b.confirmationCode + "*";
    var paren := "(" + StatusName(b.status) + ")";
    var s1 := StatusMark(marks, b.status) + " ";
    ContainsWhole(s1, code, " ");
    var s2 := s1 + code + " ";
    ContainsAppend(s2, marks.emDash, code);
    ContainsAppend(s2 + marks.emDash, " ", code);
    ContainsAppend(s2 + marks.emDash + " ", b.title, code);
    var s3 := s2 + marks.emDash + " " + b.title + " ";
    ContainsAppend(s2 + marks.emDash + " " + b.title, " ", code);
    ContainsAppend(s3, paren, code);
    ContainsWhole(s3, paren, AmountNote(marks, b.amount));
    ContainsAppend(s3 + paren, AmountNote(marks, b.amount), code);
    ContainsAppend(s3 + paren + AmountNote(marks, b.amount), "\n", code);
    ContainsAppend(s3 + paren + AmountNote(marks, b.amount), "\n", paren);
  }

  /** The status listing names every booking it is given. */
  lemma {:induction false} StatusLinesNameAll(marks: Marks, bs: seq<Booking>)
    ensures forall k :: 0 <= k < |bs| ==> Contains(StatusLines(marks, bs), "*" + bs[k].confirmationCode + "*")
    decreases |bs|
  {
    if |bs| > 0 {
      StatusLinesNameAll(marks, bs[1..]);
      StatusLineNamesBooking(marks, bs[0]);
      forall k | 0 <= k < |bs| ensures Contains(StatusLines(marks, bs), "*" + bs[k].confirmationCode + "*") {
        if k == 0 {
          ContainsAppend(StatusLine(marks, bs[0]), StatusLines(marks, bs[1..]), "*" + bs[0].confirmationCode + "*");
        } else {
          assert bs[k] == bs[1..][k - 1];
          ContainsPrepend(StatusLine(marks, bs[0]), StatusLines(marks, bs[1..]), "*" + bs[k].confirmationCode + "*");
        }
      }
    }
  }

  /** The lines above the code line name the title. */
  lemma CreatedLinesNameTitle(marks: Marks, title: string, date: Option<string>, time: Option<string>, amount: Option<real>)
    ensures Contains(CreatedLines(marks, title, date, time, amount), TitleLine(marks, title))
  {
    var t := TitleLine(marks, title);
    ContainsWhole(CreatedHead(marks), t, "");
    assert CreatedHead(marks) + t + "" == CreatedHead(marks) + t;
    ContainsAppend(CreatedHead(marks) + t, DateLine(marks, date), t);
    ContainsAppend(CreatedHead(marks) + t + DateLine(marks, date), TimeLine(marks, time), t);
    ContainsAppend(CreatedHead(marks) + t + DateLine(marks, date) + TimeLine(marks, time), AmountLine(marks, amount), t);
  }

  /** The lines above the code line show a given amount after the rupee sign. */
  lemma CreatedLinesNameAmount(marks: Marks, title: string, date: Option<string>, time: Option<string>, x: real)
    requires x != 0.0
    ensures Contains(CreatedLines(marks, title, date, time, Some(x)), marks.rupee + FormatMoney(x))
  {
    var money := marks.rupee + FormatMoney(x);
    assert AmountLine(marks, Some(x)) == (marks.moneyBag + " Amount: ") + money + "\n";
    ContainsWhole(marks.moneyBag + " Amount: ", money, "\n");
    ContainsPrepend(CreatedHead(marks) + TitleLine(marks, title) + DateLine(marks, date) + TimeLine(marks, time), AmountLine(marks, Some(x)), money);
  }

  /** The creation note names the title, the amount when one is given, and the code. */
  lemma CreatedNoteNamesBooking(marks: Marks, title: string, date: Option<string>, time: Option<string>, amount: Option<real>,
                                code: string)
    ensures Contains(CreatedNote(marks, title, date, time, amount, code), TitleLine(marks, title))
    ensures Contains(CreatedNote(marks, title, date, time, amount, code), "*" + code + "*")
    ensures AmountGiven(amount) ==>
              Contains(CreatedNote(marks, title, date, time, amount, code), marks.rupee + FormatMoney(amount.value))
  {
    var lines := CreatedLines(marks, title, date, time, amount);
    var tail := marks.bookmark + " Code: " + ("*" + code + "*") + ("\n\n" + ConfirmPrompt);
    assert CreatedNote(marks, title, date, time, amount, code) == lines + tail;
    ContainsWhole(marks.bookmark + " Code: ", "*" + code + "*", "\n\n" + ConfirmPrompt);
    ContainsPrepend(lines, tail, "*" + code + "*");
    CreatedLinesNameTitle(marks, title, date, time, amount);
    ContainsAppend(lines, tail, TitleLine(marks, title));
    if AmountGiven(amount) {
      CreatedLinesNameAmount(marks, title, date, time, amount.value);
      ContainsAppend(lines, tail, marks.rupee + FormatMoney(amount.value));
    }
  }

  // ---------------------------------------------------------------- executing the commands

  /** The cleaned reply and the booking table after the command ran. */
  datatype ActionResult = ActionResult(reply: string, bookings: BookingTable)

  /** No command tag occurs (each is looked for as an exact, case-sensitive substring). */
  predicate NoCommand(reply: string) {
    !Contains(reply, CreateTag) && !Contains(reply, ConfirmTag) && !Contains(reply, CancelTag)
    && !Contains(reply, StatusTag)
  }

  /** The request `create_booking` receives for a create command. */
  function CreateRequest(reply: string, phone: string, amount: Option<real>): NewBooking {
    NewBooking(phone, OrDefault(ExtractTag(reply, "TITLE"), "New Booking"),
               OrDefault(ExtractTag(reply, "TYPE"), "general"), None, None,
               ExtractTag(reply, "DATE"), ExtractTag(reply, "TIME"), amount, "INR", None)
  }

  /** The reply after a creation shows the new code between asterisks. */
  lemma CreatedNoteShowsCode(marks: Marks, prefix: string, title: string, date: Option<string>, time: Option<string>,
                             amount: Option<real>, code: string)
    ensures Contains(Strip(prefix + CreatedNote(marks, title, date, time, amount, code)), "*" + code + "*")
  {
    var mark := "*" + code + "*";
    var before := CreatedLines(marks, title, date, time, amount) + marks.bookmark + " Code: ";
    var text := prefix + CreatedNote(marks, title, date, time, amount, code);
    assert CreatedNote(marks, title, date, time, amount, code) == before + mark + ("\n\n" + ConfirmPrompt);
    Regroup(prefix, before, mark, "\n\n" + ConfirmPrompt);
    ContainsWhole(prefix + before, mark, "\n\n" + ConfirmPrompt);
    StripKeepsContained(text, mark);
  }

  /**
   * The create command.  A malformed amount raises before the store is touched; a store failure
   * (`dbOk` false) is logged and leaves the reply as it was, tags included, up to the final strip.
   */
  function CreateCommand(marks: Marks, reply: string, phone: string, t: BookingTable, draws: nat -> nat, now: int,
                         dbOk: bool): (r: Result<ActionResult, string>)
    ensures r.Err? <==> ParseAmount(ExtractTag(reply, "AMOUNT")).Err?
    ensures r.Ok? && !dbOk ==> r.value == ActionResult(Strip(reply), t)
    ensures r.Ok? && dbOk ==>
              && |r.value.bookings| == |t| + 1 && r.value.bookings[..|t|] == t
              && r.value.bookings[|t|].status == Pending && r.value.bookings[|t|].phoneNumber == phone
              && Contains(r.value.reply, "*" + r.value.bookings[|t|].confirmationCode + "*")
  {
    match ParseAmount(ExtractTag(reply, "AMOUNT"))
    case Err(e) => Err(e)
    case Ok(amount) =>
      if !dbOk then Ok(ActionResult(Strip(reply), t))
      else
        var req := CreateRequest(reply, phone, amount);
        var (t', b) := CreateBooking(t, req, draws, now);
        var text := RemoveBookingTags(reply) + CreatedNote(marks, req.title, req.date, req.time, amount, b.confirmationCode);
        CreatedNoteShowsCode(marks, RemoveBookingTags(reply), req.title, req.date, req.time, amount, b.confirmationCode);
        assert t'[..|t|] == t;
        Ok(ActionResult(Strip(text), t'))
  }

  /** One-row outcome text of the confirm command. */
  function ConfirmedOne(marks: Marks, code: string): string { "\n\n" + marks.check + " Booking *" + code + "* confirmed!" }

  function CancelledOne(marks: Marks, code: string): string { "\n\n" + marks.cross + " Booking *" + code + "* has been cancelled." }

  /**
   * The one-booking notes with the marks trigger_service.py spells are the intended notes garbled
   * as a whole: the code and the words are ASCII and come through, and only the mark changes.
   */
  lemma AsWrittenNotesGarbled(code: string)
    requires IsAscii(code)
    ensures ConfirmedOne(Garbled, code) == Garble(ConfirmedOne(Emoji, code))
    ensures CancelledOne(Garbled, code) == Garble(CancelledOne(Emoji, code))
    ensures ConfirmedOne(Garbled, code) != ConfirmedOne(Emoji, code)
    ensures CancelledOne(Garbled, code) != CancelledOne(Emoji, code)
  {
    ConfirmedNoteGarbled(code);
    CancelledNoteGarbled(code);
  }

  lemma ConfirmedNoteGarbled(code: string)
    requires IsAscii(code)
    ensures ConfirmedOne(Garbled, code) == Garble(ConfirmedOne(Emoji, code))
    ensures ConfirmedOne(Garbled, code) != ConfirmedOne(Emoji, code)
  {
    MarkedNoteGarbled(Emoji.check, code, "* confirmed!");
    GarbledCheck();
    assert ConfirmedOne(Garbled, code)[2] != ConfirmedOne(Emoji, code)[2];
  }

  lemma CancelledNoteGarbled(code: string)
    requires IsAscii(code)
    ensures CancelledOne(Garbled, code) == Garble(CancelledOne(Emoji, code))
    ensures CancelledOne(Garbled, code) != CancelledOne(Emoji, code)
  {
    MarkedNoteGarbled(Emoji.cross, code, "* has been cancelled.");
    GarbledCross();
    assert CancelledOne(Garbled, code)[2] != CancelledOne(Emoji, code)[2];
  }

  lemma MarkedNoteGarbled(mark: string, code: string, rest: string)
    requires IsAscii(code) && IsAscii(rest)
    ensures Garble("\n\n" + mark + " Booking *" + code + rest) == "\n\n" + Garble(mark) + " Booking *" + code + rest
  {
    GarbleMarkThen("\n\n", mark, " Booking *", code, rest);
  }

  /** The notes of the action commands when there is nothing to act on, or the store cannot be read. */
  function NoneToConfirm(marks: Marks): string { "\n\n" + marks.info + " No pending bookings found to confirm." }
  function NoneToCancel(marks: Marks): string { "\n\n" + marks.info + " No pending bookings found to cancel." }
  function NoBookingsYet(marks: Marks): string { "\n\n" + marks.info + " You have no bookings yet." }

  /**
   * The confirm command.  A code word of `codeText` that names an existing booking (of any number,
   * in any status) is confirmed alone; otherwise every pending booking of the number is confirmed;
   * otherwise nothing changes and a note says so.
   */
  function ConfirmCommand(marks: Marks, reply: string, codeText: string, phone: string, t: BookingTable, now: int,
                          dbOk: bool): (r: ActionResult)
    ensures |r.bookings| == |t|
    ensures !dbOk ==> r == ActionResult(Strip(RemoveActionTags(reply) + NoneToConfirm(marks)), t)
    ensures forall i :: 0 <= i < |t| ==> r.bookings[i] == t[i] || (t[i].status == Pending && r.bookings[i] == Confirm(t[i], now))
  {
    var clean := RemoveActionTags(reply);
    var code := FirstCodeToken(codeText);
    if code.Some? && GetBookingByCode(t, code.value, dbOk).Some? then
      ActionResult(Strip(clean + ConfirmedOne(marks, code.value)), ConfirmBooking(t, None, Some(code.value), now, dbOk).0)
    else if |GetPendingBookings(t, phone, dbOk)| > 0 then
      var (t', n) := ConfirmAllPending(t, phone, now, dbOk);
      ActionResult(Strip(clean + "\n\n" + marks.check + " " + NatToString(n) + " booking(s) confirmed successfully!"), t')
    else
      ActionResult(Strip(clean + NoneToConfirm(marks)), t)
  }

  /** The cancel command, the mirror image of `ConfirmCommand`. */
  function CancelCommand(marks: Marks, reply: string, codeText: string, phone: string, t: BookingTable, now: int,
                         dbOk: bool): (r: ActionResult)
    ensures |r.bookings| == |t|
    ensures !dbOk ==> r == ActionResult(Strip(RemoveActionTags(reply) + NoneToCancel(marks)), t)
    ensures forall i :: 0 <= i < |t| ==> r.bookings[i] == t[i] || (t[i].status == Pending && r.bookings[i] == Cancel(t[i], now))
  {
    var clean := RemoveActionTags(reply);
    var code := FirstCodeToken(codeText);
    if code.Some? && GetBookingByCode(t, code.value, dbOk).Some? then
      ActionResult(Strip(clean + CancelledOne(marks, code.value)), CancelBooking(t, None, Some(code.value), now, dbOk).0)
    else if |GetPendingBookings(t, phone, dbOk)| > 0 then
      var (t', n) := CancelAllPending(t, phone, now, dbOk);
      ActionResult(Strip(clean + "\n\n" + marks.cross + " " + NatToString(n) + " booking(s) cancelled."), t')
    else
      ActionResult(Strip(clean + NoneToCancel(marks)), t)
  }

  /** The status command: the number's five newest bookings, one line each, or a note that there are none. */
  function StatusHead(marks: Marks): string { "\n\n" + marks.clipboard + " *Your Bookings:*\n" }

  function StatusCommand(marks: Marks, reply: string, phone: string, t: BookingTable, dbOk: bool): (r: ActionResult)
    ensures r.bookings == t
    ensures !dbOk ==> r.reply == Strip(RemoveActionTags(reply) + NoBookingsYet(marks))
  {
    var clean := RemoveActionTags(reply);
    var bs := GetAllBookings(t, Some(phone), None, StatusLimit, dbOk);
    if |bs| > 0 then
      ActionResult(Strip(clean + StatusHead(marks) + StatusLines(marks, bs)), t)
    else
      ActionResult(Strip(clean + NoBookingsYet(marks)), t)
  }

  /** With a working store, the status reply names the code of every booking the listing query returns. */
  lemma StatusNamesListedBookings(marks: Marks, reply: string, phone: string, t: BookingTable)
    ensures var bs := GetAllBookings(t, Some(phone), None, StatusLimit, true);
            forall k :: 0 <= k < |bs| ==>
              Contains(StatusCommand(marks, reply, phone, t, true).reply, "*" + bs[k].confirmationCode + "*")
  {
    var bs := GetAllBookings(t, Some(phone), None, StatusLimit, true);
    if |bs| > 0 {
      var head := RemoveActionTags(reply) + StatusHead(marks);
      var out := StatusCommand(marks, reply, phone, t, true).reply;
      assert out == Strip(head + StatusLines(marks, bs));
      StatusLinesNameAll(marks, bs);
      forall k | 0 <= k < |bs|
        ensures Contains(out, "*" + bs[k].confirmationCode + "*")
      {
        var mark := "*" + bs[k].confirmationCode + "*";
        ContainsPrepend(head, StatusLines(marks, bs), mark);
        StripKeepsContained(head + StatusLines(marks, bs), mark);
      }
    }
  }

  /**
   * `_process_booking_actions` with the code word searched in `codeText`: the first command in the
   * order create, confirm, cancel, status runs, and only that one.
   */
  function RunCommands(marks: Marks, reply: string, codeText: string, phone: string, t: BookingTable,
                       draws: nat -> nat, now: int, dbOk: bool): (r: Result<ActionResult, string>)
    ensures NoCommand(reply) ==> r == Ok(ActionResult(Strip(reply), t))
    ensures r.Err? ==> Contains(reply, CreateTag)
    ensures Contains(reply, CreateTag) && r.Ok? ==>
              r.value.bookings == t || (dbOk && |r.value.bookings| == |t| + 1 && r.value.bookings[..|t|] == t)
    ensures !Contains(reply, CreateTag) ==> r.Ok? && |r.value.bookings| == |t|
    ensures !Contains(reply, CreateTag) && Contains(reply, ConfirmTag) ==>
              forall i :: 0 <= i < |t| ==>
                r.value.bookings[i] == t[i] || (t[i].status == Pending && r.value.bookings[i] == Confirm(t[i], now))
    ensures !Contains(reply, CreateTag) && !Contains(reply, ConfirmTag) && Contains(reply, CancelTag) ==>
              forall i :: 0 <= i < |t| ==>
                r.value.bookings[i] == t[i] || (t[i].status == Pending && r.value.bookings[i] == Cancel(t[i], now))
    ensures !Contains(reply, CreateTag) && !Contains(reply, ConfirmTag) && !Contains(reply, CancelTag) ==>
              r.value.bookings == t
    // a store that cannot be reached changes no booking, whichever command runs
    ensures !dbOk && r.Ok? ==> r.value.bookings == t
  {
    if Contains(reply, CreateTag) then CreateCommand(marks, reply, phone, t, draws, now, dbOk)
    else if Contains(reply, ConfirmTag) then Ok(ConfirmCommand(marks, reply, codeText, phone, t, now, dbOk))
    else if Contains(reply, CancelTag) then Ok(CancelCommand(marks, reply, codeText, phone, t, now, dbOk))
    else if Contains(reply, StatusTag) then Ok(StatusCommand(marks, reply, phone, t, dbOk))
    else Ok(ActionResult(Strip(reply), t))
  }

  /** `_process_booking_actions` as written: the code word is searched in the original reply, tags included. */
  function ProcessBookingActionsAsWritten(marks: Marks, reply: string, phone: string, t: BookingTable, draws: nat -> nat,
                                          now: int, dbOk: bool): (r: Result<ActionResult, string>)
    ensures NoCommand(reply) ==> r == Ok(ActionResult(Strip(reply), t))
    ensures r.Err? ==> Contains(reply, CreateTag)
    ensures !dbOk && r.Ok? ==> r.value.bookings == t
  {
    RunCommands(marks, reply, reply, phone, t, draws, now, dbOk)
  }

  /** `_process_booking_actions` with the code word searched in the reply after its action tags are removed. */
  function ProcessBookingActions(marks: Marks, reply: string, phone: string, t: BookingTable, draws: nat -> nat,
                                 now: int, dbOk: bool): (r: Result<ActionResult, string>)
    ensures NoCommand(reply) ==> r == Ok(ActionResult(Strip(reply), t))
    ensures r.Err? ==> Contains(reply, CreateTag)
    ensures !Contains(reply, CreateTag) ==> r.Ok? && |r.value.bookings| == |t|
    ensures !dbOk && r.Ok? ==> r.value.bookings == t
  {
    RunCommands(marks, reply, RemoveActionTags(reply), phone, t, draws, now, dbOk)
  }

  // ---------------------------------------------------------------- properties of the commands

  /** Text without `[` in front of the searched part is skipped by the tag search. */
  lemma {:induction false} ExtractTagSkipsPlain(a: string, b: string, tag: string)
    requires '[' !in a
    ensures ExtractTag(a + b, tag) == ExtractTag(b, tag)
    decreases |a|
  {
    if |a| == 0 {
      assert a + b == b;
    } else {
      var s := a + b;
      assert s[0] == a[0];
      assert TagMatch(s, tag).None?;
      assert s[1..] == a[1..] + b;
      ExtractTagSkipsPlain(a[1..], b, tag);
    }
  }

  /** The create marker in front of the sub-tags is never mistaken for one of them. */
  lemma CreateTagSkipped(b: string, i: nat)
    requires i < |SubTagNames|
    ensures ExtractTag(CreateTag + b, SubTagNames[i]) == ExtractTag(b, SubTagNames[i])
  {
    var tag := SubTagNames[i];
    var s := CreateTag + b;
    assert s[1] == 'C';
    assert Lower(tag[0]) != 'c';
    assert TagMatch(s, tag).None?;
    assert s[1..] == "CREATE_BOOKING]" + b;
    ExtractTagSkipsPlain("CREATE_BOOKING]", b, tag);
  }

  /** A sub-tag is not read as any other sub-tag. */
  lemma OtherTagAbsent(i: nat, j: nat, v: string)
    requires i < |SubTagNames| && j < |SubTagNames| && i != j && '[' !in v
    ensures ExtractTag(TagText(SubTagNames[i], v), SubTagNames[j]) == None
  {
    var s := TagText(SubTagNames[i], v);
    assert s[1..] == SubTagNames[i] + ": " + v + "]";
    assert s[1..][..|SubTagNames[i]|] == SubTagNames[i];
    NamesExclusive(s[1..], i, j);
    assert TagMatch(s, SubTagNames[j]).None?;
    assert '[' !in SubTagNames[i];
    ExtractTagAbsent(s[1..], SubTagNames[j]);
  }

  /**
   * Text with a single bracket, at its start, holds a bracketed marker only if it agrees with the
   * marker at every position; one disagreeing position `k` rules the marker out.
   */
  lemma NoMarker(x: string, m: string, k: nat)
    requires 0 < k < |m| && k < |x| && m[0] == '[' && x[k] != m[k] && '[' !in x[1..]
    ensures !Contains(x, m)
  {
    forall i | 0 <= i <= |x| - |m| ensures !OccursAt(x, m, i) {
      if i == 0 {
        assert x[..|m|][k] == x[k];
      } else {
        assert x[i] == x[1..][i - 1];
        assert x[i..i + |m|][0] != m[0];
      }
    }
  }

  /** Text that opens with a bracket not followed by `C`, and has no other bracket, holds no create marker. */
  lemma NoCreateMarker(x: string)
    requires |x| > 1 && x[0] == '[' && x[1] != 'C' && '[' !in x[1..]
    ensures !Contains(x, CreateTag)
  {
    NoMarker(x, CreateTag, 1);
  }

  /** The sub-tags read from `[CREATE_BOOKING][TITLE: v]`: the title is the stripped value, the rest are absent. */
  lemma CreateReplyTags(v: string)
    requires PlainValue(v) && '[' !in v
    ensures var reply := CreateTag + TagText("TITLE", v);
            && ExtractTag(reply, "TITLE") == Some(Strip(v))
            && ExtractTag(reply, "TYPE") == None && ExtractTag(reply, "DATE") == None
            && ExtractTag(reply, "TIME") == None && ExtractTag(reply, "AMOUNT") == None
  {
    CreateReplyTitle(v);
    CreateReplyOther(v, 1);
    CreateReplyOther(v, 2);
    CreateReplyOther(v, 3);
    CreateReplyOther(v, 4);
  }

  lemma CreateReplyTitle(v: string)
    requires PlainValue(v) && '[' !in v
    ensures ExtractTag(CreateTag + TagText("TITLE", v), "TITLE") == Some(Strip(v))
  {
    var tt := TagText("TITLE", v);
    calc {
      ExtractTag(CreateTag + tt, "TITLE");
      == { CreateTagSkipped(tt, 0); }
      ExtractTag(tt, "TITLE");
      == { assert tt == "" + tt + ""; ExtractTagRoundTrip("", "TITLE", v, ""); }
      Some(Strip(v));
    }
  }

  lemma CreateReplyOther(v: string, j: nat)
    requires PlainValue(v) && '[' !in v && 0 < j < |SubTagNames|
    ensures ExtractTag(CreateTag + TagText("TITLE", v), SubTagNames[j]) == None
  {
    CreateTagSkipped(TagText("TITLE", v), j);
    OtherTagAbsent(0, j, v);
  }

  /** Removing the tags from `[CREATE_BOOKING][TITLE: v]` leaves nothing. */
  lemma CreateReplyCleaned(v: string)
    requires PlainValue(v) && '[' !in v
    ensures Contains(CreateTag + TagText("TITLE", v), CreateTag)
    ensures RemoveBookingTags(CreateTag + TagText("TITLE", v)) == ""
  {
    var tt := TagText("TITLE", v);
    var reply := CreateTag + tt;
    assert reply == "" + CreateTag + tt;
    ContainsWhole("", CreateTag, tt);
    assert tt[1..] == "TITLE: " + v + "]";
    NoCreateMarker(tt);
    ReplaceAbsent(tt, CreateTag, "");
    assert reply[..|CreateTag|] == CreateTag && reply[|CreateTag|..] == tt;
    assert ReplaceAll(reply, CreateTag, "") == tt;
    assert tt + "" == tt;
    SubTagDropped(0, v, "");
  }

  /**
   * `[CREATE_BOOKING][TITLE: v]` creates one pending booking titled with the stripped value, of type
   * "general", in INR, without date, time or amount, and the reply is exactly the creation summary.
   */
  lemma CreateWithTitleOnly(marks: Marks, v: string, phone: string, t: BookingTable, draws: nat -> nat, now: int)
    requires PlainValue(v) && '[' !in v
    ensures var r := ProcessBookingActions(marks, CreateTag + TagText("TITLE", v), phone, t, draws, now, true);
            && r.Ok? && |r.value.bookings| == |t| + 1 && r.value.bookings[..|t|] == t
            && var b := r.value.bookings[|t|];
            && b.title == Strip(v) && b.bookingType == "general" && b.currency == "INR"
            && b.date.None? && b.time.None? && b.amount.None? && b.status == Pending && b.phoneNumber == phone
            && r.value.reply == Strip(CreatedNote(marks, Strip(v), None, None, None, b.confirmationCode))
  {
    var reply := CreateTag + TagText("TITLE", v);
    CreateReplyTags(v);
    CreateReplyCleaned(v);
    CreateDispatch(marks, reply, phone, t, draws, now, true);
    StripVisibleHead(v);
    var req := CreateRequest(reply, phone, None);
    assert req.title == Strip(v) && req.bookingType == "general" && req.date.None? && req.time.None?;
    CreateCommandNoAmount(marks, reply, phone, t, draws, now);
    var code := GenerateCode(CodeLength, draws);
    assert "" + CreatedNote(marks, Strip(v), None, None, None, code) == CreatedNote(marks, Strip(v), None, None, None, code);
  }

  /** Without an amount tag the create command stores the request and appends the creation summary. */
  lemma CreateCommandNoAmount(marks: Marks, reply: string, phone: string, t: BookingTable, draws: nat -> nat, now: int)
    requires ExtractTag(reply, "AMOUNT") == None
    ensures var req := CreateRequest(reply, phone, None);
            var created := CreateBooking(t, req, draws, now);
            && created.1.confirmationCode == GenerateCode(CodeLength, draws)
            && CreateCommand(marks, reply, phone, t, draws, now, true)
               == Ok(ActionResult(Strip(RemoveBookingTags(reply) + CreatedNote(marks, req.title, req.date, req.time, None,
                                                                                 created.1.confirmationCode)),
                                  created.0))
  {
  }

  // ---------------------------------------------------------------- the code-word search

  lemma CodeIsUpper(code: string)
    requires IsCode(code)
    ensures UpperStr(code) == code
  {
  }

  /** A code on its own is its own first code word. */
  lemma CodeWordAlone(code: string)
    requires IsCode(code)
    ensures FirstCodeToken(code) == Some(code)
  {
    assert CodeAt(code, 0);
    assert code[0..CodeLength] == code;
  }

  /** Text that opens with an action tag has `ACTION` as its first code word, whatever follows. */
  lemma ActionWordFirst(rest: string)
    ensures FirstCodeToken("[ACTION:" + rest) == Some("ACTION")
  {
    var s := "[ACTION:" + rest;
    assert !CodeAt(s, 0);
    assert s[1..7] == "ACTION";
    assert CodeAt(s, 1);
  }

  /** Both action tags open with `[ACTION:`. */
  lemma ActionTagOpens(tag: string, rest: string)
    requires tag == ConfirmTag || tag == CancelTag
    ensures |tag| > 8 && tag + rest == "[ACTION:" + (tag[8..] + rest)
  {
    assert tag[..8] == "[ACTION:" by {
      if tag == ConfirmTag {
        assert ConfirmTag[..8] == "[ACTION:";
      } else {
        assert CancelTag[..8] == "[ACTION:";
      }
    }
    assert tag == tag[..8] + tag[8..];
  }

  /** A blank and a code behind an action tag are what remains once the tag is removed. */
  lemma BlankCodeRemains(code: string)
    requires IsCode(code)
    ensures Strip(DropActionTags(" " + code)) == code
  {
    var x := " " + code;
    PlainCodeKept(x, code);
    assert Strip(x) == Strip(code) by {
      assert [' '] + code == x;
      StripLeadingSpace(' ', code);
    }
    StripNoEdgeSpace(code);
  }

  /** A blank and a code hold no bracket, so no action tag is dropped from them. */
  lemma PlainCodeKept(x: string, code: string)
    requires IsCode(code) && x == " " + code
    ensures DropActionTags(x) == x
  {
    assert '[' !in x by {
      assert forall k :: 0 <= k < |code| ==> code[k] != '[';
      assert forall k :: 1 <= k < |x| ==> x[k] == code[k - 1];
    }
    assert x + "" == x;
    DropActionTagsKeepsPlainText(x, "");
  }

  /** The confirm tag and a blank in front of a code are removed, leaving the code. */
  lemma ConfirmTagRemoved(code: string)
    requires IsCode(code)
    ensures RemoveActionTags(ConfirmTag + " " + code) == code
  {
    assert ConfirmTag + " " + code == "[ACTION: " + "CONFIRM" + "]" + (" " + code);
    ActionTagDropped("CONFIRM", " " + code);
    BlankCodeRemains(code);
  }

  /** The cancel tag and a blank in front of a code are removed, leaving the code. */
  lemma CancelTagRemoved(code: string)
    requires IsCode(code)
    ensures RemoveActionTags(CancelTag + " " + code) == code
  {
    assert CancelTag + " " + code == "[ACTION: " + "CANCEL" + "]" + (" " + code);
    ActionTagDropped("CANCEL", " " + code);
    BlankCodeRemains(code);
  }

  /** What both action tags look like: a bracket, then `ACTION: `, and no bracket after the first. */
  lemma ActionTagShape(tag: string)
    requires tag == ConfirmTag || tag == CancelTag
    ensures |tag| > 10 && tag[0] == '[' && tag[1] == 'A' && '[' !in tag[1..]
  {
    if tag == ConfirmTag {
      assert tag[1..] == "ACTION: CONFIRM]";
    } else {
      assert tag[1..] == "ACTION: CANCEL]";
    }
  }

  /** Only the first character of a tag, a blank and a code is a bracket. */
  lemma OneBracket(tag: string, code: string)
    requires |tag| > 0 && '[' !in tag[1..] && IsCode(code)
    ensures '[' !in (tag + " " + code)[1..]
  {
    var reply := tag + " " + code;
    forall k | 1 <= k < |reply| ensures reply[k] != '[' {
      if k < |tag| {
        assert reply[k] == tag[1..][k - 1];
      } else if k > |tag| {
        assert reply[k] == code[k - |tag| - 1];
      }
    }
  }

  /** A tag followed by a blank and a code is an action command and not a create command. */
  lemma ActionReplyCommands(tag: string, code: string)
    requires tag == ConfirmTag || tag == CancelTag
    requires IsCode(code)
    ensures Contains(tag + " " + code, tag)
    ensures !Contains(tag + " " + code, CreateTag)
  {
    var reply := tag + " " + code;
    ActionTagShape(tag);
    assert reply == "" + tag + (" " + code);
    ContainsWhole("", tag, " " + code);
    OneBracket(tag, code);
    assert reply[0] == '[' && reply[1] == 'A';
    NoCreateMarker(reply);
  }

  /**
   * As written, a confirm command whose code follows the tag never reaches that code: the search
   * stops at `ACTION` inside the tag, no booking carries that code, and every pending booking of
   * the number is confirmed instead.
   */
  lemma AsWrittenConfirmsAllPending(marks: Marks, code: string, phone: string, t: BookingTable, draws: nat -> nat, now: int)
    requires IsCode(code)
    requires forall i :: 0 <= i < |t| ==> t[i].confirmationCode != "ACTION"
    requires |GetPendingBookings(t, phone, true)| > 0
    ensures var r := ProcessBookingActionsAsWritten(marks, ConfirmTag + " " + code, phone, t, draws, now, true);
            r.Ok? && r.value.bookings == ConfirmAllPending(t, phone, now, true).0
  {
    var reply := ConfirmTag + " " + code;
    ActionReplyCommands(ConfirmTag, code);
    AsWrittenConfirmDispatch(marks, reply, phone, t, draws, now, true);
    TagCodeWord(ConfirmTag, code);
    ActionNamesNothing(t);
    UnknownCodeConfirmsAll(marks, reply, reply, phone, t, now);
  }

  /** As written, the code word found in an action reply is `ACTION`, from inside the tag. */
  lemma TagCodeWord(tag: string, code: string)
    requires tag == ConfirmTag || tag == CancelTag
    ensures FirstCodeToken(tag + " " + code) == Some("ACTION")
  {
    assert tag + " " + code == tag + (" " + code);
    ActionTagOpens(tag, " " + code);
    ActionWordFirst(tag[8..] + (" " + code));
  }

  /** No stored booking answers to the code `ACTION` unless one carries it. */
  lemma ActionNamesNothing(t: BookingTable)
    requires forall i :: 0 <= i < |t| ==> t[i].confirmationCode != "ACTION"
    ensures GetBookingByCode(t, "ACTION", true).None?
  {
    assert UpperStr("ACTION") == "ACTION";
  }

  lemma AsWrittenConfirmDispatch(marks: Marks, reply: string, phone: string, t: BookingTable, draws: nat -> nat, now: int,
                                 dbOk: bool)
    requires !Contains(reply, CreateTag) && Contains(reply, ConfirmTag)
    ensures ProcessBookingActionsAsWritten(marks, reply, phone, t, draws, now, dbOk)
            == Ok(ConfirmCommand(marks, reply, reply, phone, t, now, dbOk))
  {
  }

  /** A confirm command whose code word names no booking confirms every pending booking of the number. */
  lemma UnknownCodeConfirmsAll(marks: Marks, reply: string, codeText: string, phone: string, t: BookingTable, now: int)
    requires FirstCodeToken(codeText).None? || GetBookingByCode(t, FirstCodeToken(codeText).value, true).None?
    requires |GetPendingBookings(t, phone, true)| > 0
    ensures ConfirmCommand(marks, reply, codeText, phone, t, now, true).bookings == ConfirmAllPending(t, phone, now, true).0
  {
  }

  /** A cancel command whose code word names no booking cancels every pending booking of the number. */
  lemma UnknownCodeCancelsAll(marks: Marks, reply: string, codeText: string, phone: string, t: BookingTable, now: int)
    requires FirstCodeToken(codeText).None? || GetBookingByCode(t, FirstCodeToken(codeText).value, true).None?
    requires |GetPendingBookings(t, phone, true)| > 0
    ensures CancelCommand(marks, reply, codeText, phone, t, now, true).bookings == CancelAllPending(t, phone, now, true).0
  {
  }

  /**
   * With the search on the reply without its action tags, a confirm command naming an existing
   * code confirms that booking and changes no other, and the reply reports that code.
   */
  lemma ConfirmsNamedCodeOnly(marks: Marks, code: string, phone: string, t: BookingTable, draws: nat -> nat, now: int, k: nat)
    requires IsCode(code) && k < |t| && t[k].confirmationCode == code
    ensures var r := ProcessBookingActions(marks, ConfirmTag + " " + code, phone, t, draws, now, true);
            && r.Ok? && r.value.reply == code + ConfirmedOne(marks, code)
            && (forall i :: 0 <= i < |t| && r.value.bookings[i] != t[i] ==>
                  t[i].confirmationCode == code && t[i].status == Pending && r.value.bookings[i] == Confirm(t[i], now))
            && (t[k].status == Pending ==> r.value.bookings[k] == Confirm(t[k], now))
  {
    var reply := ConfirmTag + " " + code;
    ActionReplyCommands(ConfirmTag, code);
    ConfirmDispatch(marks, reply, phone, t, draws, now, true);
    ConfirmTagRemoved(code);
    CodeWordAlone(code);
    NamedCommandResults(marks, reply, code, phone, t, now, k);
    CodeUpdateEffect(t, code, now, k);
    NotesStripped(marks, code);
  }

  /** A reply with a create tag runs the create command. */
  lemma CreateDispatch(marks: Marks, reply: string, phone: string, t: BookingTable, draws: nat -> nat, now: int, dbOk: bool)
    requires Contains(reply, CreateTag)
    ensures ProcessBookingActions(marks, reply, phone, t, draws, now, dbOk)
            == CreateCommand(marks, reply, phone, t, draws, now, dbOk)
  {
  }

  /** A reply with a confirm tag and no create tag runs the confirm command. */
  lemma ConfirmDispatch(marks: Marks, reply: string, phone: string, t: BookingTable, draws: nat -> nat, now: int, dbOk: bool)
    requires !Contains(reply, CreateTag) && Contains(reply, ConfirmTag)
    ensures ProcessBookingActions(marks, reply, phone, t, draws, now, dbOk)
            == Ok(ConfirmCommand(marks, reply, RemoveActionTags(reply), phone, t, now, dbOk))
  {
  }

  /** A reply with a cancel tag and neither a create nor a confirm tag runs the cancel command. */
  lemma CancelDispatch(marks: Marks, reply: string, phone: string, t: BookingTable, draws: nat -> nat, now: int, dbOk: bool)
    requires !Contains(reply, CreateTag) && !Contains(reply, ConfirmTag) && Contains(reply, CancelTag)
    ensures ProcessBookingActions(marks, reply, phone, t, draws, now, dbOk)
            == Ok(CancelCommand(marks, reply, RemoveActionTags(reply), phone, t, now, dbOk))
  {
  }

  /** The notes appended to a code start with it and end visibly, so stripping keeps them whole. */
  lemma NotesStripped(marks: Marks, code: string)
    requires IsCode(code)
    ensures Strip(code + ConfirmedOne(marks, code)) == code + ConfirmedOne(marks, code)
    ensures Strip(code + CancelledOne(marks, code)) == code + CancelledOne(marks, code)
  {
    var c := code + ConfirmedOne(marks, code);
    assert c[0] == code[0] && c[|c| - 1] == '!';
    StripNoEdgeSpace(c);
    var x := code + CancelledOne(marks, code);
    assert x[0] == code[0] && x[|x| - 1] == '.';
    StripNoEdgeSpace(x);
  }

  /** Confirming or cancelling by a code changes exactly the pending bookings with that code. */
  lemma CodeUpdateEffect(t: BookingTable, code: string, now: int, k: nat)
    requires IsCode(code) && k < |t| && t[k].confirmationCode == code
    ensures var c := ConfirmBooking(t, None, Some(code), now, true).0;
            && (forall i :: 0 <= i < |t| && c[i] != t[i] ==>
                  t[i].confirmationCode == code && t[i].status == Pending && c[i] == Confirm(t[i], now))
            && (t[k].status == Pending ==> c[k] == Confirm(t[k], now))
    ensures var c := CancelBooking(t, None, Some(code), now, true).0;
            && (forall i :: 0 <= i < |t| && c[i] != t[i] ==>
                  t[i].confirmationCode == code && t[i].status == Pending && c[i] == Cancel(t[i], now))
            && (t[k].status == Pending ==> c[k] == Cancel(t[k], now))
  {
    CodeIsUpper(code);
    assert code != "";
  }

  /** A code word that names a stored booking selects that booking in both action commands. */
  lemma NamedCommandResults(marks: Marks, reply: string, code: string, phone: string, t: BookingTable, now: int, k: nat)
    requires IsCode(code) && k < |t| && t[k].confirmationCode == code
    requires FirstCodeToken(RemoveActionTags(reply)) == Some(code)
    ensures ConfirmCommand(marks, reply, RemoveActionTags(reply), phone, t, now, true)
            == ActionResult(Strip(RemoveActionTags(reply) + ConfirmedOne(marks, code)), ConfirmBooking(t, None, Some(code), now, true).0)
    ensures CancelCommand(marks, reply, RemoveActionTags(reply), phone, t, now, true)
            == ActionResult(Strip(RemoveActionTags(reply) + CancelledOne(marks, code)), CancelBooking(t, None, Some(code), now, true).0)
  {
    CodeIsUpper(code);
    assert GetBookingByCode(t, code, true).Some?;
  }

  /** The cancel command's counterpart of `ConfirmsNamedCodeOnly`. */
  lemma CancelsNamedCodeOnly(marks: Marks, code: string, phone: string, t: BookingTable, draws: nat -> nat, now: int, k: nat)
    requires IsCode(code) && k < |t| && t[k].confirmationCode == code
    ensures var r := ProcessBookingActions(marks, CancelTag + " " + code, phone, t, draws, now, true);
            && r.Ok? && r.value.reply == code + CancelledOne(marks, code)
            && (forall i :: 0 <= i < |t| && r.value.bookings[i] != t[i] ==>
                  t[i].confirmationCode == code && t[i].status == Pending && r.value.bookings[i] == Cancel(t[i], now))
            && (t[k].status == Pending ==> r.value.bookings[k] == Cancel(t[k], now))
  {
    CancelReplyShape(code);
    CodeWordAlone(code);
    CancelDispatch(marks, CancelTag + " " + code, phone, t, draws, now, true);
    NamedCommandResults(marks, CancelTag + " " + code, code, phone, t, now, k);
    CodeUpdateEffect(t, code, now, k);
    NotesStripped(marks, code);
  }

  /** A cancel tag, a blank and a code: a cancel command only, whose code text is the code. */
  lemma CancelReplyShape(code: string)
    requires IsCode(code)
    ensures var reply := CancelTag + " " + code;
            && Contains(reply, CancelTag) && !Contains(reply, CreateTag) && !Contains(reply, ConfirmTag)
            && RemoveActionTags(reply) == code
  {
    var reply := CancelTag + " " + code;
    ActionReplyCommands(CancelTag, code);
    ActionTagShape(CancelTag);
    OneBracket(CancelTag, code);
    assert reply[10] == CancelTag[10] == 'A';
    NoMarker(reply, ConfirmTag, 10);
    CancelTagRemoved(code);
  }

  /** A pending booking of the number with the given code. */
  function PendingRow(id: nat, phone: string, code: string): Booking {
    Booking(id, phone, None, "general", "Booking", None, None, None, None, "INR", Pending, code, None, 0, 0, None, None)
  }

  /** The as-written half of the discrepancy: the second booking, not named, is confirmed. */
  lemma AsWrittenConfirmsBoth(marks: Marks, stored: string, phone: string, a: string, b: string, draws: nat -> nat, now: int)
    requires PhoneMatches(stored, phone)
    requires IsCode(a) && IsCode(b) && a != "ACTION" && b != "ACTION"
    ensures var t := [PendingRow(1, stored, a), PendingRow(2, stored, b)];
            var asWritten := ProcessBookingActionsAsWritten(marks, ConfirmTag + " " + a, phone, t, draws, now, true);
            asWritten.Ok? && asWritten.value.bookings[1].status == Confirmed
  {
    var t := [PendingRow(1, stored, a), PendingRow(2, stored, b)];
    assert PendingFor(phone, t[1]);
    assert |GetPendingBookings(t, phone, true)| > 0 by {
      assert t[1] in t;
    }
    forall i | 0 <= i < |t| ensures t[i].confirmationCode != "ACTION" {
      assert t[i].confirmationCode == (if i == 0 then a else b);
    }
    AsWrittenConfirmsAllPending(marks, a, phone, t, draws, now);
    var all := ConfirmAllPending(t, phone, now, true).0;
    assert all[1] == Confirm(t[1], now);
  }

  /**
   * The discrepancy for any two pending bookings `a` and `b` of one number and the reply
   * `[ACTION: CONFIRM] a`.  As written, `b`, which the reply does not name, is confirmed as well;
   * with the search after tag removal only `a` is confirmed.
   */
  lemma CodeAfterTagConfirmsOther(marks: Marks, stored: string, phone: string, a: string, b: string, draws: nat -> nat, now: int)
    requires PhoneMatches(stored, phone)
    requires IsCode(a) && IsCode(b) && a != b && a != "ACTION" && b != "ACTION"
    ensures var t := [PendingRow(1, stored, a), PendingRow(2, stored, b)];
            var asWritten := ProcessBookingActionsAsWritten(marks, ConfirmTag + " " + a, phone, t, draws, now, true);
            var corrected := ProcessBookingActions(marks, ConfirmTag + " " + a, phone, t, draws, now, true);
            && asWritten.Ok? && asWritten.value.bookings[1].status == Confirmed
            && corrected.Ok? && corrected.value.bookings[1] == t[1]
            && corrected.value.bookings[0].status == Confirmed
  {
    var t := [PendingRow(1, stored, a), PendingRow(2, stored, b)];
    var reply := ConfirmTag + " " + a;
    var asWritten := ProcessBookingActionsAsWritten(marks, reply, phone, t, draws, now, true);
    var corrected := ProcessBookingActions(marks, reply, phone, t, draws, now, true);
    AsWrittenConfirmsBoth(marks, stored, phone, a, b, draws, now);
    assert corrected.Ok? && corrected.value.bookings[1] == t[1] && corrected.value.bookings[0].status == Confirmed by {
      ConfirmsNamedCodeOnly(marks, a, phone, t, draws, now, 0);
    }
  }

  /** The concrete input of the discrepancy: bookings `AB12CD` and `ZZ99ZZ`, reply `[ACTION: CONFIRM] AB12CD`. */
  lemma CodeAfterTagCounterexample(marks: Marks, stored: string, phone: string, a: string, b: string, draws: nat -> nat, now: int)
    requires PhoneMatches(stored, phone) && a == "AB12CD" && b == "ZZ99ZZ"
    ensures var t := [PendingRow(1, stored, a), PendingRow(2, stored, b)];
            var asWritten := ProcessBookingActionsAsWritten(marks, ConfirmTag + " " + a, phone, t, draws, now, true);
            var corrected := ProcessBookingActions(marks, ConfirmTag + " " + a, phone, t, draws, now, true);
            && asWritten.Ok? && asWritten.value.bookings[1].status == Confirmed
            && corrected.Ok? && corrected.value.bookings[1] == t[1]
            && corrected.value.bookings[0].status == Confirmed
  {
    assert forall i :: 0 <= i < |a| ==> IsUpperAlnum(a[i]);
    assert forall i :: 0 <= i < |b| ==> IsUpperAlnum(b[i]);
    assert a != b && a != "ACTION" && b != "ACTION" by {
      assert a[0] != b[0] && a[1] != "ACTION"[1] && b[0] != "ACTION"[0];
    }
    CodeAfterTagConfirmsOther(marks, stored, phone, a, b, draws, now);
  }
}

=== FILE: booking_endpoints.dfy ===
/**
 * The booking endpoints: request validation for `POST /bookings`, the list limit, the lookups, the
 * status guards in front of confirm and cancel, and the confirmation request sent to a customer.
 * A store read that fails reads as "no booking"; the WhatsApp provider is a `Sender` parameter.
 */
module BookingEndpoints {
  import opened Outcomes
  import opened Text
  import opened Bookings
  import opened Conversations
  import BookingActions
  import opened Glyphs
  import Schemas
  import Triggers

  // ---------------------------------------------------------------- POST /bookings

  /** The body of `POST /bookings` before validation; absent optional fields are `None`. */
  datatype CreateBookingInput = CreateBookingInput(
    phoneNumber: string,
    title: string,
    bookingType: Option<string>,
    customerName: Option<string>,
    description: Option<string>,
    date: Option<string>,
    time: Option<string>,
    amount: Option<real>,
    currency: Option<string>,
    notes: Option<string>)

  const DefaultBookingType: string := "general"
  const DefaultCurrency: string := "INR"

  predicate CreateInputValid(x: CreateBookingInput) {
    && |x.phoneNumber| >= 1
    && Schemas.LengthIn(x.title, 1, 200)
    && (x.bookingType.None? || |x.bookingType.value| <= 50)
    && (x.currency.None? || |x.currency.value| <= 5)
  }

  function CreateErrors(x: CreateBookingInput): seq<string> {
    Schemas.Check(|x.phoneNumber| >= 1, "phone_number")
    + Schemas.Check(Schemas.LengthIn(x.title, 1, 200), "title")
    + Schemas.Check(x.bookingType.None? || |x.bookingType.value| <= 50, "booking_type")
    + Schemas.Check(x.currency.None? || |x.currency.value| <= 5, "currency")
  }

  /** `CreateBookingRequest`: the booking type defaults to "general" and the currency to "INR". */
  function ValidateCreateBooking(x: CreateBookingInput): (r: Result<NewBooking, seq<string>>)
    ensures r.Ok? <==> CreateInputValid(x)
    ensures r.Err? ==> |r.error| > 0
    ensures r.Ok? ==> r.value.phoneNumber == x.phoneNumber && r.value.title == x.title
                      && r.value.bookingType == x.bookingType.GetOr(DefaultBookingType)
                      && r.value.currency == x.currency.GetOr(DefaultCurrency)
                      && r.value.date == x.date && r.value.time == x.time && r.value.amount == x.amount
                      && |r.value.bookingType| <= 50 && |r.value.currency| <= 5
  {
    var errors := CreateErrors(x);
    if errors != [] then Err(errors)
    else
      Ok(NewBooking(x.phoneNumber, x.title, x.bookingType.GetOr(DefaultBookingType), x.customerName,
                    x.description, x.date, x.time, x.amount, x.currency.GetOr(DefaultCurrency), x.notes))
  }

  /** `BookingResponse`. */
  datatype BookingResponse = BookingResponse(
    bookingId: nat, confirmationCode: string, title: string, bookingType: string, status: string, detail: string)

  /** How `POST /bookings` ends: a 422 listing the fields, a 500 when the insert raises, or the new booking. */
  datatype CreateOutcome = Rejected(fields: seq<string>) | ServerError | Created(response: BookingResponse)

  const CreatedDetail: string := "Booking created. Code: "

  /** `create_booking_endpoint`. */
  function CreateBookingEndpoint(t: BookingTable, x: CreateBookingInput, draws: nat -> nat, now: int, ok: bool)
    : (r: (BookingTable, CreateOutcome))
    ensures !r.1.Created? ==> r.0 == t
    ensures r.1.Rejected? <==> !CreateInputValid(x)
    ensures r.1.ServerError? <==> CreateInputValid(x) && !ok
    ensures r.1.Created? ==>
              && |r.0| == |t| + 1 && r.0[..|t|] == t
              && r.0[|t|].status == Pending && r.0[|t|].phoneNumber == x.phoneNumber
              && r.1.response.bookingId == |t| + 1 == r.0[|t|].id
              && r.1.response.confirmationCode == r.0[|t|].confirmationCode
              && IsCode(r.1.response.confirmationCode)
              && r.1.response.status == "pending"
              && r.1.response.detail == CreatedDetail + r.1.response.confirmationCode
  {
    var v := ValidateCreateBooking(x);
    if v.Err? then (t, Rejected(v.error))
    else if !ok then (t, ServerError)
    else
      var created := CreateBooking(t, v.value, draws, now);
      var b := created.1;
      assert created.0[..|t|] == t;
      (created.0, Created(BookingResponse(b.id, b.confirmationCode, b.title, b.bookingType, StatusName(b.status),
                                          CreatedDetail + b.confirmationCode)))
  }

  // ---------------------------------------------------------------- GET /bookings

  const DefaultListLimit: int := 50
  const MaxListLimit: int := 200

  datatype Listing = Listing(total: nat, bookings: seq<Booking>)

  /** `list_bookings`: the limit query parameter must lie in 1..200 and defaults to 50. */
  function ListBookings(t: BookingTable, phone: Option<string>, status: Option<string>, limit: Option<int>, ok: bool)
    : (r: Result<Listing, string>)
    ensures r.Err? <==> !Schemas.OptionalIn(limit, 1, MaxListLimit)
    ensures r.Ok? ==> r.value.total == |r.value.bookings| <= limit.GetOr(DefaultListLimit)
    ensures r.Ok? ==> forall b :: b in r.value.bookings ==> b in t && ListFilter(phone, status, b)
    ensures r.Ok? && ok && IdsInOrder(t) ==>
              forall i, j :: 0 <= i < j < |r.value.bookings| ==> r.value.bookings[i].id > r.value.bookings[j].id
  {
    if !Schemas.OptionalIn(limit, 1, MaxListLimit) then Err("limit")
    else
      var bs := GetAllBookings(t, phone, status, limit.GetOr(DefaultListLimit), ok);
      Ok(Listing(|bs|, bs))
  }

  // ---------------------------------------------------------------- lookups

  const NotFound: string := "Booking not found"

  /** `{"success": False, "detail": "Booking not found"}` or `{"success": True, "booking": ...}`. */
  datatype Lookup = Missing(detail: string) | Found(booking: Booking)

  /** `get_booking`: the row with that id, if any. */
  function GetBookingEndpoint(t: BookingTable, id: int, ok: bool): (r: Lookup)
    ensures r.Found? ==> r.booking in t && r.booking.id == id
    ensures r.Missing? ==> r.detail == NotFound
    ensures ok && r.Missing? ==> forall b :: b in t ==> b.id != id
  {
    var found := if ok then GetBookingById(t, id) else None;
    if found.Some? then Found(found.value) else Missing(NotFound)
  }

  /** `get_booking_by_code_endpoint`: the code is upper-cased before the comparison. */
  function GetBookingByCodeEndpoint(t: BookingTable, code: string, ok: bool): (r: Lookup)
    ensures r.Found? ==> r.booking in t && r.booking.confirmationCode == UpperStr(code)
    ensures r.Missing? ==> r.detail == NotFound
    ensures ok && r.Missing? ==> forall b :: b in t ==> b.confirmationCode != UpperStr(code)
  {
    var found := GetBookingByCode(t, code, ok);
    if found.Some? then Found(found.value) else Missing(NotFound)
  }

  // ---------------------------------------------------------------- confirm / cancel

  /** `BookingActionResponse`. */
  datatype ActionReply = ActionReply(success: bool, detail: string)

  const AlreadyPrefix: string := "Booking is already "

  /** The booking a confirm or cancel call acts on: present and still `pending`. */
  predicate Actionable(t: BookingTable, id: int, ok: bool) {
    ok && GetBookingById(t, id).Some? && GetBookingById(t, id).value.status == Pending
  }

  /**
   * `confirm_booking_endpoint`: a missing booking and a booking that has left `pending` are
   * refused without touching the store; otherwise the service confirms it by id and the reply
   * names its code.  `ok` is the lookup's store and `writeOk` the UPDATE's: the service swallows a
   * failing UPDATE and its answer is not looked at, so success is reported all the same.
   */
  function ConfirmBookingEndpoint(t: BookingTable, id: int, now: int, ok: bool, writeOk: bool)
    : (r: (BookingTable, ActionReply))
    ensures r.1.success <==> Actionable(t, id, ok)
    ensures !r.1.success ==> r.0 == t
    ensures !ok || GetBookingById(t, id).None? ==> r.1.detail == NotFound
    ensures ok && GetBookingById(t, id).Some? && GetBookingById(t, id).value.status != Pending ==>
              r.1.detail == AlreadyPrefix + StatusName(GetBookingById(t, id).value.status)
    ensures r.1.success ==> r.1.detail == "Booking " + GetBookingById(t, id).value.confirmationCode + " confirmed"
    ensures |r.0| == |t|
    ensures forall i :: 0 <= i < |t| && r.0[i] != t[i] ==> t[i].id == id && t[i].status == Pending && r.0[i] == Confirm(t[i], now)
    ensures r.1.success && writeOk && IdsInOrder(t) ==> r.0[id - 1] == Confirm(t[id - 1], now)
    // a failing UPDATE still reports success, with the row left as it was
    ensures r.1.success && !writeOk ==> r.0 == t
  {
    var found := if ok then GetBookingById(t, id) else None;
    if found.None? then (t, ActionReply(false, NotFound))
    else if found.value.status != Pending then (t, ActionReply(false, AlreadyPrefix + StatusName(found.value.status)))
    else
      var updated := ConfirmBooking(t, Some(id), None, now, writeOk);
      IdIsPosition(t, found.value);
      (updated.0, ActionReply(true, "Booking " + found.value.confirmationCode + " confirmed"))
  }

  /** `cancel_booking_endpoint`, the mirror image of `ConfirmBookingEndpoint`. */
  function CancelBookingEndpoint(t: BookingTable, id: int, now: int, ok: bool, writeOk: bool)
    : (r: (BookingTable, ActionReply))
    ensures r.1.success <==> Actionable(t, id, ok)
    ensures !r.1.success ==> r.0 == t
    ensures !ok || GetBookingById(t, id).None? ==> r.1.detail == NotFound
    ensures ok && GetBookingById(t, id).Some? && GetBookingById(t, id).value.status != Pending ==>
              r.1.detail == AlreadyPrefix + StatusName(GetBookingById(t, id).value.status)
    ensures r.1.success ==> r.1.detail == "Booking " + GetBookingById(t, id).value.confirmationCode + " cancelled"
    ensures |r.0| == |t|
    ensures forall i :: 0 <= i < |t| && r.0[i] != t[i] ==> t[i].id == id && t[i].status == Pending && r.0[i] == Cancel(t[i], now)
    ensures r.1.success && writeOk && IdsInOrder(t) ==> r.0[id - 1] == Cancel(t[id - 1], now)
    // a failing UPDATE still reports success, with the row left as it was
    ensures r.1.success && !writeOk ==> r.0 == t
  {
    var found := if ok then GetBookingById(t, id) else None;
    if found.None? then (t, ActionReply(false, NotFound))
    else if found.value.status != Pending then (t, ActionReply(false, AlreadyPrefix + StatusName(found.value.status)))
    else
      var updated := CancelBooking(t, Some(id), None, now, writeOk);
      IdIsPosition(t, found.value);
      (updated.0, ActionReply(true, "Booking " + found.value.confirmationCode + " cancelled"))
  }

  /** In a table whose ids follow the positions, a row with id `k` sits at position `k - 1`. */
  lemma IdIsPosition(t: BookingTable, b: Booking)
    requires b in t
    ensures IdsInOrder(t) ==> 1 <= b.id <= |t| && t[b.id - 1] == b
  {
    if IdsInOrder(t) {
      var i :| 0 <= i < |t| && t[i] == b;
      assert t[i].id == i + 1;
    }
  }

  // ---------------------------------------------------------------- POST /bookings/send-confirmation

  const RequestHeader: string := Emoji.clipboard + " *Booking Confirmation Request*\n\n"
  const RequestPrompt: string := "Reply *CONFIRM* to confirm or *CANCEL* to cancel this booking."
  const ConfirmationStatus: string := "booking_confirmation"
  const SentToPrefix: string := "Booking confirmation sent to "

  /** The optional date, time and amount lines, each only when its value is truthy. */
  function OptionalLines(b: Booking): string {
    (if BookingActions.Given(b.date) then Emoji.calendar + " Date: " + b.date.value + "\n" else "")
    + (if BookingActions.Given(b.time) then Emoji.clock + " Time: " + b.time.value + "\n" else "")
    + (if BookingActions.AmountGiven(b.amount)
       then Emoji.moneyBag + " Amount: " + Emoji.rupee + BookingActions.FormatMoney(b.amount.value) + "\n"
       else "")
  }

  /** The title line followed by the optional lines. */
  function DetailLines(b: Booking): string {
    Emoji.pin + " " + b.title + "\n" + OptionalLines(b)
  }

  const CodeLabel: string := Emoji.bookmark + " Code: "

  /** The header, the detail lines, the code line (the code between asterisks) and the prompt, in that order. */
  function Framed(details: string, code: string): string {
    RequestHeader + (details + (CodeLabel + (("*" + code + "*") + ("\n\n" + RequestPrompt))))
  }

  lemma FramedShowsCode(details: string, code: string)
    ensures Contains(Framed(details, code), "*" + code + "*")
  {
    var star := "*" + code + "*";
    var tail := "\n\n" + RequestPrompt;
    ContainsWhole([], star, tail);
    assert [] + star + tail == star + tail;
    ContainsPrepend(CodeLabel, star + tail, star);
    ContainsPrepend(details, CodeLabel + (star + tail), star);
    ContainsPrepend(RequestHeader, details + (CodeLabel + (star + tail)), star);
  }

  lemma FramedEndsWithPrompt(details: string, code: string)
    ensures EndsWith(Framed(details, code), RequestPrompt)
  {
    var star := "*" + code + "*";
    var tail := "\n\n" + RequestPrompt;
    assert EndsWith(tail, RequestPrompt);
    EndsWithPrepend(star, tail, RequestPrompt);
    EndsWithPrepend(CodeLabel, star + tail, RequestPrompt);
    EndsWithPrepend(details, CodeLabel + (star + tail), RequestPrompt);
    EndsWithPrepend(RequestHeader, details + (CodeLabel + (star + tail)), RequestPrompt);
  }

  lemma FramedKeepsDetails(details: string, code: string, x: string)
    requires Contains(details, x)
    ensures Contains(Framed(details, code), x)
  {
    var rest := CodeLabel + (("*" + code + "*") + ("\n\n" + RequestPrompt));
    ContainsAppend(details, rest, x);
    ContainsPrepend(RequestHeader, details + rest, x);
  }

  /** The message `send_booking_confirmation` builds. */
  function ConfirmationRequest(b: Booking): (msg: string)
    ensures Contains(msg, "*" + b.confirmationCode + "*")
    ensures RequestHeader <= msg
    ensures EndsWith(msg, RequestPrompt)
    ensures forall x :: Contains(DetailLines(b), x) ==> Contains(msg, x)
  {
    FramedShowsCode(DetailLines(b), b.confirmationCode);
    FramedEndsWithPrompt(DetailLines(b), b.confirmationCode);
    forall x | Contains(DetailLines(b), x) ensures Contains(Framed(DetailLines(b), b.confirmationCode), x) {
      FramedKeepsDetails(DetailLines(b), b.confirmationCode, x);
    }
    Framed(DetailLines(b), b.confirmationCode)
  }

  /** The JSON answer of `send_booking_confirmation`. */
  datatype SendReply = SendReply(success: bool, detail: string, messageId: Option<string>, confirmationCode: Option<string>)

  /**
   * `send_booking_confirmation`: a missing booking is reported without sending; otherwise the
   * request is sent over WhatsApp, and only a delivered message is stored, once as an assistant
   * turn and once as a sent record with status "booking_confirmation".  A provider error is
   * returned as the detail and leaves both logs alone.
   */
  function SendBookingConfirmation(t: BookingTable, conv: ConversationLog, sent: SentLog, phone: string, id: int,
                                   send: Triggers.Sender, now: int, ok: bool, convOk: bool, sentOk: bool)
    : (r: (ConversationLog, SentLog, SendReply))
    ensures (!ok || GetBookingById(t, id).None?) ==> r == (conv, sent, SendReply(false, NotFound, None, None))
    ensures !r.2.success ==> r.0 == conv && r.1 == sent && r.2.confirmationCode.None?
    ensures r.2.success ==>
              && ok && GetBookingById(t, id).Some?
              && r.2.confirmationCode == Some(GetBookingById(t, id).value.confirmationCode)
              && r.2.detail == SentToPrefix + phone
    ensures r.2.success && convOk ==>
              && |r.0| == |conv| + 1 && r.0[|conv|].role == "assistant" && r.0[|conv|].phoneNumber == phone
              && Contains(r.0[|conv|].message, "*" + GetBookingById(t, id).value.confirmationCode + "*")
    ensures r.2.success && sentOk ==>
              && |r.1| == |sent| + 1 && r.1[|sent|].status == ConfirmationStatus
              && r.1[|sent|].externalId == r.2.messageId
              && Contains(r.1[|sent|].body, "*" + GetBookingById(t, id).value.confirmationCode + "*")
    ensures r.2.success && convOk && sentOk ==> r.1[|sent|].body == r.0[|conv|].message
    // both stores swallow their failures, so a delivered message is reported sent even when nothing is logged
    ensures r.2.success && !convOk ==> r.0 == conv
    ensures r.2.success && !sentOk ==> r.1 == sent
  {
    var found := if ok then GetBookingById(t, id) else None;
    if found.None? then (conv, sent, SendReply(false, NotFound, None, None))
    else
      var msg := ConfirmationRequest(found.value);
      match send(Triggers.Delivery("whatsapp", phone, None, msg))
      case SendError(e) => (conv, sent, SendReply(false, e, None, None))
      case Delivered(mid) =>
        assert ValidRole("assistant");
        (StoreMessage(conv, phone, "assistant", msg, "whatsapp", now, convOk),
         StoreSentMessage(sent, phone, "whatsapp", msg, None, mid, Some(ConfirmationStatus), now, sentOk),
         SendReply(true, SentToPrefix + phone, mid, Some(found.value.confirmationCode)))
  }

  // ---------------------------------------------------------------- properties

  /** With no date, time or amount, the request is the title line, the code line and the prompt. */
  lemma BareConfirmationRequest(b: Booking)
    requires !BookingActions.Given(b.date) && !BookingActions.Given(b.time) && !BookingActions.AmountGiven(b.amount)
    ensures DetailLines(b) == Emoji.pin + " " + b.title + "\n"
    ensures ConfirmationRequest(b) == Framed(Emoji.pin + " " + b.title + "\n", b.confirmationCode)
  {
    assert OptionalLines(b) == "";
  }

  /** A truthy date puts a date line into the request. */
  lemma DateLineShown(b: Booking)
    requires BookingActions.Given(b.date)
    ensures Contains(ConfirmationRequest(b), Emoji.calendar + " Date: " + b.date.value + "\n")
  {
    var line := Emoji.calendar + " Date: " + b.date.value + "\n";
    var pre := Emoji.pin + " " + b.title + "\n";
    var rest := OptionalLines(b)[|line|..];
    assert OptionalLines(b) == line + rest;
    assert DetailLines(b) == pre + line + rest;
    ContainsWhole(pre, line, rest);
  }

  /**
   * With the intended marks, the note a chat reply appends after creating a booking shows it in
   * the very lines of the confirmation request; with the marks trigger_service.py spells, the
   * two already part at the title line.
   */
  lemma CreatedNoteMatchesRequest(b: Booking)
    ensures BookingActions.CreatedLines(Emoji, b.title, b.date, b.time, b.amount)
            == BookingActions.CreatedHead(Emoji) + DetailLines(b)
    ensures BookingActions.CreatedLines(Garbled, b.title, b.date, b.time, b.amount)
            != BookingActions.CreatedHead(Garbled) + DetailLines(b)
  {
    var date := BookingActions.DateLine(Emoji, b.date);
    var time := BookingActions.TimeLine(Emoji, b.time);
    var amount := BookingActions.AmountLine(Emoji, b.amount);
    assert OptionalLines(b) == date + time + amount;
    assert DetailLines(b) == BookingActions.TitleLine(Emoji, b.title) + (date + time + amount);
    RegroupLines(BookingActions.CreatedHead(Emoji), BookingActions.TitleLine(Emoji, b.title), date, time, amount);
    GarbledNotePartsAtTitle(b);
  }

  lemma RegroupLines(h: string, t: string, d: string, m: string, a: string)
    ensures h + t + d + m + a == h + (t + (d + m + a))
  {
  }

  lemma GarbledNotePartsAtTitle(b: Booking)
    ensures BookingActions.CreatedLines(Garbled, b.title, b.date, b.time, b.amount)
            != BookingActions.CreatedHead(Garbled) + DetailLines(b)
  {
    var title := BookingActions.TitleLine(Garbled, b.title);
    var rest := BookingActions.DateLine(Garbled, b.date) + BookingActions.TimeLine(Garbled, b.time)
                + BookingActions.AmountLine(Garbled, b.amount);
    RegroupLines(BookingActions.CreatedHead(Garbled), title, BookingActions.DateLine(Garbled, b.date),
            BookingActions.TimeLine(Garbled, b.time), BookingActions.AmountLine(Garbled, b.amount));
    assert (title + rest)[0] == Garbled.pin[0];
    assert DetailLines(b)[0] == Emoji.pin[0];
    PartAt(BookingActions.CreatedHead(Garbled), title + rest, DetailLines(b));
  }

  /** Two texts with a common start part where their remainders first differ. */
  lemma PartAt(h: string, x: string, y: string)
    requires |x| > 0 && |y| > 0 && x[0] != y[0]
    ensures h + x != h + y
  {
    assert (h + x)[|h|] == x[0];
    assert (h + y)[|h|] == y[0];
  }

  /** Confirming and then cancelling the same booking leaves it confirmed: the second call is refused. */
  lemma ConfirmThenCancelRefused(t: BookingTable, id: int, now: int, later: int)
    requires IdsInOrder(t) && Actionable(t, id, true)
    ensures var c := ConfirmBookingEndpoint(t, id, now, true, true);
            var d := CancelBookingEndpoint(c.0, id, later, true, true);
            !d.1.success && d.0 == c.0 && d.1.detail == AlreadyPrefix + "confirmed"
  {
    var c := ConfirmBookingEndpoint(t, id, now, true, true);
    var b := GetBookingById(t, id).value;
    IdIsPosition(t, b);
    var k := id - 1;
    assert c.0[k] == Confirm(t[k], now);
    assert IdsInOrder(c.0) by {
      forall i | 0 <= i < |c.0| ensures c.0[i].id == i + 1 {
        if c.0[i] != t[i] {
          assert c.0[i] == Confirm(t[i], now);
        }
      }
    }
    var found := GetBookingById(c.0, id);
    assert found.Some? by {
      assert c.0[k] in c.0;
    }
    IdIsPosition(c.0, found.value);
    assert found.value == c.0[k];
  }
}

=== FILE: bookings.dfy ===
/**
 * The booking store: rows keyed by a generated six-character confirmation code, created `pending`
 * and moved to `confirmed` or `cancelled` only by updates conditioned on `status = 'pending'`.
 */
module Bookings {
  import opened Outcomes
  import opened Text

  datatype BookingStatus = Pending | Confirmed | Cancelled

  /** The text stored in the `status` column. */
  function StatusName(s: BookingStatus): string {
    match s
    case Pending => "pending"
    case Confirmed => "confirmed"
    case Cancelled => "cancelled"
  }

  /** One row of the `bookings` table; `amount` is the stored REAL, `None` for NULL. */
  datatype Booking = Booking(
    id: nat,
    phoneNumber: string,
    customerName: Option<string>,
    bookingType: string,
    title: string,
    description: Option<string>,
    date: Option<string>,
    time: Option<string>,
    amount: Option<real>,
    currency: string,
    status: BookingStatus,
    confirmationCode: string,
    notes: Option<string>,
    createdAt: int,
    updatedAt: int,
    confirmedAt: Option<int>,
    cancelledAt: Option<int>)

  /** The table in insertion order; rows are never deleted, so row `i` carries id `i + 1`. */
  type BookingTable = seq<Booking>

  predicate IdsInOrder(t: BookingTable) {
    forall i :: 0 <= i < |t| ==> t[i].id == i + 1
  }

  /** `confirmed_at` / `cancelled_at` are set exactly by the matching transition out of `pending`. */
  predicate WellFormed(b: Booking) {
    && (b.status == Pending ==> b.confirmedAt.None? && b.cancelledAt.None?)
    && (b.confirmedAt.Some? ==> b.status == Confirmed)
    && (b.cancelledAt.Some? ==> b.status == Cancelled)
  }

  predicate AllWellFormed(t: BookingTable) {
    forall i :: 0 <= i < |t| ==> WellFormed(t[i])
  }

  // ---------------------------------------------------------------- confirmation codes

  /** `string.ascii_uppercase`: `A` to `Z` in order. */
  function Uppercase(): (r: string)
    ensures |r| == 26 && forall k :: 0 <= k < 26 ==> r[k] as int == 'A' as int + k
  {
    seq(26, k requires 0 <= k < 26 => ('A' as int + k) as char)
  }

  /** `string.digits`: `0` to `9` in order. */
  function Digits(): (r: string)
    ensures |r| == 10 && forall k :: 0 <= k < 10 ==> r[k] as int == '0' as int + k
  {
    seq(10, k requires 0 <= k < 10 => ('0' as int + k) as char)
  }

  /** The generator's alphabet, `ascii_uppercase + digits`: 36 characters. */
  function CodeAlphabet(): string {
    Uppercase() + Digits()
  }
  const CodeLength: nat := 6

  /** Six characters from `[A-Z0-9]`. */
  predicate IsCode(s: string) {
    |s| == CodeLength && forall i :: 0 <= i < |s| ==> IsUpperAlnum(s[i])
  }

  lemma AlphabetIsUpperAlnum(c: char)
    ensures c in CodeAlphabet() <==> IsUpperAlnum(c)
  {
    assert |CodeAlphabet()| == 36;
    assert forall k :: 0 <= k < 26 ==> CodeAlphabet()[k] == Uppercase()[k];
    assert forall k :: 26 <= k < 36 ==> CodeAlphabet()[k] == Digits()[k - 26];
    if c in CodeAlphabet() {
      var k :| 0 <= k < 36 && CodeAlphabet()[k] == c;
    }
    if IsUpperAlnum(c) {
      if IsAsciiUpper(c) {
        assert CodeAlphabet()[c as int - 'A' as int] == c;
      } else {
        assert CodeAlphabet()[26 + (c as int - '0' as int)] == c;
      }
    }
  }

  /**
   * `random.choices(ascii_uppercase + digits, k=length)`: the random draws are an input, and
   * draw `i` picks character `draws(i) mod 36`.
   */
  function GenerateCode(length: nat, draws: nat -> nat): (code: string)
    ensures |code| == length
    ensures forall i :: 0 <= i < |code| ==> IsUpperAlnum(code[i])
    ensures forall i :: 0 <= i < |code| ==> code[i] == CodeAlphabet()[draws(i) % |CodeAlphabet()|]
  {
    var code := seq(length, i requires 0 <= i < length => CodeAlphabet()[draws(i) % |CodeAlphabet()|]);
    assert forall i :: 0 <= i < |code| ==> code[i] in CodeAlphabet();
    forall i | 0 <= i < |code| ensures IsUpperAlnum(code[i]) {
      AlphabetIsUpperAlnum(code[i]);
    }
    code
  }

  function AlphabetIndex(c: char): (k: nat)
    requires IsUpperAlnum(c)
    ensures k < |CodeAlphabet()| && CodeAlphabet()[k] == c
  {
    if IsAsciiUpper(c) then c as int - 'A' as int else 26 + (c as int - '0' as int)
  }

  /** The draws that make the generator spell out `code`. */
  function DrawsFor(code: string): nat -> nat
  {
    (i: nat) => if i < |code| && IsUpperAlnum(code[i]) then AlphabetIndex(code[i]) else 0
  }

  /** Every six-character `[A-Z0-9]` string is a code the generator can produce. */
  lemma EveryCodeGeneratable(code: string)
    requires IsCode(code)
    ensures GenerateCode(CodeLength, DrawsFor(code)) == code
  {
    var d := DrawsFor(code);
    var g := GenerateCode(CodeLength, d);
    forall i | 0 <= i < |code| ensures g[i] == code[i] {
      var k := AlphabetIndex(code[i]);
      assert d(i) == k;
      assert k % 36 == k;
      assert g[i] == CodeAlphabet()[k];
    }
    assert |g| == |code|;
  }

  // ---------------------------------------------------------------- reading

  predicate PendingFor(phone: string, b: Booking) {
    PhoneMatches(b.phoneNumber, phone) && b.status == Pending
  }

  /** The rows satisfying `keep`, newest first (`ORDER BY created_at DESC`). */
  function SelectNewestFirst(t: BookingTable, keep: Booking -> bool): (r: seq<Booking>)
    ensures forall b :: b in r <==> b in t && keep(b)
    ensures IdsInOrder(t) ==> forall i, j :: 0 <= i < j < |r| ==> r[i].id > r[j].id
    ensures IdsInOrder(t) ==> forall i :: 0 <= i < |r| ==> 0 < r[i].id <= |t|
  {
    if |t| == 0 then []
    else
      var last := t[|t| - 1];
      var rest := SelectNewestFirst(t[..|t| - 1], keep);
      assert t == t[..|t| - 1] + [last];
      if keep(last) then [last] + rest else rest
  }

  /** A selection from rows none of which is kept is empty. */
  lemma {:induction false} SelectNoneIsEmpty(t: BookingTable, keep: Booking -> bool)
    requires forall i :: 0 <= i < |t| ==> !keep(t[i])
    ensures SelectNewestFirst(t, keep) == []
  {
    if |t| > 0 {
      SelectNoneIsEmpty(t[..|t| - 1], keep);
    }
  }

  /** `get_pending_bookings`: the caller's pending bookings, newest first; `[]` when the read fails. */
  function GetPendingBookings(t: BookingTable, phone: string, ok: bool): (r: seq<Booking>)
    ensures ok ==> forall b :: b in r <==> b in t && PendingFor(phone, b)
    ensures !ok ==> r == []
  {
    if ok then SelectNewestFirst(t, (b: Booking) => PendingFor(phone, b)) else []
  }

  /** The first row (lowest id) satisfying `keep`. */
  function FirstWhere(t: BookingTable, keep: Booking -> bool): (r: Option<Booking>)
    ensures r.Some? ==> r.value in t && keep(r.value)
    ensures r.None? ==> forall b :: b in t ==> !keep(b)
  {
    if |t| == 0 then None
    else if keep(t[0]) then Some(t[0])
    else (assert forall b :: b in t ==> b == t[0] || b in t[1..]; FirstWhere(t[1..], keep))
  }

  /** `get_booking_by_code`: the code is upper-cased before the exact comparison. */
  function GetBookingByCode(t: BookingTable, code: string, ok: bool): (r: Option<Booking>)
    ensures r.Some? ==> r.value in t && r.value.confirmationCode == UpperStr(code)
    ensures ok && r.None? ==> forall b :: b in t ==> b.confirmationCode != UpperStr(code)
    ensures !ok ==> r.None?
  {
    if ok then FirstWhere(t, (b: Booking) => b.confirmationCode == UpperStr(code)) else None
  }

  /** `get_booking_by_id`. */
  function GetBookingById(t: BookingTable, id: int): (r: Option<Booking>)
    ensures r.Some? ==> r.value in t && r.value.id == id
    ensures r.None? ==> forall b :: b in t ==> b.id != id
  {
    FirstWhere(t, (b: Booking) => b.id == id)
  }

  /** The optional filters of `get_all_bookings`; an empty string is falsy and filters nothing. */
  predicate ListFilter(phone: Option<string>, status: Option<string>, b: Booking) {
    && (phone.Some? && phone.value != "" ==> PhoneMatches(b.phoneNumber, phone.value))
    && (status.Some? && status.value != "" ==> StatusName(b.status) == status.value)
  }

  /** `get_all_bookings`: filtered, newest first, at most `limit` rows (a negative LIMIT is no limit). */
  function GetAllBookings(t: BookingTable, phone: Option<string>, status: Option<string>,
                          limit: int, ok: bool): (r: seq<Booking>)
    ensures forall b :: b in r ==> b in t && ListFilter(phone, status, b)
    ensures limit >= 0 ==> |r| <= limit
    ensures ok && IdsInOrder(t) ==> forall i, j :: 0 <= i < j < |r| ==> r[i].id > r[j].id
    ensures ok ==> r <= SelectNewestFirst(t, (b: Booking) => ListFilter(phone, status, b))
    ensures ok && (limit < 0 || limit >= |SelectNewestFirst(t, (b: Booking) => ListFilter(phone, status, b))|) ==>
              forall b :: b in t && ListFilter(phone, status, b) ==> b in r
    ensures !ok ==> r == []
  {
    if !ok then []
    else
      var all := SelectNewestFirst(t, (b: Booking) => ListFilter(phone, status, b));
      if 0 <= limit < |all| then
        (assert forall b :: b in all[..limit] ==> b in all; all[..limit])
      else all
  }

  // ---------------------------------------------------------------- writing

  /** The fields `create_booking` is called with; `bookingType` and `currency` default to "general" and "INR". */
  datatype NewBooking = NewBooking(
    phoneNumber: string,
    title: string,
    bookingType: string,
    customerName: Option<string>,
    description: Option<string>,
    date: Option<string>,
    time: Option<string>,
    amount: Option<real>,
    currency: string,
    notes: Option<string>)

  function DefaultNewBooking(phone: string, title: string): NewBooking {
    NewBooking(phone, title, "general", None, None, None, None, None, "INR", None)
  }

  /** `create_booking`: appends one `pending` row with a fresh code and returns that row. */
  function CreateBooking(t: BookingTable, req: NewBooking, draws: nat -> nat, now: int)
    : (r: (BookingTable, Booking))
    ensures r.0 == t + [r.1]
    ensures r.1.id == |t| + 1 && r.1.status == Pending && IsCode(r.1.confirmationCode)
    ensures r.1.confirmedAt.None? && r.1.cancelledAt.None? && WellFormed(r.1)
    ensures r.1.phoneNumber == req.phoneNumber && r.1.title == req.title
    ensures r.1.bookingType == req.bookingType && r.1.amount == req.amount
    ensures r.1.date == req.date && r.1.time == req.time && r.1.currency == req.currency
    ensures IdsInOrder(t) ==> IdsInOrder(r.0)
  {
    var b := Booking(|t| + 1, req.phoneNumber, req.customerName, req.bookingType, req.title,
                     req.description, req.date, req.time, req.amount, req.currency, Pending,
                     GenerateCode(CodeLength, draws), req.notes, now, now, None, None);
    (t + [b], b)
  }

  function Confirm(b: Booking, now: int): Booking {
    b.(status := Confirmed, confirmedAt := Some(now), updatedAt := now)
  }

  function Cancel(b: Booking, now: int): Booking {
    b.(status := Cancelled, cancelledAt := Some(now), updatedAt := now)
  }

  /** `UPDATE bookings SET ... WHERE <sel>`: every selected row is rewritten, and the row count is returned. */
  function UpdateWhere(t: BookingTable, sel: Booking -> bool, f: Booking -> Booking)
    : (r: (BookingTable, nat))
    ensures |r.0| == |t|
    ensures forall i :: 0 <= i < |t| ==> r.0[i] == (if sel(t[i]) then f(t[i]) else t[i])
    ensures r.1 == |SelectNewestFirst(t, sel)|
  {
    if |t| == 0 then ([], 0)
    else
      var last := t[|t| - 1];
      var rest := UpdateWhere(t[..|t| - 1], sel, f);
      if sel(last) then (rest.0 + [f(last)], rest.1 + 1) else (rest.0 + [last], rest.1)
  }

  /**
   * `confirm_booking(booking_id, confirmation_code)`: a non-empty code wins over the id, a zero id
   * is falsy, and only a `pending` row changes. It answers True whenever the store did not fail,
   * whether or not a row matched.
   */
  function ConfirmBooking(t: BookingTable, id: Option<int>, code: Option<string>, now: int, ok: bool)
    : (r: (BookingTable, bool))
    ensures r.1 == ok
    ensures |r.0| == |t|
    ensures forall i :: 0 <= i < |t| && t[i].status != Pending ==> r.0[i] == t[i]
    ensures forall i :: 0 <= i < |t| && r.0[i] != t[i] ==> r.0[i] == Confirm(t[i], now)
    ensures ok && code.Some? && code.value != "" ==>
              forall i :: 0 <= i < |t| && t[i].status == Pending ==>
                (r.0[i] != t[i] <==> t[i].confirmationCode == UpperStr(code.value))
    ensures ok && (code.None? || code.value == "") && id.Some? && id.value != 0 ==>
              forall i :: 0 <= i < |t| && t[i].status == Pending ==> (r.0[i] != t[i] <==> t[i].id == id.value)
    ensures !ok || ((code.None? || code.value == "") && (id.None? || id.value == 0)) ==> r.0 == t
  {
    if !ok then (t, false)
    else if code.Some? && code.value != "" then
      (UpdateWhere(t, (b: Booking) => b.confirmationCode == UpperStr(code.value) && b.status == Pending,
                   b => Confirm(b, now)).0, true)
    else if id.Some? && id.value != 0 then
      (UpdateWhere(t, (b: Booking) => b.id == id.value && b.status == Pending, (b: Booking) => Confirm(b, now)).0, true)
    else (t, true)
  }

  /** `cancel_booking(booking_id, confirmation_code)`, the mirror image of `ConfirmBooking`. */
  function CancelBooking(t: BookingTable, id: Option<int>, code: Option<string>, now: int, ok: bool)
    : (r: (BookingTable, bool))
    ensures r.1 == ok
    ensures |r.0| == |t|
    ensures forall i :: 0 <= i < |t| && t[i].status != Pending ==> r.0[i] == t[i]
    ensures forall i :: 0 <= i < |t| && r.0[i] != t[i] ==> r.0[i] == Cancel(t[i], now)
    ensures ok && code.Some? && code.value != "" ==>
              forall i :: 0 <= i < |t| && t[i].status == Pending ==>
                (r.0[i] != t[i] <==> t[i].confirmationCode == UpperStr(code.value))
    ensures ok && (code.None? || code.value == "") && id.Some? && id.value != 0 ==>
              forall i :: 0 <= i < |t| && t[i].status == Pending ==> (r.0[i] != t[i] <==> t[i].id == id.value)
    ensures !ok || ((code.None? || code.value == "") && (id.None? || id.value == 0)) ==> r.0 == t
  {
    if !ok then (t, false)
    else if code.Some? && code.value != "" then
      (UpdateWhere(t, (b: Booking) => b.confirmationCode == UpperStr(code.value) && b.status == Pending,
                   b => Cancel(b, now)).0, true)
    else if id.Some? && id.value != 0 then
      (UpdateWhere(t, (b: Booking) => b.id == id.value && b.status == Pending, (b: Booking) => Cancel(b, now)).0, true)
    else (t, true)
  }

  /**
   * `confirm_all_pending`: confirms every pending booking of the number and returns how many;
   * 0 and no change when the store fails.
   */
  function ConfirmAllPending(t: BookingTable, phone: string, now: int, ok: bool): (r: (BookingTable, nat))
    ensures ok ==> r.1 == |GetPendingBookings(t, phone, true)|
    ensures ok ==> GetPendingBookings(r.0, phone, true) == []
    ensures |r.0| == |t|
    ensures forall i :: 0 <= i < |t| ==> r.0[i] == (if ok && PendingFor(phone, t[i]) then Confirm(t[i], now) else t[i])
    ensures !ok ==> r == (t, 0)
  {
    if !ok then (t, 0)
    else
      var r := UpdateWhere(t, (b: Booking) => PendingFor(phone, b), (b: Booking) => Confirm(b, now));
      NothingPendingAfter(t, r.0, phone);
      r
  }

  /** `cancel_all_pending`, the mirror image of `ConfirmAllPending`. */
  function CancelAllPending(t: BookingTable, phone: string, now: int, ok: bool): (r: (BookingTable, nat))
    ensures ok ==> r.1 == |GetPendingBookings(t, phone, true)|
    ensures ok ==> GetPendingBookings(r.0, phone, true) == []
    ensures |r.0| == |t|
    ensures forall i :: 0 <= i < |t| ==> r.0[i] == (if ok && PendingFor(phone, t[i]) then Cancel(t[i], now) else t[i])
    ensures !ok ==> r == (t, 0)
  {
    if !ok then (t, 0)
    else
      var r := UpdateWhere(t, (b: Booking) => PendingFor(phone, b), (b: Booking) => Cancel(b, now));
      NothingPendingAfter(t, r.0, phone);
      r
  }

  /** After every pending row of the number has left `pending`, none is reported pending. */
  lemma NothingPendingAfter(t: BookingTable, t': BookingTable, phone: string)
    requires |t'| == |t|
    requires forall i :: 0 <= i < |t| ==> (PendingFor(phone, t[i]) ==> t'[i].status != Pending)
    requires forall i :: 0 <= i < |t| ==> (!PendingFor(phone, t[i]) ==> t'[i] == t[i])
    ensures GetPendingBookings(t', phone, true) == []
  {
    forall i | 0 <= i < |t'| ensures !PendingFor(phone, t'[i]) {
      if PendingFor(phone, t[i]) {
        assert t'[i].status != Pending;
      }
    }
    SelectNoneIsEmpty(t', (b: Booking) => PendingFor(phone, b));
  }

  // ---------------------------------------------------------------- invariants

  /** Rewriting only `pending` rows with `Confirm` or `Cancel` keeps every row well formed. */
  lemma PendingRewriteKeepsWellFormed(t: BookingTable, t': BookingTable, now: int)
    requires AllWellFormed(t) && |t'| == |t|
    requires forall i :: 0 <= i < |t| ==>
               t'[i] == t[i] || (t[i].status == Pending && (t'[i] == Confirm(t[i], now) || t'[i] == Cancel(t[i], now)))
    ensures AllWellFormed(t')
  {
    forall i | 0 <= i < |t'| ensures WellFormed(t'[i]) {
      assert WellFormed(t[i]);
    }
  }

  /** Every store transition keeps `confirmed_at`/`cancelled_at` consistent with the status. */
  lemma TransitionsKeepWellFormed(t: BookingTable, id: Option<int>, code: Option<string>, phone: string,
                                  now: int, ok: bool)
    requires AllWellFormed(t)
    ensures AllWellFormed(ConfirmBooking(t, id, code, now, ok).0)
    ensures AllWellFormed(CancelBooking(t, id, code, now, ok).0)
    ensures AllWellFormed(ConfirmAllPending(t, phone, now, ok).0)
    ensures AllWellFormed(CancelAllPending(t, phone, now, ok).0)
  {
    PendingRewriteKeepsWellFormed(t, ConfirmBooking(t, id, code, now, ok).0, now);
    PendingRewriteKeepsWellFormed(t, CancelBooking(t, id, code, now, ok).0, now);
    PendingRewriteKeepsWellFormed(t, ConfirmAllPending(t, phone, now, ok).0, now);
    PendingRewriteKeepsWellFormed(t, CancelAllPending(t, phone, now, ok).0, now);
  }

  /** No booking ever carries both a confirmation and a cancellation time. */
  lemma NeverBothStamps(b: Booking)
    requires WellFormed(b)
    ensures !(b.confirmedAt.Some? && b.cancelledAt.Some?)
  {
  }

  /** Confirming or cancelling a second time changes nothing: the first transition left `pending`. */
  lemma {:induction false} BulkIdempotent(t: BookingTable, phone: string, now: int, later: int)
    ensures var t1 := ConfirmAllPending(t, phone, now, true).0;
            ConfirmAllPending(t1, phone, later, true) == (t1, 0)
    ensures var t1 := CancelAllPending(t, phone, now, true).0;
            CancelAllPending(t1, phone, later, true) == (t1, 0)
  {
    NoPendingUnchanged(ConfirmAllPending(t, phone, now, true).0, phone, later);
    NoPendingUnchanged(CancelAllPending(t, phone, now, true).0, phone, later);
  }

  /** With nothing pending for the number, the bulk transitions touch no row. */
  lemma NoPendingUnchanged(t: BookingTable, phone: string, later: int)
    requires GetPendingBookings(t, phone, true) == []
    ensures ConfirmAllPending(t, phone, later, true) == (t, 0)
    ensures CancelAllPending(t, phone, later, true) == (t, 0)
  {
    forall i | 0 <= i < |t| ensures !PendingFor(phone, t[i]) {
      assert t[i] in t;
    }
    assert ConfirmAllPending(t, phone, later, true).0 == t;
    assert CancelAllPending(t, phone, later, true).0 == t;
  }
}

=== FILE: conversations.dfy ===
/**
 * The conversation log and the sent-message log.  Writes append one row or, when the store fails
 * or a column constraint rejects the row, leave the log as it was; they never raise.  Reads return
 * the most recent window of a number's messages in chronological order, or `[]` when the store fails.
 */
module Conversations {
  import opened Outcomes
  import opened Text

  /** One row of the `conversations` table. */
  datatype ConvMessage = ConvMessage(
    id: nat,
    phoneNumber: string,
    role: string,
    message: string,
    channel: string,
    createdAt: int)

  /** The table in insertion order, which is also chronological order. */
  type ConversationLog = seq<ConvMessage>

  const DefaultChannel: string := "whatsapp"
  const DefaultRecentLimit: int := 10
  const DefaultHistoryLimit: int := 20

  /** The `CHECK(role IN ('user', 'assistant'))` constraint of the table. */
  predicate ValidRole(role: string) {
    role == "user" || role == "assistant"
  }

  /** Ids grow along the sequence: earlier entries were inserted earlier. */
  predicate IdsIncreasing(s: seq<ConvMessage>) {
    forall i, j :: 0 <= i < j < |s| ==> s[i].id < s[j].id
  }

  // ---------------------------------------------------------------- writing

  /**
   * `store_message`: appends exactly one row when the store works and the role passes the column
   * check; otherwise the error is logged and swallowed and the log is unchanged.
   */
  function StoreMessage(log: ConversationLog, phone: string, role: string, message: string,
                        channel: string, now: int, ok: bool): (r: ConversationLog)
    ensures ok && ValidRole(role) ==> |r| == |log| + 1 && r[..|log|] == log
    ensures ok && ValidRole(role) ==>
              r[|log|].phoneNumber == phone && r[|log|].role == role && r[|log|].message == message
              && r[|log|].channel == channel && r[|log|].createdAt == now && r[|log|].id == |log| + 1
    ensures !(ok && ValidRole(role)) ==> r == log
  {
    if ok && ValidRole(role) then log + [ConvMessage(|log| + 1, phone, role, message, channel, now)]
    else log
  }

  /** One row of the `sent_messages` table. */
  datatype SentMessage = SentMessage(
    id: nat,
    recipient: string,
    channel: string,
    subject: Option<string>,
    body: string,
    status: string,
    externalId: Option<string>,
    createdAt: int)

  type SentLog = seq<SentMessage>

  const DefaultSentStatus: string := "sent"

  /**
   * `store_sent_message`: appends one record; `status` is `None` when the caller leaves the
   * parameter out, and the record then says "sent".  A failing store leaves the log unchanged.
   */
  function StoreSentMessage(log: SentLog, recipient: string, channel: string, body: string,
                            subject: Option<string>, externalId: Option<string>,
                            status: Option<string>, now: int, ok: bool): (r: SentLog)
    ensures ok ==> |r| == |log| + 1 && r[..|log|] == log
    ensures ok ==> r[|log|].recipient == recipient && r[|log|].channel == channel
                   && r[|log|].body == body && r[|log|].subject == subject
                   && r[|log|].externalId == externalId && r[|log|].createdAt == now
    ensures ok && status.None? ==> r[|log|].status == "sent"
    ensures ok && status.Some? ==> r[|log|].status == status.value
    ensures !ok ==> r == log
  {
    if ok then log + [SentMessage(|log| + 1, recipient, channel, subject, body, status.GetOr(DefaultSentStatus), externalId, now)]
    else log
  }

  // ---------------------------------------------------------------- reading

  /** The rows `WHERE phone_number LIKE '%<cleaned number>%'`, in insertion order. */
  function ForNumber(log: seq<ConvMessage>, phone: string): (r: seq<ConvMessage>)
    ensures |r| <= |log|
  {
    if |log| == 0 then []
    else if PhoneMatches(log[0].phoneNumber, phone) then [log[0]] + ForNumber(log[1..], phone)
    else ForNumber(log[1..], phone)
  }

  /** The filter keeps exactly the number's rows, and keeps them in id order. */
  lemma {:induction false} ForNumberMembers(log: seq<ConvMessage>, phone: string)
    ensures forall m :: m in ForNumber(log, phone) <==> m in log && PhoneMatches(m.phoneNumber, phone)
    ensures IdsIncreasing(log) ==> IdsIncreasing(ForNumber(log, phone))
  {
    if |log| > 0 {
      ForNumberMembers(log[1..], phone);
      var rest := ForNumber(log[1..], phone);
      assert forall m :: m in log <==> m == log[0] || m in log[1..];
      if PhoneMatches(log[0].phoneNumber, phone) && IdsIncreasing(log) {
        forall j | 0 <= j < |rest| ensures log[0].id < rest[j].id {
          assert rest[j] in log[1..];
          var b :| 0 <= b < |log| - 1 && log[1..][b] == rest[j];
          assert log[b + 1] == rest[j];
        }
      }
    }
  }

  /** Filtering distributes over concatenation. */
  lemma {:induction false} ForNumberAppend(a: seq<ConvMessage>, b: seq<ConvMessage>, phone: string)
    ensures ForNumber(a + b, phone) == ForNumber(a, phone) + ForNumber(b, phone)
  {
    if |a| > 0 {
      assert (a + b)[1..] == a[1..] + b;
      ForNumberAppend(a[1..], b, phone);
    } else {
      assert a + b == b;
    }
  }

  /**
   * `ORDER BY created_at DESC LIMIT limit`, read back reversed: the last `limit` entries in
   * chronological order.  SQLite treats a negative LIMIT as no limit.
   */
  function Window<T>(s: seq<T>, limit: int): (r: seq<T>)
    ensures limit < 0 ==> r == s
    ensures limit >= 0 ==> |r| == if limit < |s| then limit else |s|
    ensures r == s[|s| - |r|..]
  {
    if limit < 0 || limit >= |s| then s else s[|s| - limit..]
  }

  /**
   * The scan behind both reads: walks the log from the newest row backwards, keeping the rows of
   * the number, and stops once `limit` rows are kept.
   */
  method RecentWindow(log: ConversationLog, phone: string, limit: int) returns (w: seq<ConvMessage>)
    ensures w == Window(ForNumber(log, phone), limit)
  {
    w := [];
    var i := |log|;
    while i > 0 && (limit < 0 || |w| < limit)
      invariant 0 <= i <= |log|
      invariant w == ForNumber(log[i..], phone)
      invariant limit < 0 || |w| <= limit
    {
      i := i - 1;
      assert log[i..][1..] == log[i + 1..];
      if PhoneMatches(log[i].phoneNumber, phone) {
        w := [log[i]] + w;
      }
    }
    assert log[..i] + log[i..] == log;
    ForNumberAppend(log[..i], log[i..], phone);
    var before := ForNumber(log[..i], phone);
    if i > 0 {
      assert (before + w)[|before + w| - limit..] == w;
    }
  }

  /** One `{role, content}` turn handed to the reply generator. */
  datatype Turn = Turn(role: string, content: string)

  /**
   * `get_recent_messages` (default limit 10): the `limit` most recent messages of the number,
   * oldest first, as turns; `[]` when the store fails.
   */
  method GetRecentMessages(log: ConversationLog, phone: string, limit: int, ok: bool) returns (r: seq<Turn>)
    ensures !ok ==> r == []
    ensures ok ==> var w := Window(ForNumber(log, phone), limit);
                   |r| == |w| && forall i :: 0 <= i < |r| ==> r[i] == Turn(w[i].role, w[i].message)
  {
    if !ok {
      return [];
    }
    var w := RecentWindow(log, phone, limit);
    r := seq(|w|, i requires 0 <= i < |w| => Turn(w[i].role, w[i].message));
  }

  /** One entry of the displayed history. */
  datatype HistoryEntry = HistoryEntry(role: string, message: string, channel: string, timestamp: int)

  /**
   * `get_conversation_history` (default limit 20): the same window as `GetRecentMessages`,
   * carrying channel and timestamp as well.
   */
  method GetConversationHistory(log: ConversationLog, phone: string, limit: int, ok: bool)
    returns (r: seq<HistoryEntry>)
    ensures !ok ==> r == []
    ensures ok ==> var w := Window(ForNumber(log, phone), limit);
                   |r| == |w| && forall i :: 0 <= i < |r| ==>
                     r[i] == HistoryEntry(w[i].role, w[i].message, w[i].channel, w[i].createdAt)
  {
    if !ok {
      return [];
    }
    var w := RecentWindow(log, phone, limit);
    r := seq(|w|, i requires 0 <= i < |w| => HistoryEntry(w[i].role, w[i].message, w[i].channel, w[i].createdAt));
  }

  // ---------------------------------------------------------------- properties

  /**
   * The window holds the number's newest messages, oldest first: it is the tail of the number's
   * messages, every entry belongs to the number, and ids grow along it.
   */
  lemma WindowIsNewestOldestFirst(log: ConversationLog, phone: string, limit: int)
    requires IdsIncreasing(log)
    ensures var all := ForNumber(log, phone);
            var w := Window(all, limit);
            && w == all[|all| - |w|..]
            && (forall m :: m in w ==> m in log && PhoneMatches(m.phoneNumber, phone))
            && IdsIncreasing(w)
  {
    ForNumberMembers(log, phone);
    var all := ForNumber(log, phone);
    var w := Window(all, limit);
    var off := |all| - |w|;
    assert w == all[off..];
    forall m | m in w ensures m in all {
      var k :| 0 <= k < |w| && w[k] == m;
      assert all[off + k] == m;
    }
    forall a, b | 0 <= a < b < |w| ensures w[a].id < w[b].id {
      assert w[a] == all[off + a] && w[b] == all[off + b];
    }
  }

  lemma ForNumberOfOne(m: ConvMessage, phone: string)
    requires PhoneMatches(m.phoneNumber, phone)
    ensures ForNumber([m], phone) == [m]
  {
    assert [m][1..] == [];
  }

  /** Appending one entry makes it the newest in the window and shifts the older part by one. */
  lemma WindowAppend<T>(s: seq<T>, x: T, limit: int)
    requires limit != 0
    ensures var w := Window(s + [x], limit);
            && |w| > 0 && w[|w| - 1] == x
            && w[..|w| - 1] == Window(s, if limit < 0 then limit else limit - 1)
  {
    var w := Window(s + [x], limit);
    if limit > 0 && limit - 1 < |s| {
      assert w == (s + [x])[|s| + 1 - limit..];
      assert w[..|w| - 1] == s[|s| - (limit - 1)..];
    } else {
      assert w == s + [x];
      assert w[..|w| - 1] == s;
    }
  }

  /** Storing keeps ids increasing. */
  lemma StoreKeepsIdsIncreasing(log: ConversationLog, phone: string, role: string, message: string,
                                channel: string, now: int, ok: bool)
    requires forall i :: 0 <= i < |log| ==> log[i].id == i + 1
    ensures var r := StoreMessage(log, phone, role, message, channel, now, ok);
            IdsIncreasing(r) && forall i :: 0 <= i < |r| ==> r[i].id == i + 1
  {
  }

  /**
   * A message just stored for a number that the query matches is the newest entry of the
   * query's window, for any non-zero limit; every earlier window entry stays in order before it.
   */
  lemma {:induction false} StoredMessageEndsWindow(log: ConversationLog, phone: string, role: string,
                                                   message: string, channel: string, now: int,
                                                   query: string, limit: int)
    requires ValidRole(role) && PhoneMatches(phone, query) && limit != 0
    ensures var log' := StoreMessage(log, phone, role, message, channel, now, true);
            var w := Window(ForNumber(log', query), limit);
            && |w| > 0
            && w[|w| - 1] == ConvMessage(|log| + 1, phone, role, message, channel, now)
            && w[..|w| - 1] == Window(ForNumber(log, query), if limit < 0 then limit else limit - 1)
  {
    var m := ConvMessage(|log| + 1, phone, role, message, channel, now);
    var log' := StoreMessage(log, phone, role, message, channel, now, true);
    assert log' == log + [m];
    ForNumberOfOne(m, query);
    ForNumberAppend(log, [m], query);
    WindowAppend(ForNumber(log, query), m, limit);
  }
}

=== FILE: drip.dfy ===
/**
 * The trigger endpoints' use of `create_trigger`: a single validated trigger is created outside any
 * campaign, and a drip campaign becomes one `drip` trigger per message, step `i` (counted from 1)
 * due `i` step delays from now.  Each creation sends its opening message at once; the first one
 * that raises ends the campaign request with the rows created so far, the failing one included.
 */
module Drip {
  import opened Outcomes
  import opened Text
  import opened Conversations
  import opened Groq
  import opened Triggers
  import Schemas

  /** The service call `create_trigger_endpoint` makes: no campaign, step 0. */
  function SingleTriggerRequest(req: Schemas.TriggerRequest): (r: TriggerRequest)
    ensures r.campaignName.None? && r.stepNumber == 0
    ensures r.delayMinutes == req.delayMinutes && r.maxRetries == req.maxRetries
  {
    TriggerRequest(req.name, Schemas.TriggerTypeName(req.triggerType), Schemas.ChannelName(req.channel),
                   req.recipient, req.recipientName, req.message, req.subject, req.delayMinutes,
                   req.maxRetries, req.stopOnReply, None, 0)
  }

  /** A trigger created from a validated request keeps every row of the table within its retry budget. */
  lemma SingleTriggerKeepsRetriesBounded(st: Stores, req: Schemas.TriggerRequest, now: int, systemPrompt: string,
                                         respond: Responder, send: Sender)
    requires AllRetriesBounded(st.triggers)
    requires 1 <= req.maxRetries <= 10
    ensures AllRetriesBounded(CreateTrigger(st, SingleTriggerRequest(req), now, systemPrompt, respond, send).0.triggers)
  {
    CreatedTriggerBounded(st, SingleTriggerRequest(req), now, systemPrompt, respond, send);
  }

  /** `" - Step <n>"`, the suffix of a step's name and subject. */
  function StepSuffix(step: nat): string {
    " - Step " + NatToString(step)
  }

  /** The service call for message `i` (counted from 0) of a campaign. */
  function StepRequest(req: Schemas.DripRequest, i: nat): (r: TriggerRequest)
    requires i < |req.messages|
    ensures r.message == req.messages[i] && r.recipient == req.recipient
    ensures r.campaignName == Some(req.name) && r.stepNumber == i + 1
  {
    var subject := if req.subjectPrefix.Some? && req.subjectPrefix.value != "" then Some(req.subjectPrefix.value + StepSuffix(i + 1))
                   else None;
    TriggerRequest(req.name + StepSuffix(i + 1), "drip", Schemas.ChannelName(req.channel), req.recipient,
                   req.recipientName, req.messages[i], subject, req.delayBetweenMinutes * (i + 1), 3,
                   req.stopOnReply, Some(req.name), i + 1)
  }

  /** The rows steps `0 .. n-1` insert into a table that held `base` rows. */
  function StepRows(req: Schemas.DripRequest, n: nat, base: nat, now: int): (rows: seq<Trigger>)
    requires n <= |req.messages|
    ensures |rows| == n
    ensures forall k :: 0 <= k < n ==> rows[k] == NewTriggerRow(StepRequest(req, k), base + k + 1, now)
  {
    seq(n, k requires 0 <= k < n => NewTriggerRow(StepRequest(req, k), base + k + 1, now))
  }

  lemma StepRowsSnoc(req: Schemas.DripRequest, n: nat, base: nat, now: int)
    requires n < |req.messages|
    ensures StepRows(req, n + 1, base, now) == StepRows(req, n, base, now) + [NewTriggerRow(StepRequest(req, n), base + n + 1, now)]
  {
  }

  /** One `create_trigger` call of the loop, seen through what the loop relies on. */
  method CreateStep(s: Stores, rq: TriggerRequest, now: int, systemPrompt: string, respond: Responder, send: Sender)
    returns (created: (Stores, Option<Delivery>, Result<CreatedTrigger, string>))
    ensures DueInRange(now, rq.delayMinutes) ==> created.0.triggers == s.triggers + [NewTriggerRow(rq, |s.triggers| + 1, now)]
    ensures !DueInRange(now, rq.delayMinutes) ==> created.0 == s && created.2 == Err(DateOutOfRange)
    ensures created.0.sent == s.sent
    ensures created.2.Ok? ==> created.2.value.triggerId == |s.triggers| + 1
                              && |created.0.conversations| == |s.conversations| + 1
    ensures created.2.Err? ==> created.0.conversations == s.conversations
  {
    created := CreateTrigger(s, rq, now, systemPrompt, respond, send);
    assert ValidRole("assistant");
  }

  /** The due times of the first `n` steps lie inside `datetime`'s range. */
  predicate StepsInRange(req: Schemas.DripRequest, n: nat, now: int)
    requires n <= |req.messages|
  {
    forall k :: 0 <= k < n ==> DueInRange(now, StepRequest(req, k).delayMinutes)
  }

  /**
   * Step `n` (counted from 1) raised after the steps before it were created and sent: their rows
   * stay, and so does step `n`'s unless its due time was out of range.
   */
  predicate FailedAt(st: Stores, st': Stores, req: Schemas.DripRequest, n: nat, now: int)
    requires 1 <= n <= |req.messages|
  {
    && StepsInRange(req, n - 1, now)
    && st'.triggers == st.triggers + StepRows(req, if DueInRange(now, StepRequest(req, n - 1).delayMinutes) then n else n - 1,
                                              |st.triggers|, now)
    && |st'.conversations| == |st.conversations| + n - 1
  }

  /** `DripCampaignResponse`. */
  datatype DripResponse = DripResponse(campaignName: string, totalSteps: nat, triggerIds: seq<nat>, detail: string)

  /**
   * `create_drip_campaign`: the steps are created in order.  On success every step was due inside
   * `datetime`'s range, every step's row is in the table and its id is reported, in step order.
   * When a creation raises, the rows of the steps before the failing one stay, and so does the
   * failing one's unless its due time was out of range; the error is raised.
   */
  method CreateDripCampaign(st: Stores, req: Schemas.DripRequest, now: int, systemPrompt: string,
                            respond: Responder, send: Sender) returns (st': Stores, r: Result<DripResponse, string>)
    ensures st'.sent == st.sent
    ensures r.Ok? ==> StepsInRange(req, |req.messages|, now)
    ensures r.Ok? ==> st'.triggers == st.triggers + StepRows(req, |req.messages|, |st.triggers|, now)
    ensures r.Ok? ==> |st'.conversations| == |st.conversations| + |req.messages|
    ensures r.Ok? ==> r.value.campaignName == req.name && r.value.totalSteps == |req.messages|
    ensures r.Ok? ==> |r.value.triggerIds| == |req.messages|
                      && forall k :: 0 <= k < |req.messages| ==> r.value.triggerIds[k] == |st.triggers| + k + 1
    ensures r.Err? ==> exists n :: 1 <= n <= |req.messages| && FailedAt(st, st', req, n, now)
  {
    var base := |st.triggers|;
    var s := st;
    var ids: seq<nat> := [];
    var i := 0;
    while i < |req.messages|
      invariant 0 <= i <= |req.messages|
      invariant s.triggers == st.triggers + StepRows(req, i, base, now)
      invariant s.sent == st.sent
      invariant |s.conversations| == |st.conversations| + i
      invariant |ids| == i && forall k :: 0 <= k < i ==> ids[k] == base + k + 1
      invariant StepsInRange(req, i, now)
    {
      var created := CreateStep(s, StepRequest(req, i), now, systemPrompt, respond, send);
      StepRowsSnoc(req, i, base, now);
      if created.2.Err? {
        st', r := created.0, Err(created.2.error);
        if DueInRange(now, StepRequest(req, i).delayMinutes) {
          assert st'.triggers == st.triggers + StepRows(req, i + 1, base, now);
        }
        assert FailedAt(st, st', req, i + 1, now);
        return;
      }
      assert DueInRange(now, StepRequest(req, i).delayMinutes);
      ids := ids + [created.2.value.triggerId];
      s := created.0;
      i := i + 1;
    }
    st' := s;
    r := Ok(DripResponse(req.name, |req.messages|, ids,
                         "Drip campaign created with " + NatToString(|req.messages|) + " steps"));
  }

  // ---------------------------------------------------------------- properties

  /** With a positive step delay each step is due strictly later than the one before. */
  lemma DelaysIncrease(req: Schemas.DripRequest, i: nat, j: nat)
    requires i < j < |req.messages| && req.delayBetweenMinutes > 0
    ensures StepRequest(req, i).delayMinutes < StepRequest(req, j).delayMinutes
  {
    MulMonotone(req.delayBetweenMinutes, i + 1, j + 1);
  }

  lemma MulMonotone(d: int, a: int, b: int)
    requires d > 0 && a < b
    ensures d * a < d * b
  {
    assert d * b == d * a + d * (b - a);
  }

  /** 2026-01-01 00:00 UTC on the model's clock. */
  const Year2026: int := 1065047040

  /**
   * A ten-step campaign 420,000,000 minutes apart cannot succeed from 2026 on: its tenth step
   * falls past year 9999, though its first is well in range.
   */
  lemma DistantCampaignFails(req: Schemas.DripRequest, now: int)
    requires |req.messages| == 10 && req.delayBetweenMinutes == 420000000
    requires Year2026 <= now <= LastMinute - 420000000
    ensures !StepsInRange(req, 10, now)
    ensures DueInRange(now, StepRequest(req, 0).delayMinutes)
  {
    assert StepRequest(req, 9).delayMinutes == 4200000000;
  }

  /** Step names are `<name> - Step <n>`, so no two steps of one campaign share a name. */
  lemma StepNamesDistinct(req: Schemas.DripRequest, i: nat, j: nat)
    requires i < |req.messages| && j < |req.messages| && i != j
    ensures StepRequest(req, i).name != StepRequest(req, j).name
  {
    SuffixesDiffer(i + 1, j + 1);
    assert (req.name + StepSuffix(i + 1))[|req.name|..] == StepSuffix(i + 1);
    assert (req.name + StepSuffix(j + 1))[|req.name|..] == StepSuffix(j + 1);
  }

  /** Different step numbers give different suffixes. */
  lemma SuffixesDiffer(m: nat, n: nat)
    requires m != n
    ensures StepSuffix(m) != StepSuffix(n)
  {
    if StepSuffix(m) == StepSuffix(n) {
      assert StepSuffix(m)[8..] == NatToString(m);
      assert StepSuffix(n)[8..] == NatToString(n);
      NatToStringRoundTrip(m);
      NatToStringRoundTrip(n);
    }
  }

  /** A subject exists for a step exactly when the prefix is a non-empty string, and then it names the step. */
  lemma StepSubject(req: Schemas.DripRequest, i: nat)
    requires i < |req.messages|
    ensures StepRequest(req, i).subject.Some? <==> req.subjectPrefix.Some? && req.subjectPrefix.value != ""
    ensures StepRequest(req, i).subject.Some? ==>
              StepRequest(req, i).subject.value == req.subjectPrefix.value + StepSuffix(i + 1)
  {
  }

  /** Every step is a `drip` trigger with three retries, so a campaign keeps the table within its retry budgets. */
  lemma StepsKeepRetriesBounded(t: TriggerTable, req: Schemas.DripRequest, n: nat, now: int)
    requires n <= |req.messages|
    requires AllRetriesBounded(t)
    ensures AllRetriesBounded(t + StepRows(req, n, |t|, now))
    ensures forall k :: 0 <= k < n ==> StepRows(req, n, |t|, now)[k].triggerType == "drip"
  {
    var rows := StepRows(req, n, |t|, now);
    forall k | 0 <= k < |t + rows| ensures RetriesBounded((t + rows)[k]) {
      if k >= |t| {
        assert (t + rows)[k] == rows[k - |t|];
      }
    }
  }
}

=== FILE: glyphs.dfy ===
/**
 * The marks in front of the lines of the booking texts, and the signs inside them.
 *
 * src/api/v1/endpoints/bookings.py writes each mark as the character itself.  The literals of
 * src/services/trigger_service.py are the same characters garbled: the UTF-8 bytes of each were
 * read back one byte per character through the Windows-1252 code page, and the bytes that code
 * page leaves undefined were dropped.  The program sends those texts as they are spelled.
 */
module Glyphs {

  /** One spelling of each mark. */
  datatype Marks = Marks(
    clipboard: string,
    pin: string,
    calendar: string,
    clock: string,
    moneyBag: string,
    bookmark: string,
    rupee: string,
    check: string,
    cross: string,
    info: string,
    hourglass: string,
    emDash: string)

  /** The characters themselves, as bookings.py writes them. */
  const Emoji: Marks := Marks(
    "\U{1F4CB}", "\U{1F4CC}", "\U{1F4C5}", "\U{1F550}", "\U{1F4B0}", "\U{1F516}",
    "\U{20B9}", "\U{2705}", "\U{274C}", "\U{2139}\U{FE0F}", "\U{23F3}", "\U{2014}")

  /** The spellings of trigger_service.py. */
  const Garbled: Marks := Marks(
    "\U{F0}\U{178}\U{201C}\U{2039}", "\U{F0}\U{178}\U{201C}\U{152}", "\U{F0}\U{178}\U{201C}\U{2026}",
    "\U{F0}\U{178}\U{2022}", "\U{F0}\U{178}\U{2019}\U{B0}", "\U{F0}\U{178}\U{201D}\U{2013}",
    "\U{E2}\U{201A}\U{B9}", "\U{E2}\U{153}\U{2026}", "\U{E2}\U{152}",
    "\U{E2}\U{201E}\U{B9}\U{EF}\U{B8}", "\U{E2}\U{B3}", "\U{E2}\U{20AC}\U{201D}")

  // ---------------------------------------------------------------- the garbling

  predicate IsAscii(s: string) {
    forall i :: 0 <= i < |s| ==> s[i] as int < 0x80
  }

  /** The UTF-8 encoding of one character. */
  function Utf8(c: char): (r: seq<int>)
    ensures 1 <= |r| <= 4
    ensures forall i :: 0 <= i < |r| ==> 0 <= r[i] < 0x100
    ensures c as int < 0x80 <==> |r| == 1
    ensures |r| == 1 ==> r[0] == c as int
    ensures forall i :: 1 <= i < |r| ==> 0x80 <= r[i] < 0xC0
  {
    var n := c as int;
    if n < 0x80 then [n]
    else if n < 0x800 then [0xC0 + n / 0x40, 0x80 + n % 0x40]
    else if n < 0x1_0000 then [0xE0 + n / 0x1000, 0x80 + (n / 0x40) % 0x40, 0x80 + n % 0x40]
    else [0xF0 + n / 0x4_0000, 0x80 + (n / 0x1000) % 0x40, 0x80 + (n / 0x40) % 0x40, 0x80 + n % 0x40]
  }

  /**
   * Windows-1252 for the bytes 0x80 to 0x9F; the five bytes it leaves undefined (0x81, 0x8D,
   * 0x8F, 0x90 and 0x9D) read as nothing.
   */
  const HighBytes: seq<string> := [
    "\U{20AC}", "", "\U{201A}", "\U{192}", "\U{201E}", "\U{2026}", "\U{2020}", "\U{2021}",
    "\U{2C6}", "\U{2030}", "\U{160}", "\U{2039}", "\U{152}", "", "\U{17D}", "",
    "", "\U{2018}", "\U{2019}", "\U{201C}", "\U{201D}", "\U{2022}", "\U{2013}", "\U{2014}",
    "\U{2DC}", "\U{2122}", "\U{161}", "\U{203A}", "\U{153}", "", "\U{17E}", "\U{178}"]

  /** One byte read through Windows-1252: every byte outside 0x80 to 0x9F is the character of that number. */
  function Cp1252(b: int): (r: string)
    requires 0 <= b < 0x100
    ensures |r| <= 1
    ensures !(0x80 <= b < 0xA0) ==> r == [b as char]
  {
    if 0x80 <= b < 0xA0 then HighBytes[b - 0x80] else [b as char]
  }

  function ReadBytes(bs: seq<int>): (r: string)
    requires forall i :: 0 <= i < |bs| ==> 0 <= bs[i] < 0x100
    ensures |r| <= |bs|
  {
    if |bs| == 0 then "" else Cp1252(bs[0]) + ReadBytes(bs[1..])
  }

  /** A text encoded as UTF-8 and read back through Windows-1252. */
  function Garble(s: string): (r: string)
    ensures |r| <= 4 * |s|
  {
    if |s| == 0 then "" else ReadBytes(Utf8(s[0])) + Garble(s[1..])
  }

  function GarbleMarks(m: Marks): Marks {
    Marks(Garble(m.clipboard), Garble(m.pin), Garble(m.calendar), Garble(m.clock), Garble(m.moneyBag),
          Garble(m.bookmark), Garble(m.rupee), Garble(m.check), Garble(m.cross), Garble(m.info),
          Garble(m.hourglass), Garble(m.emDash))
  }

  // ---------------------------------------------------------------- properties

  /** Garbling works character by character. */
  lemma {:induction false} GarbleAppend(a: string, b: string)
    ensures Garble(a + b) == Garble(a) + Garble(b)
    decreases |a|
  {
    if |a| == 0 {
      assert a + b == b;
    } else {
      assert (a + b)[0] == a[0];
      assert (a + b)[1..] == a[1..] + b;
      GarbleAppend(a[1..], b);
    }
  }

  /** ASCII text survives the garbling: only the marks are hit. */
  lemma {:induction false} GarbleAscii(s: string)
    requires IsAscii(s)
    ensures Garble(s) == s
    decreases |s|
  {
    if |s| > 0 {
      assert ReadBytes(Utf8(s[0])) == [s[0]];
      GarbleAscii(s[1..]);
      assert s == [s[0]] + s[1..];
    }
  }

  lemma AsciiConcat(a: string, b: string)
    requires IsAscii(a) && IsAscii(b)
    ensures IsAscii(a + b)
  {
    assert forall i :: |a| <= i < |a + b| ==> (a + b)[i] == b[i - |a|];
  }

  /** A mark between ASCII text is garbled alone. */
  lemma GarbleBetween(a: string, x: string, b: string)
    requires IsAscii(a) && IsAscii(b)
    ensures Garble(a + x + b) == a + Garble(x) + b
  {
    GarbleAppend(a + x, b);
    GarbleAppend(a, x);
    GarbleAscii(a);
    GarbleAscii(b);
  }

  /** The same for a mark followed by three ASCII pieces, grouped as a note is written. */
  lemma GarbleMarkThen(a: string, x: string, b: string, c: string, d: string)
    requires IsAscii(a) && IsAscii(b) && IsAscii(c) && IsAscii(d)
    ensures Garble(a + x + b + c + d) == a + Garble(x) + b + c + d
  {
    GarbleAppend(a + x + b + c, d);
    GarbleAppend(a + x + b, c);
    GarbleAppend(a + x, b);
    GarbleAppend(a, x);
    GarbleAscii(a);
    GarbleAscii(b);
    GarbleAscii(c);
    GarbleAscii(d);
  }

  /** Garbling one character of each UTF-8 length, spelled out byte by byte. */
  lemma Garble3(c: char, x: int, y: int, z: int)
    requires 0x800 <= c as int < 0x1_0000
    requires x == 0xE0 + c as int / 0x1000 && y == 0x80 + (c as int / 0x40) % 0x40 && z == 0x80 + c as int % 0x40
    ensures Garble([c]) == Cp1252(x) + Cp1252(y) + Cp1252(z)
  {
    assert Utf8(c) == [x, y, z];
    GarbleOne(c);
    ReadThree(x, y, z);
  }

  lemma Garble4(c: char, w: int, x: int, y: int, z: int)
    requires 0x1_0000 <= c as int
    requires w == 0xF0 + c as int / 0x4_0000 && x == 0x80 + (c as int / 0x1000) % 0x40
    requires y == 0x80 + (c as int / 0x40) % 0x40 && z == 0x80 + c as int % 0x40
    ensures Garble([c]) == Cp1252(w) + Cp1252(x) + Cp1252(y) + Cp1252(z)
  {
    Utf8Four(c);
    GarbleOne(c);
    ReadFour(w, x, y, z);
  }

  lemma Utf8Four(c: char)
    requires 0x1_0000 <= c as int
    ensures var n := c as int;
            Utf8(c) == [0xF0 + n / 0x4_0000, 0x80 + (n / 0x1000) % 0x40, 0x80 + (n / 0x40) % 0x40, 0x80 + n % 0x40]
  {
  }

  lemma ReadFour(w: int, x: int, y: int, z: int)
    requires 0 <= w < 0x100 && 0 <= x < 0x100 && 0 <= y < 0x100 && 0 <= z < 0x100
    ensures ReadBytes([w, x, y, z]) == Cp1252(w) + Cp1252(x) + Cp1252(y) + Cp1252(z)
  {
    ReadThree(x, y, z);
    assert [w, x, y, z][1..] == [x, y, z];
    assert ReadBytes([w, x, y, z]) == Cp1252(w) + ReadBytes([x, y, z]);
    Regroup(Cp1252(w), Cp1252(x), Cp1252(y), Cp1252(z));
  }

  /** Concatenation regrouped, for proofs that build texts piece by piece. */
  lemma Regroup(a: string, b: string, c: string, d: string)
    ensures a + (b + c + d) == a + b + c + d
  {
  }

  lemma GarbleOne(c: char)
    ensures Garble([c]) == ReadBytes(Utf8(c))
  {
    assert [c][1..] == [];
    assert Garble([c]) == ReadBytes(Utf8(c)) + Garble([]);
  }

  lemma ReadThree(x: int, y: int, z: int)
    requires 0 <= x < 0x100 && 0 <= y < 0x100 && 0 <= z < 0x100
    ensures ReadBytes([x, y, z]) == Cp1252(x) + Cp1252(y) + Cp1252(z)
  {
    assert [x, y, z][1..] == [y, z] && [y, z][1..] == [z] && [z][1..] == [];
    assert ReadBytes([z]) == Cp1252(z) + ReadBytes([]);
    assert ReadBytes([y, z]) == Cp1252(y) + ReadBytes([z]);
    assert ReadBytes([x, y, z]) == Cp1252(x) + ReadBytes([y, z]);
  }

  /** The spellings of trigger_service.py are exactly the garbled characters. */
  lemma GarbledIsGarble()
    ensures Garbled == GarbleMarks(Emoji)
  {
    GarbledClipboard();
    GarbledPin();
    GarbledCalendar();
    GarbledClock();
    GarbledMoneyBag();
    GarbledBookmark();
    GarbledRupee();
    GarbledCheck();
    GarbledCross();
    GarbledHourglass();
    GarbledEmDash();
    GarbledInfo();
  }

  lemma GarbledClipboard()
    ensures Garble(Emoji.clipboard) == Garbled.clipboard
  {
    Garble4('\U{1F4CB}', 0xF0, 0x9F, 0x93, 0x8B);
  }

  lemma GarbledPin()
    ensures Garble(Emoji.pin) == Garbled.pin
  {
    Garble4('\U{1F4CC}', 0xF0, 0x9F, 0x93, 0x8C);
  }

  lemma GarbledCalendar()
    ensures Garble(Emoji.calendar) == Garbled.calendar
  {
    Garble4('\U{1F4C5}', 0xF0, 0x9F, 0x93, 0x85);
  }

  lemma GarbledClock()
    ensures Garble(Emoji.clock) == Garbled.clock
  {
    Garble4('\U{1F550}', 0xF0, 0x9F, 0x95, 0x90);
  }

  lemma GarbledMoneyBag()
    ensures Garble(Emoji.moneyBag) == Garbled.moneyBag
  {
    Garble4('\U{1F4B0}', 0xF0, 0x9F, 0x92, 0xB0);
  }

  lemma GarbledBookmark()
    ensures Garble(Emoji.bookmark) == Garbled.bookmark
  {
    Garble4('\U{1F516}', 0xF0, 0x9F, 0x94, 0x96);
  }

  lemma GarbledRupee()
    ensures Garble(Emoji.rupee) == Garbled.rupee
  {
    Garble3('\U{20B9}', 0xE2, 0x82, 0xB9);
  }

  lemma GarbledCheck()
    ensures Garble(Emoji.check) == Garbled.check
  {
    Garble3('\U{2705}', 0xE2, 0x9C, 0x85);
  }

  lemma GarbledCross()
    ensures Garble(Emoji.cross) == Garbled.cross
  {
    Garble3('\U{274C}', 0xE2, 0x9D, 0x8C);
  }

  lemma GarbledHourglass()
    ensures Garble(Emoji.hourglass) == Garbled.hourglass
  {
    Garble3('\U{23F3}', 0xE2, 0x8F, 0xB3);
  }

  lemma GarbledEmDash()
    ensures Garble(Emoji.emDash) == Garbled.emDash
  {
    Garble3('\U{2014}', 0xE2, 0x80, 0x94);
  }

  lemma GarbledInfo()
    ensures Garble(Emoji.info) == Garbled.info
  {
    GarbledInfoSign();
    GarbledVariationSelector();
    assert Emoji.info == ['\U{2139}'] + ['\U{FE0F}'];
    GarbleAppend(['\U{2139}'], ['\U{FE0F}']);
  }

  lemma GarbledInfoSign()
    ensures Garble(['\U{2139}']) == "\U{E2}\U{201E}\U{B9}"
  {
    Garble3('\U{2139}', 0xE2, 0x84, 0xB9);
  }

  /** The variation selector after the information sign loses its last byte, 0x8F, which Windows-1252 leaves undefined. */
  lemma GarbledVariationSelector()
    ensures Garble(['\U{FE0F}']) == "\U{EF}\U{B8}"
  {
    Garble3('\U{FE0F}', 0xEF, 0xB8, 0x8F);
  }

  /** The garbling changes every mark: no mark reads as written. */
  lemma MarksDiffer()
    ensures Garbled.clipboard != Emoji.clipboard && Garbled.pin != Emoji.pin
    ensures Garbled.calendar != Emoji.calendar && Garbled.clock != Emoji.clock
    ensures Garbled.moneyBag != Emoji.moneyBag && Garbled.bookmark != Emoji.bookmark
    ensures Garbled.rupee != Emoji.rupee && Garbled.check != Emoji.check && Garbled.cross != Emoji.cross
    ensures Garbled.info != Emoji.info && Garbled.hourglass != Emoji.hourglass && Garbled.emDash != Emoji.emDash
  {
    assert Garbled.info[0] != Emoji.info[0];
  }
}

=== FILE: groq.dfy ===
/**
 * The language-model client: the attempt/model/back-off policy of one completion call, the
 * message list handed to the provider, and the line parser that reads a rewritten message back.
 * The provider itself is a parameter: a function from (messages, model, attempt number) to what
 * that attempt produced.
 */
module Groq {
  import opened Outcomes
  import opened Text

  /** One `{"role": ..., "content": ...}` entry of a chat request. */
  datatype ChatMessage = ChatMessage(role: string, content: string)

  const ModelPrimary: string := "llama-3.1-8b-instant"
  const ModelFallback: string := "gemma2-9b-it"
  const MaxAttempts: nat := 3
  /** Seconds; the wait after rate-limited attempt `k` is `RetryDelay * (k + 1)`. */
  const RetryDelay: nat := 2

  const RateLimitMessage: string := "Groq rate limit exceeded. Please try again in a minute."
  const ConnectionMessage: string := "Failed to connect to Groq API"

  /** What one request to the provider produced: a reply, or the exception class it raised. */
  datatype CallOutcome =
    | Replied(content: string)
    | RateLimited
    | ConnectionFailed
    | ApiFailed(message: string)
    | OtherError(message: string)

  /** The provider: the outcome of sending `messages` to `model` on attempt `attempt`. */
  type Responder = (seq<ChatMessage>, string, nat) -> CallOutcome

  /** Attempts 0 and 1 use the primary model, attempt 2 the fallback. */
  function ModelFor(attempt: nat): string {
    if attempt < 2 then ModelPrimary else ModelFallback
  }

  /** Only the last attempt asks the fallback model, which differs from the primary one. */
  lemma FallbackOnLastAttempt()
    ensures forall k :: 0 <= k < MaxAttempts ==> (ModelFor(k) == ModelFallback <==> k == MaxAttempts - 1)
  {
    assert ModelPrimary[0] != ModelFallback[0];
  }

  /** The observable trace of one call: its result, the model of each attempt, and each wait. */
  datatype CallRecord = CallRecord(result: Result<string, string>, models: seq<string>, waits: seq<nat>)

  /** The error text an exception other than a rate limit turns into. */
  function ErrorText(o: CallOutcome): string {
    match o
    case ConnectionFailed => ConnectionMessage
    case ApiFailed(m) => "Groq API error: " + m
    case OtherError(m) => "Groq error: " + m
    case _ => RateLimitMessage
  }

  /** The error text tells a provider error from any other error and keeps the exception's message. */
  lemma ErrorTextKeepsMessage(a: string, b: string)
    ensures ErrorText(ApiFailed(a)) == ErrorText(ApiFailed(b)) <==> a == b
    ensures ErrorText(OtherError(a)) == ErrorText(OtherError(b)) <==> a == b
    ensures ErrorText(ApiFailed(a)) != ErrorText(OtherError(b))
    ensures ErrorText(ConnectionFailed) != ErrorText(RateLimited)
  {
    var api := "Groq API error: ";
    var other := "Groq error: ";
    assert (api + a)[5] != (other + b)[5];
    if api + a == api + b {
      assert a == (api + a)[|api|..];
    }
    if other + a == other + b {
      assert a == (other + a)[|other|..];
    }
    assert |ConnectionMessage| != |RateLimitMessage|;
  }

  /** What the call returns once an attempt is not retried: the stripped reply, or the error text. */
  function FinalResult(o: CallOutcome): (r: Result<string, string>)
    ensures r.Ok? <==> o.Replied?
    ensures o.Replied? ==> r == Ok(Strip(o.content))
    ensures o.RateLimited? ==> r == Err(RateLimitMessage)
  {
    if o.Replied? then Ok(Strip(o.content)) else Err(ErrorText(o))
  }

  /** What each attempt would produce: entry `k` is the provider's answer to attempt `k` and its model. */
  function Plan(messages: seq<ChatMessage>, respond: Responder): (p: seq<CallOutcome>)
    ensures |p| == MaxAttempts
    ensures forall k :: 0 <= k < MaxAttempts ==> p[k] == respond(messages, ModelFor(k), k)
  {
    seq(MaxAttempts, k requires 0 <= k < MaxAttempts => respond(messages, ModelFor(k), k))
  }

  /** The attempts from `attempt` on. */
  function CallFrom(plan: seq<CallOutcome>, attempt: nat): (r: CallRecord)
    requires attempt < MaxAttempts == |plan|
    ensures 1 <= |r.models| <= MaxAttempts - attempt
    ensures forall k :: 0 <= k < |r.models| ==> r.models[k] == ModelFor(attempt + k)
    ensures |r.waits| == |r.models| - 1
    ensures forall k :: 0 <= k < |r.waits| ==> r.waits[k] == RetryDelay * (attempt + k + 1)
    ensures forall k :: attempt <= k < attempt + |r.models| - 1 ==> plan[k].RateLimited?
    ensures r.result == FinalResult(plan[attempt + |r.models| - 1])
    ensures plan[attempt + |r.models| - 1].RateLimited? ==> attempt + |r.models| == MaxAttempts
    decreases MaxAttempts - attempt
  {
    if plan[attempt].RateLimited? && attempt < MaxAttempts - 1 then
      var rest := CallFrom(plan, attempt + 1);
      var r := Retried(plan, attempt, rest);
      assert attempt + |r.models| - 1 == attempt + 1 + |rest.models| - 1;
      r
    else CallRecord(FinalResult(plan[attempt]), [ModelFor(attempt)], [])
  }

  /** A rate-limited attempt followed by the record of the attempts after it. */
  function Retried(plan: seq<CallOutcome>, attempt: nat, rest: CallRecord): (r: CallRecord)
    requires attempt + 1 < MaxAttempts == |plan| && plan[attempt].RateLimited?
    requires 1 <= |rest.models| <= MaxAttempts - attempt - 1
    requires forall k :: 0 <= k < |rest.models| ==> rest.models[k] == ModelFor(attempt + 1 + k)
    requires |rest.waits| == |rest.models| - 1
    requires forall k :: 0 <= k < |rest.waits| ==> rest.waits[k] == RetryDelay * (attempt + k + 2)
    requires forall k :: attempt + 1 <= k < attempt + |rest.models| ==> plan[k].RateLimited?
    ensures r.result == rest.result && |r.models| == |rest.models| + 1
    ensures forall k :: 0 <= k < |r.models| ==> r.models[k] == ModelFor(attempt + k)
    ensures |r.waits| == |r.models| - 1
    ensures forall k :: 0 <= k < |r.waits| ==> r.waits[k] == RetryDelay * (attempt + k + 1)
    ensures forall k :: attempt <= k < attempt + |r.models| - 1 ==> plan[k].RateLimited?
  {
    var r := CallRecord(rest.result, [ModelFor(attempt)] + rest.models, [RetryDelay * (attempt + 1)] + rest.waits);
    assert forall k :: 1 <= k < |r.models| ==> r.models[k] == rest.models[k - 1];
    assert forall k :: 1 <= k < |r.waits| ==> r.waits[k] == rest.waits[k - 1];
    r
  }

  /**
   * `_call_groq`: at most three attempts; only a rate limit is retried, after 2, then 4 seconds;
   * the third rate limit and every other error end the call with an error.
   */
  function CallGroq(messages: seq<ChatMessage>, respond: Responder): (r: CallRecord)
    ensures 1 <= |r.models| <= MaxAttempts
    ensures forall k :: 0 <= k < |r.models| ==> r.models[k] == (if k < 2 then ModelPrimary else ModelFallback)
    ensures |r.waits| == |r.models| - 1
    ensures forall k :: 0 <= k < |r.waits| ==> r.waits[k] == RetryDelay * (k + 1)
    ensures forall k :: 0 <= k < |r.models| - 1 ==> respond(messages, r.models[k], k).RateLimited?
    ensures r.result.Ok? <==> respond(messages, r.models[|r.models| - 1], |r.models| - 1).Replied?
  {
    var plan := Plan(messages, respond);
    var r := CallFrom(plan, 0);
    assert forall k :: 0 <= k < |r.models| ==> r.models[k] == ModelFor(k);
    r
  }

  /** A provider that keeps rate-limiting is tried exactly three times and the call fails. */
  lemma PersistentRateLimitGivesUp(messages: seq<ChatMessage>, respond: Responder)
    requires forall k: nat :: k < MaxAttempts ==> respond(messages, ModelFor(k), k) == RateLimited
    ensures CallGroq(messages, respond) == CallRecord(Err(RateLimitMessage),
                                                      [ModelPrimary, ModelPrimary, ModelFallback], [2, 4])
  {
    var r := CallGroq(messages, respond);
    assert respond(messages, ModelFor(0), 0) == RateLimited;
    assert respond(messages, ModelFor(1), 1) == RateLimited;
    assert respond(messages, ModelFor(2), 2) == RateLimited;
  }

  /** An error other than a rate limit on the first attempt ends the call there. */
  lemma FirstHardErrorIsFinal(messages: seq<ChatMessage>, respond: Responder)
    requires var o := respond(messages, ModelPrimary, 0); !o.Replied? && !o.RateLimited?
    ensures var r := CallGroq(messages, respond);
            r.models == [ModelPrimary] && r.waits == [] && r.result == Err(ErrorText(respond(messages, ModelPrimary, 0)))
  {
  }

  /**
   * `chat_completion`: the provider receives the configured system prompt as one leading system
   * message followed by the caller's messages unchanged.
   */
  function ChatCompletion(systemPrompt: string, messages: seq<ChatMessage>, respond: Responder)
    : (r: (seq<ChatMessage>, Result<string, string>))
    ensures |r.0| == |messages| + 1
    ensures r.0[0] == ChatMessage("system", systemPrompt) && r.0[1..] == messages
    ensures forall k :: 1 <= k < |r.0| ==> r.0[k] == messages[k - 1]
    ensures r.1 == CallGroq(r.0, respond).result
  {
    var full := [ChatMessage("system", systemPrompt)] + messages;
    (full, CallGroq(full, respond).result)
  }

  // ---------------------------------------------------------------- rewrite parser

  /** The message fields a rewrite produces. */
  datatype Rewrite = Rewrite(subject: string, message: string, cta: string)

  datatype Section = NoSection | SubjectSection | BodySection | CtaSection

  /** The loop state of `_parse_rewrite_response` after some lines. */
  datatype ParseState = ParseState(subject: string, cta: string, section: Section, bodyLines: seq<string>)

  /** `line.upper().startswith(header)` for an upper-case ASCII header. */
  predicate HasHeader(line: string, header: string) {
    |line| >= |header| && UpperStr(line[..|header|]) == header
  }

  predicate IsHeaderLine(line: string) {
    var s := Strip(line);
    HasHeader(s, "SUBJECT:") || HasHeader(s, "BODY:") || HasHeader(s, "CTA:")
  }

  /** The stripped text after a header on a stripped line. */
  function AfterHeader(s: string, header: string): string
    requires HasHeader(s, header)
  {
    Strip(s[|header|..])
  }

  /** One iteration of the line loop. */
  function Step(st: ParseState, line: string): (r: ParseState)
    ensures !IsHeaderLine(line) && st.section != BodySection ==> r == st
    ensures !IsHeaderLine(line) ==> r.subject == st.subject && r.cta == st.cta && r.section == st.section
  {
    var s := Strip(line);
    if HasHeader(s, "SUBJECT:") then st.(subject := AfterHeader(s, "SUBJECT:"), section := SubjectSection)
    else if HasHeader(s, "BODY:") then
      var text := AfterHeader(s, "BODY:");
      st.(bodyLines := if text != "" then st.bodyLines + [text] else st.bodyLines, section := BodySection)
    else if HasHeader(s, "CTA:") then st.(cta := AfterHeader(s, "CTA:"), section := CtaSection)
    else if st.section == BodySection then st.(bodyLines := st.bodyLines + [line])
    else st
  }

  /** The state after the loop has consumed `lines` starting from `st`. */
  function Run(st: ParseState, lines: seq<string>): ParseState
    decreases |lines|
  {
    if |lines| == 0 then st else Step(Run(st, lines[..|lines| - 1]), lines[|lines| - 1])
  }

  /**
   * `_parse_rewrite_response`: splits on "\n" and runs the loop; the body is the collected lines
   * newline-joined and stripped when any were collected, the fallback otherwise.
   */
  function ParseRewrite(content: string, fallbackSubject: string, fallbackBody: string, fallbackCta: string)
    : (r: Rewrite)
    ensures var st := Run(ParseState(fallbackSubject, fallbackCta, NoSection, []), SplitOn(content, '\n'));
            && r.subject == st.subject && r.cta == st.cta
            && (st.bodyLines == [] ==> r.message == fallbackBody)
            && (st.bodyLines != [] ==> r.message == Strip(Join(st.bodyLines, "\n")))
  {
    var st := Run(ParseState(fallbackSubject, fallbackCta, NoSection, []), SplitOn(content, '\n'));
    Rewrite(st.subject, if st.bodyLines != [] then Strip(Join(st.bodyLines, "\n")) else fallbackBody, st.cta)
  }

  /** Running over two stretches of lines is running over the first and then the second. */
  lemma {:induction false} RunAppend(st: ParseState, a: seq<string>, b: seq<string>)
    ensures Run(st, a + b) == Run(Run(st, a), b)
    decreases |b|
  {
    if |b| == 0 {
      assert a + b == a;
    } else {
      assert (a + b)[..|a + b| - 1] == a + b[..|b| - 1];
      RunAppend(st, a, b[..|b| - 1]);
    }
  }

  /** Lines without a header leave the state alone unless the body section is open. */
  lemma {:induction false} PlainLinesOutsideBodyIgnored(st: ParseState, lines: seq<string>)
    requires st.section != BodySection
    requires forall k :: 0 <= k < |lines| ==> !IsHeaderLine(lines[k])
    ensures Run(st, lines) == st
    decreases |lines|
  {
    if |lines| > 0 {
      PlainLinesOutsideBodyIgnored(st, lines[..|lines| - 1]);
    }
  }

  /** With no SUBJECT:/BODY:/CTA: line the three fallbacks come back unchanged. */
  lemma NoHeadersGivesFallbacks(content: string, fallbackSubject: string, fallbackBody: string, fallbackCta: string)
    requires forall line :: line in SplitOn(content, '\n') ==> !IsHeaderLine(line)
    ensures ParseRewrite(content, fallbackSubject, fallbackBody, fallbackCta)
              == Rewrite(fallbackSubject, fallbackBody, fallbackCta)
  {
    var lines := SplitOn(content, '\n');
    PlainLinesOutsideBodyIgnored(ParseState(fallbackSubject, fallbackCta, NoSection, []), lines);
  }

  /** The subject a run ends with: that of the last SUBJECT: line, else the one it started with. */
  function LastSubject(lines: seq<string>, fallback: string): string
    decreases |lines|
  {
    if |lines| == 0 then fallback
    else
      var s := Strip(lines[|lines| - 1]);
      if HasHeader(s, "SUBJECT:") then AfterHeader(s, "SUBJECT:") else LastSubject(lines[..|lines| - 1], fallback)
  }

  /** A later SUBJECT: line overwrites an earlier one: the parsed subject is the last one's text. */
  lemma {:induction false} SubjectIsLastHeader(st: ParseState, lines: seq<string>)
    ensures Run(st, lines).subject == LastSubject(lines, st.subject)
    decreases |lines|
  {
    if |lines| > 0 {
      SubjectIsLastHeader(st, lines[..|lines| - 1]);
    }
  }

  /** After a CTA: line, plain lines are ignored, so nothing after it reaches the body. */
  lemma LinesAfterCtaIgnored(st: ParseState, cta: string, after: seq<string>)
    requires HasHeader(Strip(cta), "CTA:")
    requires forall k :: 0 <= k < |after| ==> !IsHeaderLine(after[k])
    ensures Run(st, [cta] + after) == Step(st, cta)
  {
    var s := Strip(cta);
    assert Upper(s[0]) == 'C' by {
      assert UpperStr(s[..4])[0] == 'C';
    }
    assert !HasHeader(s, "SUBJECT:");
    assert !HasHeader(s, "BODY:");
    assert Step(st, cta).section == CtaSection;
    RunAppend(st, [cta], after);
    assert Run(st, [cta]) == Step(Run(st, []), cta) by {
      assert [cta][..0] == [];
    }
    PlainLinesOutsideBodyIgnored(Step(st, cta), after);
  }
}

=== FILE: outcomes.dfy ===
/** Optional values and success/failure results shared by every module of the model. */
module Outcomes {

  /** A value that may be absent: Python's `None` versus a present value. */
  datatype Option<+T> = None | Some(value: T) {

    /** The present value, or `default` when absent (Python's `x or default` on non-falsy values). */
    function GetOr(default: T): T {
      match this
      case Some(v) => v
      case None => default
    }
  }

  /** The outcome of an operation that can raise: a value, or the error it raised. */
  datatype Result<+T, +E> = Ok(value: T) | Err(error: E)
}

=== FILE: rate_limiter.dfy ===
/**
 * `RateLimiterMiddleware`: a per-client sliding window.  Each client address keeps the times of
 * its admitted requests; a request first drops the times that have left the window, is refused
 * with 429 when the remaining ones already reach the limit, and is otherwise recorded and
 * forwarded.  Times are the clock's seconds, passed in; the middleware's state is a value.
 */
module RateLimiter {
  const DefaultRateLimit: int := 100
  const DefaultWindow: int := 60
  const TooManyRequests: int := 429
  const LimitDetail: string := "Rate limit exceeded"

  /** The middleware: its limit, its window in seconds, and the recorded times per client. */
  datatype Limiter = Limiter(rateLimit: int, window: int, clients: map<string, seq<real>>)

  /** `RateLimiterMiddleware(app, rate_limit, time_window)`. */
  function NewLimiter(rateLimit: int, window: int): (l: Limiter)
    ensures l.clients == map[] && l.rateLimit == rateLimit && l.window == window
  {
    Limiter(rateLimit, window, map[])
  }

  /** What the middleware does with a request. */
  datatype Answer = Forwarded | Refused(status: int, detail: string)

  /** The times recorded for `client`; an unseen client has none. */
  function History(l: Limiter, client: string): (ts: seq<real>)
    ensures client !in l.clients ==> ts == []
  {
    if client in l.clients then l.clients[client] else []
  }

  /** The recorded times still inside the window at `now`, in their order. */
  function Prune(ts: seq<real>, now: real, window: int): (r: seq<real>)
    ensures |r| <= |ts|
    ensures forall t :: t in r <==> t in ts && now - t < window as real
  {
    if |ts| == 0 then []
    else (if now - ts[0] < window as real then [ts[0]] else []) + Prune(ts[1..], now, window)
  }

  /**
   * `dispatch`: the client's times are replaced by the pruned ones whatever happens next; the
   * request is refused when they already reach the limit, and otherwise `now` is recorded.
   */
  function Dispatch(l: Limiter, client: string, now: real): (r: (Limiter, Answer))
    ensures r.0.rateLimit == l.rateLimit && r.0.window == l.window
    ensures r.0.clients.Keys == l.clients.Keys + {client}
    ensures forall c :: c in l.clients && c != client ==> r.0.clients[c] == l.clients[c]
    ensures r.1.Refused? ==> r.1 == Refused(TooManyRequests, LimitDetail)
    ensures var kept := Prune(History(l, client), now, l.window);
            && (r.1.Forwarded? <==> |kept| < l.rateLimit)
            && r.0.clients[client] == (if r.1.Forwarded? then kept + [now] else kept)
  {
    var kept := Prune(History(l, client), now, l.window);
    if |kept| >= l.rateLimit then (l.(clients := l.clients[client := kept]), Refused(TooManyRequests, LimitDetail))
    else (l.(clients := l.clients[client := kept + [now]]), Forwarded)
  }

  // ---------------------------------------------------------------- the limit holds

  /** The most times a client can hold: the limit, or none when the limit is negative. */
  function Capacity(l: Limiter): nat {
    if l.rateLimit < 0 then 0 else l.rateLimit
  }

  /** No client has more recorded times than the limit allows. */
  predicate WithinLimit(l: Limiter) {
    forall c :: c in l.clients ==> |l.clients[c]| <= Capacity(l)
  }

  /** A new middleware starts within its limit, and every request keeps it there. */
  lemma DispatchKeepsLimit(l: Limiter, client: string, now: real)
    requires WithinLimit(l)
    ensures WithinLimit(Dispatch(l, client, now).0)
    ensures Dispatch(l, client, now).1.Forwarded? ==> |Dispatch(l, client, now).0.clients[client]| <= l.rateLimit
  {
    var r := Dispatch(l, client, now).0;
    forall c | c in r.clients ensures |r.clients[c]| <= Capacity(r) {
      if c != client {
        assert c in l.clients;
      } else if client in l.clients {
        assert |Prune(l.clients[client], now, l.window)| <= |l.clients[client]|;
      }
    }
  }

  /** Only times recorded earlier and still inside the window survive a request, and a refused one adds none. */
  lemma RefusedNotRecorded(l: Limiter, client: string, now: real)
    requires Dispatch(l, client, now).1.Refused?
    ensures forall t :: t in Dispatch(l, client, now).0.clients[client] <==>
                        t in History(l, client) && now - t < l.window as real
  {
  }

  // ---------------------------------------------------------------- the sliding window

  /** The middleware's answers to requests of one client at `times`, and the middleware after them. */
  function Replay(l: Limiter, client: string, times: seq<real>): (r: (Limiter, seq<bool>))
    ensures |r.1| == |times|
    ensures r.0.rateLimit == l.rateLimit && r.0.window == l.window
  {
    if |times| == 0 then (l, [])
    else
      var p := Replay(l, client, times[..|times| - 1]);
      var d := Dispatch(p.0, client, times[|times| - 1]);
      (d.0, p.1 + [d.1.Forwarded?])
  }

  /** The times among `times` whose request was admitted and which lie inside the window at `now`. */
  function Recent(times: seq<real>, admitted: seq<bool>, now: real, window: int): (r: seq<real>)
    requires |admitted| == |times|
    ensures |r| <= |times|
  {
    if |times| == 0 then []
    else
      var n := |times| - 1;
      Recent(times[..n], admitted[..n], now, window)
        + (if admitted[n] && now - times[n] < window as real then [times[n]] else [])
  }

  /**
   * The sliding-window rule, written independently of the middleware's state: a request is
   * admitted exactly when fewer than `limit` admitted requests lie inside the window before it.
   */
  function Reference(limit: int, window: int, times: seq<real>): (admitted: seq<bool>)
    ensures |admitted| == |times|
  {
    if |times| == 0 then []
    else
      var n := |times| - 1;
      var before := Reference(limit, window, times[..n]);
      before + [|Recent(times[..n], before, times[n], window)| < limit]
  }

  predicate NonDecreasing(times: seq<real>) {
    forall i, j :: 0 <= i < j < |times| ==> times[i] <= times[j]
  }

  /** Pruning keeps the times in order, one at a time. */
  lemma {:induction false} PruneSnoc(ts: seq<real>, x: real, now: real, window: int)
    ensures Prune(ts + [x], now, window) == Prune(ts, now, window) + (if now - x < window as real then [x] else [])
    decreases |ts|
  {
    if |ts| == 0 {
      assert ts + [x] == [x];
      assert [x][1..] == [];
    } else {
      assert (ts + [x])[0] == ts[0];
      assert (ts + [x])[1..] == ts[1..] + [x];
      PruneSnoc(ts[1..], x, now, window);
    }
  }

  /** Moving the window forward from `before` to `now` and pruning gives the times recent at `now`. */
  lemma {:induction false} PruneRecent(times: seq<real>, admitted: seq<bool>, before: real, now: real, window: int)
    requires |admitted| == |times| && before <= now
    ensures Prune(Recent(times, admitted, before, window), now, window) == Recent(times, admitted, now, window)
    decreases |times|
  {
    if |times| > 0 {
      var n := |times| - 1;
      PruneRecent(times[..n], admitted[..n], before, now, window);
      var rb := Recent(times[..n], admitted[..n], before, window);
      var tail := if admitted[n] && before - times[n] < window as real then [times[n]] else [];
      assert Recent(times, admitted, before, window) == rb + tail;
      if tail == [] {
        assert rb + [] == rb;
        assert Recent(times, admitted, now, window) == Recent(times[..n], admitted[..n], now, window) + [];
      } else {
        PruneSnoc(rb, times[n], now, window);
      }
    }
  }

  /** What the middleware records for a client after requests at `times`, as the window rule predicts it. */
  predicate RecordsRecent(l: Limiter, client: string, times: seq<real>) {
    History(Replay(l, client, times).0, client)
      == if |times| == 0 then [] else Recent(times, Replay(l, client, times).1, times[|times| - 1], l.window)
  }

  lemma ReplaySnoc(l: Limiter, client: string, pre: seq<real>, now: real)
    ensures var p := Replay(l, client, pre);
            var d := Dispatch(p.0, client, now);
            Replay(l, client, pre + [now]) == (d.0, p.1 + [d.1.Forwarded?])
  {
    assert (pre + [now])[..|pre|] == pre;
  }

  lemma ReferenceSnoc(limit: int, window: int, pre: seq<real>, now: real)
    ensures var before := Reference(limit, window, pre);
            Reference(limit, window, pre + [now]) == before + [|Recent(pre, before, now, window)| < limit]
  {
    assert (pre + [now])[..|pre|] == pre;
  }

  lemma RecentSnoc(pre: seq<real>, adm: seq<bool>, admit: bool, now: real, window: int)
    requires |adm| == |pre| && window > 0
    ensures Recent(pre + [now], adm + [admit], now, window) == Recent(pre, adm, now, window) + (if admit then [now] else [])
  {
    assert (pre + [now])[..|pre|] == pre;
    assert (adm + [admit])[..|pre|] == adm;
  }

  /** One more request, at a time no earlier than the last, keeps the middleware in step with the window rule. */
  lemma SlidingStep(l: Limiter, client: string, pre: seq<real>, now: real)
    requires l.window > 0
    requires |pre| > 0 ==> pre[|pre| - 1] <= now
    requires Replay(l, client, pre).1 == Reference(l.rateLimit, l.window, pre)
    requires RecordsRecent(l, client, pre)
    ensures Replay(l, client, pre + [now]).1 == Reference(l.rateLimit, l.window, pre + [now])
    ensures RecordsRecent(l, client, pre + [now])
  {
    var n := |pre|;
    var p := Replay(l, client, pre);
    var adm := p.1;
    var kept := Prune(History(p.0, client), now, l.window);
    assert kept == Recent(pre, adm, now, l.window) by {
      if n > 0 {
        PruneRecent(pre, adm, pre[n - 1], now, l.window);
      }
    }
    var admit := |kept| < l.rateLimit;
    ReplaySnoc(l, client, pre, now);
    ReferenceSnoc(l.rateLimit, l.window, pre, now);
    RecentSnoc(pre, adm, admit, now, l.window);
    assert (pre + [now])[n] == now;
  }

  /**
   * For a client the middleware has not seen, at non-decreasing times and a positive window,
   * the middleware admits exactly the requests the sliding-window rule admits, and what it
   * records is the admitted times inside the window at the last request.
   */
  lemma {:induction false} SlidingWindow(l: Limiter, client: string, times: seq<real>)
    requires client !in l.clients && l.window > 0
    requires NonDecreasing(times)
    ensures Replay(l, client, times).1 == Reference(l.rateLimit, l.window, times)
    ensures RecordsRecent(l, client, times)
    decreases |times|
  {
    if |times| > 0 {
      var n := |times| - 1;
      var pre, now := times[..n], times[n];
      assert NonDecreasing(pre) && (n > 0 ==> pre[n - 1] <= now) by {
        if n > 0 {
          assert pre[n - 1] == times[n - 1];
        }
      }
      assert pre + [now] == times;
      SlidingWindow(l, client, pre);
      SlidingStep(l, client, pre, now);
    }
  }
}

=== FILE: recommendations.dfy ===
/**
 * `RecommendationService`: three fixed categories of three items each; a request draws up to
 * `count` distinct items of one category at random, and the follow-up message lists them.  The
 * random draws are passed in: `draws(i)` is the i-th value the generator hands to `random.sample`.
 */
module Recommendations {
  import opened Outcomes
  import opened Text

  const Categories: seq<string> := ["product", "service", "content"]

  /** The items of each category. */
  const Catalogue: map<string, seq<string>> := map[
    "product" := ["Product A", "Product B", "Product C"],
    "service" := ["Service A", "Service B", "Service C"],
    "content" := ["Content A", "Content B", "Content C"]
  ]

  const InvalidCategory: string := "Invalid category. Choose from 'product', 'service', or 'content'."
  const SampleTooLarge: string := "Sample larger than population or is negative"

  predicate Distinct<T(==)>(s: seq<T>) {
    forall i, j :: 0 <= i < j < |s| ==> s[i] != s[j]
  }

  /** Every category holds exactly three distinct items. */
  lemma CatalogueShape()
    ensures Catalogue.Keys == set c | c in Categories
    ensures forall c :: c in Catalogue ==> |Catalogue[c]| == 3 && Distinct(Catalogue[c])
  {
  }

  /**
   * The pool method of `random.sample`: the i-th pick takes the item at a drawn index below
   * `n - i` and moves the last live item into its place.  `rest` is the pool left live.
   */
  method Draw<T>(population: seq<T>, k: nat, draws: nat -> nat) returns (picked: seq<T>, rest: seq<T>)
    requires k <= |population|
    ensures |picked| == k && |rest| == |population| - k
    ensures multiset(picked) + multiset(rest) == multiset(population)
  {
    var n := |population|;
    var pool := population;
    picked := [];
    var i := 0;
    assert pool[..n] == population;
    while i < k
      invariant 0 <= i <= k && |pool| == n && |picked| == i
      invariant multiset(picked) + multiset(pool[..n - i]) == multiset(population)
    {
      var j := draws(i) % (n - i);
      var last := n - i - 1;
      PickStep(pool, last, j);
      picked := picked + [pool[j]];
      pool := pool[j := pool[last]];
      i := i + 1;
    }
    rest := pool[..n - k];
  }

  /** `random.sample(population, k)` for a population small enough for Python's pool method. */
  method Sample<T(==)>(population: seq<T>, k: int, draws: nat -> nat) returns (r: Result<seq<T>, string>)
    ensures r.Err? <==> k < 0 || k > |population|
    ensures r.Err? ==> r.error == SampleTooLarge
    ensures r.Ok? ==> |r.value| == k && multiset(r.value) <= multiset(population)
    ensures r.Ok? && Distinct(population) ==> Distinct(r.value)
    ensures r.Ok? && k == |population| ==> multiset(r.value) == multiset(population)
  {
    if k < 0 || k > |population| {
      return Err(SampleTooLarge);
    }
    var picked, rest := Draw(population, k, draws);
    if Distinct(population) {
      DistinctSub(picked, population);
    }
    if k == |population| {
      assert rest == [];
    }
    r := Ok(picked);
  }

  /** One pick, seen on the whole pool: the live part loses the picked item and keeps the rest. */
  lemma PickStep<T>(pool: seq<T>, last: nat, j: nat)
    requires j <= last < |pool|
    ensures multiset(pool[..last + 1]) == multiset(pool[j := pool[last]][..last]) + multiset{pool[j]}
  {
    var live := pool[..last + 1];
    SwapOut(live, j);
    assert pool[j := pool[last]][..last] == live[j := live[last]][..last];
  }

  /** Taking the item at `j` out of a pool and moving the last item into its place loses only that item. */
  lemma SwapOut<T>(s: seq<T>, j: nat)
    requires j < |s|
    ensures multiset(s) == multiset(s[j := s[|s| - 1]][..|s| - 1]) + multiset{s[j]}
  {
    var last := |s| - 1;
    var t := s[j := s[last]][..last];
    if j < last {
      var a, b := s[..j], s[j + 1..last];
      assert s == a + ([s[j]] + (b + [s[last]]));
      assert t == a + ([s[last]] + b);
    } else {
      assert s == t + [s[j]];
    }
  }

  /** A sequence whose items all come, without repetition, from a duplicate-free one has no duplicates. */
  lemma DistinctSub<T>(s: seq<T>, population: seq<T>)
    requires Distinct(population) && multiset(s) <= multiset(population)
    ensures Distinct(s)
  {
    forall i, j | 0 <= i < j < |s| ensures s[i] != s[j] {
      if s[i] == s[j] {
        TwiceCounted(s, i, j);
        MultiplicityOne(population, s[i]);
      }
    }
  }

  /** An item at two positions is counted at least twice. */
  lemma TwiceCounted<T>(s: seq<T>, i: nat, j: nat)
    requires i < j < |s| && s[i] == s[j]
    ensures multiset(s)[s[i]] >= 2
  {
    assert s == s[..j] + [s[j]] + s[j + 1..];
    assert s[..j][i] == s[i];
    assert multiset(s[..j])[s[i]] >= 1;
  }

  /** An item of a duplicate-free sequence occurs once. */
  lemma {:induction false} MultiplicityOne<T>(s: seq<T>, x: T)
    requires Distinct(s)
    ensures multiset(s)[x] <= 1
  {
    if |s| > 0 {
      assert s == [s[0]] + s[1..];
      assert Distinct(s[1..]) by {
        forall i, j | 0 <= i < j < |s[1..]| ensures s[1..][i] != s[1..][j] {
          assert s[1..][i] == s[i + 1] && s[1..][j] == s[j + 1];
        }
      }
      MultiplicityOne(s[1..], x);
      if s[0] == x {
        assert x !in s[1..] by {
          forall i | 0 <= i < |s[1..]| ensures s[1..][i] != x {
            assert s[1..][i] == s[i + 1];
          }
        }
      }
    }
  }

  /** `get_recommendations(category, count)`. */
  method GetRecommendations(category: string, count: int, draws: nat -> nat) returns (r: Result<seq<string>, string>)
    ensures category !in Catalogue ==> r == Err(InvalidCategory)
    ensures category in Catalogue && count < 0 ==> r == Err(SampleTooLarge)
    ensures r.Ok? <==> category in Catalogue && count >= 0
    ensures r.Ok? ==> |r.value| == (if count < 3 then count else 3) && Distinct(r.value)
    ensures r.Ok? ==> forall x :: x in r.value ==> x in Catalogue[category]
    ensures r.Ok? && count >= 3 ==> multiset(r.value) == multiset(Catalogue[category])
  {
    if category !in Catalogue {
      return Err(InvalidCategory);
    }
    var items := Catalogue[category];
    CatalogueShape();
    var k := if count < |items| then count else |items|;
    r := Sample(items, k, draws);
    if r.Ok? {
      forall x | x in r.value ensures x in items {
        assert x in multiset(r.value);
      }
    }
  }

  /** `generate_follow_up_message(lead_data)`; `interest` is the lead's "interest_category", if given. */
  method FollowUpMessage(interest: Option<string>, draws: nat -> nat) returns (r: Result<string, string>)
    ensures r.Ok? <==> interest.None? || interest.value in Catalogue
    ensures r.Ok? ==> ("Based on your interest in " + interest.GetOr("products") + ", we recommend: ") <= r.value
    ensures r.Ok? ==> EndsWith(r.value, ".")
    // three are asked for, so every item of the category is named
    ensures r.Ok? ==> forall x :: x in Catalogue[interest.GetOr("product")] ==> Contains(r.value, x)
  {
    var recs := GetRecommendations(interest.GetOr("product"), 3, draws);
    if recs.Err? {
      return Err(recs.error);
    }
    var lead := "Based on your interest in " + interest.GetOr("products") + ", we recommend: ";
    var msg := lead + (Join(recs.value, ", ") + ".");
    assert EndsWith(Join(recs.value, ", ") + ".", ".");
    EndsWithPrepend(lead, Join(recs.value, ", ") + ".", ".");
    forall x | x in Catalogue[interest.GetOr("product")] ensures Contains(msg, x) {
      assert x in multiset(recs.value);
      var k :| 0 <= k < |recs.value| && recs.value[k] == x;
      JoinHoldsParts(recs.value, k, ", ");
      ContainsAppend(Join(recs.value, ", "), ".", x);
      ContainsPrepend(lead, Join(recs.value, ", ") + ".", x);
    }
    r := Ok(msg);
  }
}

=== FILE: reply_handler.dfy ===
/**
 * `handle_lead_reply`: what happens when a lead answers a triggered message.  The lead's message
 * is stored, the number's active stop-on-reply triggers are completed, the model is asked for a
 * reply with the booking and trigger context in front of the recent history, booking commands in
 * that reply are executed, and the cleaned reply is stored and logged as an automatic reply.
 *
 * Every database step of the handler catches its own errors; `dbOk` says whether the store
 * answers, and one flag covers all of them.
 */
module ReplyHandler {
  import opened Outcomes
  import opened Text
  import opened Bookings
  import Conversations
  import opened Groq
  import Triggers
  import BookingActions
  import opened Glyphs

  const RecentLimit: int := 10
  /** Characters of the original trigger message quoted in the context. */
  const QuoteLimit: nat := 200
  const AutoReplyId: string := "twiml_reply"
  const AutoReplyStatus: string := "auto_reply"

  /** Python's `s[:n]`. */
  function Clip(s: string, n: nat): (r: string)
    ensures |r| == if |s| <= n then |s| else n
    ensures r == s[..|r|]
  {
    if |s| <= n then s else s[..n]
  }

  // ---------------------------------------------------------------- context

  /**
   * One line of the pending-booking summary.  `amountRepr` is Python's `str()` of the stored
   * float; a zero or missing amount is "no amount".  The rupee sign is `marks.rupee`:
   * `Garbled.rupee` as trigger_service.py spells it, `Emoji.rupee` as meant.
   */
  function SummaryLine(b: Booking, amountRepr: real -> string, marks: Marks): (r: string)
    ensures Contains(r, "#" + b.confirmationCode + ": " + b.title)
  {
    var head := "  - ";
    var code := "#" + b.confirmationCode + ": " + b.title;
    var tail := " (" + (if BookingActions.AmountGiven(b.amount) then marks.rupee + amountRepr(b.amount.value)
                        else "no amount")
                + ") [" + StatusName(b.status) + "]";
    ContainsWhole(head, code, tail);
    head + code + tail
  }

  function SummaryLines(bs: seq<Booking>, amountRepr: real -> string, marks: Marks): (r: seq<string>)
    ensures |r| == |bs|
    ensures forall i :: 0 <= i < |bs| ==> r[i] == SummaryLine(bs[i], amountRepr, marks)
  {
    if |bs| == 0 then [] else [SummaryLine(bs[0], amountRepr, marks)] + SummaryLines(bs[1..], amountRepr, marks)
  }

  const BookingInstruction: string :=
    "If they say CONFIRM/YES, confirm these bookings. If they say CANCEL/NO, cancel them. "
    + "If they mention a specific confirmation code, act on that one only."

  /** The system message describing the number's pending bookings, newest first. */
  method BookingNote(bs: seq<Booking>, amountRepr: real -> string, marks: Marks) returns (m: ChatMessage)
    ensures m.role == "system"
    ensures Contains(m.content, NatToString(|bs|) + " pending booking(s)/order(s):\n")
    ensures BriefsBookings(m, bs)
  {
    var count := NatToString(|bs|) + " pending booking(s)/order(s):\n";
    var lines := Join(SummaryLines(bs, amountRepr, marks), "\n");
    var tail := "\n\n" + BookingInstruction;
    ContainsInner("The customer has ", count, lines, tail);
    LinesNameAll(bs, amountRepr, marks, "The customer has " + count + lines + tail);
    m := ChatMessage("system", "The customer has " + count + lines + tail);
  }

  /** Text that holds the summary lines names every summarised booking. */
  lemma LinesNameAll(bs: seq<Booking>, amountRepr: real -> string, marks: Marks, content: string)
    requires Contains(content, Join(SummaryLines(bs, amountRepr, marks), "\n"))
    ensures forall b :: b in bs ==> Contains(content, "#" + b.confirmationCode + ": " + b.title)
  {
    var lines := Join(SummaryLines(bs, amountRepr, marks), "\n");
    forall b | b in bs ensures Contains(content, "#" + b.confirmationCode + ": " + b.title) {
      var k :| 0 <= k < |bs| && bs[k] == b;
      JoinHoldsParts(SummaryLines(bs, amountRepr, marks), k, "\n");
      ContainsInside(lines, SummaryLine(b, amountRepr, marks), "#" + b.confirmationCode + ": " + b.title);
      ContainsInside(content, lines, "#" + b.confirmationCode + ": " + b.title);
    }
  }

  /** Python's `str()` of the stored `recipient_name`. */
  function LeadName(tr: Triggers.Trigger): string {
    if tr.recipientName.Some? then tr.recipientName.value else "None"
  }

  /** A stored name is quoted as it is; a missing one is quoted as "None", never as "Unknown". */
  lemma LeadNameQuoted(tr: Triggers.Trigger)
    ensures tr.recipientName.Some? ==> LeadName(tr) == tr.recipientName.value
    ensures tr.recipientName.None? ==> LeadName(tr) == "None" && LeadName(tr) != "Unknown"
  {
    assert "None"[0] != "Unknown"[0];
  }

  /** A system message that names each of `bs` by code and title. */
  predicate BriefsBookings(m: ChatMessage, bs: seq<Booking>) {
    m.role == "system" && forall b :: b in bs ==> Contains(m.content, "#" + b.confirmationCode + ": " + b.title)
  }

  /** A system message that quotes the start of the trigger's message and the lead's name. */
  predicate QuotesTrigger(m: ChatMessage, tr: Triggers.Trigger) {
    && m.role == "system"
    && Contains(m.content, "Original message sent: '" + Clip(tr.message, QuoteLimit) + "'. ")
    && Contains(m.content, "Lead name: " + LeadName(tr) + ". ")
  }

  /**
   * The system message quoting the trigger the lead answers: its name, the first 200 characters
   * of its message, and the lead's name.  The row always carries the `recipient_name` key, so a
   * NULL name is printed as "None" rather than the "Unknown" default.
   */
  method TriggerNote(tr: Triggers.Trigger) returns (m: ChatMessage)
    ensures QuotesTrigger(m, tr)
  {
    var lead := "Lead name: " + LeadName(tr) + ". ";
    var sent := "Original message sent: '" + Clip(tr.message, QuoteLimit) + "'. ";
    var head := "The lead is replying to a triggered sales message. Original trigger: '" + tr.name + "'. ";
    var tail := "Be helpful, continue the sales conversation naturally. "
                + "Keep your response concise (2-3 sentences max). "
                + "If they show interest, suggest a next step. "
                + "If they want to opt out, be respectful and confirm.";
    ContainsInner(head, sent, lead, tail);
    m := ChatMessage("system", head + sent + lead + tail);
  }

  /** The stored turns of the recent window, as chat messages. */
  function AsChat(turns: seq<Conversations.ConvMessage>): (r: seq<ChatMessage>)
    ensures |r| == |turns|
    ensures forall i :: 0 <= i < |turns| ==> r[i] == ChatMessage(turns[i].role, turns[i].message)
  {
    seq(|turns|, i requires 0 <= i < |turns| => ChatMessage(turns[i].role, turns[i].message))
  }

  /** The context notes: the booking note when something is pending, then the trigger note when one is found. */
  method ContextNotes(pending: seq<Booking>, context: Option<Triggers.Trigger>, amountRepr: real -> string,
                      marks: Marks)
    returns (notes: seq<ChatMessage>)
    ensures |notes| == (if |pending| > 0 then 1 else 0) + (if context.Some? then 1 else 0)
    ensures |pending| > 0 ==> BriefsBookings(notes[0], pending)
    ensures context.Some? ==> QuotesTrigger(notes[|notes| - 1], context.value)
  {
    notes := [];
    if |pending| > 0 {
      var note := BookingNote(pending, amountRepr, marks);
      notes := [note];
    }
    if context.Some? {
      var note := TriggerNote(context.value);
      notes := notes + [note];
    }
  }

  // ---------------------------------------------------------------- the handler

  /**
   * Everything one reply leaves behind: the three stores, the bookings, the message list handed
   * to the model (system prompt first) and the reply returned for delivery, or the error raised
   * while executing a booking command.
   */
  datatype Handled = Handled(stores: Triggers.Stores, bookings: BookingTable, prompt: seq<ChatMessage>,
                             reply: Result<string, string>)

  /** The model's reply, or the fixed fallback when every attempt failed. */
  function GeneratedReply(result: Result<string, string>): (r: string)
    ensures result.Ok? ==> r == result.value
    ensures result.Err? ==> r == Triggers.FallbackReply
  {
    if result.Ok? then result.value else Triggers.FallbackReply
  }

  /** The stored user message the handler starts with. */
  function UserMessage(log: Conversations.ConversationLog, phone: string, text: string, channel: string, now: int)
    : Conversations.ConvMessage
  {
    Conversations.ConvMessage(|log| + 1, phone, "user", text, channel, now)
  }

  /** The message the handler starts with is exactly the row a working store appends for the lead. */
  lemma UserMessageIsStored(log: Conversations.ConversationLog, phone: string, text: string, channel: string, now: int)
    ensures Conversations.StoreMessage(log, phone, "user", text, channel, now, true)
            == log + [UserMessage(log, phone, text, channel, now)]
    ensures UserMessage(log, phone, text, channel, now).role == "user"
    ensures forall i :: 0 <= i < |log| && log[i].id == i + 1 ==> log[i].id != UserMessage(log, phone, text, channel, now).id
  {
  }

  /** The state once the lead's message is stored, the triggers are completed and the context is built. */
  datatype Prompted = Prompted(triggers: Triggers.TriggerTable, conversations: Conversations.ConversationLog,
                               messages: seq<ChatMessage>)

  /**
   * Step 4: the context notes in front of the recent history.  The trigger note follows the
   * booking note when there is one.
   */
  method Gather(pending: seq<Booking>, context: Option<Triggers.Trigger>, window: seq<Conversations.ConvMessage>,
                amountRepr: real -> string, marks: Marks) returns (m: seq<ChatMessage>)
    ensures |m| == (if |pending| > 0 then 1 else 0) + (if context.Some? then 1 else 0) + |window|
    ensures |window| > 0 ==> m[|m| - 1] == ChatMessage(window[|window| - 1].role, window[|window| - 1].message)
    ensures |pending| > 0 ==> BriefsBookings(m[0], pending)
    ensures context.Some? ==> QuotesTrigger(m[if |pending| > 0 then 1 else 0], context.value)
  {
    var notes := ContextNotes(pending, context, amountRepr, marks);
    m := notes + AsChat(window);
    assert m[..|notes|] == notes;
  }

  /**
   * Steps 1 and 3: store the lead's message and read back the number's last ten turns, which end
   * with that message.  With the store down nothing is stored and the history is empty.
   */
  method Remember(log: Conversations.ConversationLog, phone: string, text: string, channel: string, now: int, dbOk: bool)
    returns (log': Conversations.ConversationLog, window: seq<Conversations.ConvMessage>)
    ensures dbOk ==> log' == log + [UserMessage(log, phone, text, channel, now)]
    ensures !dbOk ==> log' == log && window == []
    ensures |window| <= RecentLimit
    ensures dbOk && PhoneMatches(phone, phone) ==>
              |window| > 0 && window[|window| - 1].role == "user" && window[|window| - 1].message == text
  {
    log' := Conversations.StoreMessage(log, phone, "user", text, channel, now, dbOk);
    window := if dbOk then Conversations.Window(Conversations.ForNumber(log', phone), RecentLimit) else [];
    if dbOk && PhoneMatches(phone, phone) {
      Conversations.StoredMessageEndsWindow(log, phone, "user", text, channel, now, phone, RecentLimit);
    }
  }

  /**
   * Steps 1 to 4 of the handler: store the message, complete the number's stop-on-reply triggers,
   * and gather the context notes and the recent history.  With the store down every step falls
   * back to its empty answer.
   */
  method Prepare(st: Triggers.Stores, bookings: BookingTable, phone: string, text: string, channel: string,
                 now: int, amountRepr: real -> string, marks: Marks, dbOk: bool) returns (p: Prompted)
    ensures dbOk ==> p.conversations == st.conversations + [UserMessage(st.conversations, phone, text, channel, now)]
    ensures dbOk ==> p.triggers == Triggers.CompleteOnReply(st.triggers, phone, now)
    ensures !dbOk ==> p == Prompted(st.triggers, st.conversations, [])
    ensures |p.messages| <= 2 + RecentLimit
    // the lead's own message closes the history the model reads
    ensures dbOk && PhoneMatches(phone, phone) ==>
              |p.messages| > 0 && p.messages[|p.messages| - 1] == ChatMessage("user", text)
    // pending bookings are described first, then the trigger the lead answers is quoted
    ensures dbOk && |GetPendingBookings(bookings, phone, true)| > 0 ==>
              |p.messages| > 0 && BriefsBookings(p.messages[0], GetPendingBookings(bookings, phone, true))
    ensures dbOk && Triggers.TriggerContext(p.triggers, phone).Some? ==>
              var at := if |GetPendingBookings(bookings, phone, true)| > 0 then 1 else 0;
              at < |p.messages| && QuotesTrigger(p.messages[at], Triggers.TriggerContext(p.triggers, phone).value)
  {
    var conv1, window := Remember(st.conversations, phone, text, channel, now, dbOk);
    var triggers := if dbOk then Triggers.CompleteOnReply(st.triggers, phone, now) else st.triggers;
    var context := if dbOk then Triggers.TriggerContext(triggers, phone) else None;
    var messages := Gather(GetPendingBookings(bookings, phone, dbOk), context, window, amountRepr, marks);
    p := Prompted(triggers, conv1, messages);
  }

  /** The prompt the model sees: the system prompt, then the notes and history `Prepare` built. */
  lemma PromptOrder(prompt: seq<ChatMessage>, messages: seq<ChatMessage>, systemPrompt: string,
                    bookings: BookingTable, phone: string, text: string, triggers: Triggers.TriggerTable,
                    dbOk: bool)
    requires prompt == [ChatMessage("system", systemPrompt)] + messages
    requires dbOk && PhoneMatches(phone, phone) ==>
               |messages| > 0 && messages[|messages| - 1] == ChatMessage("user", text)
    requires dbOk && |GetPendingBookings(bookings, phone, true)| > 0 ==>
               |messages| > 0 && BriefsBookings(messages[0], GetPendingBookings(bookings, phone, true))
    requires dbOk && Triggers.TriggerContext(triggers, phone).Some? ==>
               var at := if |GetPendingBookings(bookings, phone, true)| > 0 then 1 else 0;
               at < |messages| && QuotesTrigger(messages[at], Triggers.TriggerContext(triggers, phone).value)
    ensures dbOk && PhoneMatches(phone, phone) ==> prompt[|prompt| - 1] == ChatMessage("user", text)
    ensures dbOk ==> forall b :: b in bookings && PendingFor(phone, b) ==>
              |prompt| > 1 && prompt[1].role == "system"
              && Contains(prompt[1].content, "#" + b.confirmationCode + ": " + b.title)
    ensures dbOk && Triggers.TriggerContext(triggers, phone).Some? ==>
              var at := if |GetPendingBookings(bookings, phone, true)| > 0 then 2 else 1;
              at < |prompt| && QuotesTrigger(prompt[at], Triggers.TriggerContext(triggers, phone).value)
  {
    if dbOk {
      var pending := GetPendingBookings(bookings, phone, true);
      forall b | b in bookings && PendingFor(phone, b)
        ensures |prompt| > 1 && prompt[1].role == "system"
                && Contains(prompt[1].content, "#" + b.confirmationCode + ": " + b.title)
      {
        assert b in pending;
        assert prompt[1] == messages[0];
      }
    }
  }

  /** The reply delivered for a failed call (the fallback) or a command-free answer: the text, stripped. */
  lemma PlainReplyPassesThrough(marks: Marks, g: string, phone: string, bookings: BookingTable, draws: nat -> nat,
                                now: int, dbOk: bool)
    requires BookingActions.NoCommand(g)
    ensures BookingActions.ProcessBookingActions(marks, g, phone, bookings, draws, now, dbOk)
            == Ok(BookingActions.ActionResult(Strip(g), bookings))
  {
  }

  /** Step 6, `process_booking_actions`, seen through what the rest of the handler relies on. */
  method ApplyCommands(marks: Marks, g: string, phone: string, bookings: BookingTable, draws: nat -> nat, now: int,
                       dbOk: bool)
    returns (acted: Result<BookingActions.ActionResult, string>)
    ensures BookingActions.NoCommand(g) ==> acted == Ok(BookingActions.ActionResult(Strip(g), bookings))
    ensures !dbOk && acted.Ok? ==> acted.value.bookings == bookings
  {
    if BookingActions.NoCommand(g) {
      PlainReplyPassesThrough(marks, g, phone, bookings, draws, now, dbOk);
    }
    acted := BookingActions.ProcessBookingActions(marks, g, phone, bookings, draws, now, dbOk);
  }

  /**
   * Steps 5 to 8: ask the model (falling back to the fixed reply), run the booking command the
   * reply carries, then store the cleaned reply as an assistant turn and log it as an automatic
   * reply.  A failing command raises before anything is stored.
   */
  method Finish(st: Triggers.Stores, p: Prompted, bookings: BookingTable, phone: string, channel: string,
                now: int, systemPrompt: string, respond: Responder, marks: Marks, draws: nat -> nat, dbOk: bool)
    returns (r: Handled)
    ensures r.stores.triggers == p.triggers
    ensures r.prompt == [ChatMessage("system", systemPrompt)] + p.messages
    ensures dbOk && r.reply.Ok? ==>
              r.stores.conversations == p.conversations
                + [Conversations.ConvMessage(|p.conversations| + 1, phone, "assistant", r.reply.value, channel, now)]
    ensures dbOk && r.reply.Ok? ==>
              && |r.stores.sent| == |st.sent| + 1 && r.stores.sent[..|st.sent|] == st.sent
              && var s := r.stores.sent[|st.sent|];
                 s.body == r.reply.value && s.recipient == ReplaceAll(phone, "whatsapp:", "")
                 && s.status == AutoReplyStatus && s.externalId == Some(AutoReplyId) && s.subject.None?
                 && s.channel == channel
    ensures r.reply.Err? || !dbOk ==> r.stores.conversations == p.conversations && r.stores.sent == st.sent
    ensures r.reply.Err? || !dbOk ==> r.bookings == bookings
    // no answer from the model: the lead gets the fallback, word for word, and no booking changes
    ensures CallGroq(r.prompt, respond).result.Err? ==> r.reply == Ok(Triggers.FallbackReply) && r.bookings == bookings
    // an answer without a command tag is delivered stripped, and no booking changes
    ensures var answer := CallGroq(r.prompt, respond).result;
            answer.Ok? && BookingActions.NoCommand(answer.value) ==> r.reply == Ok(Strip(answer.value)) && r.bookings == bookings
  {
    var call := ChatCompletion(systemPrompt, p.messages, respond);
    var generated := GeneratedReply(call.1);
    if call.1.Err? {
      FallbackIsPlain();
      NoBracketNoCommand(generated);
    }
    var acted := ApplyCommands(marks, generated, phone, bookings, draws, now, dbOk);
    if acted.Err? {
      r := Handled(Triggers.Stores(p.triggers, p.conversations, st.sent), bookings, call.0, Err(acted.error));
    } else {
      var reply := acted.value.reply;
      var conv2 := Conversations.StoreMessage(p.conversations, phone, "assistant", reply, channel, now, dbOk);
      var sent := Conversations.StoreSentMessage(st.sent, ReplaceAll(phone, "whatsapp:", ""), channel, reply,
                                                 None, Some(AutoReplyId), Some(AutoReplyStatus), now, dbOk);
      r := Handled(Triggers.Stores(p.triggers, conv2, sent), acted.value.bookings, call.0, Ok(reply));
    }
  }

  /** `handle_lead_reply`, steps 1 to 8, with the store, the model and the code draws passed in. */
  method HandleLeadReply(st: Triggers.Stores, bookings: BookingTable, phone: string, text: string,
                         channel: string, now: int, systemPrompt: string, respond: Responder,
                         amountRepr: real -> string, marks: Marks, draws: nat -> nat, dbOk: bool) returns (r: Handled)
    // the lead's message is stored first, and the reply after it
    ensures dbOk && r.reply.Ok? ==>
              r.stores.conversations == st.conversations
                + [UserMessage(st.conversations, phone, text, channel, now),
                   Conversations.ConvMessage(|st.conversations| + 2, phone, "assistant", r.reply.value, channel, now)]
    // one automatic-reply record per delivered reply, addressed to the number without its prefix
    ensures dbOk && r.reply.Ok? ==>
              && |r.stores.sent| == |st.sent| + 1 && r.stores.sent[..|st.sent|] == st.sent
              && var s := r.stores.sent[|st.sent|];
                 s.body == r.reply.value && s.recipient == ReplaceAll(phone, "whatsapp:", "")
                 && s.status == AutoReplyStatus && s.externalId == Some(AutoReplyId) && s.subject.None?
                 && s.channel == channel
    // a failing booking command stops the handler after the lead's message is stored
    ensures r.reply.Err? ==> r.stores.sent == st.sent && r.bookings == bookings
    ensures dbOk && r.reply.Err? ==>
              r.stores.conversations == st.conversations + [UserMessage(st.conversations, phone, text, channel, now)]
    ensures !dbOk ==> r.stores == st && r.prompt == [ChatMessage("system", systemPrompt)] && r.bookings == bookings
    // every active stop-on-reply trigger of the number is completed, and only those change
    ensures dbOk ==> r.stores.triggers == Triggers.CompleteOnReply(st.triggers, phone, now)
    // the model sees the system prompt, then the context notes, then the recent history
    ensures |r.prompt| > 0 && r.prompt[0] == ChatMessage("system", systemPrompt)
    ensures |r.prompt| <= 3 + RecentLimit
    ensures dbOk && PhoneMatches(phone, phone) ==> r.prompt[|r.prompt| - 1] == ChatMessage("user", text)
    // every pending booking of the number is named right after the system prompt
    ensures dbOk ==> forall b :: b in bookings && PendingFor(phone, b) ==>
              |r.prompt| > 1 && r.prompt[1].role == "system"
              && Contains(r.prompt[1].content, "#" + b.confirmationCode + ": " + b.title)
    // then the trigger the lead answers is quoted
    ensures dbOk && Triggers.TriggerContext(r.stores.triggers, phone).Some? ==>
              var at := if |GetPendingBookings(bookings, phone, true)| > 0 then 2 else 1;
              at < |r.prompt| && QuotesTrigger(r.prompt[at], Triggers.TriggerContext(r.stores.triggers, phone).value)
    // no answer from the model: the fallback is delivered and no booking changes
    ensures CallGroq(r.prompt, respond).result.Err? ==> r.reply == Ok(Triggers.FallbackReply) && r.bookings == bookings
  {
    var p := Prepare(st, bookings, phone, text, channel, now, amountRepr, marks, dbOk);
    r := Finish(st, p, bookings, phone, channel, now, systemPrompt, respond, marks, draws, dbOk);
    PromptOrder(r.prompt, p.messages, systemPrompt, bookings, phone, text, p.triggers, dbOk);
    if dbOk && r.reply.Ok? {
      var lead := UserMessage(st.conversations, phone, text, channel, now);
      var answer := Conversations.ConvMessage(|st.conversations| + 2, phone, "assistant", r.reply.value, channel, now);
      assert st.conversations + [lead] + [answer] == st.conversations + [lead, answer];
    }
  }

  // ---------------------------------------------------------------- properties

  /** Text without `[` holds no tag that opens with one. */
  lemma NoOpenNoTag(s: string, tag: string)
    requires |tag| > 0 && tag[0] == '[' && '[' !in s
    ensures !Contains(s, tag)
  {
    forall i | 0 <= i <= |s| - |tag| ensures !OccursAt(s, tag, i) {
      assert s[i..i + |tag|][0] == s[i];
    }
  }

  /** A reply without a `[` carries no booking command. */
  lemma NoBracketNoCommand(s: string)
    requires '[' !in s
    ensures BookingActions.NoCommand(s)
  {
    NoOpenNoTag(s, BookingActions.CreateTag);
    NoOpenNoTag(s, BookingActions.ConfirmTag);
    NoOpenNoTag(s, BookingActions.CancelTag);
    NoOpenNoTag(s, BookingActions.StatusTag);
  }

  /** The fallback text has no bracket and no blank at either end. */
  lemma FallbackIsPlain()
    ensures '[' !in Triggers.FallbackReply && Strip(Triggers.FallbackReply) == Triggers.FallbackReply
  {
    FallbackHasNoBracket();
    FallbackIsStripped();
  }

  lemma FallbackHasNoBracket()
    ensures '[' !in Triggers.FallbackReply
  {
    ThanksHasNoBracket();
    HandOffHasNoBracket();
  }

  lemma ThanksHasNoBracket()
    ensures '[' !in Triggers.FallbackThanks
  {
    assert '[' !in "Thanks for your reply! ";
    assert '[' !in "I'd love to continue ";
    assert '[' !in "our conversation. ";
  }

  lemma HandOffHasNoBracket()
    ensures '[' !in Triggers.FallbackHandOff
  {
    assert '[' !in "A member of our team ";
    assert '[' !in "will be in touch shortly.";
  }

  lemma FallbackIsStripped()
    ensures Strip(Triggers.FallbackReply) == Triggers.FallbackReply
  {
    var f := Triggers.FallbackReply;
    assert f[0] == 'T' && f[|f| - 1] == '.';
    StripNoEdgeSpace(f);
  }
}

=== FILE: schemas.dfy ===
/**
 * The request models checked before any service runs: the enumerations the API accepts, the
 * length and range bounds of each field, the defaults of the optional fields, and the pattern a
 * WhatsApp or SMS recipient must match.  A rejected request lists the fields that failed, in
 * declaration order, and reaches no service.
 */
module Schemas {
  import opened Outcomes
  import opened Text
  import Triggers

  // ---------------------------------------------------------------- enumerations

  datatype TriggerType = Scheduled | FollowUp | NoResponse | ReEngagement | Drip

  function TriggerTypeName(t: TriggerType): string {
    match t
    case Scheduled => "scheduled"
    case FollowUp => "follow_up"
    case NoResponse => "no_response"
    case ReEngagement => "re_engagement"
    case Drip => "drip"
  }

  /** The member whose value is `s`, if any. */
  function ParseTriggerType(s: string): (r: Option<TriggerType>)
    ensures forall t :: r == Some(t) <==> TriggerTypeName(t) == s
  {
    if s == "scheduled" then Some(Scheduled)
    else if s == "follow_up" then Some(FollowUp)
    else if s == "no_response" then Some(NoResponse)
    else if s == "re_engagement" then Some(ReEngagement)
    else if s == "drip" then Some(Drip)
    else None
  }

  datatype Channel = WhatsApp | Sms | Email

  function ChannelName(c: Channel): string {
    match c
    case WhatsApp => "whatsapp"
    case Sms => "sms"
    case Email => "email"
  }

  function ParseChannel(s: string): (r: Option<Channel>)
    ensures forall c :: r == Some(c) <==> ChannelName(c) == s
  {
    if s == "whatsapp" then Some(WhatsApp)
    else if s == "sms" then Some(Sms)
    else if s == "email" then Some(Email)
    else None
  }

  /** The status values the trigger schema declares; the service also writes `cancelled`. */
  datatype DeclaredStatus = DeclaredActive | DeclaredPaused | DeclaredCompleted | DeclaredFailed

  function DeclaredStatusName(s: DeclaredStatus): string {
    match s
    case DeclaredActive => "active"
    case DeclaredPaused => "paused"
    case DeclaredCompleted => "completed"
    case DeclaredFailed => "failed"
  }

  function ParseDeclaredStatus(s: string): (r: Option<DeclaredStatus>)
    ensures forall d :: r == Some(d) <==> DeclaredStatusName(d) == s
  {
    if s == "active" then Some(DeclaredActive)
    else if s == "paused" then Some(DeclaredPaused)
    else if s == "completed" then Some(DeclaredCompleted)
    else if s == "failed" then Some(DeclaredFailed)
    else None
  }

  /**
   * Every status the trigger service writes is declared except `cancelled`, the one a cancellation
   * writes; `paused` is declared but never written.
   */
  lemma CancelledIsUndeclared(s: Triggers.TriggerStatus)
    ensures ParseDeclaredStatus(Triggers.TriggerStatusName(s)).None? <==> s == Triggers.Cancelled
  {
  }

  datatype SalesStage = Prospecting | Qualification | Proposal | Negotiation | Closing | StageFollowUp | StageReEngagement

  function StageName(s: SalesStage): string {
    match s
    case Prospecting => "prospecting"
    case Qualification => "qualification"
    case Proposal => "proposal"
    case Negotiation => "negotiation"
    case Closing => "closing"
    case StageFollowUp => "follow_up"
    case StageReEngagement => "re_engagement"
  }

  function ParseStage(s: string): (r: Option<SalesStage>)
    ensures forall g :: r == Some(g) <==> StageName(g) == s
  {
    if s == "prospecting" then Some(Prospecting)
    else if s == "qualification" then Some(Qualification)
    else if s == "proposal" then Some(Proposal)
    else if s == "negotiation" then Some(Negotiation)
    else if s == "closing" then Some(Closing)
    else if s == "follow_up" then Some(StageFollowUp)
    else if s == "re_engagement" then Some(StageReEngagement)
    else None
  }

  datatype Tone = Formal | Friendly | Urgent | Consultative | Casual

  function ToneName(t: Tone): string {
    match t
    case Formal => "formal"
    case Friendly => "friendly"
    case Urgent => "urgent"
    case Consultative => "consultative"
    case Casual => "casual"
  }

  function ParseTone(s: string): (r: Option<Tone>)
    ensures forall t :: r == Some(t) <==> ToneName(t) == s
  {
    if s == "formal" then Some(Formal)
    else if s == "friendly" then Some(Friendly)
    else if s == "urgent" then Some(Urgent)
    else if s == "consultative" then Some(Consultative)
    else if s == "casual" then Some(Casual)
    else None
  }

  // ---------------------------------------------------------------- field checks

  /** The one-element error list naming `field` when its check fails. */
  function Check(ok: bool, field: string): (r: seq<string>)
    ensures ok <==> r == []
    ensures !ok ==> r == [field]
  {
    if ok then [] else [field]
  }

  /** `Field(min_length=lo, max_length=hi)` on a string. */
  predicate LengthIn(s: string, lo: nat, hi: nat) { lo <= |s| <= hi }

  /** An optional integer field: absent, or within `[lo, hi]`. */
  predicate OptionalIn(x: Option<int>, lo: int, hi: int) { x.None? || lo <= x.value <= hi }

  // ---------------------------------------------------------------- the recipient-number pattern

  /** `^\+\d{10,15}$`: a plus sign, then ten to fifteen digits, and nothing else. */
  predicate PhonePattern(s: string) {
    && 11 <= |s| <= 16
    && s[0] == '+'
    && forall k :: 1 <= k < |s| ==> IsDigit(s[k])
  }

  /** A left-to-right scan for `^\+\d{10,15}$`: the sign, then digits counted up to the end. */
  method MatchPhone(s: string) returns (ok: bool)
    ensures ok <==> PhonePattern(s)
  {
    if |s| == 0 || s[0] != '+' {
      return false;
    }
    var i := 1;
    while i < |s| && IsDigit(s[i])
      invariant 1 <= i <= |s|
      invariant forall k :: 1 <= k < i ==> IsDigit(s[k])
    {
      i := i + 1;
    }
    ok := i == |s| && 11 <= i <= 16;
  }

  // ---------------------------------------------------------------- triggers

  /** The body of `POST /triggers` before validation; `None` is an omitted field. */
  datatype TriggerInput = TriggerInput(
    name: string,
    triggerType: string,
    channel: string,
    recipient: string,
    recipientName: Option<string>,
    message: string,
    subject: Option<string>,
    delayMinutes: Option<int>,
    maxRetries: Option<int>,
    stopOnReply: Option<bool>)

  /** `CreateTriggerRequest` once validated, with every default filled in. */
  datatype TriggerRequest = TriggerRequest(
    name: string,
    triggerType: TriggerType,
    channel: Channel,
    recipient: string,
    recipientName: Option<string>,
    message: string,
    subject: Option<string>,
    delayMinutes: int,
    maxRetries: int,
    stopOnReply: bool)

  const DefaultDelayMinutes: int := 60
  const MaxDelayMinutes: int := 43200
  const DefaultMaxRetries: int := 3

  /** The bounds of `CreateTriggerRequest`, field by field. */
  predicate TriggerInputValid(x: TriggerInput) {
    && LengthIn(x.name, 1, 200)
    && ParseTriggerType(x.triggerType).Some?
    && ParseChannel(x.channel).Some?
    && |x.recipient| >= 1
    && LengthIn(x.message, 1, 5000)
    && OptionalIn(x.delayMinutes, 0, MaxDelayMinutes)
    && OptionalIn(x.maxRetries, 1, 10)
  }

  function TriggerErrors(x: TriggerInput): seq<string> {
    Check(LengthIn(x.name, 1, 200), "name")
    + Check(ParseTriggerType(x.triggerType).Some?, "trigger_type")
    + Check(ParseChannel(x.channel).Some?, "channel")
    + Check(|x.recipient| >= 1, "recipient")
    + Check(LengthIn(x.message, 1, 5000), "message")
    + Check(OptionalIn(x.delayMinutes, 0, MaxDelayMinutes), "delay_minutes")
    + Check(OptionalIn(x.maxRetries, 1, 10), "max_retries")
  }

  /**
   * Validation of `POST /triggers`: accepted exactly when every bound holds, with the delay
   * defaulting to 60 minutes, the retry budget to 3 and stop-on-reply to true.
   */
  function ValidateTrigger(x: TriggerInput): (r: Result<TriggerRequest, seq<string>>)
    ensures r.Ok? <==> TriggerInputValid(x)
    ensures r.Err? ==> |r.error| > 0
    ensures r.Ok? ==>
              && TriggerTypeName(r.value.triggerType) == x.triggerType && ChannelName(r.value.channel) == x.channel
              && r.value.name == x.name && r.value.recipient == x.recipient && r.value.message == x.message
              && r.value.recipientName == x.recipientName && r.value.subject == x.subject
              && r.value.delayMinutes == x.delayMinutes.GetOr(DefaultDelayMinutes)
              && r.value.maxRetries == x.maxRetries.GetOr(DefaultMaxRetries)
              && r.value.stopOnReply == x.stopOnReply.GetOr(true)
    ensures r.Ok? ==> 0 <= r.value.delayMinutes <= MaxDelayMinutes && 1 <= r.value.maxRetries <= 10
  {
    var errors := TriggerErrors(x);
    if errors != [] then Err(errors)
    else
      Ok(TriggerRequest(x.name, ParseTriggerType(x.triggerType).value, ParseChannel(x.channel).value,
                        x.recipient, x.recipientName, x.message, x.subject,
                        x.delayMinutes.GetOr(DefaultDelayMinutes), x.maxRetries.GetOr(DefaultMaxRetries),
                        x.stopOnReply.GetOr(true)))
  }

  /** The body of `POST /triggers/drip-campaign` before validation. */
  datatype DripInput = DripInput(
    name: string,
    channel: string,
    recipient: string,
    recipientName: Option<string>,
    subjectPrefix: Option<string>,
    messages: seq<string>,
    delayBetweenMinutes: Option<int>,
    stopOnReply: Option<bool>)

  /** `CreateDripCampaignRequest` once validated. */
  datatype DripRequest = DripRequest(
    name: string,
    channel: Channel,
    recipient: string,
    recipientName: Option<string>,
    subjectPrefix: Option<string>,
    messages: seq<string>,
    delayBetweenMinutes: int,
    stopOnReply: bool)

  const DefaultStepDelay: int := 1440
  const MaxSteps: nat := 10

  predicate DripInputValid(x: DripInput) {
    && LengthIn(x.name, 1, 200)
    && ParseChannel(x.channel).Some?
    && |x.recipient| >= 1
    && 1 <= |x.messages| <= MaxSteps
    && (x.delayBetweenMinutes.None? || x.delayBetweenMinutes.value >= 0)
  }

  function DripErrors(x: DripInput): seq<string> {
    Check(LengthIn(x.name, 1, 200), "name")
    + Check(ParseChannel(x.channel).Some?, "channel")
    + Check(|x.recipient| >= 1, "recipient")
    + Check(1 <= |x.messages| <= MaxSteps, "messages")
    + Check(x.delayBetweenMinutes.None? || x.delayBetweenMinutes.value >= 0, "delay_between_minutes")
  }

  /**
   * Validation of `POST /triggers/drip-campaign`: one to ten messages (each message itself is
   * unchecked), a non-negative step delay defaulting to a day, stop-on-reply defaulting to true.
   */
  function ValidateDrip(x: DripInput): (r: Result<DripRequest, seq<string>>)
    ensures r.Ok? <==> DripInputValid(x)
    ensures r.Err? ==> |r.error| > 0
    ensures r.Ok? ==>
              && r.value.name == x.name && ChannelName(r.value.channel) == x.channel
              && r.value.recipient == x.recipient && r.value.recipientName == x.recipientName
              && r.value.subjectPrefix == x.subjectPrefix && r.value.messages == x.messages
              && r.value.delayBetweenMinutes == x.delayBetweenMinutes.GetOr(DefaultStepDelay)
              && r.value.stopOnReply == x.stopOnReply.GetOr(true)
    ensures r.Ok? ==> 1 <= |r.value.messages| <= MaxSteps && r.value.delayBetweenMinutes >= 0
  {
    var errors := DripErrors(x);
    if errors != [] then Err(errors)
    else
      Ok(DripRequest(x.name, ParseChannel(x.channel).value, x.recipient, x.recipientName, x.subjectPrefix,
                     x.messages, x.delayBetweenMinutes.GetOr(DefaultStepDelay), x.stopOnReply.GetOr(true)))
  }

  // ---------------------------------------------------------------- messages

  /** The body of `POST /messages/generate` before validation. */
  datatype GenerateInput = GenerateInput(
    name: string, role: string, company: string, industry: string, painPoint: string,
    stage: string, tone: Option<string>, useAiRewrite: Option<bool>)

  datatype GenerateRequest = GenerateRequest(
    name: string, role: string, company: string, industry: string, painPoint: string,
    stage: SalesStage, tone: Tone, useAiRewrite: bool)

  predicate GenerateInputValid(x: GenerateInput) {
    && LengthIn(x.name, 1, 100) && LengthIn(x.role, 1, 100) && LengthIn(x.company, 1, 100)
    && LengthIn(x.industry, 1, 100) && LengthIn(x.painPoint, 1, 500)
    && ParseStage(x.stage).Some?
    && (x.tone.None? || ParseTone(x.tone.value).Some?)
  }

  function GenerateErrors(x: GenerateInput): seq<string> {
    Check(LengthIn(x.name, 1, 100), "name")
    + Check(LengthIn(x.role, 1, 100), "role")
    + Check(LengthIn(x.company, 1, 100), "company")
    + Check(LengthIn(x.industry, 1, 100), "industry")
    + Check(LengthIn(x.painPoint, 1, 500), "pain_point")
    + Check(ParseStage(x.stage).Some?, "stage")
    + Check(x.tone.None? || ParseTone(x.tone.value).Some?, "tone")
  }

  /** Validation of the generate request: the tone defaults to friendly and the rewrite to on. */
  function ValidateGenerate(x: GenerateInput): (r: Result<GenerateRequest, seq<string>>)
    ensures r.Ok? <==> GenerateInputValid(x)
    ensures r.Err? ==> |r.error| > 0
    ensures r.Ok? ==>
              && r.value.name == x.name && r.value.role == x.role && r.value.company == x.company
              && r.value.industry == x.industry && r.value.painPoint == x.painPoint
              && StageName(r.value.stage) == x.stage
              && (x.tone.None? ==> r.value.tone == Friendly)
              && (x.tone.Some? ==> ToneName(r.value.tone) == x.tone.value)
              && r.value.useAiRewrite == x.useAiRewrite.GetOr(true)
  {
    var errors := GenerateErrors(x);
    if errors != [] then Err(errors)
    else
      Ok(GenerateRequest(x.name, x.role, x.company, x.industry, x.painPoint, ParseStage(x.stage).value,
                         if x.tone.Some? then ParseTone(x.tone.value).value else Friendly,
                         x.useAiRewrite.GetOr(true)))
  }

  /** The response's `score` field accepts exactly the values from 0 to 100. */
  predicate ScoreAccepted(score: int) { 0 <= score <= 100 }

  /** A WhatsApp send: a pattern-matching recipient and a body of at most 4096 characters. */
  predicate WhatsAppSendValid(to: string, message: string) {
    PhonePattern(to) && LengthIn(message, 1, 4096)
  }

  /** An SMS send: the same recipient pattern and a body of at most 1600 characters. */
  predicate SmsSendValid(to: string, message: string) {
    PhonePattern(to) && LengthIn(message, 1, 1600)
  }

  /**
   * For a plus sign and digits: a WhatsApp send is valid exactly with 10 to 15 digits and a body
   * of 1 to 4096 characters, an SMS send likewise with at most 1600; every valid SMS send is a
   * valid WhatsApp send.
   */
  lemma SendBounds(digits: string, message: string)
    requires forall k :: 0 <= k < |digits| ==> IsDigit(digits[k])
    ensures WhatsAppSendValid("+" + digits, message) <==> 10 <= |digits| <= 15 && 1 <= |message| <= 4096
    ensures SmsSendValid("+" + digits, message) <==> 10 <= |digits| <= 15 && 1 <= |message| <= 1600
    ensures SmsSendValid("+" + digits, message) ==> WhatsAppSendValid("+" + digits, message)
  {
    PatternIsDigitCount(digits);
  }

  /** The body of `POST /messages/send-email` before validation; the address itself is unchecked. */
  datatype EmailInput = EmailInput(toEmail: string, toName: Option<string>, subject: string, body: string,
                                   html: Option<bool>)

  datatype EmailRequest = EmailRequest(toEmail: string, toName: Option<string>, subject: string, body: string,
                                       html: bool)

  predicate EmailInputValid(x: EmailInput) {
    && (x.toName.None? || |x.toName.value| <= 100)
    && LengthIn(x.subject, 1, 200)
    && LengthIn(x.body, 1, 50000)
  }

  function EmailErrors(x: EmailInput): seq<string> {
    Check(x.toName.None? || |x.toName.value| <= 100, "to_name")
    + Check(LengthIn(x.subject, 1, 200), "subject")
    + Check(LengthIn(x.body, 1, 50000), "body")
  }

  /** Validation of the e-mail send: `html` defaults to false. */
  function ValidateEmail(x: EmailInput): (r: Result<EmailRequest, seq<string>>)
    ensures r.Ok? <==> EmailInputValid(x)
    ensures r.Err? ==> |r.error| > 0
    ensures r.Ok? ==> r.value == EmailRequest(x.toEmail, x.toName, x.subject, x.body, x.html.GetOr(false))
  {
    var errors := EmailErrors(x);
    if errors != [] then Err(errors) else Ok(EmailRequest(x.toEmail, x.toName, x.subject, x.body, x.html.GetOr(false)))
  }

  // ---------------------------------------------------------------- properties

  /** A run of digits behind a plus sign matches exactly when it has 10 to 15 digits. */
  lemma PatternIsDigitCount(digits: string)
    requires forall k :: 0 <= k < |digits| ==> IsDigit(digits[k])
    ensures PhonePattern("+" + digits) <==> 10 <= |digits| <= 15
  {
    var s := "+" + digits;
    assert forall k :: 1 <= k < |s| ==> s[k] == digits[k - 1];
  }
}

=== FILE: scoring.dfy ===
/**
 * `score_message`: a message starts at 50 and gains or loses whole points for its length, its
 * subject's length, second-person words, a strong call to action, a question, the sales stage, an
 * urgency word under the urgent tone, and each spam phrase; the total is clamped to 0..100.
 * Every adjustment is a whole number, so the score Python computes in floating point is an
 * integer here.
 */
module Scoring {
  import opened Text
  import Schemas

  const BaseScore: int := 50

  const PersonalWords: seq<string> := ["you", "your", "you're", "yourself"]
  const StrongCtaWords: seq<string> := ["book", "schedule", "sign", "start", "reply", "call", "register", "join", "try"]
  const UrgencyWords: seq<string> := ["today", "now", "limited", "deadline", "asap"]
  const SpamPhrases: seq<string> := ["free", "guarantee", "act now", "click here", "no obligation", "winner"]

  /** The points for the number of words in the message. */
  function LengthPoints(words: nat): (p: int)
    ensures -15 <= p <= 10
    ensures p == 10 <==> 40 <= words <= 120
  {
    if 40 <= words <= 120 then 10
    else if words < 20 then -10
    else if words > 200 then -15
    else 0
  }

  /** The points for the number of words in the subject. */
  function SubjectPoints(words: nat): (p: int)
    ensures -5 <= p <= 8
    ensures p == 8 <==> 4 <= words <= 12
  {
    if 4 <= words <= 12 then 8
    else if words > 15 then -5
    else 0
  }

  /** The characters `w.strip(".,!?")` removes. */
  predicate IsPunct(c: char) { c == '.' || c == ',' || c == '!' || c == '?' }

  /** A lower-cased word that, stripped of edge punctuation, is a second-person word. */
  predicate IsPersonal(w: string) { StripBy(w, IsPunct) in PersonalWords }

  /** How many of `words` are second-person words. */
  function PersonalCount(words: seq<string>): (n: nat)
    ensures n <= |words|
  {
    if |words| == 0 then 0
    else (if IsPersonal(words[0]) then 1 else 0) + PersonalCount(words[1..])
  }

  /** `min(count * 2, 10)`: two points a word, at most ten. */
  function CappedDouble(n: nat): (p: int)
    ensures 0 <= p <= 10 && p % 2 == 0
    ensures p == 10 <==> n >= 5
  {
    if 2 * n < 10 then 2 * n else 10
  }

  /** The points for second-person words in the message. */
  function PersonalPoints(message: string): (p: int)
    ensures 0 <= p <= 10 && p % 2 == 0
  {
    CappedDouble(PersonalCount(Words(LowerStr(message))))
  }

  /** Whether any of `phrases` occurs in `text`. */
  predicate AnyIn(phrases: seq<string>, text: string) {
    exists k :: 0 <= k < |phrases| && Contains(text, phrases[k])
  }

  /** How many of `phrases` occur in `text`, each counted once. */
  function CountIn(phrases: seq<string>, text: string): (n: nat)
    ensures n <= |phrases|
    ensures n == 0 <==> !AnyIn(phrases, text)
  {
    if |phrases| == 0 then 0
    else
      var rest := CountIn(phrases[1..], text);
      assert AnyIn(phrases, text) <==> Contains(text, phrases[0]) || AnyIn(phrases[1..], text) by {
        if AnyIn(phrases[1..], text) {
          var k :| 0 <= k < |phrases[1..]| && Contains(text, phrases[1..][k]);
          assert phrases[k + 1] == phrases[1..][k];
        }
        if AnyIn(phrases, text) && !Contains(text, phrases[0]) {
          var k :| 0 <= k < |phrases| && Contains(text, phrases[k]);
          assert phrases[1..][k - 1] == phrases[k];
        }
      }
      (if Contains(text, phrases[0]) then 1 else 0) + rest
  }

  /** `stage_bonuses.get(stage, 0)`. */
  function StagePoints(stage: Schemas.SalesStage): (p: int)
    ensures 0 <= p <= 5
  {
    match stage
    case Closing => 5
    case Negotiation => 3
    case Proposal => 3
    case StageReEngagement => 2
    case _ => 0
  }

  /** The score before clamping. */
  function RawScore(message: string, subject: string, cta: string, stage: Schemas.SalesStage,
                    tone: Schemas.Tone): int
  {
    var lower := LowerStr(message);
    var question := '?' in message;
    BaseScore
    + LengthPoints(|Words(message)|)
    + SubjectPoints(|Words(subject)|)
    + PersonalPoints(message)
    + (if AnyIn(StrongCtaWords, LowerStr(cta)) then 8 else 0)
    + (if question then 5 else 0)
    + StagePoints(stage)
    + (if tone == Schemas.Urgent && AnyIn(UrgencyWords, lower) then 5 else 0)
    + (if tone == Schemas.Consultative && question then 3 else 0)
    - 5 * CountIn(SpamPhrases, lower)
  }

  /** `score_message`. */
  function ScoreMessage(message: string, subject: string, cta: string, stage: Schemas.SalesStage,
                        tone: Schemas.Tone): (score: int)
    ensures Schemas.ScoreAccepted(score)
  {
    var raw := RawScore(message, subject, cta, stage, tone);
    if raw < 0 then 0 else if raw > 100 then 100 else raw
  }

  // ---------------------------------------------------------------- properties

  /**
   * The adjustments can take the score from 50 down to exactly 0 and up to at most 101, so the
   * lower clamp never changes anything and the upper one trims at most one point.
   */
  lemma RawScoreRange(message: string, subject: string, cta: string, stage: Schemas.SalesStage, tone: Schemas.Tone)
    ensures 0 <= RawScore(message, subject, cta, stage, tone) <= 101
  {
    assert |SpamPhrases| == 6;
  }

  /** Only an urgent message can reach the upper clamp; under every other tone the score is the raw sum. */
  lemma ClampNeedsUrgency(message: string, subject: string, cta: string, stage: Schemas.SalesStage, tone: Schemas.Tone)
    ensures tone != Schemas.Urgent ==> ScoreMessage(message, subject, cta, stage, tone) == RawScore(message, subject, cta, stage, tone)
    ensures ScoreMessage(message, subject, cta, stage, tone) != RawScore(message, subject, cta, stage, tone) ==>
              RawScore(message, subject, cta, stage, tone) == 101
  {
    RawScoreRange(message, subject, cta, stage, tone);
  }

  /** The call to action is compared lower-cased, so writing it in capitals changes nothing. */
  lemma CtaCaseInsensitive(message: string, subject: string, cta: string, stage: Schemas.SalesStage, tone: Schemas.Tone)
    ensures ScoreMessage(message, subject, UpperStr(cta), stage, tone) == ScoreMessage(message, subject, cta, stage, tone)
  {
    var a := LowerStr(UpperStr(cta));
    var b := LowerStr(cta);
    forall i | 0 <= i < |cta| ensures a[i] == b[i] {
      assert a[i] == Lower(Upper(cta[i]));
    }
    assert a == b;
  }

  /** The formal, friendly and casual tones add nothing: a message scores the same under each. */
  lemma PlainTonesScoreAlike(message: string, subject: string, cta: string, stage: Schemas.SalesStage,
                             t1: Schemas.Tone, t2: Schemas.Tone)
    requires t1 in {Schemas.Formal, Schemas.Friendly, Schemas.Casual}
    requires t2 in {Schemas.Formal, Schemas.Friendly, Schemas.Casual}
    ensures ScoreMessage(message, subject, cta, stage, t1) == ScoreMessage(message, subject, cta, stage, t2)
  {
  }

  /** The closing stage earns the largest bonus, so a message never scores higher at another stage. */
  lemma ClosingScoresHighest(message: string, subject: string, cta: string, stage: Schemas.SalesStage, tone: Schemas.Tone)
    ensures ScoreMessage(message, subject, cta, stage, tone) <= ScoreMessage(message, subject, cta, Schemas.Closing, tone)
  {
  }
}

=== FILE: templates.dfy ===
/**
 * `render_template`: each sales stage has a subject, a body and a call to action; the subject and
 * body carry `{name}`, `{role}`, `{company}`, `{industry}` and `{pain_point}` placeholders that
 * `str.format` fills once from the lead, and the call to action is used as written.  A tone adds
 * an instruction for the rewriter.  The templates are held already split at their placeholders,
 * which is what `str.format` does with them.
 */
module Templates {
  import opened Text
  import Schemas
  import Scoring

  /** The placeholders a template may use. */
  datatype Field = Name | Role | Company | Industry | PainPoint

  /** A stretch of literal text or one placeholder. */
  datatype Piece = Lit(text: string) | Slot(field: Field)

  datatype Template = Template(subject: seq<Piece>, body: seq<Piece>, cta: string)

  /** The values `render_template` formats with. */
  datatype Lead = Lead(name: string, role: string, company: string, industry: string, painPoint: string)

  datatype Rendered = Rendered(subject: string, body: string, cta: string, toneInstruction: string)

  function Value(lead: Lead, f: Field): string {
    match f
    case Name => lead.name
    case Role => lead.role
    case Company => lead.company
    case Industry => lead.industry
    case PainPoint => lead.painPoint
  }

  function Part(p: Piece, lead: Lead): string {
    match p
    case Lit(s) => s
    case Slot(f) => Value(lead, f)
  }

  /** `str.format` of a split template: each placeholder replaced by its value, once. */
  function Fill(pieces: seq<Piece>, lead: Lead): string {
    if |pieces| == 0 then "" else Part(pieces[0], lead) + Fill(pieces[1..], lead)
  }

  /** Every body opens with `Hi {name},` and a blank line. */
  const Greeting: seq<Piece> := [Lit("Hi "), Slot(Name), Lit(",\n\n")]

  // ---------------------------------------------------------------- TEMPLATES

  const ProspectingTemplate: Template :=
    Template([Lit("Quick question about "), Slot(Company), Lit("'s "), Slot(Industry), Lit(" strategy")],
             Greeting + [Lit("I came across "), Slot(Company), Lit(" and noticed your work in the "), Slot(Industry),
                         Lit(" space. Many "), Slot(Role), Lit("s I speak with mention challenges around "), Slot(PainPoint),
                         Lit(".\n\nWe've helped similar companies tackle this -- would you be open to a brief chat this week?")],
             "Book a 15-minute discovery call")

  const QualificationTemplate: Template :=
    Template([Lit("Following up on our conversation, "), Slot(Name)],
             Greeting + [Lit("Great speaking with you about "), Slot(Company), Lit("'s goals. You mentioned "), Slot(PainPoint),
                         Lit(" as a top priority -- I've put together a few ideas I think you'll find valuable.\n\n"
                             + "When would be a good time to walk through them?")],
             "Schedule a solution walkthrough")

  const ProposalTemplate: Template :=
    Template([Lit("Proposal for "), Slot(Company), Lit(" -- addressing "), Slot(PainPoint)],
             Greeting + [Lit("Attached is a tailored proposal for "), Slot(Company), Lit(" that directly addresses "),
                         Slot(PainPoint), Lit(". The solution is designed specifically for "), Slot(Industry),
                         Lit(" teams.\n\nI'd love to discuss any questions you have -- are you free this week?")],
             "Review proposal and schedule a call")

  const NegotiationTemplate: Template :=
    Template([Lit("Let's finalize the details, "), Slot(Name)],
             Greeting + [Lit("We're excited about the potential partnership with "), Slot(Company),
                         Lit(". I wanted to check in on the proposal and see if there are any remaining questions around "),
                         Slot(PainPoint), Lit(" or terms.\n\nHappy to hop on a quick call to iron out the details.")],
             "Finalize agreement this week")

  const ClosingTemplate: Template :=
    Template([Lit("Ready to get started, "), Slot(Name), Lit("?")],
             Greeting + [Lit("Everything looks aligned for "), Slot(Company), Lit(" to move forward. Addressing "),
                         Slot(PainPoint), Lit(" is within reach -- let's lock in the next steps.\n\n"
                                              + "I've prepared the onboarding details for your review.")],
             "Sign and start onboarding today")

  const FollowUpTemplate: Template :=
    Template([Lit("Checking in, "), Slot(Name)],
             Greeting + [Lit("I wanted to follow up on our last conversation about "), Slot(PainPoint), Lit(" at "),
                         Slot(Company), Lit(". Have you had a chance to review the information?\n\n"
                                            + "I'm here if you have any questions -- happy to help.")],
             "Reply to reconnect")

  const ReEngagementTemplate: Template :=
    Template([Lit("It's been a while, "), Slot(Name), Lit(" -- any updates at "), Slot(Company), Lit("?")],
             Greeting + [Lit("I hope things are going well at "), Slot(Company), Lit("! I know "), Slot(PainPoint),
                         Lit(" was a focus area when we last spoke. We've since added new capabilities that might be a "
                             + "great fit for your "), Slot(Industry), Lit(" team.\n\nWould you be open to a quick catch-up?")],
             "Reopen the conversation")

  function TemplateFor(stage: Schemas.SalesStage): Template {
    match stage
    case Prospecting => ProspectingTemplate
    case Qualification => QualificationTemplate
    case Proposal => ProposalTemplate
    case Negotiation => NegotiationTemplate
    case Closing => ClosingTemplate
    case StageFollowUp => FollowUpTemplate
    case StageReEngagement => ReEngagementTemplate
  }

  // ---------------------------------------------------------------- TONE_MODIFIERS

  const FormalModifier := "Use a professional and formal tone. Avoid contractions and slang."
  const FriendlyModifier := "Use a warm, conversational tone. Be approachable."
  const UrgentModifier := "Convey urgency. Emphasize time-sensitivity and scarcity."
  const ConsultativeModifier := "Position yourself as an advisor. Ask insightful questions."
  const CasualModifier := "Keep it light and casual. Use a relaxed tone."

  function ToneModifier(t: Schemas.Tone): (r: string)
    ensures |r| > 0
  {
    match t
    case Formal => FormalModifier
    case Friendly => FriendlyModifier
    case Urgent => UrgentModifier
    case Consultative => ConsultativeModifier
    case Casual => CasualModifier
  }

  /** `TEMPLATES.get(stage, TEMPLATES[FOLLOW_UP])`: a stage value with no template uses the follow-up one. */
  function StageOf(stage: string): Schemas.SalesStage {
    var s := Schemas.ParseStage(stage);
    if s.Some? then s.value else Schemas.StageFollowUp
  }

  /** `TONE_MODIFIERS.get(tone, "")`. */
  function ToneInstruction(tone: string): (r: string)
    ensures |r| == 0 <==> Schemas.ParseTone(tone).None?
  {
    var t := Schemas.ParseTone(tone);
    if t.Some? then ToneModifier(t.value) else ""
  }

  /** The shape every template has: the greeting first, the company and the pain point in the body. */
  predicate Shaped(t: Template) {
    && |t.body| >= 3 && t.body[..3] == Greeting
    && Slot(Company) in t.body && Slot(PainPoint) in t.body
    && (Slot(Name) in t.subject || Slot(Company) in t.subject)
  }

  /** `render_template`. */
  function RenderTemplate(lead: Lead, stage: string, tone: string): (r: Rendered)
    ensures "Hi " + lead.name + ",\n\n" <= r.body
    ensures Contains(r.body, lead.company) && Contains(r.body, lead.painPoint)
    ensures Contains(r.subject, lead.name) || Contains(r.subject, lead.company)
    ensures r.cta == TemplateFor(StageOf(stage)).cta
    ensures |r.toneInstruction| == 0 <==> Schemas.ParseTone(tone).None?
  {
    var t := TemplateFor(StageOf(stage));
    TemplateShaped(StageOf(stage));
    ShapedRenders(t, lead);
    Rendered(Fill(t.subject, lead), Fill(t.body, lead), t.cta, ToneInstruction(tone))
  }

  // ---------------------------------------------------------------- properties of Fill

  lemma {:induction false} FillAppend(a: seq<Piece>, b: seq<Piece>, lead: Lead)
    ensures Fill(a + b, lead) == Fill(a, lead) + Fill(b, lead)
    decreases |a|
  {
    if |a| == 0 {
      assert a + b == b;
    } else {
      assert (a + b)[1..] == a[1..] + b;
      FillAppend(a[1..], b, lead);
    }
  }

  /** A placeholder in the template puts its value into the text. */
  lemma {:induction false} FillMentions(pieces: seq<Piece>, lead: Lead, f: Field)
    requires Slot(f) in pieces
    ensures Contains(Fill(pieces, lead), Value(lead, f))
    decreases |pieces|
  {
    var rest := Fill(pieces[1..], lead);
    if pieces[0] == Slot(f) {
      ContainsWhole([], Value(lead, f), rest);
      assert [] + Value(lead, f) + rest == Fill(pieces, lead);
    } else {
      assert Slot(f) in pieces[1..];
      FillMentions(pieces[1..], lead, f);
      ContainsExtend(rest, Value(lead, f), Part(pieces[0], lead), []);
      assert Part(pieces[0], lead) + rest + [] == Fill(pieces, lead);
    }
  }

  /** A template with no placeholder renders the same for every lead. */
  lemma {:induction false} FillLiteral(pieces: seq<Piece>, a: Lead, b: Lead)
    requires forall k :: 0 <= k < |pieces| ==> pieces[k].Lit?
    ensures Fill(pieces, a) == Fill(pieces, b)
    decreases |pieces|
  {
    if |pieces| > 0 {
      FillLiteral(pieces[1..], a, b);
    }
  }

  lemma GreetingFill(lead: Lead)
    ensures Fill(Greeting, lead) == "Hi " + lead.name + ",\n\n"
  {
    var name := lead.name;
    assert Fill(Greeting[2..], lead) == ",\n\n" + Fill(Greeting[3..], lead);
    assert Fill(Greeting[1..], lead) == name + Fill(Greeting[2..], lead);
    assert Greeting[3..] == [];
  }

  lemma TemplateShaped(stage: Schemas.SalesStage)
    ensures Shaped(TemplateFor(stage))
  {
    var t := TemplateFor(stage);
    assert t.body[..3] == Greeting;
    assert t.subject[1] in t.subject;
    if stage == Schemas.Prospecting {
      assert t.body[4] in t.body && t.body[10] in t.body;
    } else {
      assert t.body[4] in t.body && t.body[6] in t.body;
    }
  }

  lemma ShapedRenders(t: Template, lead: Lead)
    requires Shaped(t)
    ensures "Hi " + lead.name + ",\n\n" <= Fill(t.body, lead)
    ensures Contains(Fill(t.body, lead), lead.company) && Contains(Fill(t.body, lead), lead.painPoint)
    ensures Contains(Fill(t.subject, lead), lead.name) || Contains(Fill(t.subject, lead), lead.company)
  {
    assert t.body == Greeting + t.body[3..];
    FillAppend(Greeting, t.body[3..], lead);
    GreetingFill(lead);
    FillMentions(t.body, lead, Company);
    FillMentions(t.body, lead, PainPoint);
    if Slot(Name) in t.subject {
      FillMentions(t.subject, lead, Name);
    } else {
      FillMentions(t.subject, lead, Company);
    }
  }

  // ---------------------------------------------------------------- properties of rendering

  /** The call to action is not formatted: two leads at the same stage get the same one. */
  lemma CtaVerbatim(a: Lead, b: Lead, stage: string, tone: string)
    ensures RenderTemplate(a, stage, tone).cta == RenderTemplate(b, stage, tone).cta
  {
  }

  /** A stage value with no template renders exactly like the follow-up stage. */
  lemma UnknownStageIsFollowUp(lead: Lead, stage: string, tone: string)
    requires Schemas.ParseStage(stage).None?
    ensures RenderTemplate(lead, stage, tone) == RenderTemplate(lead, "follow_up", tone)
  {
  }

  /** A call to action whose lower-cased text holds `word` at `at` earns the strong call-to-action points. */
  lemma StrongAt(cta: string, k: nat, at: nat)
    requires k < |Scoring.StrongCtaWords| && at + |Scoring.StrongCtaWords[k]| <= |cta|
    requires LowerStr(cta)[at..at + |Scoring.StrongCtaWords[k]|] == Scoring.StrongCtaWords[k]
    ensures Scoring.AnyIn(Scoring.StrongCtaWords, LowerStr(cta))
  {
    assert OccursAt(LowerStr(cta), Scoring.StrongCtaWords[k], at);
  }

  /** The prospecting call to action opens with "Book", a strong call-to-action word. */
  lemma ProspectingCtaIsStrong()
    ensures Scoring.AnyIn(Scoring.StrongCtaWords, LowerStr(ProspectingTemplate.cta))
  {
    var c := ProspectingTemplate.cta;
    assert LowerStr(c)[0..4] == "book";
    StrongAt(c, 0, 0);
  }

  /** "Schedule a solution walkthrough" opens with "schedule". */
  lemma QualificationCtaIsStrong()
    ensures Scoring.AnyIn(Scoring.StrongCtaWords, LowerStr(QualificationTemplate.cta))
  {
    var c := QualificationTemplate.cta;
    assert LowerStr(c)[0..8] == "schedule";
    StrongAt(c, 1, 0);
  }

  /** "Review proposal and schedule a call" holds "schedule" after its first twenty characters. */
  lemma ProposalCtaIsStrong()
    ensures Scoring.AnyIn(Scoring.StrongCtaWords, LowerStr(ProposalTemplate.cta))
  {
    var c := ProposalTemplate.cta;
    assert LowerStr(c)[20..28] == "schedule";
    StrongAt(c, 1, 20);
  }

  /** "Sign and start onboarding today" opens with "sign". */
  lemma ClosingCtaIsStrong()
    ensures Scoring.AnyIn(Scoring.StrongCtaWords, LowerStr(ClosingTemplate.cta))
  {
    var c := ClosingTemplate.cta;
    assert LowerStr(c)[0..4] == "sign";
    StrongAt(c, 2, 0);
  }

  /** "Reply to reconnect" opens with "reply". */
  lemma FollowUpCtaIsStrong()
    ensures Scoring.AnyIn(Scoring.StrongCtaWords, LowerStr(FollowUpTemplate.cta))
  {
    var c := FollowUpTemplate.cta;
    assert LowerStr(c)[0..5] == "reply";
    StrongAt(c, 4, 0);
  }

  /**
   * Rendered without a rewrite, the templates of every stage except negotiation and re-engagement
   * carry a strong call-to-action word, so `score_message` awards them its eight points.
   */
  lemma RenderedCtaIsStrong(lead: Lead, stage: string, tone: string)
    requires StageOf(stage) !in {Schemas.Negotiation, Schemas.StageReEngagement}
    ensures Scoring.AnyIn(Scoring.StrongCtaWords, LowerStr(RenderTemplate(lead, stage, tone).cta))
  {
    match StageOf(stage)
    case Prospecting => ProspectingCtaIsStrong();
    case Qualification => QualificationCtaIsStrong();
    case Proposal => ProposalCtaIsStrong();
    case Closing => ClosingCtaIsStrong();
    case StageFollowUp => FollowUpCtaIsStrong();
  }
}

=== FILE: text.dfy ===
/**
 * String scanning shared by the services: Python's whitespace class, strip/split/join/replace,
 * substring search, ASCII case mapping, decimal rendering, and SQLite's `LIKE` matcher.
 */
module Text {
  import opened Outcomes

  // ---------------------------------------------------------------- character classes

  /** Python's `str.isspace()`; the same class is used by `\s`, `str.strip()` and `str.split()`. */
  predicate IsSpace(c: char) {
    ('\t' <= c <= '\r') || ('\U{1C}' <= c <= '\U{1F}') || c == ' ' || c == '\U{85}'
    || c == '\U{A0}' || c == '\U{1680}' || ('\U{2000}' <= c <= '\U{200A}') || c == '\U{2028}'
    || c == '\U{2029}' || c == '\U{202F}' || c == '\U{205F}' || c == '\U{3000}'
  }

  predicate IsDigit(c: char) { '0' <= c <= '9' }

  predicate IsAsciiUpper(c: char) { 'A' <= c <= 'Z' }

  predicate IsAsciiLower(c: char) { 'a' <= c <= 'z' }

  /** The regex class `[A-Z0-9]`. */
  predicate IsUpperAlnum(c: char) { IsAsciiUpper(c) || IsDigit(c) }

  /** The regex class `\w`, restricted to ASCII. */
  predicate IsWordChar(c: char) { IsAsciiUpper(c) || IsAsciiLower(c) || IsDigit(c) || c == '_' }

  function Lower(c: char): (r: char)
    ensures IsAsciiUpper(c) ==> IsAsciiLower(r)
    ensures !IsAsciiUpper(c) ==> r == c
  {
    if IsAsciiUpper(c) then (c as int + 32) as char else c
  }

  function Upper(c: char): (r: char)
    ensures IsAsciiLower(c) ==> IsAsciiUpper(r)
    ensures !IsAsciiLower(c) ==> r == c
  {
    if IsAsciiLower(c) then (c as int - 32) as char else c
  }

  function LowerStr(s: string): (r: string)
    ensures |r| == |s|
    ensures forall i :: 0 <= i < |s| ==> r[i] == Lower(s[i])
  {
    seq(|s|, i requires 0 <= i < |s| => Lower(s[i]))
  }

  function UpperStr(s: string): (r: string)
    ensures |r| == |s|
    ensures forall i :: 0 <= i < |s| ==> r[i] == Upper(s[i])
  {
    seq(|s|, i requires 0 <= i < |s| => Upper(s[i]))
  }

  /** Case-insensitive equality of two characters, as `re.IGNORECASE` and SQLite `LIKE` treat ASCII. */
  predicate CiEq(a: char, b: char) { Lower(a) == Lower(b) }

  // ---------------------------------------------------------------- substrings

  predicate OccursAt(s: string, sub: string, i: int) {
    0 <= i && i + |sub| <= |s| && s[i..i + |sub|] == sub
  }

  /** Python's `sub in s`. */
  predicate Contains(s: string, sub: string) {
    exists i :: 0 <= i <= |s| - |sub| && OccursAt(s, sub, i)
  }

  /** The first occurrence of `sub` in `s` at or after `from` (Python's `s.find(sub, from)`). */
  function IndexFrom(s: string, sub: string, from: nat): (r: Option<nat>)
    decreases |s| - from
    ensures r.Some? ==> from <= r.value && OccursAt(s, sub, r.value)
    ensures r.Some? ==> forall j :: from <= j < r.value ==> !OccursAt(s, sub, j)
    ensures r.None? ==> forall j :: from <= j ==> !OccursAt(s, sub, j)
  {
    if from + |sub| > |s| then None
    else if s[from..from + |sub|] == sub then Some(from)
    else IndexFrom(s, sub, from + 1)
  }

  lemma ContainsIffFound(s: string, sub: string)
    ensures Contains(s, sub) <==> IndexFrom(s, sub, 0).Some?
  {
    var r := IndexFrom(s, sub, 0);
    if r.Some? {
      assert OccursAt(s, sub, r.value);
    }
  }

  /** Both inner parts of a four-part text occur in it. */
  lemma ContainsInner(a: string, b: string, c: string, d: string)
    ensures Contains(a + b + c + d, b) && Contains(a + b + c + d, c)
  {
    assert (a + b + c + d)[|a|..|a| + |b|] == b;
    assert OccursAt(a + b + c + d, b, |a|);
    assert (a + b + c + d)[|a| + |b|..|a| + |b| + |c|] == c;
    assert OccursAt(a + b + c + d, c, |a| + |b|);
  }

  lemma ContainsWhole(a: string, b: string, c: string)
    ensures Contains(a + b + c, b)
  {
    assert (a + b + c)[|a|..|a| + |b|] == b;
    assert OccursAt(a + b + c, b, |a|);
  }

  /** Substring containment survives putting text around the searched string. */
  lemma ContainsExtend(s: string, sub: string, a: string, c: string)
    requires Contains(s, sub)
    ensures Contains(a + s + c, sub)
  {
    var i :| 0 <= i <= |s| - |sub| && OccursAt(s, sub, i);
    assert (a + s + c)[|a| + i..|a| + i + |sub|] == s[i..i + |sub|];
    assert OccursAt(a + s + c, sub, |a| + i);
  }

  /** Containment survives text put in front. */
  lemma ContainsPrepend(a: string, s: string, sub: string)
    requires Contains(s, sub)
    ensures Contains(a + s, sub)
  {
    var i :| 0 <= i <= |s| - |sub| && OccursAt(s, sub, i);
    assert (a + s)[|a| + i..|a| + i + |sub|] == s[i..i + |sub|];
    assert OccursAt(a + s, sub, |a| + i);
  }

  /** Containment survives text put behind. */
  lemma ContainsAppend(s: string, c: string, sub: string)
    requires Contains(s, sub)
    ensures Contains(s + c, sub)
  {
    var i :| 0 <= i <= |s| - |sub| && OccursAt(s, sub, i);
    assert (s + c)[i..i + |sub|] == s[i..i + |sub|];
    assert OccursAt(s + c, sub, i);
  }

  /** `s.endswith(p)`. */
  predicate EndsWith(s: string, p: string) {
    |s| >= |p| && s[|s| - |p|..] == p
  }

  lemma EndsWithPrepend(a: string, s: string, p: string)
    requires EndsWith(s, p)
    ensures EndsWith(a + s, p)
  {
    assert (a + s)[|a + s| - |p|..] == s[|s| - |p|..];
  }

  lemma ContainsSelf(s: string)
    ensures Contains(s, s)
  {
    assert OccursAt(s, s, 0);
  }

  // ---------------------------------------------------------------- strip

  /** The number of leading characters of `s` that satisfy `p`. */
  function LeadingRun(s: string, p: char -> bool): (n: nat)
    ensures n <= |s|
    ensures forall k :: 0 <= k < n ==> p(s[k])
    ensures n < |s| ==> !p(s[n])
  {
    if |s| == 0 || !p(s[0]) then 0 else 1 + LeadingRun(s[1..], p)
  }

  /** The number of trailing characters of `s` that satisfy `p`. */
  function TrailingRun(s: string, p: char -> bool): (n: nat)
    ensures n <= |s|
    ensures forall k :: |s| - n <= k < |s| ==> p(s[k])
    ensures n < |s| ==> !p(s[|s| - n - 1])
  {
    if |s| == 0 || !p(s[|s| - 1]) then 0 else 1 + TrailingRun(s[..|s| - 1], p)
  }

  /** Python's `s.strip(chars)` where `p` says which characters are stripped. */
  function StripBy(s: string, p: char -> bool): (r: string)
    ensures |r| <= |s|
    ensures |r| > 0 ==> !p(r[0]) && !p(r[|r| - 1])
    ensures (forall k :: 0 <= k < |s| ==> p(s[k])) ==> r == []
  {
    var lo := LeadingRun(s, p);
    var t := s[lo..];
    var hi := |t| - TrailingRun(t, p);
    assert s[lo..lo + hi] == t[..hi];
    t[..hi]
  }

  /** Python's `s.strip()`. */
  function Strip(s: string): (r: string)
    ensures |r| <= |s|
    ensures |r| > 0 ==> !IsSpace(r[0]) && !IsSpace(r[|r| - 1])
  {
    StripBy(s, IsSpace)
  }

  lemma StripAllSpace(s: string)
    requires forall k :: 0 <= k < |s| ==> IsSpace(s[k])
    ensures Strip(s) == []
  {
  }

  lemma StripNoEdgeSpace(s: string)
    requires |s| > 0 ==> !IsSpace(s[0]) && !IsSpace(s[|s| - 1])
    ensures Strip(s) == s
  {
    assert LeadingRun(s, IsSpace) == 0;
    assert TrailingRun(s, IsSpace) == 0;
  }

  /** A leading blank is stripped away. */
  lemma StripLeadingSpace(c: char, x: string)
    requires IsSpace(c)
    ensures Strip([c] + x) == Strip(x)
  {
    var s := [c] + x;
    assert s[1..] == x;
    assert LeadingRun(s, IsSpace) == 1 + LeadingRun(x, IsSpace);
    assert s[LeadingRun(s, IsSpace)..] == x[LeadingRun(x, IsSpace)..];
  }

  /** Stripping keeps every piece of the text that begins and ends with a visible character. */
  lemma StripKeepsInner(s: string, i: nat, n: nat)
    requires 0 < n && i + n <= |s|
    requires !IsSpace(s[i]) && !IsSpace(s[i + n - 1])
    ensures Contains(Strip(s), s[i..i + n])
  {
    var lo := LeadingRun(s, IsSpace);
    assert lo <= i;
    var t := s[lo..];
    var tr := TrailingRun(t, IsSpace);
    assert t[i + n - 1 - lo] == s[i + n - 1];
    assert i + n - lo <= |t| - tr;
    var r := t[..|t| - tr];
    assert Strip(s) == r;
    SliceOfSlices(s, lo, |t| - tr, i - lo, n);
    assert OccursAt(r, s[i..i + n], i - lo);
  }

  /** A window of a window is a window of the whole. */
  lemma SliceOfSlices(s: string, lo: nat, len: nat, a: nat, n: nat)
    requires lo + len <= |s| && a + n <= len
    ensures s[lo..][..len][a..a + n] == s[lo + a..lo + a + n]
  {
  }

  /** Stripping keeps every occurrence of a piece that begins and ends with a visible character. */
  lemma StripKeepsContained(s: string, sub: string)
    requires Contains(s, sub) && |sub| > 0 && !IsSpace(sub[0]) && !IsSpace(sub[|sub| - 1])
    ensures Contains(Strip(s), sub)
  {
    var i :| 0 <= i <= |s| - |sub| && OccursAt(s, sub, i);
    StripKeepsInner(s, i, |sub|);
  }

  /** Text that starts with a visible character keeps it when stripped. */
  lemma StripVisibleHead(s: string)
    requires |s| > 0 && !IsSpace(s[0])
    ensures |Strip(s)| > 0 && Strip(s)[0] == s[0]
  {
    StripKeepsInner(s, 0, 1);
    assert LeadingRun(s, IsSpace) == 0;
    assert s[0..] == s;
    assert TrailingRun(s, IsSpace) < |s|;
  }

  // ---------------------------------------------------------------- replace

  /** Python's `s.replace(pat, rep)`: leftmost, non-overlapping occurrences. */
  function ReplaceAll(s: string, pat: string, rep: string): (r: string)
    requires |pat| > 0
    ensures |pat| == 1 && rep == [] ==> pat[0] !in r && |r| <= |s|
    ensures |pat| == 1 && rep == [] ==> forall c :: c in r ==> c in s
    decreases |s|
  {
    if |s| < |pat| then
      (assert |pat| == 1 ==> |s| == 0; s)
    else if s[..|pat|] == pat then rep + ReplaceAll(s[|pat|..], pat, rep)
    else [s[0]] + ReplaceAll(s[1..], pat, rep)
  }

  lemma {:induction false} ReplaceAbsent(s: string, pat: string, rep: string)
    requires |pat| > 0
    requires !Contains(s, pat)
    ensures ReplaceAll(s, pat, rep) == s
    decreases |s|
  {
    if |s| < |pat| {
    } else {
      assert !OccursAt(s, pat, 0);
      assert s[..|pat|] != pat;
      forall j | OccursAt(s[1..], pat, j) ensures false {
        assert s[1..][j..j + |pat|] == s[j + 1..j + 1 + |pat|];
        assert OccursAt(s, pat, j + 1);
      }
      ReplaceAbsent(s[1..], pat, rep);
    }
  }

  /** Deleting every occurrence of one character distributes over concatenation. */
  lemma {:induction false} RemoveCharAppend(a: string, b: string, c: char)
    ensures ReplaceAll(a + b, [c], "") == ReplaceAll(a, [c], "") + ReplaceAll(b, [c], "")
    decreases |a|
  {
    if |a| == 0 {
      assert a + b == b;
    } else {
      assert (a + b)[1..] == a[1..] + b;
      assert (a + b)[..1] == [a[0]];
      RemoveCharAppend(a[1..], b, c);
    }
  }

  /** Deleting a character that does not occur changes nothing. */
  lemma {:induction false} RemoveAbsentChar(s: string, c: char)
    requires c !in s
    ensures ReplaceAll(s, [c], "") == s
    decreases |s|
  {
    if |s| > 0 {
      assert s[..1] == [s[0]];
      RemoveAbsentChar(s[1..], c);
    }
  }

  /** The phone-number normalisation used by every lookup: drop "whatsapp:" and then "+". */
  function CleanNumber(phone: string): (r: string)
    ensures '+' !in r
  {
    ReplaceAll(ReplaceAll(phone, "whatsapp:", ""), "+", "")
  }

  // ---------------------------------------------------------------- split / join

  /** `sep.join(parts)`. */
  function Join(parts: seq<string>, sep: string): string
  {
    if |parts| == 0 then ""
    else if |parts| == 1 then parts[0]
    else parts[0] + sep + Join(parts[1..], sep)
  }

  /** Every part of a join occurs in it. */
  lemma {:induction false} JoinHoldsParts(parts: seq<string>, k: nat, sep: string)
    requires k < |parts|
    ensures Contains(Join(parts, sep), parts[k])
  {
    if |parts| == 1 {
      ContainsSelf(parts[0]);
    } else if k == 0 {
      ContainsWhole("", parts[0], sep + Join(parts[1..], sep));
      assert "" + parts[0] + (sep + Join(parts[1..], sep)) == Join(parts, sep);
    } else {
      JoinHoldsParts(parts[1..], k - 1, sep);
      ContainsExtend(Join(parts[1..], sep), parts[k], parts[0] + sep, "");
      assert parts[0] + sep + Join(parts[1..], sep) + "" == Join(parts, sep);
    }
  }

  /** Containment is transitive. */
  lemma ContainsInside(s: string, mid: string, sub: string)
    requires Contains(s, mid) && Contains(mid, sub)
    ensures Contains(s, sub)
  {
    var i :| 0 <= i <= |s| - |mid| && OccursAt(s, mid, i);
    ContainsExtend(mid, sub, s[..i], s[i + |mid|..]);
    assert s[..i] + mid + s[i + |mid|..] == s;
  }

  /** The index of the first `c` in `s`, if any. */
  function FirstIndexOf(s: string, c: char): (r: Option<nat>)
    ensures r.Some? ==> r.value < |s| && s[r.value] == c && c !in s[..r.value]
    ensures r.None? ==> c !in s
  {
    if |s| == 0 then None
    else if s[0] == c then Some(0)
    else match FirstIndexOf(s[1..], c)
      case None => None
      case Some(i) => (assert s[..i + 1] == [s[0]] + s[1..][..i]; Some(i + 1))
  }

  /** Python's `s.split(sep)` for a one-character separator. */
  function SplitOn(s: string, sep: char): (parts: seq<string>)
    ensures |parts| >= 1
    ensures forall i :: 0 <= i < |parts| ==> sep !in parts[i]
    decreases |s|
  {
    match FirstIndexOf(s, sep)
    case None => [s]
    case Some(i) => [s[..i]] + SplitOn(s[i + 1..], sep)
  }

  /** Splitting and re-joining with the same separator gives the text back. */
  lemma {:induction false} SplitJoin(s: string, sep: char)
    ensures Join(SplitOn(s, sep), [sep]) == s
    decreases |s|
  {
    match FirstIndexOf(s, sep)
    case None =>
    case Some(i) =>
      var rest := SplitOn(s[i + 1..], sep);
      SplitJoin(s[i + 1..], sep);
      assert SplitOn(s, sep) == [s[..i]] + rest;
      assert s == s[..i] + [sep] + s[i + 1..];
  }

  predicate NotSpace(c: char) { !IsSpace(c) }

  /** A non-empty run of non-whitespace characters. */
  predicate IsWord(w: string) {
    |w| > 0 && forall k :: 0 <= k < |w| ==> !IsSpace(w[k])
  }

  /** Python's `s.split()`: the maximal runs of non-whitespace characters. */
  function Words(s: string): (ws: seq<string>)
    decreases |s|
  {
    var a := LeadingRun(s, IsSpace);
    if a == |s| then []
    else
      var rest := s[a..];
      var w := LeadingRun(rest, NotSpace);
      LeadingWord(rest);
      [rest[..w]] + Words(rest[w..])
  }

  /** Every piece `split()` yields is a word. */
  lemma {:induction false} WordsAreWords(s: string)
    ensures forall i :: 0 <= i < |Words(s)| ==> IsWord(Words(s)[i])
    decreases |s|
  {
    var a := LeadingRun(s, IsSpace);
    if a < |s| {
      var rest := s[a..];
      var w := LeadingRun(rest, NotSpace);
      LeadingWord(rest);
      WordsAreWords(rest[w..]);
      assert Words(s) == [rest[..w]] + Words(rest[w..]);
    }
  }

  /** A string that starts with a non-whitespace character starts with a word. */
  lemma LeadingWord(s: string)
    requires |s| > 0 && !IsSpace(s[0])
    ensures var w := LeadingRun(s, NotSpace); w > 0 && IsWord(s[..w])
  {
    var w := LeadingRun(s, NotSpace);
    forall k | 0 <= k < w ensures !IsSpace(s[..w][k]) {
      assert NotSpace(s[k]);
    }
  }

  lemma WordsOfAllSpace(s: string)
    requires forall k :: 0 <= k < |s| ==> IsSpace(s[k])
    ensures Words(s) == []
  {
  }

  // ---------------------------------------------------------------- decimal numbers

  function DigitChar(d: nat): (c: char)
    requires d < 10
    ensures IsDigit(c)
  {
    ('0' as int + d) as char
  }

  function DigitValue(c: char): (d: nat)
    requires IsDigit(c)
    ensures d < 10 && DigitChar(d) == c
  {
    c as int - '0' as int
  }

  /** Python's `str(n)` for a non-negative integer. */
  function NatToString(n: nat): (r: string)
    ensures |r| >= 1
    ensures forall i :: 0 <= i < |r| ==> IsDigit(r[i])
    ensures r[0] == '0' ==> n == 0 && r == "0"
    decreases n
  {
    if n < 10 then [DigitChar(n)] else NatToString(n / 10) + [DigitChar(n % 10)]
  }

  /** Python's `str(i)` for any integer. */
  function IntToString(i: int): (r: string)
    ensures |r| >= 1
    ensures i >= 0 ==> r == NatToString(i)
    ensures i < 0 ==> r == "-" + NatToString(-i)
  {
    if i < 0 then "-" + NatToString(-i) else NatToString(i)
  }

  /** The value of a run of decimal digits. */
  function DigitsValue(s: string): nat
    requires forall i :: 0 <= i < |s| ==> IsDigit(s[i])
  {
    if |s| == 0 then 0 else DigitsValue(s[..|s| - 1]) * 10 + DigitValue(s[|s| - 1])
  }

  lemma {:induction false} NatToStringRoundTrip(n: nat)
    ensures DigitsValue(NatToString(n)) == n
    decreases n
  {
    if n >= 10 {
      NatToStringRoundTrip(n / 10);
      var s := NatToString(n);
      assert s[..|s| - 1] == NatToString(n / 10);
    }
  }

  // ---------------------------------------------------------------- SQLite LIKE

  /** One pattern character against one text character: `_` matches anything, letters ignore ASCII case. */
  predicate LikeCharMatches(p: char, c: char) { p == '_' || CiEq(p, c) }

  /** SQLite's `s LIKE p` without an ESCAPE clause. */
  predicate Like(s: string, p: string)
    decreases |p|, |s|
  {
    if |p| == 0 then |s| == 0
    else if p[0] == '%' then Like(s, p[1..]) || (|s| > 0 && Like(s[1..], p))
    else |s| > 0 && LikeCharMatches(p[0], s[0]) && Like(s[1..], p[1..])
  }

  /** `stored LIKE '%' || query || '%'`, the lookup every store uses for phone numbers. */
  predicate LikeContains(stored: string, query: string) {
    Like(stored, "%" + query + "%")
  }

  /** `phone_number LIKE '%<query without "whatsapp:" and "+">%'`, the number lookup of bookings and conversations. */
  predicate PhoneMatches(stored: string, query: string) {
    LikeContains(stored, CleanNumber(query))
  }

  predicate NoWildcards(x: string) { '%' !in x && '_' !in x }

  /** Case-insensitive (ASCII) substring containment. */
  predicate ContainsCi(s: string, x: string) { Contains(LowerStr(s), LowerStr(x)) }

  lemma {:induction false} LikeAnyTail(s: string)
    ensures Like(s, "%")
    decreases |s|
  {
    if |s| > 0 {
      LikeAnyTail(s[1..]);
    }
  }

  lemma {:induction false} LikePrefix(s: string, x: string)
    requires NoWildcards(x)
    ensures Like(s, x + "%") <==> |x| <= |s| && LowerStr(s[..|x|]) == LowerStr(x)
    decreases |x|
  {
    if |x| == 0 {
      assert x + "%" == "%";
      LikeAnyTail(s);
    } else {
      assert (x + "%")[0] == x[0];
      assert (x + "%")[1..] == x[1..] + "%";
      if |s| > 0 {
        LikePrefix(s[1..], x[1..]);
        if |x| <= |s| {
          assert s[1..][..|x| - 1] == s[..|x|][1..];
          assert LowerStr(s[..|x|]) == [Lower(s[0])] + LowerStr(s[1..][..|x| - 1]);
          assert LowerStr(x) == [Lower(x[0])] + LowerStr(x[1..]);
        }
      }
    }
  }

  lemma {:induction false} LikeAnyHead(s: string, q: string)
    ensures Like(s, "%" + q) <==> exists i :: 0 <= i <= |s| && Like(s[i..], q)
    decreases |s|
  {
    assert ("%" + q)[0] == '%';
    assert ("%" + q)[1..] == q;
    if |s| > 0 {
      LikeAnyHead(s[1..], q);
      if exists i :: 0 <= i <= |s| && Like(s[i..], q) {
        var i :| 0 <= i <= |s| && Like(s[i..], q);
        if i > 0 {
          assert s[1..][i - 1..] == s[i..];
        } else {
          assert s[0..] == s;
        }
      }
      if exists i :: 0 <= i <= |s[1..]| && Like(s[1..][i..], q) {
        var i :| 0 <= i <= |s[1..]| && Like(s[1..][i..], q);
        assert s[1..][i..] == s[i + 1..];
        assert Like(s[i + 1..], q);
      }
    } else {
      assert s[0..] == s;
    }
  }

  /** Lower-casing commutes with slicing. */
  lemma LowerSlice(s: string, i: nat, n: nat)
    requires i + n <= |s|
    ensures LowerStr(s)[i..i + n] == LowerStr(s[i..][..n])
  {
    forall k | 0 <= k < n ensures LowerStr(s)[i..i + n][k] == LowerStr(s[i..][..n])[k] {
      assert s[i..][..n][k] == s[i + k];
    }
  }

  /**
   * The phone lookup: a stored number matches a query exactly when it contains, ignoring ASCII
   * case, the query without "whatsapp:" and "+", as long as that holds no LIKE wildcard.
   */
  lemma PhoneMatchesIsSubstring(stored: string, query: string)
    requires NoWildcards(CleanNumber(query))
    ensures PhoneMatches(stored, query) <==> ContainsCi(stored, CleanNumber(query))
  {
    LikeContainsIsSubstring(stored, CleanNumber(query));
  }

  /** For a wildcard-free query, `LIKE '%x%'` is exactly case-insensitive substring containment. */
  lemma LikeContainsIsSubstring(s: string, x: string)
    requires NoWildcards(x)
    ensures LikeContains(s, x) <==> ContainsCi(s, x)
  {
    assert "%" + x + "%" == "%" + (x + "%");
    LikeAnyHead(s, x + "%");
    if LikeContains(s, x) {
      var i :| 0 <= i <= |s| && Like(s[i..], x + "%");
      LikeAtGivesOccurrence(s, x, i);
    }
    if ContainsCi(s, x) {
      var i :| 0 <= i <= |LowerStr(s)| - |LowerStr(x)| && OccursAt(LowerStr(s), LowerStr(x), i);
      OccurrenceGivesLikeAt(s, x, i);
    }
  }

  lemma LikeAtGivesOccurrence(s: string, x: string, i: nat)
    requires NoWildcards(x) && i <= |s| && Like(s[i..], x + "%")
    ensures ContainsCi(s, x)
  {
    LikePrefix(s[i..], x);
    LowerSlice(s, i, |x|);
    assert OccursAt(LowerStr(s), LowerStr(x), i);
  }

  lemma OccurrenceGivesLikeAt(s: string, x: string, i: nat)
    requires NoWildcards(x) && i + |x| <= |s| && OccursAt(LowerStr(s), LowerStr(x), i)
    ensures Like(s[i..], x + "%")
  {
    LikePrefix(s[i..], x);
    LowerSlice(s, i, |x|);
  }
}

=== FILE: triggers.dfy ===
/**
 * The trigger lifecycle: a trigger is created `active` with a due time, a poll sends every due
 * trigger once, a failed send is retried one minute later until `max_retries` failures mark it
 * `failed`, a lead's reply pre-empts or completes stop-on-reply triggers, and cancellation by id
 * or by campaign moves triggers to `cancelled`.
 */
module Triggers {
  import opened Outcomes
  import opened Text
  import opened Conversations
  import opened Groq

  /** Every status the service writes, plus `paused`, which the request schema also declares. */
  datatype TriggerStatus = Active | Paused | Completed | Failed | Cancelled

  function TriggerStatusName(s: TriggerStatus): string {
    match s
    case Active => "active"
    case Paused => "paused"
    case Completed => "completed"
    case Failed => "failed"
    case Cancelled => "cancelled"
  }

  /** One row of the `triggers` table; times are minutes on one clock. */
  datatype Trigger = Trigger(
    id: nat,
    name: string,
    triggerType: string,
    channel: string,
    recipient: string,
    recipientName: Option<string>,
    message: string,
    subject: Option<string>,
    delayMinutes: int,
    maxRetries: int,
    retriesDone: int,
    stopOnReply: bool,
    status: TriggerStatus,
    campaignName: Option<string>,
    stepNumber: int,
    scheduledAt: Option<int>,
    executedAt: Option<int>,
    createdAt: int,
    updatedAt: int)

  /** The table in insertion order; row `i` carries id `i + 1`. */
  type TriggerTable = seq<Trigger>

  predicate TriggerIdsInOrder(t: TriggerTable) {
    forall i :: 0 <= i < |t| ==> t[i].id == i + 1
  }

  /** The three tables a trigger run touches. */
  datatype Stores = Stores(triggers: TriggerTable, conversations: ConversationLog, sent: SentLog)

  /** Minutes a `user` message counts as a recent reply (`datetime('now', '-24 hours')`). */
  const ReplyWindowMinutes: int := 1440
  /** Minutes until a failed send is tried again. */
  const RetryDelayMinutes: int := 1

  /** The fixed reply used when no model answers, written in short pieces so its characters are cheap to inspect. */
  const FallbackReply: string := FallbackThanks + FallbackHandOff
  const FallbackThanks: string := "Thanks for your reply! " + "I'd love to continue " + "our conversation. "
  const FallbackHandOff: string := "A member of our team " + "will be in touch shortly."
  const OpeningInstruction: string := "You are a helpful sales assistant. Start the conversation naturally."

  // ---------------------------------------------------------------- delivery

  /** What is handed to a channel's sender. */
  datatype Delivery = Delivery(channel: string, to: string, subject: Option<string>, body: string)

  /** A sender either returns the provider's message id (possibly absent) or raises. */
  datatype SendOutcome = Delivered(messageId: Option<string>) | SendError(message: string)

  type Sender = Delivery -> SendOutcome

  predicate KnownChannel(channel: string) {
    channel == "whatsapp" || channel == "sms" || channel == "email"
  }

  /** `subject or name`: an absent or empty subject gives way to the trigger's name. */
  function EmailSubject(tr: Trigger): (s: string)
    ensures tr.subject.Some? && tr.subject.value != "" ==> s == tr.subject.value
    ensures tr.subject.None? || tr.subject.value == "" ==> s == tr.name
  {
    if tr.subject.Some? && tr.subject.value != "" then tr.subject.value else tr.name
  }

  /** The send `execute_trigger` makes for a known channel. */
  function DeliveryFor(tr: Trigger): (d: Delivery)
    requires KnownChannel(tr.channel)
    ensures d.channel == tr.channel && d.to == tr.recipient && d.body == tr.message
    ensures d.subject.Some? <==> tr.channel == "email"
    ensures tr.channel == "email" ==> d.subject == Some(EmailSubject(tr))
  {
    Delivery(tr.channel, tr.recipient, if tr.channel == "email" then Some(EmailSubject(tr)) else None, tr.message)
  }

  // ---------------------------------------------------------------- row updates

  /** `UPDATE triggers SET ... WHERE id = ?`: rewrites the row with that id, if any. */
  function UpdateById(t: TriggerTable, id: int, f: Trigger -> Trigger): (r: TriggerTable)
    ensures |r| == |t|
    ensures forall i :: 0 <= i < |t| ==> r[i] == if t[i].id == id then f(t[i]) else t[i]
  {
    seq(|t|, i requires 0 <= i < |t| => if t[i].id == id then f(t[i]) else t[i])
  }

  /** `UPDATE triggers SET ... WHERE <condition>`. */
  function UpdateWhere(t: TriggerTable, sel: Trigger -> bool, f: Trigger -> Trigger): (r: TriggerTable)
    ensures |r| == |t|
    ensures forall i :: 0 <= i < |t| ==> r[i] == if sel(t[i]) then f(t[i]) else t[i]
  {
    seq(|t|, i requires 0 <= i < |t| => if sel(t[i]) then f(t[i]) else t[i])
  }

  function WithStatus(row: Trigger, s: TriggerStatus, now: int): Trigger {
    row.(status := s, updatedAt := now)
  }

  /**
   * `update_trigger_status`: writes the status whatever the current one is; a failing store is
   * logged and swallowed, leaving the table unchanged.
   */
  function UpdateTriggerStatus(t: TriggerTable, id: int, s: TriggerStatus, now: int, ok: bool): (r: TriggerTable)
    ensures |r| == |t|
    ensures forall i :: 0 <= i < |t| && (t[i].id != id || !ok) ==> r[i] == t[i]
    ensures ok ==> forall i :: 0 <= i < |t| && t[i].id == id ==>
                     r[i].status == s && r[i] == t[i].(status := s, updatedAt := now)
  {
    if ok then UpdateById(t, id, (row: Trigger) => WithStatus(row, s, now)) else t
  }

  /** The answer of the cancel endpoints. */
  datatype ActionResponse = ActionResponse(success: bool, detail: string)

  /**
   * `cancel_trigger`: sets `cancelled` over any status, including `completed` and `failed`, and
   * reports success even when no row has the id or the store failed.
   */
  function CancelTrigger(t: TriggerTable, id: int, now: int, ok: bool): (r: (TriggerTable, ActionResponse))
    ensures r.1 == ActionResponse(true, "Trigger " + IntToString(id) + " cancelled")
    ensures |r.0| == |t|
    ensures ok ==> forall i :: 0 <= i < |t| && t[i].id == id ==> r.0[i].status == Cancelled
    ensures forall i :: 0 <= i < |t| && t[i].id != id ==> r.0[i] == t[i]
    ensures !ok ==> r.0 == t
  {
    (UpdateTriggerStatus(t, id, Cancelled, now, ok), ActionResponse(true, "Trigger " + IntToString(id) + " cancelled"))
  }

  predicate InCampaign(name: string, row: Trigger) {
    row.campaignName == Some(name) && row.status == Active
  }

  /**
   * `cancel_campaign`: cancels the campaign's `active` triggers only; a failing store raises,
   * which is the `Err` carrying the message the service raises.
   */
  function CancelCampaign(t: TriggerTable, name: string, now: int, dbError: Option<string>)
    : (r: (TriggerTable, Result<ActionResponse, string>))
    ensures |r.0| == |t|
    ensures dbError.Some? ==> r == (t, Err("Failed to cancel campaign: " + dbError.value))
    ensures dbError.None? ==> r.1 == Ok(ActionResponse(true, "Campaign '" + name + "' cancelled"))
    ensures dbError.None? ==> forall i :: 0 <= i < |t| ==>
              (InCampaign(name, t[i]) ==> r.0[i].status == Cancelled && r.0[i].id == t[i].id)
              && (!InCampaign(name, t[i]) ==> r.0[i] == t[i])
  {
    if dbError.Some? then (t, Err("Failed to cancel campaign: " + dbError.value))
    else
      (UpdateWhere(t, (row: Trigger) => InCampaign(name, row), (row: Trigger) => WithStatus(row, Cancelled, now)),
       Ok(ActionResponse(true, "Campaign '" + name + "' cancelled")))
  }

  // ---------------------------------------------------------------- creation

  /** The arguments of `create_trigger`. */
  datatype TriggerRequest = TriggerRequest(
    name: string,
    triggerType: string,
    channel: string,
    recipient: string,
    recipientName: Option<string>,
    message: string,
    subject: Option<string>,
    delayMinutes: int,
    maxRetries: int,
    stopOnReply: bool,
    campaignName: Option<string>,
    stepNumber: int)

  /** The dictionary `create_trigger` returns. */
  datatype CreatedTrigger = CreatedTrigger(
    triggerId: nat, name: string, triggerType: string, channel: string, recipient: string,
    status: string, delayMinutes: int, scheduledAt: int)

  /** The row `create_trigger` inserts: the request's fields, `active`, no retries yet, due `delay` minutes from now. */
  function NewTriggerRow(req: TriggerRequest, id: nat, now: int): Trigger {
    Trigger(id, req.name, req.triggerType, req.channel, req.recipient, req.recipientName,
            req.message, req.subject, req.delayMinutes, req.maxRetries, 0, req.stopOnReply,
            Active, req.campaignName, req.stepNumber, Some(now + req.delayMinutes), None, now, now)
  }

  /** The opening message: the generator's reply to the trigger text, or the fixed fallback. */
  function OpeningReply(systemPrompt: string, message: string, respond: Responder): (reply: string)
    ensures var call := ChatCompletion(systemPrompt, [ChatMessage("system", OpeningInstruction), ChatMessage("user", message)], respond);
            reply == (if call.1.Ok? then call.1.value else FallbackReply)
  {
    match ChatCompletion(systemPrompt, [ChatMessage("system", OpeningInstruction), ChatMessage("user", message)], respond).1
    case Ok(text) => text
    case Err(_) => FallbackReply
  }

  /**
   * The last minute a `datetime` can hold, counted on the model's clock: minutes since
   * 0001-01-01 00:00 UTC, the start of `datetime`'s range, up to 9999-12-31 23:59.
   */
  const LastMinute: int := 5258964959

  /** `now + timedelta(minutes=delay)` stays inside `datetime`'s range. */
  predicate DueInRange(now: int, delay: int) {
    0 <= now + delay <= LastMinute
  }

  /** The message of the `OverflowError` a due time outside that range raises. */
  const DateOutOfRange: string := "date value out of range"

  /**
   * `create_trigger`: the due time is computed first, and one outside `datetime`'s range raises
   * before anything is stored or sent.  Otherwise an `active` row due `delay` minutes from now is
   * committed with no retries, then a generated opening message is sent over WhatsApp whatever the
   * trigger's channel.  A failing send makes the call raise, but the committed row stays; a
   * delivered one is logged as an assistant turn.
   */
  function CreateTrigger(st: Stores, req: TriggerRequest, now: int, systemPrompt: string,
                         respond: Responder, send: Sender): (r: (Stores, Option<Delivery>, Result<CreatedTrigger, string>))
    ensures !DueInRange(now, req.delayMinutes) ==> r == (st, None, Err(DateOutOfRange))
    ensures DueInRange(now, req.delayMinutes) ==>
              var t := st.triggers;
              && |r.0.triggers| == |t| + 1 && r.0.triggers[..|t|] == t
              && r.0.triggers[|t|].id == |t| + 1
              && r.0.triggers[|t|].status == Active
              && r.0.triggers[|t|].retriesDone == 0
              && r.0.triggers[|t|].maxRetries == req.maxRetries
              && r.0.triggers[|t|].scheduledAt == Some(now + req.delayMinutes)
              && r.0.triggers[|t|].executedAt.None?
              && r.0.triggers[|t|].campaignName == req.campaignName
              && r.0.triggers[|t|].stepNumber == req.stepNumber
    ensures DueInRange(now, req.delayMinutes) <==> r.1.Some?
    ensures r.1.Some? ==> r.1.value == Delivery("whatsapp", req.recipient, None, OpeningReply(systemPrompt, req.message, respond))
    ensures r.2.Ok? <==> r.1.Some? && send(r.1.value).Delivered?
    ensures r.1.Some? && send(r.1.value).SendError? ==>
              r.2 == Err("Failed to create trigger: " + send(r.1.value).message) && r.0.conversations == st.conversations
    ensures r.2.Ok? ==> r.2.value.triggerId == |st.triggers| + 1 && r.2.value.status == "active"
                        && r.2.value.scheduledAt == now + req.delayMinutes
    ensures r.2.Ok? ==> r.0.conversations == StoreMessage(st.conversations, req.recipient, "assistant", r.1.value.body, req.channel, now, true)
    ensures r.0.sent == st.sent
    ensures r.1.Some? ==> r.0.triggers == st.triggers + [NewTriggerRow(req, |st.triggers| + 1, now)]
  {
    if !DueInRange(now, req.delayMinutes) then (st, None, Err(DateOutOfRange))
    else
      var id := |st.triggers| + 1;
      var triggers := st.triggers + [NewTriggerRow(req, id, now)];
      var reply := OpeningReply(systemPrompt, req.message, respond);
      var d := Delivery("whatsapp", req.recipient, None, reply);
      match send(d)
      case SendError(e) => (st.(triggers := triggers), Some(d), Err("Failed to create trigger: " + e))
      case Delivered(_) =>
        (st.(triggers := triggers,
             conversations := StoreMessage(st.conversations, req.recipient, "assistant", reply, req.channel, now, true)),
         Some(d),
         Ok(CreatedTrigger(id, req.name, req.triggerType, req.channel, req.recipient, "active",
                           req.delayMinutes, now + req.delayMinutes)))
  }

  /**
   * `create_trigger` whose INSERT may raise (`insertError` holds the store's message).  The due
   * time is computed before the INSERT, so a due time out of range raises first; otherwise a
   * raising INSERT adds no row, nothing is generated or sent, and the call raises with the
   * store's message.
   */
  function CreateTriggerWith(st: Stores, req: TriggerRequest, now: int, systemPrompt: string,
                             respond: Responder, send: Sender, insertError: Option<string>)
    : (r: (Stores, Option<Delivery>, Result<CreatedTrigger, string>))
    ensures !DueInRange(now, req.delayMinutes) ==> r == (st, None, Err(DateOutOfRange))
    ensures DueInRange(now, req.delayMinutes) && insertError.Some? ==>
              r.0 == st && r.1.None? && r.2 == Err("Failed to create trigger: " + insertError.value)
    ensures DueInRange(now, req.delayMinutes) && insertError.None? ==>
              r.1.Some? && |r.0.triggers| == |st.triggers| + 1
    ensures insertError.None? ==> (r.2.Ok? <==> r.1.Some? && send(r.1.value).Delivered?)
  {
    if !DueInRange(now, req.delayMinutes) then (st, None, Err(DateOutOfRange))
    else if insertError.Some? then (st, None, Err("Failed to create trigger: " + insertError.value))
    else CreateTrigger(st, req, now, systemPrompt, respond, send)
  }

  // ---------------------------------------------------------------- retry bounds

  /** A row never exceeds its retry budget, and an `active` row still has budget left. */
  predicate RetriesBounded(row: Trigger) {
    && 0 <= row.retriesDone <= row.maxRetries
    && (row.status == Active ==> row.retriesDone < row.maxRetries)
  }

  predicate AllRetriesBounded(t: TriggerTable) {
    forall i :: 0 <= i < |t| ==> RetriesBounded(t[i])
  }

  /**
   * A new trigger is within budget exactly when it allows at least one attempt; a due time out
   * of range adds no row.
   */
  lemma CreatedTriggerBounded(st: Stores, req: TriggerRequest, now: int, systemPrompt: string,
                              respond: Responder, send: Sender)
    requires AllRetriesBounded(st.triggers)
    ensures var t' := CreateTrigger(st, req, now, systemPrompt, respond, send).0.triggers;
            DueInRange(now, req.delayMinutes) ==> (AllRetriesBounded(t') <==> req.maxRetries >= 1)
    ensures !DueInRange(now, req.delayMinutes) ==> CreateTrigger(st, req, now, systemPrompt, respond, send).0 == st
  {
    if DueInRange(now, req.delayMinutes) {
      var t' := CreateTrigger(st, req, now, systemPrompt, respond, send).0.triggers;
      assert t'[|st.triggers|].retriesDone == 0 && t'[|st.triggers|].status == Active;
    }
  }

  // ---------------------------------------------------------------- polling

  predicate IsDue(row: Trigger, now: int) {
    row.status == Active && row.scheduledAt.Some? && row.scheduledAt.value <= now
  }

  predicate TriggerIdsIncreasing(s: seq<Trigger>) {
    forall i, j :: 0 <= i < j < |s| ==> s[i].id < s[j].id
  }

  /** `SELECT * FROM triggers WHERE status = 'active' AND scheduled_at <= now`, in id order. */
  function DueTriggers(t: TriggerTable, now: int): (r: seq<Trigger>)
    ensures forall row :: row in r <==> row in t && IsDue(row, now)
    ensures TriggerIdsIncreasing(t) ==> TriggerIdsIncreasing(r)
  {
    if |t| == 0 then []
    else
      var rest := DueTriggers(t[1..], now);
      assert forall row :: row in t <==> row == t[0] || row in t[1..];
      if IsDue(t[0], now) then
        IncreasingHead(t, rest);
        [t[0]] + rest
      else rest
  }

  /** In an increasing table, whatever is drawn from the tail has a larger id than the head. */
  lemma IncreasingHead(t: TriggerTable, rest: seq<Trigger>)
    requires |t| > 0
    requires forall row :: row in rest ==> row in t[1..]
    ensures TriggerIdsIncreasing(t) && TriggerIdsIncreasing(rest) ==> TriggerIdsIncreasing([t[0]] + rest)
  {
    if TriggerIdsIncreasing(t) {
      forall j | 0 <= j < |rest| ensures t[0].id < rest[j].id {
      assert rest[j] in t[1..];
      var b :| 0 <= b < |t[1..]| && t[1..][b] == rest[j];
      assert t[b + 1] == rest[j];
      }
    }
  }

  /**
   * `check_recipient_replied`: a `user` message from the last 24 hours whose number contains the
   * recipient with only "+" removed (a "whatsapp:" prefix is kept, unlike the other lookups).
   */
  predicate RecipientReplied(conv: ConversationLog, recipient: string, now: int) {
    exists i :: 0 <= i < |conv| && conv[i].role == "user"
                && LikeContains(conv[i].phoneNumber, ReplaceAll(recipient, "+", ""))
                && conv[i].createdAt > now - ReplyWindowMinutes
  }

  /**
   * A message of the lead stored at `now` counts as a reply at `now`; storing an assistant turn
   * never changes whether the recipient replied; and messages a day old or older never count.
   */
  lemma StoredReplyCounts(conv: ConversationLog, phone: string, text: string, channel: string, now: int,
                          at: int, recipient: string)
    ensures LikeContains(phone, ReplaceAll(recipient, "+", "")) ==>
              RecipientReplied(StoreMessage(conv, phone, "user", text, channel, now, true), recipient, now)
    ensures RecipientReplied(StoreMessage(conv, phone, "assistant", text, channel, now, true), recipient, at)
            <==> RecipientReplied(conv, recipient, at)
    ensures (forall i :: 0 <= i < |conv| ==> conv[i].createdAt <= at - ReplyWindowMinutes) ==>
              !RecipientReplied(conv, recipient, at)
  {
    var mine := StoreMessage(conv, phone, "user", text, channel, now, true);
    assert mine[|conv|].role == "user" && mine[|conv|].createdAt == now;
    var theirs := StoreMessage(conv, phone, "assistant", text, channel, now, true);
    assert forall i :: 0 <= i < |conv| ==> theirs[i] == conv[i];
    assert theirs[|conv|].role == "assistant";
  }

  /** The row a failed send leaves: one more retry, and either a one-minute reschedule or `failed`. */
  function AfterFailure(row: Trigger, tr: Trigger, now: int): (r: Trigger)
    ensures r.retriesDone == tr.retriesDone + 1
    ensures r.status == (if tr.retriesDone + 1 >= tr.maxRetries then Failed else Active)
    ensures r.status == Failed ==> r.scheduledAt.None?
    ensures r.status == Active ==> r.scheduledAt == Some(now + RetryDelayMinutes)
    ensures r.id == row.id && r.executedAt == row.executedAt && r.maxRetries == row.maxRetries
  {
    var retries := tr.retriesDone + 1;
    var failed := retries >= tr.maxRetries;
    row.(retriesDone := retries, status := if failed then Failed else Active,
         scheduledAt := if failed then None else Some(now + RetryDelayMinutes), updatedAt := now)
  }

  /**
   * `execute_trigger` for the snapshot `tr` read by the poll.  In order: a stop-on-reply trigger
   * whose recipient replied is completed without sending; an unknown channel fails at once
   * without counting a retry; a delivered send is logged as an assistant turn and a "triggered"
   * record and completes the trigger; a send that raises counts a retry.
   */
  function ExecuteTrigger(st: Stores, tr: Trigger, now: int, send: Sender): (r: (Stores, Option<Delivery>))
    ensures |r.0.triggers| == |st.triggers|
    ensures forall i :: 0 <= i < |st.triggers| && st.triggers[i].id != tr.id ==> r.0.triggers[i] == st.triggers[i]
    ensures forall i :: 0 <= i < |st.triggers| && st.triggers[i].id == tr.id ==> r.0.triggers[i].id == tr.id
    ensures tr.stopOnReply && RecipientReplied(st.conversations, tr.recipient, now) ==>
              && r.1.None? && r.0.conversations == st.conversations && r.0.sent == st.sent
              && forall i :: 0 <= i < |st.triggers| && st.triggers[i].id == tr.id ==>
                   r.0.triggers[i] == WithStatus(st.triggers[i], Completed, now)
    ensures !(tr.stopOnReply && RecipientReplied(st.conversations, tr.recipient, now)) && !KnownChannel(tr.channel) ==>
              && r.1.None? && r.0.conversations == st.conversations && r.0.sent == st.sent
              && forall i :: 0 <= i < |st.triggers| && st.triggers[i].id == tr.id ==>
                   r.0.triggers[i] == WithStatus(st.triggers[i], Failed, now)
    ensures r.1.Some? <==> !(tr.stopOnReply && RecipientReplied(st.conversations, tr.recipient, now)) && KnownChannel(tr.channel)
    ensures r.1.Some? ==> r.1.value == DeliveryFor(tr)
    ensures r.1.Some? && send(r.1.value).Delivered? ==>
              && r.0.conversations == StoreMessage(st.conversations, tr.recipient, "assistant", tr.message, tr.channel, now, true)
              && r.0.sent == StoreSentMessage(st.sent, tr.recipient, tr.channel, tr.message, tr.subject,
                                              send(r.1.value).messageId, Some("triggered"), now, true)
              && forall i :: 0 <= i < |st.triggers| && st.triggers[i].id == tr.id ==>
                   r.0.triggers[i].status == Completed && r.0.triggers[i].executedAt == Some(now)
    ensures r.1.Some? && send(r.1.value).SendError? ==>
              && r.0.conversations == st.conversations && r.0.sent == st.sent
              && forall i :: 0 <= i < |st.triggers| && st.triggers[i].id == tr.id ==>
                   r.0.triggers[i] == AfterFailure(st.triggers[i], tr, now)
  {
    if tr.stopOnReply && RecipientReplied(st.conversations, tr.recipient, now) then
      (st.(triggers := UpdateById(st.triggers, tr.id, (row: Trigger) => WithStatus(row, Completed, now))), None)
    else if !KnownChannel(tr.channel) then
      (st.(triggers := UpdateById(st.triggers, tr.id, (row: Trigger) => WithStatus(row, Failed, now))), None)
    else
      var d := DeliveryFor(tr);
      match send(d)
      case Delivered(externalId) =>
        (Stores(
           UpdateById(st.triggers, tr.id, (row: Trigger) => row.(status := Completed, executedAt := Some(now), updatedAt := now)),
           StoreMessage(st.conversations, tr.recipient, "assistant", tr.message, tr.channel, now, true),
           StoreSentMessage(st.sent, tr.recipient, tr.channel, tr.message, tr.subject, externalId, Some("triggered"), now, true)),
         Some(d))
      case SendError(_) =>
        (st.(triggers := UpdateById(st.triggers, tr.id, (row: Trigger) => AfterFailure(row, tr, now))), Some(d))
  }

  /**
   * `execute_trigger` when the UPDATE that marks a delivered trigger completed may raise
   * (`completionOk` false): the message and its record are stored by then, and the `except`
   * branch counts a retry exactly as for a failed send.  Every other path is `ExecuteTrigger`.
   */
  function ExecuteTriggerWith(st: Stores, tr: Trigger, now: int, send: Sender, completionOk: bool)
    : (r: (Stores, Option<Delivery>))
    ensures r.1 == ExecuteTrigger(st, tr, now, send).1
    ensures r.0.conversations == ExecuteTrigger(st, tr, now, send).0.conversations
    ensures r.0.sent == ExecuteTrigger(st, tr, now, send).0.sent
    ensures completionOk || r.1.None? || send(r.1.value).SendError? ==> r == ExecuteTrigger(st, tr, now, send)
    ensures !completionOk && r.1.Some? && send(r.1.value).Delivered? ==>
              && |r.0.triggers| == |st.triggers|
              && forall i :: 0 <= i < |st.triggers| ==>
                   r.0.triggers[i] == if st.triggers[i].id == tr.id then AfterFailure(st.triggers[i], tr, now)
                                      else st.triggers[i]
  {
    var e := ExecuteTrigger(st, tr, now, send);
    if !completionOk && e.1.Some? && send(e.1.value).Delivered? then
      (e.0.(triggers := UpdateById(st.triggers, tr.id, (row: Trigger) => AfterFailure(row, tr, now))), e.1)
    else e
  }

  /** Executes the snapshots in order. */
  function ProcessDue(st: Stores, due: seq<Trigger>, now: int, send: Sender): (r: Stores)
    ensures |r.triggers| == |st.triggers|
    decreases |due|
  {
    if |due| == 0 then st else ProcessDue(ExecuteTrigger(st, due[0], now, send).0, due[1..], now, send)
  }

  /** `process_pending_triggers`: one poll executes every trigger that is due at `now`. */
  function ProcessPendingTriggers(st: Stores, now: int, send: Sender): (r: Stores)
    ensures |r.triggers| == |st.triggers|
  {
    ProcessDue(st, DueTriggers(st.triggers, now), now, send)
  }

  /** The row the trigger with id `id` occupies. */
  predicate IsRowOf(t: TriggerTable, tr: Trigger) {
    1 <= tr.id <= |t| && t[tr.id - 1] == tr
  }

  /** Executing a due trigger takes it out of the due set and leaves every other row alone. */
  lemma ExecuteLeavesNotDue(st: Stores, tr: Trigger, now: int, send: Sender)
    requires TriggerIdsInOrder(st.triggers) && IsRowOf(st.triggers, tr) && IsDue(tr, now)
    ensures var t' := ExecuteTrigger(st, tr, now, send).0.triggers;
            && TriggerIdsInOrder(t')
            && !IsDue(t'[tr.id - 1], now)
            && forall i :: 0 <= i < |t'| && i != tr.id - 1 ==> t'[i] == st.triggers[i]
  {
    var t' := ExecuteTrigger(st, tr, now, send).0.triggers;
    assert st.triggers[tr.id - 1].id == tr.id;
  }

  /** Executing a due, in-budget trigger keeps it in budget. */
  lemma ExecuteKeepsRetriesBounded(st: Stores, tr: Trigger, now: int, send: Sender)
    requires TriggerIdsInOrder(st.triggers) && IsRowOf(st.triggers, tr) && IsDue(tr, now)
    requires AllRetriesBounded(st.triggers)
    ensures AllRetriesBounded(ExecuteTrigger(st, tr, now, send).0.triggers)
  {
    var t' := ExecuteTrigger(st, tr, now, send).0.triggers;
    assert st.triggers[tr.id - 1].id == tr.id;
    assert RetriesBounded(tr);
    forall i | 0 <= i < |t'| ensures RetriesBounded(t'[i]) {
      assert RetriesBounded(st.triggers[i]);
    }
  }

  /** The snapshots still match their rows and come in increasing id order. */
  predicate CurrentSnapshots(t: TriggerTable, due: seq<Trigger>, now: int) {
    && (forall k :: 0 <= k < |due| ==> IsRowOf(t, due[k]) && IsDue(due[k], now))
    && (forall k, l :: 0 <= k < l < |due| ==> due[k].id < due[l].id)
  }

  /** The ids a run of snapshots covers. */
  predicate Covers(due: seq<Trigger>, i: int) {
    exists k :: 0 <= k < |due| && due[k].id == i + 1
  }

  lemma CoversCons(due: seq<Trigger>, i: int)
    requires |due| > 0
    ensures Covers(due, i) <==> due[0].id == i + 1 || Covers(due[1..], i)
  {
    if Covers(due, i) {
      var k :| 0 <= k < |due| && due[k].id == i + 1;
      if k > 0 {
        assert due[1..][k - 1].id == i + 1;
      }
    }
    if Covers(due[1..], i) {
      var k :| 0 <= k < |due[1..]| && due[1..][k].id == i + 1;
      assert due[k + 1].id == i + 1;
    }
  }

  /** After the first snapshot runs, the remaining snapshots still match their rows. */
  lemma SnapshotsAfterExecute(st: Stores, due: seq<Trigger>, now: int, send: Sender)
    requires TriggerIdsInOrder(st.triggers) && CurrentSnapshots(st.triggers, due, now) && |due| > 0
    ensures CurrentSnapshots(ExecuteTrigger(st, due[0], now, send).0.triggers, due[1..], now)
  {
    ExecuteLeavesNotDue(st, due[0], now, send);
    var t1 := ExecuteTrigger(st, due[0], now, send).0.triggers;
    forall k | 0 <= k < |due| - 1 ensures IsRowOf(t1, due[1..][k]) && IsDue(due[1..][k], now) {
      assert due[0].id < due[k + 1].id;
    }
  }

  /**
   * Executing the snapshots leaves none of their rows due, leaves every other row as it was, and
   * keeps all rows within their retry budget.
   */
  lemma {:induction false} ProcessDueEffect(st: Stores, due: seq<Trigger>, now: int, send: Sender)
    requires TriggerIdsInOrder(st.triggers) && CurrentSnapshots(st.triggers, due, now)
    requires AllRetriesBounded(st.triggers)
    ensures var t' := ProcessDue(st, due, now, send).triggers;
            && TriggerIdsInOrder(t')
            && AllRetriesBounded(t')
            && (forall i :: 0 <= i < |t'| && Covers(due, i) ==> !IsDue(t'[i], now))
            && (forall i :: 0 <= i < |t'| && !Covers(due, i) ==> t'[i] == st.triggers[i])
    decreases |due|
  {
    if |due| > 0 {
      var tr := due[0];
      var st1 := ExecuteTrigger(st, tr, now, send).0;
      ExecuteLeavesNotDue(st, tr, now, send);
      ExecuteKeepsRetriesBounded(st, tr, now, send);
      SnapshotsAfterExecute(st, due, now, send);
      ProcessDueEffect(st1, due[1..], now, send);
      var t' := ProcessDue(st, due, now, send).triggers;
      assert t' == ProcessDue(st1, due[1..], now, send).triggers;
      forall i | 0 <= i < |t'|
        ensures (Covers(due, i) ==> !IsDue(t'[i], now)) && (!Covers(due, i) ==> t'[i] == st.triggers[i])
      {
        CoversCons(due, i);
        if i == tr.id - 1 {
          assert !Covers(due[1..], i) by {
            forall k | 0 <= k < |due| - 1 ensures due[1..][k].id != i + 1 {
              assert due[0].id < due[k + 1].id;
            }
          }
        }
      }
    }
  }

  /** Due snapshots taken from the table are current and in id order. */
  lemma DueSnapshotsCurrent(t: TriggerTable, now: int)
    requires TriggerIdsInOrder(t)
    ensures CurrentSnapshots(t, DueTriggers(t, now), now)
  {
    var due := DueTriggers(t, now);
    forall k | 0 <= k < |due| ensures IsRowOf(t, due[k]) && IsDue(due[k], now) {
      assert due[k] in t;
      var a :| 0 <= a < |t| && t[a] == due[k];
    }
    assert TriggerIdsIncreasing(t);
  }

  /**
   * A poll drains the due set: afterwards no trigger is due at `now`; triggers that were not due
   * (in particular every `completed`, `failed` or `cancelled` one) are untouched; and every
   * trigger stays within its retry budget.
   */
  lemma PollDrainsDue(st: Stores, now: int, send: Sender)
    requires TriggerIdsInOrder(st.triggers) && AllRetriesBounded(st.triggers)
    ensures var t' := ProcessPendingTriggers(st, now, send).triggers;
            && AllRetriesBounded(t')
            && (forall i :: 0 <= i < |t'| ==> !IsDue(t'[i], now))
            && (forall i :: 0 <= i < |t'| && !IsDue(st.triggers[i], now) ==> t'[i] == st.triggers[i])
  {
    var due := DueTriggers(st.triggers, now);
    DueSnapshotsCurrent(st.triggers, now);
    ProcessDueEffect(st, due, now, send);
    forall i | 0 <= i < |st.triggers| ensures (Covers(due, i) <==> IsDue(st.triggers[i], now)) {
      CoversIffDue(st.triggers, now, i);
    }
  }

  /** A row's id is among the due snapshots exactly when the row is due. */
  lemma CoversIffDue(t: TriggerTable, now: int, i: int)
    requires TriggerIdsInOrder(t) && 0 <= i < |t|
    ensures Covers(DueTriggers(t, now), i) <==> IsDue(t[i], now)
  {
    var due := DueTriggers(t, now);
    if IsDue(t[i], now) {
      assert t[i] in due;
      var k :| 0 <= k < |due| && due[k] == t[i];
    }
    if Covers(due, i) {
      var k :| 0 <= k < |due| && due[k].id == i + 1;
      assert due[k] in t;
    }
  }

  // ---------------------------------------------------------------- replies

  predicate CompletesOnReply(phone: string, row: Trigger) {
    PhoneMatches(row.recipient, phone) && row.status == Active && row.stopOnReply
  }

  /**
   * The trigger half of `handle_lead_reply`: every `active` stop-on-reply trigger whose recipient
   * contains the cleaned number becomes `completed`; nothing else changes.
   */
  function CompleteOnReply(t: TriggerTable, phone: string, now: int): (r: TriggerTable)
    ensures |r| == |t|
    ensures forall i :: 0 <= i < |t| ==>
              (CompletesOnReply(phone, t[i]) ==> r[i] == WithStatus(t[i], Completed, now))
              && (!CompletesOnReply(phone, t[i]) ==> r[i] == t[i])
    ensures forall i :: 0 <= i < |r| ==> !CompletesOnReply(phone, r[i])
  {
    UpdateWhere(t, (row: Trigger) => CompletesOnReply(phone, row), (row: Trigger) => WithStatus(row, Completed, now))
  }

  /** A second reply completes nothing more. */
  lemma CompleteOnReplyIdempotent(t: TriggerTable, phone: string, now: int, later: int)
    ensures CompleteOnReply(CompleteOnReply(t, phone, now), phone, later) == CompleteOnReply(t, phone, now)
  {
  }

  /** Cancelling a campaign twice is cancelling it once. */
  lemma CancelCampaignIdempotent(t: TriggerTable, name: string, now: int, later: int)
    ensures var once := CancelCampaign(t, name, now, None).0;
            CancelCampaign(once, name, later, None).0 == once
  {
    var once := CancelCampaign(t, name, now, None).0;
    var twice := CancelCampaign(once, name, later, None).0;
    assert forall i :: 0 <= i < |once| ==> !InCampaign(name, once[i]);
    assert |twice| == |once|;
  }

  /** Neither a reply nor a campaign cancellation touches a `completed`, `failed` or `cancelled` trigger. */
  lemma TerminalRowsStay(t: TriggerTable, phone: string, name: string, now: int, i: int)
    requires 0 <= i < |t| && t[i].status in {Completed, Failed, Cancelled}
    ensures CompleteOnReply(t, phone, now)[i] == t[i]
    ensures CancelCampaign(t, name, now, None).0[i] == t[i]
  {
  }

  /** A replied lead pre-empts every pending stop-on-reply trigger for its number: nothing is sent. */
  lemma ReplyPreemptsDelivery(st: Stores, tr: Trigger, now: int, send: Sender)
    requires tr.stopOnReply && RecipientReplied(st.conversations, tr.recipient, now)
    requires TriggerIdsInOrder(st.triggers) && IsRowOf(st.triggers, tr)
    ensures var r := ExecuteTrigger(st, tr, now, send);
            r.1.None? && r.0.sent == st.sent && r.0.triggers[tr.id - 1].status == Completed
  {
    assert st.triggers[tr.id - 1].id == tr.id;
  }

  /** A send that keeps failing ends the trigger after exactly `max_retries` counted attempts. */
  lemma FailureCutoff(st: Stores, tr: Trigger, now: int, send: Sender)
    requires TriggerIdsInOrder(st.triggers) && IsRowOf(st.triggers, tr) && IsDue(tr, now)
    requires !(tr.stopOnReply && RecipientReplied(st.conversations, tr.recipient, now)) && KnownChannel(tr.channel)
    requires send(DeliveryFor(tr)).SendError?
    ensures var row := ExecuteTrigger(st, tr, now, send).0.triggers[tr.id - 1];
            && row.retriesDone == tr.retriesDone + 1
            && (row.status == Failed <==> tr.retriesDone + 1 >= tr.maxRetries)
            && (row.status == Failed ==> row.scheduledAt.None?)
            && (row.status != Failed ==> row.status == Active && row.scheduledAt == Some(now + 1))
  {
    assert st.triggers[tr.id - 1].id == tr.id;
  }

  /**
   * A delivered trigger whose completion UPDATE raises, with retries left, is due again a minute
   * later, and executing it then delivers the same message a second time (the assistant turn it
   * logged does not count as a reply).
   */
  lemma LostCompletionResends(st: Stores, tr: Trigger, now: int, send: Sender)
    requires TriggerIdsInOrder(st.triggers) && IsRowOf(st.triggers, tr) && IsDue(tr, now) && KnownChannel(tr.channel)
    requires !tr.stopOnReply
    requires send(DeliveryFor(tr)).Delivered? && tr.retriesDone + 1 < tr.maxRetries
    ensures var first := ExecuteTriggerWith(st, tr, now, send, false);
            var row := first.0.triggers[tr.id - 1];
            && first.1 == Some(DeliveryFor(tr))
            && |first.0.sent| == |st.sent| + 1
            && IsDue(row, now + RetryDelayMinutes)
            && ExecuteTrigger(first.0, row, now + RetryDelayMinutes, send).1 == Some(DeliveryFor(tr))
  {
    var first := ExecuteTriggerWith(st, tr, now, send, false);
    assert st.triggers[tr.id - 1].id == tr.id;
    var row := first.0.triggers[tr.id - 1];
    assert row == AfterFailure(st.triggers[tr.id - 1], tr, now);
    assert DeliveryFor(row) == DeliveryFor(tr);
  }

  /** A failed send with retries left is due again exactly from one minute on, and not before. */
  lemma RetryDueAgain(st: Stores, tr: Trigger, now: int, send: Sender, later: int)
    requires TriggerIdsInOrder(st.triggers) && IsRowOf(st.triggers, tr) && IsDue(tr, now)
    requires !(tr.stopOnReply && RecipientReplied(st.conversations, tr.recipient, now)) && KnownChannel(tr.channel)
    requires send(DeliveryFor(tr)).SendError? && tr.retriesDone + 1 < tr.maxRetries
    ensures var row := ExecuteTrigger(st, tr, now, send).0.triggers[tr.id - 1];
            IsDue(row, later) <==> later >= now + RetryDelayMinutes
  {
    FailureCutoff(st, tr, now, send);
  }

  // ---------------------------------------------------------------- reply context

  predicate IsContextCandidate(phone: string, row: Trigger) {
    PhoneMatches(row.recipient, phone) && (row.status == Completed || row.status == Active)
  }

  /** `a` sorts strictly before `b` under `ORDER BY executed_at DESC, created_at DESC` (NULLs last). */
  predicate SortsBefore(a: Trigger, b: Trigger) {
    if a.executedAt != b.executedAt then a.executedAt.Some? && (b.executedAt.None? || a.executedAt.value > b.executedAt.value)
    else a.createdAt > b.createdAt
  }

  /**
   * `_get_trigger_context`: the first candidate under that order; among rows the order cannot
   * separate, the earliest inserted.
   */
  function TriggerContext(t: TriggerTable, phone: string): (r: Option<Trigger>)
    ensures r.Some? ==> r.value in t && IsContextCandidate(phone, r.value)
    ensures r.Some? ==> forall row :: row in t && IsContextCandidate(phone, row) ==> !SortsBefore(row, r.value)
    ensures r.None? <==> forall row :: row in t ==> !IsContextCandidate(phone, row)
  {
    if |t| == 0 then None
    else
      var rest := TriggerContext(t[1..], phone);
      assert forall row :: row in t <==> row == t[0] || row in t[1..];
      if IsContextCandidate(phone, t[0]) && (rest.None? || !SortsBefore(rest.value, t[0])) then Some(t[0])
      else rest
  }
}

=== FILE: webhooks.dfy ===
/**
 * The inbound webhooks.  The Twilio WhatsApp and SMS handlers read two form fields, answer an
 * empty one with a fixed TwiML message, and otherwise hand the stripped text to the lead-reply
 * handler and return its reply.  The Whapi handler reads a JSON payload, turns every incoming
 * entry into a (sender, text) job, answers each job through the lead-reply handler and sends the
 * answer back; it always answers HTTP 200, with status "error" once anything raised.
 */
module Webhooks {
  import opened Outcomes
  import opened Text
  import opened Bookings
  import Triggers
  import ReplyHandler
  import opened Glyphs
  import Groq

  // ---------------------------------------------------------------- Twilio form webhooks

  const EmptyBodyReply: string := "I didn't receive a message. Could you try again?"
  const NoSenderReply: string := "Sorry, something went wrong."
  const ErrorReply: string := "Sorry, I encountered an error. Please try again."

  /** The two form fields the Twilio handlers read; a missing field reads as "". */
  datatype Form = Form(body: string, from: string)

  /**
   * What a Twilio handler decides before calling anything: a fixed reply, or a call of the lead
   * reply handler with the stripped sender and text.
   */
  datatype FormStep = Answer(text: string) | Forward(phone: string, text: string)

  /** The guards of `_handle_twilio_whatsapp_post` and `sms_webhook`; `None` is a form that cannot be read. */
  function ReadForm(form: Option<Form>): (r: FormStep)
    ensures r.Forward? ==> |r.text| > 0 && |r.phone| > 0
    ensures r.Forward? <==> form.Some? && Strip(form.value.body) != [] && Strip(form.value.from) != []
    ensures r.Forward? ==> r.text == Strip(form.value.body) && r.phone == Strip(form.value.from)
    ensures r.Answer? ==> r.text in {EmptyBodyReply, NoSenderReply, ErrorReply}
  {
    match form
    case None => Answer(ErrorReply)
    case Some(f) =>
      var body := Strip(f.body);
      var from := Strip(f.from);
      if body == [] then Answer(EmptyBodyReply)
      else if from == [] then Answer(NoSenderReply)
      else Forward(from, body)
  }

  /** `handle_lead_reply`, seen through what the webhooks rely on. */
  method LeadReply(st: Triggers.Stores, bookings: BookingTable, phone: string, text: string, channel: string,
                   now: int, systemPrompt: string, respond: Groq.Responder, amountRepr: real -> string, marks: Marks,
                   draws: nat -> nat, dbOk: bool)
    returns (h: ReplyHandler.Handled)
    ensures |h.prompt| > 0
    ensures dbOk && PhoneMatches(phone, phone) ==> h.prompt[|h.prompt| - 1] == Groq.ChatMessage("user", text)
    ensures dbOk && h.reply.Ok? ==> |h.stores.conversations| == |st.conversations| + 2
  {
    h := ReplyHandler.HandleLeadReply(st, bookings, phone, text, channel, now, systemPrompt, respond,
                                      amountRepr, marks, draws, dbOk);
  }

  /**
   * A Twilio handler for `channel` ("whatsapp" or "sms"): the text of the TwiML message it
   * answers with, the stores after it, and the handler's record when it was called.
   */
  method FormWebhook(st: Triggers.Stores, bookings: BookingTable, form: Option<Form>, channel: string, now: int,
                     systemPrompt: string, respond: Groq.Responder, amountRepr: real -> string, marks: Marks,
                     draws: nat -> nat, dbOk: bool)
    returns (st': Triggers.Stores, bookings': BookingTable, handled: Option<ReplyHandler.Handled>, twiml: string)
    // a guard that fires answers at once and touches nothing
    ensures ReadForm(form).Answer? ==> handled.None? && twiml == ReadForm(form).text
                                       && st' == st && bookings' == bookings
    // otherwise the handler sees the stripped text, and its reply, or the error text, is the answer
    ensures ReadForm(form).Forward? <==> handled.Some?
    ensures handled.Some? ==> st' == handled.value.stores && bookings' == handled.value.bookings
    ensures handled.Some? ==>
              twiml == (if handled.value.reply.Ok? then handled.value.reply.value else ErrorReply)
    ensures handled.Some? && dbOk && PhoneMatches(ReadForm(form).phone, ReadForm(form).phone) ==>
              var p := handled.value.prompt;
              |p| > 0 && p[|p| - 1] == Groq.ChatMessage("user", ReadForm(form).text)
  {
    match ReadForm(form)
    case Answer(text) =>
      st', bookings', handled, twiml := st, bookings, None, text;
    case Forward(phone, text) =>
      var h := LeadReply(st, bookings, phone, text, channel, now, systemPrompt, respond,
                             amountRepr, marks, draws, dbOk);
      st', bookings', handled := h.stores, h.bookings, Some(h);
      twiml := if h.reply.Ok? then h.reply.value else ErrorReply;
  }

  // ---------------------------------------------------------------- Whapi JSON webhook

  /** A decoded JSON value; numbers are whole. */
  datatype Json = JNull | JBool(b: bool) | JNum(n: int) | JStr(s: string) | JArr(items: seq<Json>)
                | JObj(fields: map<string, Json>)

  /** Python truthiness of a decoded value. */
  predicate Truthy(j: Json) {
    match j
    case JNull => false
    case JBool(b) => b
    case JNum(n) => n != 0
    case JStr(s) => |s| > 0
    case JArr(a) => |a| > 0
    case JObj(m) => |m| > 0
  }

  /** `d.get(key, default)`. */
  function Get(m: map<string, Json>, key: string, default: Json): (r: Json)
    ensures key !in m ==> r == default
  {
    if key in m then m[key] else default
  }

  /**
   * `str(v)` in an f-string.  Scalars are spelled as Python spells them; the spelling of a list
   * or an object is passed in as `repr`.
   */
  function Show(j: Json, repr: Json -> string): string {
    match j
    case JNull => "None"
    case JBool(b) => if b then "True" else "False"
    case JNum(n) => IntToString(n)
    case JStr(s) => s
    case _ => repr(j)
  }

  /** Scalars are spelled as Python's `str` spells them, and a number reads back as itself. */
  lemma ShowScalars(repr: Json -> string, n: int)
    ensures Show(JNull, repr) == "None" && Show(JBool(true), repr) == "True" && Show(JBool(false), repr) == "False"
    ensures n >= 0 ==> DigitsValue(Show(JNum(n), repr)) == n
    ensures n < 0 ==> Show(JNum(n), repr)[0] == '-' && DigitsValue(Show(JNum(n), repr)[1..]) == -n
  {
    if n >= 0 {
      NatToStringRoundTrip(n);
    } else {
      NatToStringRoundTrip(-n);
      assert Show(JNum(n), repr)[1..] == NatToString(-n);
    }
  }

  /** The entries of the payload: `data.get("messages", [])`, a non-list wrapped; `None` when `data` is no object. */
  function Entries(payload: Json): (r: Option<seq<Json>>)
    ensures r.Some? <==> payload.JObj?
    ensures payload.JObj? && "messages" !in payload.fields ==> r == Some([])
    ensures payload.JObj? && "messages" in payload.fields && !payload.fields["messages"].JArr? ==>
              r == Some([payload.fields["messages"]])
  {
    if !payload.JObj? then None
    else
      var v := Get(payload.fields, "messages", JArr([]));
      if v.JArr? then Some(v.items) else Some([v])
  }

  /**
   * The default argument of `msg.get("from", ...)`, which Python evaluates even when "from" is
   * present: the part of `chat_id` before its first "@", or "" when it has none.  `None` when
   * the expression raises: `in` on a value that is no container, or `split` on a list or an
   * object that holds "@".
   */
  function ChatSender(chatId: Json): (r: Option<string>)
    ensures r.Some? ==> '@' !in r.value
  {
    match chatId
    case JStr(s) => if '@' in s then Some(SplitOn(s, '@')[0]) else Some("")
    case JArr(a) => if JStr("@") in a then None else Some("")
    case JObj(m) => if "@" in m then None else Some("")
    case _ => None
  }

  /** The body of a message: the stripped text of a text message, a placeholder otherwise; `None` when that raises. */
  function BodyOf(m: map<string, Json>, repr: Json -> string): (r: Option<string>)
  {
    var kind := Get(m, "type", JStr("text"));
    if kind == JStr("text") then
      var text := Get(m, "text", JObj(map[]));
      if !text.JObj? then None
      else
        var body := Get(text.fields, "body", JStr(""));
        if body.JStr? then Some(Strip(body.s)) else None
    else Some("[" + Show(kind, repr) + " message received]")
  }

  /**
   * A message without a type is a text message: its body is the stripped `body` string, and an
   * empty one without `text` at all.  A `text` that is no object raises.  Any other type gets the
   * placeholder naming it.
   */
  lemma BodyOfCases(s: string, kind: string, repr: Json -> string)
    ensures BodyOf(map["text" := JObj(map["body" := JStr(s)])], repr) == Some(Strip(s))
    ensures BodyOf(map[], repr) == Some("")
    ensures BodyOf(map["text" := JStr(s)], repr).None?
    ensures kind != "text" ==>
              BodyOf(map["type" := JStr(kind)], repr) == Some("[" + kind + " message received]")
  {
    assert Strip("") == "";
  }

  const WhatsappSuffix: string := "@s.whatsapp.net"

  /** A message to answer: its id (for the read receipt), the sender as "+<number>", and the text. */
  datatype Job = Job(id: Json, phone: string, text: string)

  /** What one entry of the payload leads to. */
  datatype Step = Skip | Take(job: Job) | Raise

  /** The last checks of the loop body: skip an empty text or sender, else clean the sender's number. */
  function Reply(id: Json, from: Json, body: string): (r: Step)
    ensures r.Take? ==> |r.job.text| > 0 && |r.job.phone| > 0 && r.job.phone[0] == '+'
    ensures r.Take? <==> body != [] && Truthy(from) && from.JStr?
  {
    if body == [] || !Truthy(from) then Skip
    else if !from.JStr? then Raise
    else Take(Job(id, "+" + ReplaceAll(from.s, WhatsappSuffix, ""), body))
  }

  /** The loop body for an object entry not sent by the business number itself. */
  function ReadMessage(m: map<string, Json>, repr: Json -> string): (r: Step)
    ensures r.Take? ==> |r.job.text| > 0 && |r.job.phone| > 0 && r.job.phone[0] == '+'
  {
    match ChatSender(Get(m, "chat_id", JStr("")))
    case None => Raise
    case Some(fallback) =>
      match BodyOf(m, repr)
      case None => Raise
      case Some(body) => Reply(Get(m, "id", JStr("")), Get(m, "from", JStr(fallback)), body)
  }

  /** One pass of the loop body of `_handle_meta_whatsapp_post` over an entry. */
  function ReadEntry(msg: Json, repr: Json -> string): (r: Step)
    ensures r.Take? ==> |r.job.text| > 0 && |r.job.phone| > 0 && r.job.phone[0] == '+'
    ensures !Truthy(msg) ==> r == Skip
    ensures Truthy(msg) && !msg.JObj? ==> r == Raise
  {
    if !Truthy(msg) then Skip
    else if !msg.JObj? then Raise
    else if Truthy(Get(msg.fields, "from_me", JBool(false))) then Skip
    else ReadMessage(msg.fields, repr)
  }

  /** The jobs of the steps up to the first `Raise`, and whether there was one. */
  function Collect(steps: seq<Step>): (r: (seq<Job>, bool))
    ensures |r.0| <= |steps|
    ensures forall k :: 0 <= k < |r.0| ==> Take(r.0[k]) in steps
    ensures !r.1 ==> forall k :: 0 <= k < |steps| ==> !steps[k].Raise?
  {
    if |steps| == 0 then ([], false)
    else
      var rest := Collect(steps[1..]);
      assert forall k :: 1 <= k < |steps| ==> steps[k] == steps[1..][k - 1];
      match steps[0]
      case Skip => rest
      case Raise => ([], true)
      case Take(job) => ([job] + rest.0, rest.1)
  }

  /** What each entry leads to. */
  function Steps(entries: seq<Json>, repr: Json -> string): (r: seq<Step>)
    ensures |r| == |entries| && forall k :: 0 <= k < |entries| ==> r[k] == ReadEntry(entries[k], repr)
  {
    seq(|entries|, k requires 0 <= k < |entries| => ReadEntry(entries[k], repr))
  }

  /** The jobs of the entries up to the first that raises, and whether one did. */
  function Extract(entries: seq<Json>, repr: Json -> string): (r: (seq<Job>, bool))
    ensures |r.0| <= |entries|
    ensures forall k :: 0 <= k < |r.0| ==> |r.0[k].text| > 0 && |r.0[k].phone| > 0 && r.0[k].phone[0] == '+'
    ensures !r.1 ==> forall k :: 0 <= k < |entries| ==> !ReadEntry(entries[k], repr).Raise?
  {
    var steps := Steps(entries, repr);
    var r := Collect(steps);
    assert forall k :: 0 <= k < |r.0| ==> |r.0[k].text| > 0 && |r.0[k].phone| > 0 && r.0[k].phone[0] == '+' by {
      forall k | 0 <= k < |r.0| ensures |r.0[k].text| > 0 && |r.0[k].phone| > 0 && r.0[k].phone[0] == '+' {
        var i :| 0 <= i < |steps| && steps[i] == Take(r.0[k]);
        assert ReadEntry(entries[i], repr) == Take(r.0[k]);
      }
    }
    r
  }

  /** The Whapi handler's answer: always HTTP 200. */
  const StatusCode: int := 200
  const StatusOk: string := "ok"
  const StatusError: string := "error"

  /** Everything the Whapi handler leaves behind. */
  datatype MetaOutcome = MetaOutcome(stores: Triggers.Stores, bookings: BookingTable, receipts: seq<Json>,
                                     sends: seq<Triggers.Delivery>, answers: seq<ReplyHandler.Handled>,
                                     status: string)

  /** `h` is the handler's record for `job`: with a working store, the prompt ends with the job's text. */
  predicate AnswerFor(job: Job, h: ReplyHandler.Handled, dbOk: bool) {
    dbOk && PhoneMatches(job.phone, job.phone) ==>
      |h.prompt| > 0 && h.prompt[|h.prompt| - 1] == Groq.ChatMessage("user", job.text)
  }

  /** The reply sent back to a job's sender. */
  function ReplyTo(job: Job, reply: string): (d: Triggers.Delivery)
    ensures d.to == job.phone && d.body == reply && d.subject.None?
  {
    Triggers.Delivery("whatsapp", job.phone, None, reply)
  }

  /**
   * The jobs answered in order: each is marked read, answered by the lead-reply handler and its
   * answer sent; the first that raises (a failing booking command or a failed send) stops the rest.
   * `answers` holds the handler's record for every job read.
   */
  method AnswerJobs(st: Triggers.Stores, bookings: BookingTable, jobs: seq<Job>, now: int, systemPrompt: string,
                respond: Groq.Responder, amountRepr: real -> string, marks: Marks, draws: nat -> nat, dbOk: bool,
                send: Triggers.Sender)
    returns (r: MetaOutcome)
    ensures r.status in {StatusOk, StatusError}
    ensures |r.sends| <= |jobs| && |r.receipts| <= |jobs|
    ensures forall k :: 0 <= k < |r.sends| ==> r.sends[k].to == jobs[k].phone && r.sends[k].channel == "whatsapp"
    ensures forall k :: 0 <= k < |r.receipts| ==> r.receipts[k] == jobs[k].id
    // what is sent to a job's sender is the handler's reply for that job, whose prompt ends with the job's text
    ensures |r.sends| <= |r.answers| == |r.receipts|
    ensures forall k :: 0 <= k < |r.sends| ==> r.answers[k].reply == Ok(r.sends[k].body)
    ensures forall k :: 0 <= k < |r.answers| ==> AnswerFor(jobs[k], r.answers[k], dbOk)
    ensures |r.answers| > 0 ==> r.stores == r.answers[|r.answers| - 1].stores
                                && r.bookings == r.answers[|r.answers| - 1].bookings
    // every job answered: each read, each answer sent, and with a working store two messages logged per job
    ensures r.status == StatusOk ==> |r.sends| == |jobs| && |r.receipts| == |jobs|
    ensures r.status == StatusOk && dbOk ==>
              |r.stores.conversations| == |st.conversations| + 2 * |jobs|
    ensures r.status == StatusOk ==> forall k :: 0 <= k < |jobs| ==> send(r.sends[k]).Delivered?
    // a stop comes from the job read last: its handler raised, or its answer could not be sent
    ensures r.status == StatusError ==> |r.receipts| > 0
    ensures r.status == StatusError ==> |r.sends| < |r.receipts| || !send(r.sends[|r.sends| - 1]).Delivered?
    ensures r.status == StatusError && |r.sends| < |r.receipts| ==> r.answers[|r.answers| - 1].reply.Err?
    ensures jobs == [] ==> r == MetaOutcome(st, bookings, [], [], [], StatusOk)
  {
    var s := st;
    var b := bookings;
    var receipts: seq<Json> := [];
    var sends: seq<Triggers.Delivery> := [];
    var answers: seq<ReplyHandler.Handled> := [];
    var i := 0;
    while i < |jobs|
      invariant 0 <= i <= |jobs|
      invariant |sends| == i == |answers| && Trace(jobs, dbOk, receipts, sends, answers)
      invariant forall k :: 0 <= k < i ==> send(sends[k]).Delivered?
      invariant i > 0 ==> s == answers[i - 1].stores && b == answers[i - 1].bookings
      invariant dbOk ==> |s.conversations| == |st.conversations| + 2 * i
      invariant i == 0 ==> s == st && b == bookings
    {
      var job := jobs[i];
      var h := LeadReply(s, b, job.phone, job.text, "whatsapp", now, systemPrompt, respond,
                         amountRepr, marks, draws, dbOk);
      TraceAnswer(jobs, dbOk, receipts, sends, answers, h);
      receipts, answers := receipts + [job.id], answers + [h];
      if h.reply.Err? {
        return MetaOutcome(h.stores, h.bookings, receipts, sends, answers, StatusError);
      }
      var d := ReplyTo(job, h.reply.value);
      TraceSend(jobs, dbOk, receipts, sends, answers);
      sends := sends + [d];
      if send(d).SendError? {
        return MetaOutcome(h.stores, h.bookings, receipts, sends, answers, StatusError);
      }
      s, b := h.stores, h.bookings;
      i := i + 1;
    }
    r := MetaOutcome(s, b, receipts, sends, answers, StatusOk);
  }

  /**
   * The record of the jobs answered so far: one receipt and one handler record per job read, in
   * order, and one send per answered job, carrying that job's reply to its sender.
   */
  predicate Trace(jobs: seq<Job>, dbOk: bool, receipts: seq<Json>, sends: seq<Triggers.Delivery>,
                  answers: seq<ReplyHandler.Handled>)
  {
    && |sends| <= |answers| == |receipts| <= |jobs|
    && (forall k :: 0 <= k < |receipts| ==> receipts[k] == jobs[k].id)
    && (forall k :: 0 <= k < |sends| ==> sends[k] == ReplyTo(jobs[k], sends[k].body))
    && (forall k :: 0 <= k < |sends| ==> answers[k].reply == Ok(sends[k].body))
    && (forall k :: 0 <= k < |answers| ==> AnswerFor(jobs[k], answers[k], dbOk))
  }

  /** Reading the next job and recording the handler's answer keeps the record. */
  lemma TraceAnswer(jobs: seq<Job>, dbOk: bool, receipts: seq<Json>, sends: seq<Triggers.Delivery>,
                    answers: seq<ReplyHandler.Handled>, h: ReplyHandler.Handled)
    requires Trace(jobs, dbOk, receipts, sends, answers) && |sends| == |answers| < |jobs|
    requires AnswerFor(jobs[|answers|], h, dbOk)
    ensures Trace(jobs, dbOk, receipts + [jobs[|answers|].id], sends, answers + [h])
  {
  }

  /** Sending the reply of the job read last keeps the record. */
  lemma TraceSend(jobs: seq<Job>, dbOk: bool, receipts: seq<Json>, sends: seq<Triggers.Delivery>,
                  answers: seq<ReplyHandler.Handled>)
    requires Trace(jobs, dbOk, receipts, sends, answers) && |sends| + 1 == |answers|
    requires answers[|sends|].reply.Ok?
    ensures Trace(jobs, dbOk, receipts, sends + [ReplyTo(jobs[|sends|], answers[|sends|].reply.value)], answers)
  {
  }

  /**
   * `_handle_meta_whatsapp_post`.  `payload` is `None` when the body is no JSON; the entries are
   * read one by one, so an entry that raises ends the request after the jobs before it.
   */
  method MetaWebhook(st: Triggers.Stores, bookings: BookingTable, payload: Option<Json>, repr: Json -> string,
                     now: int, systemPrompt: string, respond: Groq.Responder, amountRepr: real -> string, marks: Marks,
                     draws: nat -> nat, dbOk: bool, send: Triggers.Sender)
    returns (r: MetaOutcome)
    ensures r.status in {StatusOk, StatusError}
    ensures payload.None? || Entries(payload.value).None? ==>
              r == MetaOutcome(st, bookings, [], [], [], StatusError)
    ensures payload.Some? && Entries(payload.value).Some? ==>
              var x := Extract(Entries(payload.value).value, repr);
              && |r.sends| <= |r.answers| <= |x.0|
              && (forall k :: 0 <= k < |r.sends| ==> r.sends[k].to == x.0[k].phone)
              && (forall k :: 0 <= k < |r.sends| ==> r.answers[k].reply == Ok(r.sends[k].body))
              && (forall k :: 0 <= k < |r.answers| ==> AnswerFor(x.0[k], r.answers[k], dbOk))
              && (r.status == StatusOk <==> !x.1 && |r.sends| == |x.0|
                                            && forall k :: 0 <= k < |r.sends| ==> send(r.sends[k]).Delivered?)
  {
    if payload.None? || Entries(payload.value).None? {
      return MetaOutcome(st, bookings, [], [], [], StatusError);
    }
    var x := Extract(Entries(payload.value).value, repr);
    r := AnswerJobs(st, bookings, x.0, now, systemPrompt, respond, amountRepr, marks, draws, dbOk, send);
    if x.1 {
      r := r.(status := StatusError);
    }
  }

  // ---------------------------------------------------------------- properties

  /** Steps are taken in order: the jobs of a longer list extend those of its prefix unless the prefix raised. */
  lemma {:induction false} CollectAppend(a: seq<Step>, b: seq<Step>)
    ensures Collect(a + b) ==
              if Collect(a).1 then Collect(a) else (Collect(a).0 + Collect(b).0, Collect(b).1)
  {
    if |a| == 0 {
      assert a + b == b;
      assert [] + Collect(b).0 == Collect(b).0;
    } else {
      assert (a + b)[0] == a[0];
      assert (a + b)[1..] == a[1..] + b;
      CollectAppend(a[1..], b);
      match a[0]
      case Skip =>
      case Raise =>
      case Take(job) =>
        if !Collect(a[1..]).1 {
          assert [job] + (Collect(a[1..]).0 + Collect(b).0) == ([job] + Collect(a[1..]).0) + Collect(b).0;
        }
    }
  }

  /** The entries are read in order: the jobs of a longer payload extend those of its prefix until one raises. */
  lemma ExtractAppend(a: seq<Json>, b: seq<Json>, repr: Json -> string)
    ensures Extract(a + b, repr) ==
              if Extract(a, repr).1 then Extract(a, repr)
              else (Extract(a, repr).0 + Extract(b, repr).0, Extract(b, repr).1)
  {
    assert Steps(a + b, repr) == Steps(a, repr) + Steps(b, repr);
    CollectAppend(Steps(a, repr), Steps(b, repr));
  }

  /** A falsy entry or one the business number sent itself yields nothing, and the rest are read as before. */
  lemma IgnoredEntry(e: Json, rest: seq<Json>, repr: Json -> string)
    requires !Truthy(e) || (e.JObj? && "from_me" in e.fields && Truthy(e.fields["from_me"]))
    ensures Extract([e] + rest, repr) == Extract(rest, repr)
  {
    assert ReadEntry(e, repr) == Skip;
    assert Steps([e], repr) == [Skip];
    assert Collect([Skip]) == ([], false);
    ExtractAppend([e], rest, repr);
    assert [] + Extract(rest, repr).0 == Extract(rest, repr).0;
  }

  /** A number without "@" is untouched by the suffix removal. */
  lemma NoAtUntouched(x: string)
    requires '@' !in x
    ensures ReplaceAll(x, WhatsappSuffix, "") == x
  {
    forall i | 0 <= i <= |x| - |WhatsappSuffix| ensures !OccursAt(x, WhatsappSuffix, i) {
      assert x[i..i + |WhatsappSuffix|][0] == x[i] != '@';
    }
    ReplaceAbsent(x, WhatsappSuffix, "");
  }

  /** A WhatsApp address loses exactly its "@s.whatsapp.net" suffix. */
  lemma {:induction false} SuffixRemoved(n: string)
    requires '@' !in n
    ensures ReplaceAll(n + WhatsappSuffix, WhatsappSuffix, "") == n
    decreases |n|
  {
    var s := n + WhatsappSuffix;
    if |n| == 0 {
      assert s == WhatsappSuffix;
      assert s[|WhatsappSuffix|..] == [];
    } else {
      assert s[0] == n[0] != '@';
      assert s[..|WhatsappSuffix|][0] == n[0];
      assert s[1..] == n[1..] + WhatsappSuffix;
      SuffixRemoved(n[1..]);
      assert [n[0]] + n[1..] == n;
    }
  }

  /** An incoming text message with a non-empty text. */
  predicate IncomingText(m: map<string, Json>, text: string) {
    && ("from_me" !in m || !Truthy(m["from_me"]))
    && ("type" !in m || m["type"] == JStr("text"))
    && "text" in m && m["text"].JObj? && "body" in m["text"].fields && m["text"].fields["body"] == JStr(text)
    && Strip(text) != []
  }

  /**
   * A text message whose sender is given as "<number>@s.whatsapp.net" is answered at
   * "+<number>" with its stripped text.
   */
  lemma SenderAddressCleaned(m: map<string, Json>, text: string, number: string, repr: Json -> string)
    requires IncomingText(m, text)
    requires "chat_id" !in m
    requires "from" in m && m["from"] == JStr(number + WhatsappSuffix) && '@' !in number
    ensures ReadEntry(JObj(m), repr) == Take(Job(Get(m, "id", JStr("")), "+" + number, Strip(text)))
  {
    assert "text" in m;
    assert ChatSender(Get(m, "chat_id", JStr(""))) == Some("");
    assert BodyOf(m, repr) == Some(Strip(text));
    var id := Get(m, "id", JStr(""));
    assert ReadMessage(m, repr) == Reply(id, JStr(number + WhatsappSuffix), Strip(text));
    SuffixRemoved(number);
    assert Reply(id, JStr(number + WhatsappSuffix), Strip(text)) == Take(Job(id, "+" + number, Strip(text)));
    assert Truthy(JObj(m)) && !Truthy(Get(m, "from_me", JBool(false)));
  }

  /** Without "from", the sender is the chat id up to its "@", and that is the number answered. */
  lemma SenderFromChatId(m: map<string, Json>, text: string, chat: string, repr: Json -> string)
    requires IncomingText(m, text)
    requires "from" !in m && "chat_id" in m && m["chat_id"] == JStr(chat) && '@' in chat
    requires SplitOn(chat, '@')[0] != []
    ensures ReadEntry(JObj(m), repr) == Take(Job(Get(m, "id", JStr("")), "+" + SplitOn(chat, '@')[0], Strip(text)))
  {
    var n := SplitOn(chat, '@')[0];
    assert "text" in m;
    assert ChatSender(Get(m, "chat_id", JStr(""))) == Some(n);
    assert BodyOf(m, repr) == Some(Strip(text));
    var id := Get(m, "id", JStr(""));
    assert ReadMessage(m, repr) == Reply(id, JStr(n), Strip(text));
    NoAtUntouched(n);
    assert Reply(id, JStr(n), Strip(text)) == Take(Job(id, "+" + n, Strip(text)));
    assert Truthy(JObj(m)) && !Truthy(Get(m, "from_me", JBool(false)));
  }

  /**
   * The default of `msg.get("from", ...)` is computed even when "from" is present, so a message
   * with a sender but a null chat id raises and ends the request.
   */
  lemma NullChatIdRaises(m: map<string, Json>, text: string, sender: string, repr: Json -> string)
    requires IncomingText(m, text)
    requires "from" in m && m["from"] == JStr(sender) && "chat_id" in m && m["chat_id"] == JNull
    ensures ReadEntry(JObj(m), repr) == Raise
  {
    assert "from" in JObj(m).fields;
  }

  /** A message of another kind is answered with a placeholder naming the kind, whatever else it holds. */
  lemma OtherKindPlaceholder(m: map<string, Json>, kind: string, repr: Json -> string)
    requires "type" in m && m["type"] == JStr(kind) && kind != "text"
    ensures BodyOf(m, repr) == Some("[" + kind + " message received]")
  {
  }
}
